=== FILE: README.md ===
# Sucata Fácil — a Dafny model of the point-of-sale and finance core

Sucata Fácil is a multi-tenant web application for scrap-metal yards. It runs
a point of sale (purchases and sales of materials by weight) and a cash
register with opening, supply, withdrawal and closing. It also covers
receivables and payables, stock, users and their permissions, and a manager
approval flow: a restricted action files a request, and an administrator
approves or denies it. A master console manages the companies and their plans.

This project models that core as pure functions over immutable data and
proves what the pages and services promise:

- **Local database** (`services/dbService.ts`): the snake_case/camelCase
  alias normalisation, tenant scoping, insert/update/delete and their
  invariants.
- **Approval service** (`services/authorizationService.ts`) and the
  request modal: the request, approve and deny life cycle and the label
  format that carries each request's payload.
- **Permissions** (`utils/permissions.ts`): the role rules and the menu
  filtering of `components/Layout.tsx`.
- **Point of sale** (`pages/POS.tsx`): the cart, the checkout, record
  cancellation, the expected-cash calculation of the closing, and the
  actions taken when approvals come back.
- **Finance pages** (`pages/FinanceHub.tsx`, `pages/Finance.tsx`,
  `components/FinanceTableLayout.tsx`): status badges, filters, metrics,
  settlement and the edit-by-delta flow for payment terms and categories.
- **Other pages**: Reports, Users, Inventory, Dashboard and SaasAdmin
  (statistics, search and plan modules).
- **Registration validators** of `pages/Login.tsx` (CPF, CNPJ, phone).
- **Bracket checker** `check_braces.py`.

Money is kept as whole cents or as an exact decimal `Dec(units, places)`;
pt-BR text (`1.234,56`) is written and read back exactly. Identifiers,
timestamps and random codes are parameters. Shared helpers live in
`wrappers.dfy` (Option/Result), `seqs.dfy` (filter, sum, count,
subsequence), `strings.dfy` (JavaScript string operations on ASCII) and
`money.dfy`. Each page or service has its own module.

## Model

| member | source | states |
|---|---|---|
| BraceChecker.Step | check_braces.py:11-20 | reading one character: an opener is pushed with its position; a closer on an empty stack is reported as extra; otherwise the top is popped, and a mismatch is reported when the top's partner is not the closer; any other character changes nothing |
| BraceChecker.Report | check_braces.py:22-26 | an empty final stack adds the single balanced line; otherwise one Unclosed line per entry left, bottom of the stack first, after the scan's own lines |
| BraceChecker.CheckBraces | check_braces.py:4-26 | the nested loops over lines and columns compute exactly the functional model of the script |
| BraceChecker.LinesAgreeWithWalk | check_braces.py:10-11 | splitting on newlines and numbering lines and columns from 1 gives the same result as a walk over the text character by character, where a newline starts the next line at column 1 |
| BraceChecker.CheckFaithful | check_braces.py:13-20 | every diagnostic names a bracket that really stands at the printed line and column (for a mismatch, the closer) |
| BraceChecker.UnclosedInTextOrder | check_braces.py:22-24 | the Unclosed lines come out in reading order of their openers |
| BraceChecker.BalancedIffEmpty | check_braces.py:22-26 | the balanced line is printed exactly when no opener is left, and then it is the last line; otherwise every trailing line is an Unclosed report |
| BraceChecker.CheckBalancedIffNested | check_braces.py:8-26 | the script prints only the balanced line exactly when the file's brackets, read alone, are correctly nested: empty, or an opener, a nested run, its partner and a nested rest |
| BraceChecker.NestedReduces | check_braces.py:12-20 | a correctly nested run of brackets never fails the pairing and leaves the open brackets as it found them |
| BraceChecker.ReducesNested | check_braces.py:12-20 | a run of brackets that closes everything it opens, without a mismatch or an extra closer, is correctly nested |
| BraceChecker.WalkReduce | check_braces.py:10-20 | from a clean state the scan prints nothing exactly when the pairing of openers and closers never fails, and then it leaves the same openers open |
| BraceChecker.ReduceDelims | check_braces.py:12-14 | characters other than brackets do not affect the pairing |
| BraceChecker.StepDepth | check_braces.py:12-18 | the stack grows by one for each opener and shrinks by one for each closer that finds an opener |
| BraceChecker.ExampleExtra | check_braces.py:15-16 | a lone `)` is reported as extra at line 1, col 1, and the balanced line still follows |
| BraceChecker.ExampleMismatch | check_braces.py:18-20 | `(]` reports the mismatch at the closer and pops the opener, so the balanced line follows |
| BraceChecker.ExampleClosedNextLine | check_braces.py:10-13 | an opener closed on the next line is balanced |
| BraceChecker.ExampleUnclosed | check_braces.py:22-24 | `x(` reports the opener as unclosed at line 1, col 2 |
| BraceChecker.RenderExample | check_braces.py:20 | the mismatch line reads `Mismatched ( and ] at line 1, col 12` |
| Documents.CpfCheck | pages/Login.tsx:70-71 | the check digit `11 - sum % 11`, with 10 and 11 read as 0, is always a digit |
| Documents.CpfCheckIsStandard | pages/Login.tsx:66-80 | the page's check digit equals the textbook CPF rule `(10 * sum mod 11) mod 10` |
| Documents.CpfOnlyDigits | pages/Login.tsx:63 | `validateCPF` depends only on the digits of its input, so punctuation is ignored |
| Documents.CpfIff | pages/Login.tsx:62-83 | a CPF is accepted exactly when it has eleven digits, not all the same, and both check digits follow the weighted-sum rule |
| Documents.CpfRepeatedRejected | pages/Login.tsx:65 | `11111111111` is refused by the repeated-digit test, although its check digits fit the rule |
| Documents.CnpjLoopDigits | pages/Login.tsx:97-100 | on digits, the CNPJ loop with its wrapping weight computes the weighted sum over the weights 5..2, 9..2 |
| Documents.CnpjLoopNonDigit | pages/Login.tsx:97-100 | a non-digit among the characters the loop reads makes the sum NaN, so no check digit can match |
| Documents.WeightTables | pages/Login.tsx:95-100 | the weight sequences the two loops use are the textbook CNPJ weight tables |
| Documents.CnpjDigitsStandard | pages/Login.tsx:87-119 | on input made only of digits, `validateCNPJ` is the textbook CNPJ rule |
| Documents.CnpjRawNonDigit | pages/Login.tsx:106-110 | the second loop reads the raw input, so any non-digit among its first 13 characters rejects the CNPJ |
| Documents.CnpjExampleStandard | pages/Login.tsx:87-119 | 11222333000181 satisfies the textbook rule |
| Documents.CnpjExampleDigits | pages/Login.tsx:87-119 | typed as bare digits, 11222333000181 is accepted |
| Documents.CnpjExampleFormatted | pages/Login.tsx:106-113 | typed with its usual punctuation, `11.222.333/0001-81`, the same number is rejected |
| Documents.PhoneIgnoresPunctuation | pages/Login.tsx:123-126 | a character that is not a digit, inserted anywhere in a phone number, never changes the verdict |
| Documents.PhoneCleanedAlike | pages/Login.tsx:123-126 | validating the digits alone gives the same verdict as validating the number as typed |
| Documents.PhoneFormatted | pages/Login.tsx:123-126 | a number written `(AA) NNNNN-NNNN` is accepted exactly when area code and number together have 10 or 11 digits, and one written `NNNNN-NNNN` exactly when its parts have 10 or 11 |
| Documents.PhoneExampleFormatted | pages/Login.tsx:123-126 | `(11) 98765-4321` is accepted and `98765-4321`, without its area code, is refused |
| Documents.CheckRegistration | pages/Login.tsx:203-225 | registration accepts a CPF exactly at 11 digits that pass `validateCPF`, a CNPJ exactly at 14 digits that pass `validateCNPJ`, refuses any other digit count, and refuses a phone `validatePhone` rejects |
| FinanceStatus.GetStatusInfo | components/FinanceTableLayout.tsx:5-16 | the badge is CANCELADO exactly for a reversed record (by status or either flag), else LIQUIDADO exactly when paid (by status or a liquidation date), else PENDENTE without a due date, ATRASADO when the due date is before today and ABERTO otherwise; only CANCELADO is struck through |
| FinanceStatus.DueTodayIsOpen | components/FinanceTableLayout.tsx:14-15 | a record due today is still ABERTO, not ATRASADO |
| FinanceStatus.StatusAsDaysPass | components/FinanceTableLayout.tsx:11-15 | as the day advances an ATRASADO record stays ATRASADO, an ABERTO one can only turn ATRASADO, and every other badge does not change |
| FinanceStatus.ButtonsThroughLifecycle | components/FinanceTableLayout.tsx:78-111 | a pending record offers Baixar exactly with an open session and no reverse; once paid it offers reverse exactly where the page handles it and no Baixar; once reversed it offers neither; edit/delete stay the same through all three |
| FinanceStatus.ReverseExcludesBaixar | components/FinanceTableLayout.tsx:96-111 | Reverse and Baixar are never both offered, and an enabled Baixar never sits on a record cancelled by status |
| FinanceStatus.BaixarIgnoresReversedFlag | components/FinanceTableLayout.tsx:5-106 | a pending record cancelled only by its `is_reversed` flag shows CANCELADO yet still offers an enabled Baixar |
| ExpectedValue.CalculateExpectedValue | services/dbService.ts:476-514 | the `forEach` accumulation over the session's records computes the expected amount of a closing item as a sum of per-record contributions |
| ExpectedValue.IgnoredRecordsNeverCount | services/dbService.ts:478-502 | a session-opening record, a reversed record, or a record of another session changes no closing item |
| ExpectedValue.CashTotal | services/dbService.ts:483-496 | physical cash is the opening balance, plus the paid cash entries, minus every cash exit, paid or not |
| ExpectedValue.ChequeTotal | services/dbService.ts:498-513 | the cheque item sums exactly the counted cheque records of the requested flow, whatever their category or term id |
| FinanceHub.KeyRoundTrip | pages/FinanceHub.tsx:61-64 | splitting an item id on `_` gives back its name and natureza whenever neither the prefix nor the natureza contains `_`, even when the name itself does |
| FinanceHub.NatureTextHasNoUnderscore | pages/FinanceHub.tsx:63 | no natureza text (ENTRADA, SAIDA, or `undefined`) contains `_`, so the last part of a key is always the whole natureza |
| FinanceHub.CategoryItemValue | pages/FinanceHub.tsx:54-69 | the system value of a category item is the total of the session's non-reversed records of that category and natureza |
| FinanceHub.TermItemValue | pages/FinanceHub.tsx:54-85 | the system value of a payment-term item is the total of the session's non-reversed records whose term, looked up by id or uuid, has that name, with that natureza |
| FinanceHub.UndefinedNatureItemIsZero | pages/FinanceHub.tsx:63-68 | an item built from records without natureza is keyed `undefined`, which matches no record, so its system value is 0 |
| FinanceHub.ReversedNeverCounts | pages/FinanceHub.tsx:54 | adding a reversed record anywhere in the list changes no item's system value |
| FinanceHub.CategoryItemsAt | pages/FinanceHub.tsx:398-406 | the items built from the category map are, position by position, the item of each distinct key |
| FinanceHub.TermItemsAt | pages/FinanceHub.tsx:409-417 | the same for the payment-term map |
| FinanceHub.CatKeyInjective | pages/FinanceHub.tsx:364 | two records with the same category key share category and natureza, so a map entry never mixes natures |
| FinanceHub.TermKeyNature | pages/FinanceHub.tsx:388 | two records with the same term key share term name and natureza |
| FinanceHub.NatureTextInjective | pages/FinanceHub.tsx:364 | distinct naturezas have distinct texts |
| FinanceHub.CategoryItemOf | pages/FinanceHub.tsx:364-406 | the item of a record's category key carries that record's natureza and group and the text recovered from its key |
| FinanceHub.TermItemOf | pages/FinanceHub.tsx:388-417 | the same for a record's payment-term key |
| FinanceHub.AuditItems | pages/FinanceHub.tsx:342-420 | without a session there are no items; with one, the two physical items come first |
| FinanceHub.CategoryItemIds | pages/FinanceHub.tsx:353-371 | the category item ids are exactly the keys of the shift's records outside the two excluded categories, each listed once |
| FinanceHub.NoCashTermItems | pages/FinanceHub.tsx:376-395 | every term item id comes from a shift record with a known term that is not cash on delivery, each listed once |
| FinanceHub.ItemTextRecoversName | pages/FinanceHub.tsx:399-403 | the item text is the upper-cased category whenever the category does not itself contain `_` followed by the natureza |
| FinanceHub.FilteredItems | pages/FinanceHub.tsx:278-294 | the liquidation list keeps, in order, exactly the records that are ABERTO or ATRASADO, dated in range, matching the search on description or partner name, and of the chosen natureza |
| FinanceHub.BaixasMetricsAsWritten | pages/FinanceHub.tsx:296-309 | as written, `abertoOut` is always 0 while the other three fields still share out the whole open and overdue total |
| FinanceHub.OpenExitMisfiled | pages/FinanceHub.tsx:300-302 | a single open exit lands in `atrasadoOut` as written, and in `abertoOut` once corrected |
| FinanceHub.AsWrittenMergesOpenExits | pages/FinanceHub.tsx:296-309 | the metrics as written are the corrected ones with the open exits folded into `atrasadoOut` |
| FinanceHub.BaixasMetricsBuckets | pages/FinanceHub.tsx:296-309 | the corrected metrics hold in each field the total of exactly its own status and direction |
| FinanceHub.PickSum | pages/FinanceHub.tsx:298-307 | the corrected accumulation of any one field equals the total of its bucket |
| FinanceHub.MetricsCoverList | pages/FinanceHub.tsx:278-309 | over the liquidation list, the metrics add up to the total of the listed amounts |
| FinanceHub.PushChained | pages/FinanceHub.tsx:429-442 | a row whose balance is the newest balance plus its entry minus its exit keeps the wallet's balance chain |
| FinanceHub.WalletManualEntry | pages/FinanceHub.tsx:422-452 | a non-positive amount and then a missing payment term are refused; otherwise the row is an entry or an exit of the amount by `tipo`, and its balance continues the newest one |
| FinanceHub.WalletEntryKeepsChain | pages/FinanceHub.tsx:429-442 | writing a manual entry keeps the wallet's balance chain |
| FinanceHub.ProcessReconciliation | pages/FinanceHub.tsx:479-566 | without a session or destination bank nothing is written; otherwise one deposit per positive amount, or a single zero row when both are zero, all to the chosen bank under the reconciliation category, and the recorded balance is the audited total |
| FinanceHub.ReconciliationKeepsChain | pages/FinanceHub.tsx:490-566 | the reconciliation rows keep the balance chain and raise the balance by exactly the positive audited amounts |
| Money.FormatFixedRoundTrip | utils/currencyHelper.ts:8-19 | text written with pt-BR thousands dots, a decimal comma and a fixed number of decimals reads back, once the dots are dropped, the comma turned into a point and `parseFloat` applied, as exactly the number written |
| Money.Cents | utils/currencyHelper.ts:15-18 | a reading with at most two decimals keeps its value at two decimals; one with more is rounded to hundredths, halves away from zero |
| Money.RoundTo | utils/currencyHelper.ts:15-18 | the rounded value of a non-negative amount is the nearest multiple, with halves going up |
| Money.FormatFixedText | utils/currencyHelper.ts:15-18 | the formatted text uses only digits, dots, one comma and a leading minus |
| Money.UngroupDigits | utils/currencyHelper.ts:15-18 | dropping the dots from a grouped digit string gives back the digits |
| Money.UngroupFormat | pages/Inventory.tsx:100 | dropping every dot from a formatted number leaves its sign, whole digits, comma and decimals |
| Money.CommaToPointAt | pages/Inventory.tsx:100 | `replace(',', '.')` turns only the first comma into a point |
| Money.ParseUnsigned | pages/Inventory.tsx:100 | `parseFloat` of unsigned text reads a number exactly when the text starts with a digit, or with a point followed by a digit, and that number is not negative |
| Money.ParseDecimalPlain | pages/Inventory.tsx:100 | `parseFloat` reads digits, a point and digits as exactly that decimal number |
| Money.ParseDecimalMinus | pages/Inventory.tsx:100 | with a leading minus, the negated decimal number |
| Store.CompanyIdOf | services/dbService.ts:153 | a company id is found exactly when one of `company_id`, `companyId`, `id_companies` is truthy; a truthy `company_id` wins, then `companyId`, then `id_companies` |
| Store.AliasCompany | services/dbService.ts:153-159 | with a truthy company id, all three spellings hold its trimmed text; every other key keeps its value, and without one nothing changes |
| Store.AliasPlan | services/dbService.ts:161-164 | a truthy plan or expiry under one spelling ends truthy under both; a pair already equally truthy is left as it was; no other key changes and none is lost |
| Store.FillAliases | services/dbService.ts:166-172 | the nomenclature loop never removes or changes a defined key, adds only names from the pairs, and leaves every pair with either spelling defined defined under both |
| Store.NomenclaturePairs | services/dbService.ts:59-128 | the loop's pairs, in insertion order |
| Store.ApplyRedundancyCompany | services/dbService.ts:149-175 | after normalising, a truthy company id is held, trimmed, under all three spellings |
| Store.ApplyRedundancyPlan | services/dbService.ts:149-175 | after normalising, a truthy plan or expiry under one spelling is truthy under both |
| Store.ApplyRedundancyKeeps | services/dbService.ts:149-175 | normalising loses no key and changes no key outside the company, plan and expiry groups |
| Store.ApplyRedundancyPairs | services/dbService.ts:149-175 | after normalising, every nomenclature pair with one spelling defined has both |
| Store.ApplyRedundancyUnnamed | services/dbService.ts:149-175 | a key named by no nomenclature pair, and neither a company nor a plan spelling, is kept or left absent exactly as the object had it |
| Store.ApplyRedundancyPair | services/dbService.ts:166-172 | a pair named by no other entry ends with the object's own values, the missing spelling copied from the present one, and is present exactly when either spelling was |
| Store.NormalizedCompanyShape | services/dbService.ts:149-175 | unless `id_companies` is given falsy on its own, a normalised object holds its company under no spelling, falsy under all three, or as one trimmed text under all three |
| Store.NormalizedPlanShape | services/dbService.ts:149-175 | a normalised object holds each plan and expiry pair under both spellings or neither, equally truthy |
| Store.QueryTenant | services/dbService.ts:305-319 | a blank, `null` or `undefined` company id keeps every normalised row the filter accepts; any other keeps, in order, exactly the accepted rows whose trimmed company id equals it |
| Store.CloudId | services/dbService.ts:206-207 | an id column becomes null exactly for an empty text, the text `null` or null, and its text otherwise |
| Store.ParseNum | services/dbService.ts:195-200 | a numeric column always receives a number: a number as it is, 0 for null |
| Store.PickColumns | services/dbService.ts:183-190 | exactly the listed columns the object defines are copied, converted or not |
| Store.PrepareForCloud | services/dbService.ts:177-217 | nothing outside the table's column list reaches the cloud |
| Store.PrepareUsersIsWhitelist | services/dbService.ts:182-190 | for users and profiles, exactly the listed columns the object defines pass, unchanged and not normalised |
| Store.PrepareOtherColumns | services/dbService.ts:192-214 | for other tables, the normalised object's listed columns pass, id columns as text or null, numeric columns as numbers, the rest unchanged |
| Store.PrepareSendsTrimmedCompany | services/dbService.ts:153-207 | an object with a truthy company id reaches the cloud carrying the trimmed id |
| Store.UpdateRecord | services/dbService.ts:396-400 | a missing id is an error naming it; otherwise only the first record with that id is replaced, by the merge applied to it, and the length is kept |
| Store.UpdateCarriesFields | services/dbService.ts:398-399 | every field of the normalised update but `updated_at` reaches the stored record unchanged, unless the update gives a falsy `id_companies` on its own |
| Store.UpdateRestoresClearedCompany | services/dbService.ts:398-399 | an update clearing `id_companies` on its own normalises to an empty id, yet the stored record gets the old `companyId` back under `id_companies` |
| Store.Delete | services/dbService.ts:423-428 | deleting keeps, in order, exactly the records with another id |
| Permissions.ParseProfile | types.ts:7-14 | a text names a profile exactly when it is that profile's value, and otherwise names none |
| Permissions.ParseProfileName | types.ts:7-14 | each profile's value reads back as that profile |
| Permissions.AllPermissions | types.ts:16-78 | the values of `PermissionModule` are its 41 members in declaration order |
| Permissions.OrdFromOrd | types.ts:16-78 | the declaration position of the member declared at a position is that position |
| Permissions.FromOrdOrd | types.ts:16-78 | every member is declared at exactly one of the 41 positions |
| Permissions.MasterHasAll | utils/permissions.ts:83 | MASTER holds every permission module, each once |
| Permissions.EveryProfileHasDashboard | utils/permissions.ts:4-83 | every profile's default list opens the dashboard |
| Permissions.ProfileListsDuplicateFree | utils/permissions.ts:4-83 | no profile's default list repeats a module |
| Permissions.SalesAndPurchasesSeparated | utils/permissions.ts:5-20 | a seller may view and create sales and holds no purchase permission; a buyer the other way round |
| Permissions.ManagerOnlyPowers | utils/permissions.ts:4-82 | below MASTER, exactly GERENTE may edit or remove team members and close the cashier, and no such profile holds a SaaS permission |
| Authorization.FriendlyCode | services/authorizationService.ts:8-10 | a friendly code is the prefix, a dash and at most five upper-case base-36 characters, at least one whenever the random text has digits |
| Authorization.LogAction | services/dbService.ts:453-455 | logging appends exactly one entry carrying the action, details and user, under the given company, or the session's when none is given, trimmed as the insert stores it |
| Authorization.RequestAuthorization | services/authorizationService.ts:21-53 | a request appends one PENDING row with the action key and label, an empty payload, the requester, the requester's company (else the session's) trimmed as the insert stores it, and a `REQ-` protocol code, and logs AUTH_REQUEST_CREATED with the protocol and the upper-cased label |
| Authorization.GetPendingAuthorizations | services/authorizationService.ts:58-64 | the listing keeps, in order, exactly the tenant's requests that are PENDING, APPROVED or DENIED, so never a PROCESSED one |
| Authorization.UpdateRequest | services/dbService.ts:396-400 | an unknown id is an error; otherwise only the first row with that id is rewritten |
| Authorization.ApproveAuthorization | services/authorizationService.ts:69-94 | an unknown id is an error; otherwise only the first row with that id becomes APPROVED with an `APR-` code and the approver's answer, keeping id, key, label, requester and protocol, and AUTH_REQUEST_APPROVED is logged with the line naming that code, the request's protocol and the approver in capitals |
| Authorization.DenyAuthorization | services/authorizationService.ts:99-122 | likewise DENIED with the denier's answer and no new approval code, and AUTH_REQUEST_DENIED is logged |
| Authorization.MarkProcessed | pages/Inventory.tsx:90 | marking an approved request sets only its first row to PROCESSED |
| Authorization.CheckRequestStatus | services/authorizationService.ts:127-130 | the status check returns a stored row with the id, and nothing exactly when no row has it |
| Authorization.RequestThenCheck | services/authorizationService.ts:21-130 | a request with a fresh id is then found by the status check, PENDING |
| Authorization.ApproveThenCheck | services/authorizationService.ts:69-130 | after approval the status check reports the request APPROVED |
| Authorization.ApprovedToProcess | pages/POS.tsx:449-453 | the requests a polling page acts on are exactly the current user's APPROVED ones it has not yet handled |
| Authorization.ProcessedNotListed | services/authorizationService.ts:58-64 | once a request is marked processed, and ids are unique, no listing shows it again |
| ActionLabels.Field | pages/POS.tsx:464 | reading a field yields something exactly when the key occurs in the label, and what it yields is trimmed |
| ActionLabels.Tail | pages/Inventory.tsx:93 | reading the rest after a key yields something exactly when the key occurs |
| ActionLabels.TrimmedId | pages/POS.tsx:464 | trimming leaves a generated id as it is |
| ActionLabels.FieldAt | pages/POS.tsx:464 | a field written as key and value, followed by ` \| …` or nothing, reads back as the trimmed value whenever the key occurs once |
| ActionLabels.AfterOnce | pages/POS.tsx:464 | splitting on a key that occurs once yields exactly what the writer put after it |
| ActionLabels.RealIdOf | pages/POS.tsx:1438 | `REAL_ID: ` and a generated id, followed by nothing or by ` \| …`, reads back as that id |
| ActionLabels.JsonOf | pages/POS.tsx:497 | the text after `JSON: ` reads back trimmed when nothing before it contains a `J` and the payload has no `JSON: ` |
| ActionLabels.RealIdJsonRoundTrip | pages/POS.tsx:496-1417 | both halves of an edit-request label read back: the id exactly, the payload trimmed |
| ActionLabels.HeadedRealIdJson | pages/Finance.tsx:105-153 | after any narrative head, a label ending in `REAL_ID: <id> \| JSON: <payload>` reads back id and payload whenever each key occurs once |
| ActionLabels.HeadedRealId | pages/Finance.tsx:97-245 | after any narrative head, a label ending in `REAL_ID: <id>` reads back the id whenever the key occurs once |
| ActionLabels.IdHasNoFieldEnd | pages/POS.tsx:464 | a generated id never contains the field separator ` \|` |
| Pos.AddToCart | pages/POS.tsx:843 | without an open session the cart is unchanged; otherwise exactly one line of quantity 1 is appended for the material, in its unit, priced at its buying price on a purchase and its selling price on a sale |
| Pos.AddToCartTotal | pages/POS.tsx:843 | adding a material raises the cart total by exactly its system price |
| Pos.MaterialIndex | pages/POS.tsx:812-813 | the lookup finds the first material with the id, or reports that none has it |
| Pos.SetStock | pages/POS.tsx:815 | writing a stock changes only the first material with the id, and only its stock |
| Pos.ApplyMovesAt | pages/POS.tsx:811-817 | applying stock moves one after another changes each material's stock by the net of its moves and nothing else |
| Pos.MovesUndo | pages/POS.tsx:385-391 | moves whose nets cancel those of earlier moves restore every material exactly |
| Pos.NetNegated | pages/POS.tsx:388 | flipping every move's sign negates each material's net change |
| Pos.CartMoves | pages/POS.tsx:811-817 | each cart line moves its material's stock up by the quantity on a purchase and down on a sale |
| Pos.TxItems | pages/POS.tsx:796-804 | the transaction's items are the cart lines, one each, with material, quantity, applied price, line total and unit |
| Pos.CancelMoves | pages/POS.tsx:383-391 | cancelling moves each item's stock down for a SAIDA transaction and up otherwise |
| Pos.CancelMovesUndoCheckout | pages/POS.tsx:383-817 | the moves a cancellation makes are exactly the checkout's moves negated |
| Pos.DuplicateLinesLoseStock | pages/POS.tsx:811-817 | with two lines of the same material, the checkout as written raises a stock of 10 only to 11 where the cart asks for 12, and cancelling the sale afterwards leaves 9 |
| Pos.AsWrittenAgreesWhenDistinct | pages/POS.tsx:811-817 | when no material is on two lines, the writes as written are exactly the cart's moves |
| Pos.PartnerRefusal | pages/POS.tsx:790-794 | the first partner with that id decides: a purchase from a customer is refused as "customer cannot supply", a sale to a supplier as "supplier cannot buy", anything else (a partner of both types, an unknown id) is not refused |
| Pos.CheckoutTxValue | pages/POS.tsx:785-805 | the transaction's value is the sum of its items' totals |
| Pos.HandleCheckout | pages/POS.tsx:780-841 | the checkout does nothing exactly while submitting, without session, user, partner or cart lines; an edited sale with a transaction becomes an edit request; a wrong partner type is refused; otherwise exactly one transaction and one pending record are appended, and the stock is the cart's moves applied one after another, which equals the page's snapshot writes (`Pos.CheckoutStockAsWritten`) whenever no material is on two lines |
| Pos.CheckoutRecordLocked | pages/POS.tsx:824-838 | the record a checkout books never offers edit or delete; while open it offers Baixar exactly with an open session and no reverse; once cancelled it offers nothing |
| Pos.PartnerGuard | pages/POS.tsx:790-794 | for the first partner carrying the id, a purchase from a customer and a sale to a supplier are refused with their messages, and a partner of both types is served |
| Pos.ExecuteRecordCancel | pages/POS.tsx:379-399 | an unknown id changes nothing; otherwise only that record is marked reversed under both flag spellings with its dates cleared, and stock and transactions change only when the record still has a live transaction |
| Pos.CancelledReadsCancelado | pages/POS.tsx:379-399 | a cancelled record reads CANCELADO, struck through, on every day |
| Pos.CancelIdempotent | pages/POS.tsx:382-397 | cancelling twice is cancelling once |
| Pos.CheckoutThenCancel | pages/POS.tsx:379-841 | cancelling a completed checkout by its record restores every material's stock, repeated materials included, and leaves the transaction cancelled and the record reversed under both flag spellings |
| Pos.ExecuteTransactionVoid | pages/POS.tsx:369-377 | voiding never touches stock; an unknown record changes nothing; a transaction id that matches no transaction aborts the void; otherwise only the record goes back to pending with no dates, no term and both reversed flags cleared |
| Pos.VoidedReadsPendente | pages/POS.tsx:373 | a voided record reads PENDENTE again, whatever it read before |
| Pos.ReversedFlagStored | services/dbService.ts:392-399 | an update that writes `is_reversed` alone is stored with the same value under `isReversed` too |
| Pos.CancelStoresBothFlags | pages/POS.tsx:396 | the cancellation's update stores both reversed flags set, whatever the record held |
| Pos.VoidStoresBothFlags | pages/POS.tsx:374 | the void's update stores both reversed flags cleared, whatever the record held |
| Pos.HistoryRecords | pages/POS.tsx:330-347 | the history holds exactly the records booked on the session or by its operator no earlier than the opening time |
| Pos.HandleTryClose | pages/POS.tsx:726-731 | without a session nothing happens; a close request is opened exactly when no history record is PENDENTE, and otherwise the count of PENDENTE records is reported |
| Pos.CheckoutBlocksClose | pages/POS.tsx:726-841 | right after any completed checkout the shift cannot be closed |
| PosClosing.ClosingItems | pages/POS.tsx:228-307 | without a session the closing count has no items; with one, the two physical items come first |
| PosClosing.ClosingCategoryItem | pages/POS.tsx:244-294 | every category item stands for a session record with a category and a natureza outside the excluded categories, carries its key, text and group, and its text is the upper-cased category unless the category contains `_` and the natureza |
| PosClosing.ClosingCategoryCovered | pages/POS.tsx:244-294 | every such session record has its category item in the closing count |
| PosClosing.ClosingTermItem | pages/POS.tsx:260-304 | every payment-term item stands for a session record with a natureza whose term is known and is neither cash term, and carries that record's key, text and group |
| PosClosing.TermRecordOrigin | pages/POS.tsx:236-276 | a record counted for its payment term is a record of the session |
| PosClosing.OwnCloseRequestMissed | pages/POS.tsx:219-226 | for session `abcde`, the session's own pending close request, labelled as the request modal labels it, is not recognised as written |
| PosClosing.OwnCloseRequestDetected | pages/POS.tsx:219-226 | compared case-blind, the session's own pending close request is always recognised, whatever the session id |
| PosClosing.AnsweredCloseNotPending | pages/POS.tsx:219-226 | with no pending request, neither version reports a close pending |
| PosApprovals.Dispatch | pages/POS.tsx:463-520 | a void or cancel acts only on a non-empty id read from `REAL_ID`; FECHAR_CAIXA exactly opens the closing count; LANCAMENTO_MANUAL exactly makes a manual entry, approved by the responder, whose kind is read from the label's leading `TIPO:` field; an edit acts only with both a non-empty id and a non-empty JSON payload; an opening adjustment only with a non-empty id and new value |
| PosApprovals.KindReadings | pages/POS.tsx:480 | the leading-field reading of a manual entry's kind implies the page's reading anywhere in the text, and the two differ only when the entry tag occurs after the start |
| PosApprovals.RecordRequestRoundTrip | pages/POS.tsx:463-470 | a void or cancel request filed as `REAL_ID: <generated id>` acts on exactly that id |
| PosApprovals.RecordRequestWithoutId | pages/POS.tsx:463-470 | a void or cancel request whose text carries no `REAL_ID: ` does nothing |
| PosApprovals.EditRequestRoundTrip | pages/POS.tsx:495-520 | an edit request of a record or of a POS operation, filed for a generated id with a payload, reads back the id exactly and the payload trimmed |
| PosApprovals.OpeningRequestRoundTrip | pages/POS.tsx:503-511 | an opening adjustment filed for a generated id reads back that id and the trimmed new value |
| PosApprovals.DescriptionFlipsKind | pages/POS.tsx:480 | an exit whose description reads `tipo: entrada` is carried out as an entry as written, while its leading field still says exit |
| PosApprovals.ManualKindRoundTrip | pages/POS.tsx:478-481 | reading the kind from the leading `TIPO:` field, an entry request reads back as an entry and an exit request as an exit |
| PosApprovals.ManualRequestRoundTrip | pages/POS.tsx:478-492 | a manual request reads back its kind and, trimmed, its value, category, description and term whenever each key occurs once and no field contains ` \|` |
| PosApprovals.ProcessRound | pages/POS.tsx:449-461 | a polling round acts once per approved, unprocessed request of the current user, and remembers as processed only such requests' ids |
| PosApprovals.RoundActsOnOwnApprovals | pages/POS.tsx:449-461 | each action of a round is the dispatch of one approved, unprocessed request of the user |
| PosApprovals.SecondRoundIdle | pages/POS.tsx:449-461 | the next poll over the same list acts on nothing |
| RequestModal.ExistingRequest | components/RequestAuthorizationModal.tsx:17-20 | the request found is a pending one in the list for the same action key and label, and none is found exactly when no such request is listed |
| RequestModal.HandleRequest | components/RequestAuthorizationModal.tsx:63-73 | without a signed-in user, or when the same action is already pending, nothing is filed; otherwise exactly one pending request for the action key and label is appended and the earlier ones are kept |
| RequestModal.SecondRequestSuppressed | components/RequestAuthorizationModal.tsx:17-73 | once a filed request appears in the refreshed pending list, asking again for the same action files nothing |
| RequestModal.CollectLastWins | components/RequestAuthorizationModal.tsx:28-33 | when a key occurs in several segments of a label, the last segment's value is the one kept |
| RequestModal.CollectKeys | components/RequestAuthorizationModal.tsx:28-33 | every key read from a label is the key of one of its segments |
| RequestModal.SegmentOf | components/RequestAuthorizationModal.tsx:31-32 | a `key: value` segment whose key is non-empty and free of `: ` reads back as that key and value |
| RequestModal.ParseLabelRoundTrip | components/RequestAuthorizationModal.tsx:28-33 | a label written as `K1: v1 \| … \| Kn: vn` with distinct plain keys reads back as exactly those pairs, no key more |
| RequestModal.Explain | components/RequestAuthorizationModal.tsx:24-59 | an empty label gives the not-informed text and only it does; otherwise the user falls back to the default operator name and the value is VAL, else VALOR, else zero reais; a label without OP that carries `ID: ` reads as a restricted manual action of the internal module, and every other label gets OP (else the administrative default), CTX (else "Sistema"), DET (else the default request text) and the pending request's protocol |
| RequestModal.ExplainRoundTrip | components/RequestAuthorizationModal.tsx:24-59 | a label built from OP, CTX, VAL and DET fields is explained with exactly those four values |
| RequestModal.LegacyExplanation | components/RequestAuthorizationModal.tsx:41-48 | a `REAL_ID: <id>` label takes the legacy path: a restricted manual action whose reference is the first eight characters of the id, with value zero reais |
| Users.CombinedPermissions | pages/Users.tsx:50-57 | the combined list holds exactly the permissions some selected profile grants by default, each once, in the order of their first grant |
| Users.CombinedAuthorizations | pages/Users.tsx:59-66 | the combined list holds exactly the remote authorizations some selected profile grants by default, each once, in the order of their first grant |
| Seqs.DistinctFromOrder | pages/Users.tsx:50-57 | de-duplicating through a seen set keeps only elements of the input, in the order of their first occurrence |
| Users.CombinedHasDashboard | pages/Users.tsx:50-57 | any non-empty combination of profiles grants the dashboard |
| Users.CombinedWithMaster | pages/Users.tsx:50-57 | a combination that includes MASTER grants every permission |
| Users.ParseNames | pages/Users.tsx:188-191 | every profile read back from a profile string was one of its comma-separated parts |
| Users.ProfilesRoundTrip | pages/Users.tsx:188-326 | the profile string written for a selection (`join(', ')`, or `Personalizado` when empty) reads back as that same selection, in order |
| Users.ClickProfile | pages/Users.tsx:312-328 | a click selects the profile exactly when it was not selected; the stored profile string reads back as the new selection, and the permissions are exactly those the new selection grants |
| Users.ClickProfileTwice | pages/Users.tsx:316-318 | clicking an unselected profile twice restores the selection |
| Users.PermissionCheckbox | pages/Users.tsx:372-378 | ticking a held permission removes every occurrence of it, ticking one not held appends it, and no other permission changes |
| Users.UniqueUsersFacts | pages/Users.tsx:78 | the de-duplicated user list holds each id once, only users of the input, every user that is the first with its id, and keeps the input order |
| Users.KeepFirstOrder | pages/Users.tsx:78 | keeping the first user of each id among a prefix keeps them in input order and draws them from that prefix |
| Users.UniqueUsersKeepIds | pages/Users.tsx:78 | every id of the input still has a user in the de-duplicated list |
| Users.ManagementRights | pages/Users.tsx:176-185 | a super admin manages everyone, a company admin manages everyone but the master accounts, staff and signed-out users manage no one, and the platform e-mail never gets the edit and delete buttons |
| Users.SaveUser | pages/Users.tsx:119-144 | a super admin's save is a direct update of that user, and every other save is an EDITAR_USUARIO request |
| Users.ApprovedUserAction | pages/Users.tsx:85-105 | an approved request is applied as an update or a delete only for its own action key and only to the non-empty id its label carries after `REAL_ID: ` |
| Users.EditUserRoundTrip | pages/Users.tsx:85-144 | an edit request filed by a non-super-admin, once approved, updates the same user with the same trimmed JSON |
| Users.DeleteUserRoundTrip | pages/Users.tsx:85-200 | an approved delete request deletes the user it was filed for |
| Reports.VisibleReports | pages/Reports.tsx:371 | a super admin sees every report card and anyone else exactly the cards whose permission they hold, in the catalogue's order |
| Reports.SuperAdminSeesAllReports | pages/Reports.tsx:300-371 | a super admin is offered the whole catalogue, in order |
| Reports.OneReportPerPermission | pages/Reports.tsx:300-371 | granting one report's permission alone shows exactly that one card |
| Reports.ReadableAction | pages/Reports.tsx:161-182 | a known action is shown by its table name; any other keeps its length, with `_` turned into a space and letters upper-cased |
| Reports.UnknownActionName | pages/Reports.tsx:181 | an unknown action's name carries no `_` and no lower-case letter, and naming it again changes nothing |
| Reports.AuthorizationActionsNamed | pages/Reports.tsx:163-165 | the three entries the authorization service writes have table names |
| Reports.RequestId | pages/Reports.tsx:187-188 | the request id is AVULSO exactly when no `(PEDIDO REQ-…)` occurs, and otherwise the group of the leftmost such occurrence |
| Reports.RequestIdAtStart | pages/Reports.tsx:187-188 | details opening with `(PEDIDO REQ-<code>)` are attributed to `REQ-<code>` |
| Reports.CleanDetails | pages/Reports.tsx:189-195 | details holding the request marker are read from after it; otherwise details naming a grant are read from past the first `) `, or whole when none occurs; details holding neither marker are read whole |
| Reports.ApprovalEntryShownWhole | pages/Reports.tsx:192-194 | the approval line the authorization service logs, for codes, protocols and names without `)` or `:`, takes the grant branch and is shown whole, since its only `)` are followed by `]` or `.` |
| Reports.LowerKeyRead | pages/Reports.tsx:198-201 | a lower-case key is read as its upper-case form, so `op: x` counts as an OP field |
| Reports.ReadableDetails | pages/Reports.tsx:184-216 | empty details give the fixed not-registered text and only they do; the narrative is shown exactly when the cleaned details carry an OP, with its request id, user, context, capitalised details and value falling back to the page's defaults |
| Reports.RequestEntryNarrative | pages/Reports.tsx:184-216 | the log entry written for a request filed with an `OP \| CTX \| VAL \| DET` label is shown as the narrative of that request: its protocol and the label's four values, upper-cased |
| Reports.FilteredFinancials | pages/Reports.tsx:219-232 | a record is listed exactly when its date is in range, every non-empty column filter matches, and a mirror report's category holds |
| Reports.NoFiltersKeepRange | pages/Reports.tsx:219-232 | with no column filter the general statement lists exactly the records dated in range |
| Reports.MirrorsRestrictCategory | pages/Reports.tsx:228-229 | the receivables report lists only material sales and the payables report only material purchases |
| Reports.EmptyRangeKeepsNothing | pages/Reports.tsx:221-222 | a range whose end precedes its start lists nothing |
| Reports.FormatDate | pages/Reports.tsx:338-341 | `---` is shown exactly for an empty date |
| Reports.FormatIsoDate | pages/Reports.tsx:338-341 | a timestamp starting `YYYY-MM-DD` is shown as `DD/MM/YYYY` |
| Reports.FormatDateWithoutDashes | pages/Reports.tsx:338-341 | a date without `-` in its first ten characters is not rejected: day and month show as `undefined` |
| Reports.TotalKgCountsKgOnly | pages/Reports.tsx:292-298 | the weight total is the summed stock of the materials sold by the kilo |
| Reports.TotalsAreSums | pages/Reports.tsx:292-298 | the cost and sale totals are the sums of stock times buy and sell price |
| Reports.MaterialsReport | pages/Reports.tsx:279-281 | the stock report lists, in order, exactly the materials whose lower-cased name contains the lower-cased filter, and everything for an empty filter |
| FinanceEdit.Underscored | pages/Finance.tsx:142 | inserting `_` before each capital never shortens a key |
| FinanceEdit.CamelSnakeRoundTrip | pages/Finance.tsx:142-143 | a camelCase key of letters and digits survives the trip to snake_case and back |
| FinanceEdit.SnakeCamelRoundTrip | pages/Finance.tsx:142-143 | a snake_case key, each `_` followed by a lower-case letter, survives the trip to camelCase and back |
| FinanceEdit.SnakeOfSnake | pages/Finance.tsx:142 | a key without capitals is its own snake_case spelling |
| FinanceEdit.EitherSpellingFound | pages/Finance.tsx:139-146 | a field stored under one spelling is found as the original value whether the form names it in snake_case or in camelCase |
| FinanceEdit.Set | pages/Finance.tsx:359-361 | a form update sets its key, changes no other key, keeps an existing key in place and appends a new one |
| FinanceEdit.Fields | pages/Finance.tsx:139-140 | the form's fields are visited in key order, each with its value |
| FinanceEdit.Delta | pages/Finance.tsx:139-148 | the delta holds, in form order, exactly the fields whose value is not the original value |
| FinanceEdit.DeltaEmptyIff | pages/Finance.tsx:139-149 | nothing is filed exactly when every field equals its original value |
| FinanceEdit.ChangedInDelta | pages/Finance.tsx:148 | one changed field makes the delta non-empty |
| FinanceEdit.InitialTermForm | pages/Finance.tsx:43-57 | the starting term form has both manual-PDV spellings off and a value for every key |
| FinanceEdit.NewTermForm | pages/Finance.tsx:206 | the reset term form has both manual-PDV spellings off and no `show_in_title_launch` key |
| FinanceEdit.NewTermReopensChanged | pages/Finance.tsx:206 | a term created untouched through the reset form of "Novo Prazo" files, when reopened and saved untouched, an edit request whose delta is exactly `show_in_title_launch` set to `false` |
| FinanceEdit.InitialTermReopensUnchanged | pages/Finance.tsx:43-57 | a term created untouched from the starting form reopens unchanged: saving it untouched files nothing |
| FinanceEdit.TermInsertedReopensUnchanged | pages/Finance.tsx:132-158 | a term inserted from a form with every key, the title-launch flag included, is stored complete and reopens with no change |
| FinanceEdit.TermInsertedWithoutTitleLaunch | pages/Finance.tsx:132-158 | a term inserted from a form without the title-launch flag is not stored complete, and reopening it finds exactly one change, `show_in_title_launch` to `false` |
| FinanceEdit.ManualPdvOf | pages/Finance.tsx:227 | the manual-PDV flag read from a term is truthy exactly when one of its four spellings is, and `false` otherwise |
| FinanceEdit.EditTermForm | pages/Finance.tsx:226-240 | the edit form of a term holds the term keys with both manual-PDV spellings set to the same value, truthy exactly when the stored term's flag is |
| FinanceEdit.ApplyTermEvent | pages/Finance.tsx:329-361 | a tick sets its own box and, for the manual PDV, its twin spelling, and nothing else; a rename upper-cases the name and changes nothing else; the two manual-PDV spellings stay equal |
| FinanceEdit.EventsKeepCoupling | pages/Finance.tsx:329-361 | whatever the user does in the term form, the two manual-PDV spellings stay equal |
| FinanceEdit.TermReopenedUnchanged | pages/Finance.tsx:132-149 | a term row holding every term field (the manual-PDV flag under its spellings included) reopens and saves untouched with no change |
| FinanceEdit.TermReopenedDelta | pages/Finance.tsx:132-149 | a term row holding every field but the title-launch flag, under neither spelling, reopens with exactly one change: that flag, set to `false` |
| FinanceEdit.ManualPdvUnchanged | pages/Finance.tsx:227 | a term stored by this page reads its manual-PDV flag back as stored |
| FinanceEdit.InitialCategoryForm | pages/Finance.tsx:59-68 | the starting category form has type `both`, a value for every key, and every flag on |
| FinanceEdit.NewCategoryForm | pages/Finance.tsx:267 | the reset category form has every flag on but no `show_in_title_launch` key |
| FinanceEdit.NewCategoryReopensChanged | pages/Finance.tsx:267 | a category created untouched through the reset form of "Nova Categoria" files, when reopened and saved untouched, an edit request whose delta is exactly `show_in_title_launch` set to `true` |
| FinanceEdit.InitialCategoryReopensUnchanged | pages/Finance.tsx:59-68 | a category created untouched from the starting form reopens unchanged |
| FinanceEdit.CategoryInsertedReopensUnchanged | pages/Finance.tsx:163-188 | a category inserted from a form with every key, the title-launch flag included, is stored complete and reopens with no change |
| FinanceEdit.CategoryInsertedWithoutTitleLaunch | pages/Finance.tsx:163-188 | a category inserted from a form without the title-launch flag is not stored complete, and reopening it finds exactly one change, `show_in_title_launch` to `true` |
| FinanceEdit.EditCategoryForm | pages/Finance.tsx:291-300 | the edit form of a category holds the category keys and its name, and no flag is left undefined |
| FinanceEdit.CategoryReopenedUnchanged | pages/Finance.tsx:163-179 | a category row holding its flags under the spellings the edit form reads, the title-launch flag included, reopens and saves untouched with no change |
| FinanceEdit.CategoryReopenedDelta | pages/Finance.tsx:163-179 | a category row without the title-launch flag under either spelling reopens with exactly one change: that flag, set to `true` |
| FinanceEdit.InsertedFormField | services/dbService.ts:344-363 | every form key with a defined value is read back from the inserted row, under its own spelling, as the form held it |
| FinanceEdit.InsertedOtherSpelling | services/dbService.ts:166-172 | the twin spelling of a nomenclature pair is filled on insert with the value the form held under the other |
| FinanceEdit.TitleSnakeAbsent | services/dbService.ts:344-363 | a form without the title-launch flag inserts a row without `show_in_title_launch`, since no nomenclature pair fills it |
| FinanceEdit.InsertObjectNamed | services/dbService.ts:346 | spreading fields into an object keeps a name whose every field holds the same defined value, with that value |
| FinanceEdit.RowById | pages/Finance.tsx:135 | the row found has the id sought, and none is found exactly when no row has it |
| FinanceEdit.SaveForm | pages/Finance.tsx:132-160 | with no row being edited the form is inserted with its fields plus the company; an edit of a missing row keeps the modal open; an edit without changes only closes; any other edit files the table's edit request carrying the delta |
| FinanceEdit.DeleteRequest | pages/Finance.tsx:223-245 | a system row offers no delete, and every other row offers its table's delete request |
| FinanceEdit.StartEdit | pages/Finance.tsx:223-300 | a system row offers no edit, and every other row opens a form with its table's keys, the term form's manual-PDV spellings equal |
| FinanceEdit.ApprovedFinanceAction | pages/Finance.tsx:93-112 | an approved request deletes or updates a row only for its own table's action key and only the non-empty id its label carries |
| FinanceEdit.EditRoundTrip | pages/Finance.tsx:104-153 | an approved edit request updates the row it was filed for with the trimmed JSON it carries |
| FinanceEdit.DeleteRoundTrip | pages/Finance.tsx:96-110 | an approved delete request deletes the row it was filed for |
| FinanceEdit.SavedEditApplies | pages/Finance.tsx:104-160 | saving a changed form and approving the request it files updates the same row with exactly the delta |
| FinanceEdit.DeleteButtonApplies | pages/Finance.tsx:96-245 | the delete button of a non-system row, once approved, deletes that row |
| FinanceEdit.ProcessFinanceRound | pages/Finance.tsx:83-129 | a round acts once per approved, unprocessed request of the current user, remembers only those, leaves none behind, and refreshes exactly when some action changed a table |
| FinanceEdit.FinanceRoundActsOnOwnApprovals | pages/Finance.tsx:83-112 | each action of a round is the reading of one approved, unprocessed request of the user |
| Inventory.MaxOf | pages/Inventory.tsx:205 | the maximum threshold a material is drawn against is never zero, the default 1000 standing in for an unset one |
| Inventory.StockLevel | pages/Inventory.tsx:204-208 | the indicator is the warning colour exactly when the stock is at or below the minimum, the error colour exactly when it is above the minimum and at or over the maximum, and the success colour exactly in between |
| Inventory.LevelMonotone | pages/Inventory.tsx:204-208 | with the same thresholds, more stock never moves the indicator back from error to success or from success to warning |
| Inventory.BarWidth | pages/Inventory.tsx:220 | the bar width lies between 0 and 100 percent, is empty for no stock and full at or above the maximum |
| Inventory.DeltaFields | pages/Inventory.tsx:130-138 | a key enters the edit delta exactly when the form's value differs from the stored one, read under either spelling |
| Inventory.DeltaEmptyIff | pages/Inventory.tsx:130-140 | the delta is empty exactly when no field differs |
| Inventory.ReopenedUnchanged | pages/Inventory.tsx:130-140 | reopening a stored material whose two spellings agree and saving it untouched files nothing |
| Inventory.DeltaThenApply | pages/Inventory.tsx:64-140 | applying the delta of a form to the material it was computed from gives a material whose edit form is that form |
| Inventory.Save | pages/Inventory.tsx:110-160 | view mode does nothing; an edit never inserts or refuses; an edit request names the edited material and carries its non-empty delta; an unchanged edit only closes; an insert happens only for a super admin or a holder of the stock permission |
| Inventory.CreateNeedsPermission | pages/Inventory.tsx:150-158 | creating is refused exactly to users who are neither super admin nor holders of the stock permission, and otherwise inserts the form |
| Inventory.UndeclaredStockOnlyMaster | pages/Inventory.tsx:152 | while the stock permission is a name the permission enum does not declare, only a super admin can create materials |
| Inventory.ShortId | pages/Inventory.tsx:284 | the short id shown is the id's last five characters, the whole of a shorter non-empty id, and `00000` for an empty id |
| Inventory.AdjustRequest | pages/Inventory.tsx:164-172 | an adjust request is filed exactly when the typed quantity parses as a number |
| Inventory.EditAction | pages/Inventory.tsx:63-74 | an approved edit updates only the non-empty id and JSON its label carries, and does nothing otherwise |
| Inventory.DeleteAction | pages/Inventory.tsx:76-86 | an approved delete removes only the non-empty id its label carries, and does nothing otherwise |
| Inventory.AdjustAction | pages/Inventory.tsx:88-107 | an approved adjust sets the stock of the non-empty id after `REAL_ID: ` to the Brazilian-formatted number after ` para `, and does nothing otherwise |
| Inventory.EditRoundTrip | pages/Inventory.tsx:63-284 | an approved edit updates the material it was filed for with the trimmed JSON it carries |
| Inventory.DeleteRoundTrip | pages/Inventory.tsx:76-290 | an approved delete removes the material it was filed for |
| Inventory.AdjustReads | pages/Inventory.tsx:88-296 | the adjust processor reads back the id and whatever number the new-value text of the label denotes |
| Inventory.AdjustRoundTripAsWritten | pages/Inventory.tsx:88-296 | the quantity that reaches the stock is the typed one rounded to two decimals, because the label writes it as currency |
| Inventory.AdjustLosesThousandths | pages/Inventory.tsx:100-296 | a typed `12.346` is applied as 12.35 |
| Inventory.AdjustRoundTripExact | pages/Inventory.tsx:88-107 | with the new quantity written as typed, the stock set is the number typed, for the material it was filed for |
| Layout.MenuItems | components/Layout.tsx:52-63 | the menu has ten entries with distinct ids |
| Layout.FilteredMenu | components/Layout.tsx:47-77 | nothing is rendered exactly when no user is signed in, and otherwise the menu shown is an order-preserving selection of the entries |
| Layout.MasterSeesAll | components/Layout.tsx:49-67 | the master e-mail sees the whole menu, in order |
| Layout.RegistrationVisible | components/Layout.tsx:66-76 | the registration entry shows exactly for the master e-mail or a holder of one of the four registration permissions |
| Layout.OtherItemVisible | components/Layout.tsx:66-77 | every other entry shows exactly for the master e-mail or a holder of that entry's own permission |
| Layout.AsShippedHidesOperational | components/Layout.tsx:52-77 | with the permission names as written, a user other than the master e-mail never sees registration, finance, sales, reports or support, whatever they hold |
| Layout.ActiveNotificationCount | components/Layout.tsx:42-45 | the badge never exceeds the number of requests and is zero exactly when none is pending |
| Layout.CountReplace | components/Layout.tsx:42-45 | replacing one request changes the badge by what that request counted before and after |
| Layout.ApprovalLowersBadge | components/Layout.tsx:42-45 | approving a pending request succeeds and takes exactly one off the badge |
| Layout.DenialLowersBadge | components/Layout.tsx:42-45 | denying a pending request succeeds and takes exactly one off the badge |
| Layout.IsAdmin | components/Layout.tsx:50 | the approvals inbox is offered to every role except staff |
| SaasAdmin.PlanPrice | pages/SaasAdmin.tsx:131-133 | a company is priced by the first plan whose id is its plan reference, and at zero when none matches |
| Seqs.FindLeftmost | pages/SaasAdmin.tsx:131-133 | `find` returns the leftmost element that satisfies the predicate |
| SaasAdmin.ComputeStats | pages/SaasAdmin.tsx:125-137 | the three status counts add up to the total number of companies, and the revenue is the summed plan price of the active companies |
| SaasAdmin.StatusCounts | pages/SaasAdmin.tsx:126-128 | every company is counted under exactly one status |
| SaasAdmin.UnknownPlanAddsNothing | pages/SaasAdmin.tsx:130-134 | a company with an unknown plan adds one to the total and nothing to the revenue |
| SaasAdmin.BlockingRemovesPrice | pages/SaasAdmin.tsx:125-137 | blocking an active company takes exactly its plan price off the revenue and adds one to the blocked count |
| SaasAdmin.FilteredCompanies | pages/SaasAdmin.tsx:139-144 | the search lists, in order, exactly the companies whose name contains the search with case ignored or whose CNPJ contains it as typed |
| SaasAdmin.EmptySearchKeepsAll | pages/SaasAdmin.tsx:139-144 | an empty search lists every company |
| SaasAdmin.LongerSearchNarrows | pages/SaasAdmin.tsx:139-144 | typing more never adds a company to the list |
| SaasAdmin.Modules | pages/SaasAdmin.tsx:526 | the enabled modules of a plan card are exactly its entries not containing `ACTION_` |
| SaasAdmin.Locks | pages/SaasAdmin.tsx:531 | the action locks of a plan card are exactly its entries containing `ACTION_` |
| SaasAdmin.ModulesPartition | pages/SaasAdmin.tsx:526-531 | the two counts on a plan card split its entries: each is counted once, in exactly one of them |
| SaasAdmin.ToggleModule | pages/SaasAdmin.tsx:725-727 | a checkbox click makes the entry present exactly when it was absent, appends it at the end when absent, and changes no other entry |
| SaasAdmin.ToggleModuleTwice | pages/SaasAdmin.tsx:725-727 | ticking a clear box and clearing it again restores the list |
| SaasAdmin.ToggleKeepsOtherCount | pages/SaasAdmin.tsx:526-754 | toggling a lock leaves the module list unchanged, and toggling a module leaves the lock list unchanged |
| Dashboard.TotalReceivable | pages/Dashboard.tsx:26-28 | with no negative amounts the open receivables total is never negative |
| Dashboard.TotalPayable | pages/Dashboard.tsx:30-32 | with no negative amounts the open payables total is never negative |
| Dashboard.KindsDisjoint | pages/Dashboard.tsx:26-32 | no kind counts toward both totals, and a cash supply toward neither |
| Dashboard.TotalsSplitOpen | pages/Dashboard.tsx:26-32 | the two totals together are the summed amount of the open records of a receivable or payable kind |
| Dashboard.SettlingRemovesFromTotals | pages/Dashboard.tsx:26-32 | settling an open record takes its amount off the total of its kind and leaves the other total alone |
| Dashboard.TotalSales | pages/Dashboard.tsx:36-38 | with no ENTRADA transaction the sales total is zero |
| Dashboard.SalesAppend | pages/Dashboard.tsx:36-38 | one more transaction adds its value to the sales exactly when it is an ENTRADA |
| Dashboard.LowStock | pages/Dashboard.tsx:40 | the low-stock list holds, in order, exactly the materials whose stock is at or below the camelCase minimum |
| Dashboard.NoThresholdOnlyEmptyStock | pages/Dashboard.tsx:40 | a material without a minimum is listed exactly when its stock is at or below zero |

## Left out

- Rendering, styling, modals, focus handling and the "Enter as Tab" handlers of every page: they are user interface.
- Network and cloud I/O: the Supabase client, the cloud branches of `insert`/`update`/`delete`, `syncFromCloud`, `pushStateToCloud`, backups and every `loadData` fetch. These are foreign calls. Each page receives its tenant's rows as a parameter, as `db.queryTenant` would return them.
- localStorage persistence (`db.get`/`db.save`, the application context). The store is a value passed in and returned.
- Timers, request polling, the POS refresh and `setTimeout` retries. Each handler is one atomic step, and a polling round is a function of the request list.
- The `try`/`catch` around each approved action, and the write of `PROCESSED` back to the request table by the pages: a round returns the ids it has processed and does not store them.
- Floating point: amounts are whole cents or exact decimals. `parseFloat` exponents, `Infinity`, `NaN`, negative zero and binary rounding are not modelled. `parseNumericString` is not modelled either; amounts reach the model already parsed.
- Fractional stock quantities and thresholds: `stock`, `min_stock` and `max_stock` are whole numbers throughout, in the POS cart, `Inventory.StockLevel`, `Inventory.Save`, `Dashboard.LowStock` and the inventory totals of the reports, although the inventory form and the quick adjustment accept thousandths (pages/Inventory.tsx:251-256 and :270). Only `Inventory.AdjustLosesThousandths` reads a typed quantity with thousandths, to show how the adjust label rounds it.
- Dates and time zones (`utils/dateHelper.ts`, `new Date` arithmetic, the shift timer). `today` and every timestamp are parameters, and dates are compared as ISO strings, as the source compares them.
- Unicode normalisation (`utils/textHelper.ts`) and case mapping outside ASCII: `toUpperCase`/`toLowerCase` are modelled on ASCII letters plus the accented capitals the labels use.
- `JSON.stringify`/`JSON.parse`: JSON payloads are opaque strings. The stringify of a delta is a parameter.
- Randomness: `crypto.randomUUID`, `Math.random` ids and the protocol and approval codes are parameters. `RandomText` states only the shape of `Math.random().toString(36)`.
- The hard-coded credentials in `verifyCredentials`, `getInitialState` and the Login defaults: they are a security matter, not behaviour to verify.
- The login, register and invite-activation flows against the cloud, and the password-confirmation check of `handleRegister`. Only the document and phone validation of registration is modelled.
- The SaasAdmin access gate and plan editor dialogs beyond the module checkboxes, and the tenant filtering that feeds the Dashboard lists.
- The non-OP path of `getReadableDetails`: its three regular-expression rewrites are not modelled; the result keeps the raw details.
- The display sort of `historyRecords` and of the `findApproved` queries: the model takes the first matching request in list order.
- The `logAction` details written by `handleProcessReconciliation` and by the approved-request processors. Only the log entries of the authorization service are modelled.
- The copies of `getStatusInfo` in POS, Reports and FinanceHub, the label parser copy in the authorize modal, and the REAL_ID processing of the Partners and Banks pages. These repeat modelled code.
- `DEFAULT_AUTHORIZATIONS` is not part of this model. The combined-authorizations law is proved for any table.
- The permission names the Layout and Inventory pages use but `PermissionModule` does not declare are a parameter (`Undeclared(name)`). `Layout.AsShipped` gives them their shipped value.
- Store.ParseNum: only numbers, `null` and whole-number strings are read. Decimal fractions, surrounding whitespace, a leading `+` and exponents in strings are not modelled.
- Pos.HandleCheckout: the stock it stores is the corrected one, each cart line applied to the stock the previous line left. The page's own writes, each from the stock read before the checkout, are `Pos.CheckoutStockAsWritten`; the two are proved equal only when no material is on two cart lines, and `Pos.DuplicateLinesLoseStock` shows where they part.
- PosApprovals.Dispatch: it reads a manual entry's kind from the label's leading `TIPO:` field, not from `TIPO: ENTRADA` anywhere in the label as the page does. `PosApprovals.KindReadings` states where the two readings differ, and `PosApprovals.DescriptionFlipsKind` gives an input.
- Store.UpdateCarriesFields: the carry-over is stated only for updates whose company aliases are closed. An update that clears `id_companies` on its own gets the old `companyId` back; `Store.UpdateRestoresClearedCompany` shows that case.
- Documents.ValidateCnpj keeps the source's reading of the raw input for the second check digit. So any punctuated CNPJ is rejected; `Documents.CnpjExampleFormatted` shows one such input.
- Inventory.BarWidth: the width is computed on exact reals, not on binary floating point.
- Reports.ApprovalEntryShownWhole: it covers approval codes, protocols and approver names without `)` or `:`. A name holding `) ` would make the page cut the line there, and that case is only covered by the general grant-branch clause of `Reports.CleanDetails`.

## Findings

| source | as written | input that shows it | evidently intended | confidence | as-written member | corrected member |
|---|---|---|---|---|---|---|
| pages/FinanceHub.tsx:300-302 | an open record of nature SAIDA is added to the overdue outflow, so the open outflow is always zero | one open SAIDA record: its amount lands in the overdue outflow | open exits counted as open outflow, overdue exits as overdue outflow | not executed | FinanceHub.OpenExitMisfiled | FinanceHub.BaixasMetricsBuckets |
| pages/POS.tsx:219-226 | the stored close label is compared with the upper-cased tail of the session id without upper-casing the label | session id `abcde`: its own close request `FECHAMENTO CAIXA ID: abcde` is not seen as pending | both sides compared in upper case | not executed | PosClosing.OwnCloseRequestMissed | PosClosing.OwnCloseRequestDetected |
| pages/POS.tsx:811-817 | every stock write of a checkout starts from the stock read before the checkout | two lines of the same material, one unit each, stock 10: the buy leaves 11, not 12, and cancelling it leaves 9 | each line applied to the stock the previous line left | not executed | Pos.DuplicateLinesLoseStock | Pos.CheckoutThenCancel |
| pages/POS.tsx:480 | a manual entry is an entry when `TIPO: ENTRADA` occurs anywhere in the upper-cased label | an exit whose description reads `tipo: entrada` is carried out as an entry | the kind read from the label's leading `TIPO:` field | not executed | PosApprovals.DescriptionFlipsKind | PosApprovals.ManualKindRoundTrip |
| pages/Inventory.tsx:88-296 | the new quantity is written into the adjust label as currency, with two decimals, and read back from it | typing `12.346` sets the stock to 12.35 | the stock set to the quantity typed | not executed | Inventory.AdjustLosesThousandths | Inventory.AdjustRoundTripExact |
| pages/Finance.tsx:206 | "Novo Prazo" resets the term form without `show_in_title_launch`, so the key never reaches the stored term, while the edit form fills it with `false` | create a term through "Novo Prazo", reopen it and save it untouched: an EDITAR_PRAZO_COMERCIAL request with delta `{"show_in_title_launch":false}` is filed | the reset form carries the flag, as the starting form does | not executed | FinanceEdit.NewTermReopensChanged | FinanceEdit.InitialTermReopensUnchanged |
| pages/Finance.tsx:267 | "Nova Categoria" resets the category form without `show_in_title_launch`, while the edit form fills it with `true` | create a category through "Nova Categoria", reopen it and save it untouched: an edit request with delta `{"show_in_title_launch":true}` is filed | the reset form carries the flag, as the starting form does | not executed | FinanceEdit.NewCategoryReopensChanged | FinanceEdit.InitialCategoryReopensUnchanged |

=== FILE: authorization.dfy ===
/** `authorizationService`: the table of authorization requests through
    which an operator asks a manager to release a sensitive action. A
    request is created PENDING, a manager answers APPROVED or DENIED, and the
    requesting page marks an approved request PROCESSED once it has acted on
    it. Each service call also appends one entry to the action log. The
    store is a value passed in and out; ids, codes and times are parameters. */
module Authorization {
  import opened Wrappers
  import opened Seqs
  import opened Strings
  import opened Permissions
  import opened Store

  datatype AuthStatus = Pending | Approved | Denied | Processed {
    function Text(): string {
      match this
      case Pending => "PENDING"
      case Approved => "APPROVED"
      case Denied => "DENIED"
      case Processed => "PROCESSED"
    }
  }

  /** `AuthorizationRequest`, plus the `updated_at` stamp every stored row
      carries. Optional fields not yet set are "". */
  datatype AuthRequest = AuthRequest(
    id: string,
    company_id: string,
    action_key: string,
    action_label: string,
    action_payload: string,
    requested_by_id: string,
    requested_by_name: string,
    protocol_id: string,
    approval_code: string,
    status: AuthStatus,
    created_at: string,
    responded_at: string,
    responded_by_id: string,
    responded_by_name: string,
    updated_at: string
  )

  /** An `ActionLog` row. A `null` company is "". */
  datatype LogEntry = LogEntry(company_id: string, user_id: string, user_name: string, action: string, details: string)

  /** The two tables the service touches. */
  datatype AuthStore = AuthStore(requests: seq<AuthRequest>, logs: seq<LogEntry>)

  // ------------------------------------------------------- friendly codes

  predicate Base36Char(c: char) {
    '0' <= c <= '9' || 'a' <= c <= 'z'
  }

  /** The text of `Math.random().toString(36)`: `0.` and base-36 digits. */
  predicate RandomText(t: string) {
    |t| >= 2 && t[..2] == "0." && forall i :: 2 <= i < |t| ==> Base36Char(t[i])
  }

  predicate CodeChar(c: char) {
    '0' <= c <= '9' || 'A' <= c <= 'Z'
  }

  /** `` `${prefix}-${random.toString(36).substring(2, 7).toUpperCase()}` ``. */
  function FriendlyCode(prefix: string, random: string): (r: string)
    requires RandomText(random)
    ensures StartsWith(r, prefix + "-")
    ensures |r| <= |prefix| + 1 + 5
    ensures |random| > 2 ==> |r| > |prefix| + 1
    ensures forall i :: |prefix| + 1 <= i < |r| ==> CodeChar(r[i])
  {
    var digits := Prefix(random[2..], 5);
    var code := Upper(digits);
    assert forall i :: 0 <= i < |digits| ==> digits[i] == random[2 + i];
    assert (prefix + "-" + code)[..|prefix| + 1] == prefix + "-";
    prefix + "-" + code
  }

  // ------------------------------------------------------- the log

  /** `db.logAction`, whose insert falls back to the signed-in session's
      company when the given one is empty and stores the company id trimmed. */
  function LogAction(logs: seq<LogEntry>, companyId: string, sessionCompany: string,
                     user: User, action: string, details: string): (r: seq<LogEntry>)
    ensures |r| == |logs| + 1 && r[..|logs|] == logs
    ensures r[|logs|].action == action && r[|logs|].details == details
    ensures r[|logs|].user_id == user.id && r[|logs|].user_name == user.name
    ensures r[|logs|].company_id == Trim(if companyId != "" then companyId else sessionCompany)
  {
    var company := Trim(if companyId != "" then companyId else sessionCompany);
    logs + [LogEntry(company, user.id, user.name, action, details)]
  }

  // ------------------------------------------------------- request

  /** What the request log writes before the upper-cased action label. */
  const AskMarker := "SOLICITAÇÃO DE LIBERAÇÃO PARA AÇÃO: "

  /** `requestAuthorization(actionKey, actionLabel, user)`: the new request
      and the store holding it. The insert stores the company id trimmed, and
      the session's company when the user has none. */
  function RequestAuthorization(st: AuthStore, actionKey: string, actionLabel: string, user: User,
                                random: string, newId: string, sessionCompany: string, now: string): (r: (AuthRequest, AuthStore))
    requires RandomText(random)
    ensures var (req, st') := r;
      && st'.requests == st.requests + [req]
      && req.id == newId && req.status == Pending
      && req.action_key == actionKey && req.action_label == actionLabel && req.action_payload == ""
      && req.requested_by_id == user.id && req.requested_by_name == user.name
      && req.company_id == Trim(if UserCompany(user) != "" then UserCompany(user) else sessionCompany)
      && StartsWith(req.protocol_id, "REQ-") && |req.protocol_id| <= 9 && (|random| > 2 ==> |req.protocol_id| > 4)
      && (forall i :: 4 <= i < |req.protocol_id| ==> CodeChar(req.protocol_id[i]))
      && req.approval_code == "" && req.responded_at == "" && req.responded_by_id == ""
      && |st'.logs| == |st.logs| + 1 && st'.logs[..|st.logs|] == st.logs
      && st'.logs[|st.logs|].action == "AUTH_REQUEST_CREATED"
      && st'.logs[|st.logs|].details == "(PEDIDO " + req.protocol_id + ") - " + AskMarker + Upper(actionLabel)
  {
    var companyId := UserCompany(user);
    var protocol := FriendlyCode("REQ", random);
    var company := Trim(if companyId != "" then companyId else sessionCompany);
    var req := AuthRequest(newId, company, actionKey, actionLabel, "", user.id, user.name, protocol,
                           "", Pending, now, "", "", "", now);
    var details := "(PEDIDO " + protocol + ") - " + AskMarker + Upper(actionLabel);
    (req, AuthStore(st.requests + [req], LogAction(st.logs, companyId, sessionCompany, user, "AUTH_REQUEST_CREATED", details)))
  }

  // ------------------------------------------------------- listing

  predicate Listed(s: AuthStatus) {
    s == Pending || s == Approved || s == Denied
  }

  /** The tenant test of `queryTenant` on a request row. */
  predicate RequestInTenant(companyId: string, req: AuthRequest) {
    InTenant(Trim(companyId), Trim(req.company_id))
  }

  /** `getPendingAuthorizations(companyId)`; a `null` company id is "". */
  function GetPendingAuthorizations(requests: seq<AuthRequest>, companyId: string): (r: seq<AuthRequest>)
    ensures IsSubseq(r, requests)
    ensures forall q :: q in r <==> q in requests && Listed(q.status) && RequestInTenant(companyId, q)
    ensures forall i :: 0 <= i < |r| ==> r[i].status != Processed
  {
    Filter(requests, (q: AuthRequest) => Listed(q.status) && RequestInTenant(companyId, q))
  }

  // ------------------------------------------------------- answering

  predicate HasId(q: AuthRequest, id: string) {
    q.id == id
  }

  /** `db.update` on the request table: the first row with the id is replaced. */
  function UpdateRequest(requests: seq<AuthRequest>, id: string, f: AuthRequest -> AuthRequest): (r: Result<seq<AuthRequest>, StoreError>)
    ensures r.Err? <==> forall i :: 0 <= i < |requests| ==> requests[i].id != id
    ensures r.Err? ==> r.error == NotFound(id)
    ensures r.Ok? ==> FindIndex(requests, (q: AuthRequest) => HasId(q, id)).Some?
    ensures r.Ok? ==>
      var i := FindIndex(requests, (q: AuthRequest) => HasId(q, id)).value;
      && |r.value| == |requests|
      && r.value[i] == f(requests[i])
      && (forall j :: 0 <= j < |requests| && j != i ==> r.value[j] == requests[j])
  {
    var found := FindIndex(requests, (q: AuthRequest) => HasId(q, id));
    if found.None? then Err(NotFound(id))
    else Ok(requests[found.value := f(requests[found.value])])
  }

  function Approval(code: string, approver: User, now: string): AuthRequest -> AuthRequest {
    (q: AuthRequest) => q.(status := Approved, approval_code := code, responded_at := now,
                            responded_by_id := approver.id, responded_by_name := approver.name, updated_at := now)
  }

  function Denial(denier: User, now: string): AuthRequest -> AuthRequest {
    (q: AuthRequest) => q.(status := Denied, responded_at := now,
                            responded_by_id := denier.id, responded_by_name := denier.name, updated_at := now)
  }

  /** The answered request and nothing else changes: the row keeps its id,
      tenant, action, requester and protocol. */
  predicate Answered(before: AuthRequest, after: AuthRequest, status: AuthStatus, who: User, now: string) {
    && after.status == status
    && after.responded_at == now && after.responded_by_id == who.id && after.responded_by_name == who.name
    && after.id == before.id && after.company_id == before.company_id
    && after.action_key == before.action_key && after.action_label == before.action_label
    && after.requested_by_id == before.requested_by_id && after.protocol_id == before.protocol_id
  }

  /** `approveAuthorization(requestId, approver)`. The current status is not
      checked: a denied or processed request can be approved again. */
  function ApproveAuthorization(st: AuthStore, requestId: string, approver: User,
                                random: string, sessionCompany: string, now: string): (r: Result<AuthStore, StoreError>)
    requires RandomText(random)
    ensures r.Err? <==> forall i :: 0 <= i < |st.requests| ==> st.requests[i].id != requestId
    ensures r.Ok? ==> FindIndex(st.requests, (q: AuthRequest) => HasId(q, requestId)).Some?
    ensures r.Ok? ==> |r.value.requests| == |st.requests|
    ensures r.Ok? ==>
      var i := FindIndex(st.requests, (q: AuthRequest) => HasId(q, requestId)).value;
      var after := r.value.requests[i];
      && Answered(st.requests[i], after, Approved, approver, now)
      && StartsWith(after.approval_code, "APR-")
      && (forall j :: 0 <= j < |st.requests| && j != i ==> r.value.requests[j] == st.requests[j])
      && |r.value.logs| == |st.logs| + 1 && r.value.logs[..|st.logs|] == st.logs
      && r.value.logs[|st.logs|].action == "AUTH_REQUEST_APPROVED"
    ensures r.Ok? ==>
      var i := FindIndex(st.requests, (q: AuthRequest) => HasId(q, requestId)).value;
      r.value.logs[|st.logs|].details == ApprovalDetails(r.value.requests[i].approval_code, st.requests[i].protocol_id, approver.name)
  {
    var code := FriendlyCode("APR", random);
    match UpdateRequest(st.requests, requestId, Approval(code, approver, now))
    case Err(e) => Err(e)
    case Ok(requests) =>
      var i := FindIndex(st.requests, (q: AuthRequest) => HasId(q, requestId)).value;
      var details := ApprovalDetails(code, requests[i].protocol_id, approver.name);
      Ok(AuthStore(requests, LogAction(st.logs, UserCompany(approver), sessionCompany, approver, "AUTH_REQUEST_APPROVED", details)))
  }

  /** The log line of an approval: its code, the request's protocol and the
      approver's upper-cased name. */
  function ApprovalDetails(code: string, protocol: string, approverName: string): string {
    "[(APROVAÇÃO " + code + ")] CONCEDIDA PARA O (PEDIDO " + protocol + "). OPERAÇÃO LIBERADA PELO GESTOR " + Upper(approverName)
  }

  /** `denyAuthorization(requestId, denier)`: no approval code is written. */
  function DenyAuthorization(st: AuthStore, requestId: string, denier: User,
                             sessionCompany: string, now: string): (r: Result<AuthStore, StoreError>)
    ensures r.Err? <==> forall i :: 0 <= i < |st.requests| ==> st.requests[i].id != requestId
    ensures r.Ok? ==> FindIndex(st.requests, (q: AuthRequest) => HasId(q, requestId)).Some?
    ensures r.Ok? ==> |r.value.requests| == |st.requests|
    ensures r.Ok? ==>
      var i := FindIndex(st.requests, (q: AuthRequest) => HasId(q, requestId)).value;
      var after := r.value.requests[i];
      && Answered(st.requests[i], after, Denied, denier, now)
      && after.approval_code == st.requests[i].approval_code
      && (forall j :: 0 <= j < |st.requests| && j != i ==> r.value.requests[j] == st.requests[j])
      && |r.value.logs| == |st.logs| + 1 && r.value.logs[..|st.logs|] == st.logs
      && r.value.logs[|st.logs|].action == "AUTH_REQUEST_DENIED"
  {
    match UpdateRequest(st.requests, requestId, Denial(denier, now))
    case Err(e) => Err(e)
    case Ok(requests) =>
      var i := FindIndex(st.requests, (q: AuthRequest) => HasId(q, requestId)).value;
      var details := "LIBERAÇÃO NEGADA PELO GESTOR PARA O (PEDIDO " + requests[i].protocol_id + ")";
      Ok(AuthStore(requests, LogAction(st.logs, UserCompany(denier), sessionCompany, denier, "AUTH_REQUEST_DENIED", details)))
  }

  /** What a page does once it has acted on an approved request:
      `db.update(..., { status: 'PROCESSED' })`. */
  function MarkProcessed(requests: seq<AuthRequest>, id: string, now: string): (r: Result<seq<AuthRequest>, StoreError>)
    ensures r.Err? <==> forall i :: 0 <= i < |requests| ==> requests[i].id != id
    ensures r.Ok? ==>
      var i := FindIndex(requests, (q: AuthRequest) => HasId(q, id)).value;
      && |r.value| == |requests| && r.value[i].status == Processed && r.value[i].id == id
      && (forall j :: 0 <= j < |requests| && j != i ==> r.value[j] == requests[j])
  {
    UpdateRequest(requests, id, (q: AuthRequest) => q.(status := Processed, updated_at := now))
  }

  // ------------------------------------------------------- status check

  /** `checkRequestStatus(requestId)`: the first row with the id, or null. */
  function CheckRequestStatus(requests: seq<AuthRequest>, requestId: string): (r: Option<AuthRequest>)
    ensures r.Some? ==> r.value in requests && r.value.id == requestId
    ensures r.None? <==> forall i :: 0 <= i < |requests| ==> requests[i].id != requestId
  {
    Find(requests, (q: AuthRequest) => HasId(q, requestId))
  }

  // ------------------------------------------------------- the life cycle

  predicate UniqueIds(requests: seq<AuthRequest>) {
    forall i, j :: 0 <= i < j < |requests| ==> requests[i].id != requests[j].id
  }

  /** A new request with a fresh id is found by `checkRequestStatus` as
      PENDING, and is listed for its own company. */
  lemma RequestThenCheck(st: AuthStore, key: string, text: string, user: User,
                         random: string, newId: string, sessionCompany: string, now: string)
    requires RandomText(random)
    requires forall i :: 0 <= i < |st.requests| ==> st.requests[i].id != newId
    ensures var (req, st') := RequestAuthorization(st, key, text, user, random, newId, sessionCompany, now);
      && CheckRequestStatus(st'.requests, newId) == Some(req)
      && req.status == Pending
      && req in GetPendingAuthorizations(st'.requests, req.company_id)
  {
    var (req, st') := RequestAuthorization(st, key, text, user, random, newId, sessionCompany, now);
    FindAppendFresh(st.requests, req);
  }

  lemma {:induction false} FindAppendFresh(requests: seq<AuthRequest>, req: AuthRequest)
    requires forall i :: 0 <= i < |requests| ==> requests[i].id != req.id
    ensures Find(requests + [req], (q: AuthRequest) => HasId(q, req.id)) == Some(req)
    decreases |requests|
  {
    if |requests| > 0 {
      assert (requests + [req])[1..] == requests[1..] + [req];
      FindAppendFresh(requests[1..], req);
    }
  }

  /** The row `FindIndex` picks is the one `Find` returns. */
  lemma {:induction false} FindAtIndex(requests: seq<AuthRequest>, id: string)
    requires FindIndex(requests, (q: AuthRequest) => HasId(q, id)).Some?
    ensures var i := FindIndex(requests, (q: AuthRequest) => HasId(q, id)).value;
      Find(requests, (q: AuthRequest) => HasId(q, id)) == Some(requests[i])
    decreases |requests|
  {
    if requests[0].id != id {
      FindAtIndex(requests[1..], id);
    }
  }

  /** After approval, `checkRequestStatus` reports the request APPROVED. */
  lemma ApproveThenCheck(st: AuthStore, id: string, approver: User, random: string, sessionCompany: string, now: string)
    requires RandomText(random)
    requires exists i :: 0 <= i < |st.requests| && st.requests[i].id == id
    ensures var r := ApproveAuthorization(st, id, approver, random, sessionCompany, now);
      r.Ok? && CheckRequestStatus(r.value.requests, id).Some?
      && CheckRequestStatus(r.value.requests, id).value.status == Approved
  {
    var r := ApproveAuthorization(st, id, approver, random, sessionCompany, now);
    var i := FindIndex(st.requests, (q: AuthRequest) => HasId(q, id)).value;
    FindIndexAfterUpdate(st.requests, r.value.requests, id);
    FindAtIndex(r.value.requests, id);
  }

  /** Replacing the first row with an id by a row with the same id keeps
      that row first. */
  lemma FindIndexAfterUpdate(a: seq<AuthRequest>, b: seq<AuthRequest>, id: string)
    requires FindIndex(a, (q: AuthRequest) => HasId(q, id)).Some?
    requires |a| == |b|
    requires var i := FindIndex(a, (q: AuthRequest) => HasId(q, id)).value;
      b[i].id == id && forall j :: 0 <= j < |a| && j != i ==> b[j] == a[j]
    ensures FindIndex(b, (q: AuthRequest) => HasId(q, id)) == FindIndex(a, (q: AuthRequest) => HasId(q, id))
  {
    var i := FindIndex(a, (q: AuthRequest) => HasId(q, id)).value;
    forall j | 0 <= j < i
      ensures b[j].id != id
    {
      assert b[j] == a[j];
    }
    FindIndexFirst(b, id, i);
  }

  lemma {:induction false} FindIndexFirst(s: seq<AuthRequest>, id: string, i: nat)
    requires i < |s| && s[i].id == id
    requires forall j :: 0 <= j < i ==> s[j].id != id
    ensures FindIndex(s, (q: AuthRequest) => HasId(q, id)) == Some(i)
    decreases i
  {
    if i > 0 {
      FindIndexFirst(s[1..], id, i - 1);
    }
  }

  /** The approved requests of the current user that a page polling the
      listing has not acted on yet. */
  function ApprovedToProcess(requests: seq<AuthRequest>, userId: string, processed: set<string>): (todo: seq<AuthRequest>)
    ensures forall q :: q in todo <==>
      q in requests && q.status == Approved && q.requested_by_id == userId && q.id !in processed
    ensures IsSubseq(todo, requests)
  {
    Filter(requests, (q: AuthRequest) => q.status == Approved && q.requested_by_id == userId && q.id !in processed)
  }

  /** A processed request is no longer listed, for any tenant, when ids are unique. */
  lemma ProcessedNotListed(requests: seq<AuthRequest>, id: string, now: string, companyId: string)
    requires UniqueIds(requests)
    requires exists i :: 0 <= i < |requests| && requests[i].id == id
    ensures var r := MarkProcessed(requests, id, now);
      r.Ok? && forall q :: q in GetPendingAuthorizations(r.value, companyId) ==> q.id != id
  {
    var r := MarkProcessed(requests, id, now);
    var listing := GetPendingAuthorizations(r.value, companyId);
    forall q | q in listing
      ensures q.id != id
    {
      assert q in r.value && q.status != Processed;
      var k :| 0 <= k < |r.value| && r.value[k] == q;
      OnlyProcessedHasId(requests, id, now, k);
    }
  }

  /** After marking, the only row carrying the id is the processed one. */
  lemma OnlyProcessedHasId(requests: seq<AuthRequest>, id: string, now: string, k: nat)
    requires UniqueIds(requests)
    requires exists i :: 0 <= i < |requests| && requests[i].id == id
    ensures var r := MarkProcessed(requests, id, now);
      r.Ok? && (k < |r.value| && r.value[k].id == id ==> r.value[k].status == Processed)
  {
    var r := MarkProcessed(requests, id, now);
    var i := FindIndex(requests, (q: AuthRequest) => HasId(q, id)).value;
    if k < |r.value| && k != i {
      assert r.value[k] == requests[k];
    }
  }
}

=== FILE: brace_checker.dfy ===
/** The delimiter-balance checker of `check_braces.py`: one left-to-right
    pass over the text, split into `'\n'`-separated lines, with a LIFO stack
    of openers and their 1-based (line, column) positions. The printed lines
    are modelled as a sequence of `Diag` values; `Render` gives their text. */
module BraceChecker {
  import opened Wrappers
  import opened Strings
  import Seqs

  /** A 1-based position: line number and column within that line. */
  datatype Pos = Pos(line: nat, col: nat)

  /** A stack entry: an opening character and where it was read. */
  datatype Entry = Entry(opener: char, at: Pos)

  /** One printed line of the report. */
  datatype Diag =
    | Extra(closer: char, at: Pos)
    | Mismatched(opener: char, closer: char, at: Pos)
    | Unclosed(opener: char, at: Pos)
    | Balanced

  datatype State = State(stack: seq<Entry>, out: seq<Diag>)

  const Start := State([], [])

  predicate IsOpener(c: char) {
    c == '{' || c == '(' || c == '['
  }

  predicate IsCloser(c: char) {
    c == '}' || c == ')' || c == ']'
  }

  /** The `pairs` table: the closer that matches each opener. Only openers
      are ever pushed, so the last case is never reached from a scan. */
  function Partner(o: char): (c: char)
    ensures IsOpener(o) ==> IsCloser(c)
  {
    match o
    case '{' => '}'
    case '(' => ')'
    case '[' => ']'
    case _ => o
  }

  /** The effect of reading one character at position `p`. */
  function Step(st: State, c: char, p: Pos): (r: State)
    ensures !IsOpener(c) && !IsCloser(c) ==> r == st
    ensures IsOpener(c) ==> r.stack == st.stack + [Entry(c, p)] && r.out == st.out
    ensures IsCloser(c) && |st.stack| == 0 ==> r.stack == st.stack && r.out == st.out + [Extra(c, p)]
    ensures IsCloser(c) && |st.stack| > 0 ==> r.stack == st.stack[..|st.stack| - 1]
    ensures IsCloser(c) && |st.stack| > 0 ==>
      var top := st.stack[|st.stack| - 1].opener;
      r.out == if Partner(top) == c then st.out else st.out + [Mismatched(top, c, p)]
  {
    if IsOpener(c) then State(st.stack + [Entry(c, p)], st.out)
    else if IsCloser(c) then
      if |st.stack| == 0 then State(st.stack, st.out + [Extra(c, p)])
      else
        var top := st.stack[|st.stack| - 1];
        var popped := st.stack[..|st.stack| - 1];
        if Partner(top.opener) != c then State(popped, st.out + [Mismatched(top.opener, c, p)])
        else State(popped, st.out)
    else st
  }

  /** The inner loop: the characters of one line, from column `col` on. */
  function ScanLine(st: State, line: string, ln: nat, col: nat): State
    decreases |line|
  {
    if |line| == 0 then st
    else ScanLine(Step(st, line[0], Pos(ln, col)), line[1..], ln, col + 1)
  }

  /** The outer loop: the lines, numbered from `ln` on. */
  function ScanLines(st: State, lines: seq<string>, ln: nat): State
    decreases |lines|
  {
    if |lines| == 0 then st
    else ScanLines(ScanLine(st, lines[0], ln, 1), lines[1..], ln + 1)
  }

  /** The final block: one Unclosed line per stack entry, bottom first, or the balanced line. */
  function Report(st: State): (r: seq<Diag>)
    ensures |st.stack| == 0 ==> r == st.out + [Balanced]
    ensures |st.stack| > 0 ==> |r| == |st.out| + |st.stack| && r[..|st.out|] == st.out
    ensures |st.stack| > 0 ==> forall k :: 0 <= k < |st.stack| ==>
      r[|st.out| + k] == Unclosed(st.stack[k].opener, st.stack[k].at)
  {
    if |st.stack| == 0 then st.out + [Balanced]
    else st.out + seq(|st.stack|, k requires 0 <= k < |st.stack| => Unclosed(st.stack[k].opener, st.stack[k].at))
  }

  function Lines(content: string): seq<string> {
    Split(content, "\n")
  }

  /** The whole script, as a function of the file's content. */
  function Check(content: string): seq<Diag> {
    Report(ScanLines(Start, Lines(content), 1))
  }

  /** The script's loops, written as loops; the result equals `Check`. */
  method CheckBraces(content: string) returns (out: seq<Diag>)
    ensures out == Check(content)
  {
    var lines := Lines(content);
    var st := Start;
    var i := 0;
    while i < |lines|
      invariant 0 <= i <= |lines|
      invariant ScanLines(Start, lines, 1) == ScanLines(st, lines[i..], i + 1)
    {
      var line := lines[i];
      var j := 0;
      var cur := st;
      while j < |line|
        invariant 0 <= j <= |line|
        invariant ScanLine(st, line, i + 1, 1) == ScanLine(cur, line[j..], i + 1, j + 1)
      {
        assert line[j..][1..] == line[j + 1..];
        cur := Step(cur, line[j], Pos(i + 1, j + 1));
        j := j + 1;
      }
      assert lines[i..][1..] == lines[i + 1..];
      st := cur;
      i := i + 1;
    }
    out := Report(st);
  }

  // ------------------------------------------------------- character-level reading

  /** An independent reading of positions: walk the text one character at a
      time, moving to the next line (column 1) on each `'\n'`. */
  function Walk(st: State, s: string, ln: nat, col: nat): State
    decreases |s|
  {
    if |s| == 0 then st
    else if s[0] == '\n' then Walk(st, s[1..], ln + 1, 1)
    else Walk(Step(st, s[0], Pos(ln, col)), s[1..], ln, col + 1)
  }

  lemma {:induction false} WalkLine(st: State, a: string, b: string, ln: nat, col: nat)
    requires '\n' !in a
    ensures Walk(st, a + b, ln, col) == Walk(ScanLine(st, a, ln, col), b, ln, col + |a|)
    decreases |a|
  {
    if |a| == 0 {
      assert a + b == b;
    } else {
      assert (a + b)[0] == a[0];
      assert (a + b)[1..] == a[1..] + b;
      WalkLine(Step(st, a[0], Pos(ln, col)), a[1..], b, ln, col + 1);
    }
  }

  lemma NoNewlineBefore(s: string, i: nat)
    requires i <= |s|
    requires forall j: nat :: j < i ==> !OccursAt(s, "\n", j)
    ensures '\n' !in s[..i]
  {
    forall k | 0 <= k < i
      ensures s[k] != '\n'
    {
      assert !OccursAt(s, "\n", k);
      assert s[k..k + 1] == [s[k]];
    }
  }

  /** Splitting on `'\n'` and numbering lines and columns from 1 gives exactly
      the positions of the character walk. */
  lemma {:induction false} LinesAgreeWithWalk(st: State, s: string, ln: nat)
    ensures ScanLines(st, Split(s, "\n"), ln) == Walk(st, s, ln, 1)
    decreases |s|
  {
    match IndexOf(s, "\n")
    case None =>
      NoNewlineBefore(s, |s|);
      assert s[..|s|] == s;
      WalkLine(st, s, "", ln, 1);
      assert s + "" == s;
    case Some(i) =>
      SplitAt(s, "\n", i);
      var line := s[..i];
      var rest := s[i + 1..];
      NoNewlineBefore(s, i);
      assert s[i..i + 1] == "\n";
      assert s == line + ("\n" + rest);
      WalkLine(st, line, "\n" + rest, ln, 1);
      LinesAgreeWithWalk(ScanLine(st, line, ln, 1), rest, ln + 1);
      assert ("\n" + rest)[1..] == rest;
      assert ([line] + Split(rest, "\n"))[1..] == Split(rest, "\n");
  }

  /** `Check` in terms of the character walk. */
  lemma CheckIsWalk(content: string)
    ensures Check(content) == Report(Walk(Start, content, 1, 1))
  {
    LinesAgreeWithWalk(Start, content, 1);
  }

  // ------------------------------------------------------- properties

  /** The character at a 1-based position, if the position exists. */
  predicate CharAt(lines: seq<string>, p: Pos, c: char) {
    1 <= p.line <= |lines| && 1 <= p.col <= |lines[p.line - 1]| && lines[p.line - 1][p.col - 1] == c
  }

  /** Every diagnostic and stack entry names a delimiter at its own position:
      Extra and Mismatched carry the closer read there, stack entries the opener. */
  ghost predicate Faithful(lines: seq<string>, st: State) {
    (forall k :: 0 <= k < |st.stack| ==>
      IsOpener(st.stack[k].opener) && CharAt(lines, st.stack[k].at, st.stack[k].opener)) &&
    (forall k :: 0 <= k < |st.out| ==> FaithfulDiag(lines, st.out[k]))
  }

  ghost predicate FaithfulDiag(lines: seq<string>, d: Diag) {
    match d
    case Extra(c, p) => IsCloser(c) && CharAt(lines, p, c)
    case Mismatched(o, c, p) => IsOpener(o) && IsCloser(c) && Partner(o) != c && CharAt(lines, p, c)
    case Unclosed(o, p) => IsOpener(o) && CharAt(lines, p, o)
    case Balanced => true
  }

  lemma {:induction false} ScanLineFaithful(lines: seq<string>, st: State, ln: nat, col: nat)
    requires 1 <= ln <= |lines| && 1 <= col <= |lines[ln - 1]| + 1
    requires Faithful(lines, st)
    ensures Faithful(lines, ScanLine(st, lines[ln - 1][col - 1..], ln, col))
    decreases |lines[ln - 1]| - col
  {
    var line := lines[ln - 1][col - 1..];
    if |line| > 0 {
      var c := line[0];
      assert CharAt(lines, Pos(ln, col), c);
      var st' := Step(st, c, Pos(ln, col));
      assert Faithful(lines, st');
      assert line[1..] == lines[ln - 1][col..];
      ScanLineFaithful(lines, st', ln, col + 1);
    }
  }

  lemma {:induction false} ScanLinesFaithful(lines: seq<string>, st: State, ln: nat)
    requires 1 <= ln <= |lines| + 1
    requires Faithful(lines, st)
    ensures Faithful(lines, ScanLines(st, lines[ln - 1..], ln))
    decreases |lines| - ln
  {
    if ln <= |lines| {
      assert lines[ln - 1][0..] == lines[ln - 1];
      ScanLineFaithful(lines, st, ln, 1);
      assert lines[ln - 1..][1..] == lines[ln..];
      ScanLinesFaithful(lines, ScanLine(st, lines[ln - 1], ln, 1), ln + 1);
    }
  }

  /** Only the six delimiters produce output, and each printed position holds
      the character the line names. */
  lemma CheckFaithful(content: string)
    ensures forall k :: 0 <= k < |Check(content)| ==> FaithfulDiag(Lines(content), Check(content)[k])
  {
    var lines := Lines(content);
    assert lines[0..] == lines;
    ScanLinesFaithful(lines, Start, 1);
  }

  /** Position order, as in reading order. */
  predicate Before(p: Pos, q: Pos) {
    p.line < q.line || (p.line == q.line && p.col < q.col)
  }

  /** Stack positions strictly increase from bottom to top and precede `next`. */
  ghost predicate Ordered(stack: seq<Entry>, next: Pos) {
    (forall a, b :: 0 <= a < b < |stack| ==> Before(stack[a].at, stack[b].at)) &&
    (forall a :: 0 <= a < |stack| ==> Before(stack[a].at, next))
  }

  lemma {:induction false} ScanLineOrdered(st: State, line: string, ln: nat, col: nat)
    requires Ordered(st.stack, Pos(ln, col))
    ensures Ordered(ScanLine(st, line, ln, col).stack, Pos(ln, col + |line|))
    decreases |line|
  {
    if |line| > 0 {
      var st' := Step(st, line[0], Pos(ln, col));
      assert Ordered(st'.stack, Pos(ln, col + 1));
      ScanLineOrdered(st', line[1..], ln, col + 1);
    }
  }

  lemma {:induction false} ScanLinesOrdered(st: State, lines: seq<string>, ln: nat)
    requires Ordered(st.stack, Pos(ln, 1))
    ensures Ordered(ScanLines(st, lines, ln).stack, Pos(ln + |lines|, 1))
    decreases |lines|
  {
    if |lines| > 0 {
      ScanLineOrdered(st, lines[0], ln, 1);
      var st' := ScanLine(st, lines[0], ln, 1);
      assert Ordered(st'.stack, Pos(ln + 1, 1));
      ScanLinesOrdered(st', lines[1..], ln + 1);
    }
  }

  /** The Unclosed lines come out oldest first, in text order. */
  lemma UnclosedInTextOrder(content: string)
    ensures var st := ScanLines(Start, Lines(content), 1);
      forall a, b :: 0 <= a < b < |st.stack| ==> Before(st.stack[a].at, st.stack[b].at)
  {
    ScanLinesOrdered(Start, Lines(content), 1);
  }

  /** The balanced line appears iff the final stack is empty, and then it is the
      only line after the scan's own diagnostics; otherwise every final line is Unclosed. */
  lemma BalancedIffEmpty(content: string)
    ensures var st := ScanLines(Start, Lines(content), 1);
      var r := Check(content);
      (Balanced in r <==> |st.stack| == 0) &&
      (|st.stack| == 0 ==> r[|r| - 1] == Balanced && |r| == |st.out| + 1) &&
      (|st.stack| > 0 ==> forall k :: |st.out| <= k < |r| ==> r[k].Unclosed?)
  {
    var st := ScanLines(Start, Lines(content), 1);
    ScanLinesNoBalanced(Start, Lines(content), 1);
    var r := Check(content);
    if |st.stack| > 0 {
      forall k | 0 <= k < |r|
        ensures r[k] != Balanced
      {
        if k >= |st.out| {
          assert r[|st.out| + (k - |st.out|)].Unclosed?;
        } else {
          assert r[k] == st.out[k];
        }
      }
    }
  }

  ghost predicate NoBalanced(st: State) {
    forall k :: 0 <= k < |st.out| ==> st.out[k] != Balanced
  }

  lemma {:induction false} ScanLineNoBalanced(st: State, line: string, ln: nat, col: nat)
    requires NoBalanced(st)
    ensures NoBalanced(ScanLine(st, line, ln, col))
    decreases |line|
  {
    if |line| > 0 {
      ScanLineNoBalanced(Step(st, line[0], Pos(ln, col)), line[1..], ln, col + 1);
    }
  }

  lemma {:induction false} ScanLinesNoBalanced(st: State, lines: seq<string>, ln: nat)
    requires NoBalanced(st)
    ensures NoBalanced(ScanLines(st, lines, ln))
    decreases |lines|
  {
    if |lines| > 0 {
      ScanLineNoBalanced(st, lines[0], ln, 1);
      ScanLinesNoBalanced(ScanLine(st, lines[0], ln, 1), lines[1..], ln + 1);
    }
  }

  /** Stack depth moves by one per delimiter: up for an opener, down for a
      closer on a non-empty stack, unchanged otherwise. */
  lemma StepDepth(st: State, c: char, p: Pos)
    ensures |Step(st, c, p).stack| ==
      if IsOpener(c) then |st.stack| + 1
      else if IsCloser(c) && |st.stack| > 0 then |st.stack| - 1
      else |st.stack|
  {
  }

  /** A lone closer is extra, yet the stack ends empty, so the balanced line follows. */
  lemma ExampleExtra()
    ensures Check(")") == [Extra(')', Pos(1, 1)), Balanced]
  {
    ContainsChar(")", '\n');
  }

  /** A mismatch pops its opener, so the balanced line still follows. */
  lemma ExampleMismatch()
    ensures Check("(]") == [Mismatched('(', ']', Pos(1, 2)), Balanced]
  {
    ContainsChar("(]", '\n');
    assert "(]"[1..] == "]";
  }

  /** An opener on line 1 closed on line 2 is balanced. */
  lemma ExampleClosedNextLine()
    ensures Check("(\n)") == [Balanced]
  {
    assert "(\n)"[1..2] == "\n";
    assert "(\n)"[0..1] == "(";
    IndexOfIs("(\n)", "\n", 1);
    assert "(\n)"[2..] == ")";
    ContainsChar(")", '\n');
  }

  /** An opener left open is reported where it was read. */
  lemma ExampleUnclosed()
    ensures Check("x(") == [Unclosed('(', Pos(1, 2))]
  {
    ContainsChar("x(", '\n');
    assert "x("[1..] == "(";
  }

  // ------------------------------------------------------- nesting

  predicate IsDelim(c: char) {
    IsOpener(c) || IsCloser(c)
  }

  /** The delimiters of a text, in order; every other character is dropped. */
  function Delims(s: string): (r: string)
    ensures forall i :: 0 <= i < |r| ==> IsDelim(r[i])
  {
    Seqs.Filter(s, IsDelim)
  }

  /** Correct nesting by the grammar, with no stack in sight: the empty text,
      or an opener, a correctly nested text, the opener's partner, and a
      correctly nested rest. */
  ghost predicate WellNested(w: string)
    decreases |w|
  {
    |w| == 0 ||
    (IsOpener(w[0]) &&
     exists i :: 1 <= i < |w| && w[i] == Partner(w[0]) && WellNested(w[1..i]) && WellNested(w[i + 1..]))
  }

  /** The stack discipline on characters alone, with no positions and no
      report: the openers still open at the end, or None from the first
      closer that finds no opener or the wrong one. */
  function Reduce(stk: string, w: string): Option<string>
    decreases |w|
  {
    if |w| == 0 then Some(stk)
    else if IsOpener(w[0]) then Reduce(stk + [w[0]], w[1..])
    else if IsCloser(w[0]) then
      if |stk| == 0 || Partner(stk[|stk| - 1]) != w[0] then None
      else Reduce(stk[..|stk| - 1], w[1..])
    else Reduce(stk, w[1..])
  }

  /** The opening characters of a stack, bottom first. */
  function Openers(stack: seq<Entry>): (r: string)
    ensures |r| == |stack|
    ensures forall k :: 0 <= k < |stack| ==> r[k] == stack[k].opener
  {
    seq(|stack|, k requires 0 <= k < |stack| => stack[k].opener)
  }

  /** Characters other than delimiters do not affect the discipline. */
  lemma {:induction false} ReduceDelims(stk: string, s: string)
    ensures Reduce(stk, s) == Reduce(stk, Delims(s))
    decreases |s|
  {
    if |s| > 0 {
      ReduceDelims(if IsOpener(s[0]) then stk + [s[0]]
                   else if IsCloser(s[0]) && |stk| > 0 then stk[..|stk| - 1]
                   else stk, s[1..]);
      ReduceDelims(stk, s[1..]);
      if IsDelim(s[0]) {
        assert Delims(s) == [s[0]] + Delims(s[1..]);
        assert Delims(s)[1..] == Delims(s[1..]);
      }
    }
  }

  /** Diagnostics are never taken back. */
  lemma {:induction false} WalkKeepsOut(st: State, s: string, ln: nat, col: nat)
    ensures |Walk(st, s, ln, col).out| >= |st.out|
    decreases |s|
  {
    if |s| > 0 {
      if s[0] == '\n' {
        WalkKeepsOut(st, s[1..], ln + 1, 1);
      } else {
        WalkKeepsOut(Step(st, s[0], Pos(ln, col)), s[1..], ln, col + 1);
      }
    }
  }

  /** From a clean state, the walk stays clean exactly when the discipline
      never fails, and then it leaves the same openers open. */
  lemma {:induction false} WalkReduce(st: State, s: string, ln: nat, col: nat)
    requires st.out == []
    ensures var r := Walk(st, s, ln, col);
      (r.out == [] <==> Reduce(Openers(st.stack), s).Some?) &&
      (r.out == [] ==> Reduce(Openers(st.stack), s) == Some(Openers(r.stack)))
    decreases |s|
  {
    if |s| > 0 {
      var c := s[0];
      var stk := Openers(st.stack);
      if c == '\n' {
        WalkReduce(st, s[1..], ln + 1, 1);
      } else {
        var st1 := Step(st, c, Pos(ln, col));
        if IsOpener(c) {
          assert Openers(st1.stack) == stk + [c];
          WalkReduce(st1, s[1..], ln, col + 1);
        } else if IsCloser(c) {
          if |st.stack| == 0 || Partner(stk[|stk| - 1]) != c {
            WalkKeepsOut(st1, s[1..], ln, col + 1);
          } else {
            assert Openers(st1.stack) == stk[..|stk| - 1];
            WalkReduce(st1, s[1..], ln, col + 1);
          }
        } else {
          WalkReduce(st1, s[1..], ln, col + 1);
        }
      }
    }
  }

  lemma ReduceOpen(stk: string, o: char, x: string)
    requires IsOpener(o)
    ensures Reduce(stk, [o] + x) == Reduce(stk + [o], x)
  {
    assert ([o] + x)[1..] == x;
  }

  lemma ReduceClose(stk: string, o: char, y: string)
    requires IsOpener(o)
    ensures Reduce(stk + [o], [Partner(o)] + y) == Reduce(stk, y)
  {
    assert ([Partner(o)] + y)[1..] == y;
    assert (stk + [o])[..|stk|] == stk;
  }

  /** One production of the grammar, as a rule to apply. */
  lemma NestedBuild(w: string, i: nat)
    requires 1 <= i < |w| && IsOpener(w[0]) && w[i] == Partner(w[0])
    requires WellNested(w[1..i]) && WellNested(w[i + 1..])
    ensures WellNested(w)
  {
  }

  /** The production a non-empty correctly nested text was built by. */
  lemma NestedSplit(w: string) returns (i: nat)
    requires WellNested(w) && |w| > 0
    ensures 1 <= i < |w| && IsOpener(w[0]) && w[i] == Partner(w[0])
    ensures WellNested(w[1..i]) && WellNested(w[i + 1..])
  {
    i :| 1 <= i < |w| && w[i] == Partner(w[0]) && WellNested(w[1..i]) && WellNested(w[i + 1..]);
  }

  /** A text cut around the character at `i`. */
  lemma CutAround(w: string, i: nat, rest: string)
    requires 1 <= i < |w|
    ensures w + rest == [w[0]] + (w[1..i] + ([w[i]] + (w[i + 1..] + rest)))
  {
  }

  /** A correctly nested text leaves the stack as it found it. */
  lemma {:induction false} NestedReduces(stk: string, w: string, rest: string)
    requires WellNested(w)
    ensures Reduce(stk, w + rest) == Reduce(stk, rest)
    decreases |w|
  {
    if |w| == 0 {
      assert w + rest == rest;
    } else {
      var i := NestedSplit(w);
      var o, inner, tail := w[0], w[1..i], w[i + 1..];
      CutAround(w, i, rest);
      ReduceOpen(stk, o, inner + ([Partner(o)] + (tail + rest)));
      NestedReduces(stk + [o], inner, [Partner(o)] + (tail + rest));
      ReduceClose(stk, o, tail + rest);
      NestedReduces(stk, tail, rest);
    }
  }

  /** Inserting a matched pair anywhere keeps a text correctly nested. */
  lemma {:induction false} InsertPair(a: string, b: string, o: char)
    requires IsOpener(o) && WellNested(a + b)
    ensures WellNested(a + [o, Partner(o)] + b)
    decreases |a| + |b|
  {
    var w := a + b;
    var v := a + [o, Partner(o)] + b;
    if |a| == 0 {
      assert v == [o, Partner(o)] + b;
      assert v[1..1] == [] && v[2..] == w;
      NestedBuild(v, 1);
    } else {
      var i := NestedSplit(w);
      if |a| <= i {
        InsertInner(a, b, o, i);
      } else {
        InsertTail(a, b, o, i);
      }
    }
  }

  /** Where the pieces of `a + b` land once `x` is put between them, for a cut
      at `i` at or after the insertion point. */
  lemma InnerSlices(a: string, b: string, x: string, i: nat)
    requires 1 <= |a| <= i < |a + b|
    ensures var w, v := a + b, a + x + b;
      && v[0] == w[0] && v[i + |x|] == w[i]
      && (a + b)[1..i] == a[1..] + b[..i - |a|]
      && v[1..i + |x|] == a[1..] + x + b[..i - |a|]
      && v[i + |x| + 1..] == w[i + 1..]
  {
    var w, v := a + b, a + x + b;
    assert v[i + |x| + 1..] == b[i + 1 - |a|..] == w[i + 1..];
  }

  /** The same, for a cut before the insertion point. */
  lemma TailSlices(a: string, b: string, x: string, i: nat)
    requires 1 <= i < |a|
    ensures var w, v := a + b, a + x + b;
      && v[0] == w[0] && v[i] == w[i] && v[1..i] == w[1..i]
      && w[i + 1..] == a[i + 1..] + b
      && v[i + 1..] == a[i + 1..] + x + b
  {
  }

  lemma {:induction false} InsertInner(a: string, b: string, o: char, i: nat)
    requires IsOpener(o) && 1 <= |a| <= i < |a + b|
    requires (a + b)[i] == Partner((a + b)[0]) && IsOpener((a + b)[0])
    requires WellNested((a + b)[1..i]) && WellNested((a + b)[i + 1..])
    ensures WellNested(a + [o, Partner(o)] + b)
    decreases |a| + |b|, 0
  {
    var x := [o, Partner(o)];
    InnerSlices(a, b, x, i);
    InsertPair(a[1..], b[..i - |a|], o);
    NestedBuild(a + x + b, i + 2);
  }

  lemma {:induction false} InsertTail(a: string, b: string, o: char, i: nat)
    requires IsOpener(o) && 1 <= i < |a|
    requires (a + b)[i] == Partner((a + b)[0]) && IsOpener((a + b)[0])
    requires WellNested((a + b)[1..i]) && WellNested((a + b)[i + 1..])
    ensures WellNested(a + [o, Partner(o)] + b)
    decreases |a| + |b|, 0
  {
    var x := [o, Partner(o)];
    TailSlices(a, b, x, i);
    InsertPair(a[i + 1..], b, o);
    NestedBuild(a + x + b, i);
  }

  /** A delimiter text that the discipline runs down to an empty stack,
      read after the openers already on it, is correctly nested. */
  lemma {:induction false} ReducesNested(stk: string, w: string)
    requires forall k :: 0 <= k < |stk| ==> IsOpener(stk[k])
    requires forall k :: 0 <= k < |w| ==> IsDelim(w[k])
    requires Reduce(stk, w) == Some([])
    ensures WellNested(stk + w)
    decreases |w|
  {
    if |w| == 0 {
      assert stk + w == stk;
    } else if IsOpener(w[0]) {
      ReducesNested(stk + [w[0]], w[1..]);
      assert stk + [w[0]] + w[1..] == stk + w;
    } else {
      var pre := stk[..|stk| - 1];
      var o := stk[|stk| - 1];
      ReducesNested(pre, w[1..]);
      InsertPair(pre, w[1..], o);
      PairRegroup(stk, w);
    }
  }

  lemma PairRegroup(stk: string, w: string)
    requires |stk| > 0 && |w| > 0 && w[0] == Partner(stk[|stk| - 1])
    ensures stk[..|stk| - 1] + [stk[|stk| - 1], Partner(stk[|stk| - 1])] + w[1..] == stk + w
  {
    assert stk == stk[..|stk| - 1] + [stk[|stk| - 1]];
    assert w == [w[0]] + w[1..];
  }

  /** The report is the balanced line alone exactly when the scan found
      nothing to say and left nothing open. */
  lemma ReportBalancedOnly(st: State)
    ensures Report(st) == [Balanced] <==> st.stack == [] && st.out == []
  {
    if |st.stack| > 0 && |Report(st)| == 1 {
      assert Report(st)[|st.out| + 0] == Unclosed(st.stack[0].opener, st.stack[0].at);
    }
  }

  /** The checker's verdict against the grammar, both ways: the file gets the
      balanced line and nothing else exactly when its delimiters, read alone,
      are correctly nested. */
  lemma CheckBalancedIffNested(content: string)
    ensures Check(content) == [Balanced] <==> WellNested(Delims(content))
  {
    var w := Delims(content);
    var st := Walk(Start, content, 1, 1);
    CheckIsWalk(content);
    ReportBalancedOnly(st);
    WalkReduce(Start, content, 1, 1);
    assert Openers(Start.stack) == [];
    ReduceDelims([], content);
    if WellNested(w) {
      NestedReduces([], w, []);
      assert w + [] == w;
    }
    if Reduce([], w) == Some([]) {
      ReducesNested([], w);
      assert [] + w == w;
    }
  }

  // ------------------------------------------------------- rendering

  function Render(d: Diag): string {
    match d
    case Extra(c, p) => "Extra closing " + [c] + " at line " + NatText(p.line) + ", col " + NatText(p.col)
    case Mismatched(o, c, p) =>
      "Mismatched " + [o] + " and " + [c] + " at line " + NatText(p.line) + ", col " + NatText(p.col)
    case Unclosed(o, p) => "Unclosed opening " + [o] + " at line " + NatText(p.line) + ", col " + NatText(p.col)
    case Balanced => "All brackets, parens and braces are balanced!"
  }

  lemma RenderExample()
    ensures Render(Mismatched('(', ']', Pos(1, 12))) == "Mismatched ( and ] at line 1, col 12"
  {
    NatTextExample();
  }
}

=== FILE: dashboard.dfy ===
/** The operational dashboard (`pages/Dashboard.tsx`): open receivables and
    payables, sales, and the low-stock list. The three lists are the
    tenant's rows as `db.queryTenant` returns them. */
module Dashboard {
  import opened Seqs
  import opened Records

  /** The `tipo` values that are money to receive. */
  predicate ReceivableKind(tipo: string) {
    tipo == "vendas" || tipo == "pagamento" || tipo == "entrada"
  }

  /** The `tipo` values that are money to pay. */
  predicate PayableKind(tipo: string) {
    tipo == "compras" || tipo == "despesa" || tipo == "sangria"
  }

  predicate OpenReceivable(f: FinancialRecord) {
    ReceivableKind(f.tipo) && f.status != Paid
  }

  predicate OpenPayable(f: FinancialRecord) {
    PayableKind(f.tipo) && f.status != Paid
  }

  function Valor(f: FinancialRecord): int { f.valor }

  /** `totalReceivable`. */
  function TotalReceivable(financials: seq<FinancialRecord>): (r: int)
    ensures (forall i :: 0 <= i < |financials| ==> financials[i].valor >= 0) ==> r >= 0
  {
    SumNonNegative(Filter(financials, OpenReceivable));
    Sum(Filter(financials, OpenReceivable), Valor)
  }

  /** `totalPayable`. */
  function TotalPayable(financials: seq<FinancialRecord>): (r: int)
    ensures (forall i :: 0 <= i < |financials| ==> financials[i].valor >= 0) ==> r >= 0
  {
    SumNonNegative(Filter(financials, OpenPayable));
    Sum(Filter(financials, OpenPayable), Valor)
  }

  lemma {:induction false} SumNonNegative(fs: seq<FinancialRecord>)
    ensures (forall i :: 0 <= i < |fs| ==> fs[i].valor >= 0) ==> Sum(fs, Valor) >= 0
    decreases |fs|
  {
    if |fs| > 0 {
      SumNonNegative(fs[1..]);
    }
  }

  /** No kind is both: a record counts toward at most one total, and a
      cash supply (`suprimento`) toward neither. */
  lemma KindsDisjoint(tipo: string)
    ensures !(ReceivableKind(tipo) && PayableKind(tipo))
    ensures !ReceivableKind("suprimento") && !PayableKind("suprimento")
  {
  }

  /** The two totals together are the open amount of the receivable and
      payable kinds: splitting the records by kind loses and repeats
      nothing. */
  lemma {:induction false} TotalsSplitOpen(financials: seq<FinancialRecord>)
    ensures TotalReceivable(financials) + TotalPayable(financials) ==
      Sum(financials, (f: FinancialRecord) => if OpenReceivable(f) || OpenPayable(f) then f.valor else 0)
    decreases |financials|
  {
    if |financials| > 0 {
      TotalsSplitOpen(financials[1..]);
    }
  }

  /** Settling a record (status `paid`) takes its amount off whichever
      total held it and leaves the other alone. */
  lemma SettlingRemovesFromTotals(a: seq<FinancialRecord>, f: FinancialRecord, b: seq<FinancialRecord>)
    requires f.status != Paid
    ensures TotalReceivable(a + [f.(status := Paid)] + b) ==
      TotalReceivable(a + [f] + b) - (if ReceivableKind(f.tipo) then f.valor else 0)
    ensures TotalPayable(a + [f.(status := Paid)] + b) ==
      TotalPayable(a + [f] + b) - (if PayableKind(f.tipo) then f.valor else 0)
  {
    var g := f.(status := Paid);
    SplitSum(a, f, b, OpenReceivable);
    SplitSum(a, g, b, OpenReceivable);
    SplitSum(a, f, b, OpenPayable);
    SplitSum(a, g, b, OpenPayable);
  }

  lemma SplitSum(a: seq<FinancialRecord>, f: FinancialRecord, b: seq<FinancialRecord>, p: FinancialRecord -> bool)
    ensures Sum(Filter(a + [f] + b, p), Valor) ==
      Sum(Filter(a, p), Valor) + (if p(f) then f.valor else 0) + Sum(Filter(b, p), Valor)
  {
    FilterAppend(a + [f], b, p);
    FilterAppend(a, [f], p);
    SumAppend(Filter(a, p) + Filter([f], p), Filter(b, p), Valor);
    SumAppend(Filter(a, p), Filter([f], p), Valor);
  }

  predicate IsSale(t: Transaction) {
    t.natureza == Entrada
  }

  function TxValor(t: Transaction): int { t.valor }

  /** `totalSales`: transactions of nature ENTRADA, whatever their status. */
  function TotalSales(transactions: seq<Transaction>): (r: int)
    ensures (forall i :: 0 <= i < |transactions| ==> transactions[i].natureza != Entrada) ==> r == 0
  {
    NoSalesNoFilter(transactions);
    Sum(Filter(transactions, IsSale), TxValor)
  }

  lemma {:induction false} NoSalesNoFilter(transactions: seq<Transaction>)
    ensures (forall i :: 0 <= i < |transactions| ==> transactions[i].natureza != Entrada) ==>
      Filter(transactions, IsSale) == []
    decreases |transactions|
  {
    if |transactions| > 0 {
      NoSalesNoFilter(transactions[1..]);
    }
  }

  /** Recording one more transaction adds its value to the sales exactly
      when it is an ENTRADA. */
  lemma SalesAppend(transactions: seq<Transaction>, t: Transaction)
    ensures TotalSales(transactions + [t]) == TotalSales(transactions) + (if IsSale(t) then t.valor else 0)
  {
    FilterAppend(transactions, [t], IsSale);
    SumAppend(Filter(transactions, IsSale), Filter([t], IsSale), TxValor);
  }

  /** `m.stock <= (m.minStock || 0)`: only the camelCase threshold is read. */
  predicate IsLowStock(m: Material) {
    m.stock <= m.minStock
  }

  /** `lowStock`. */
  function LowStock(materials: seq<Material>): (r: seq<Material>)
    ensures IsSubseq(r, materials)
    ensures forall m :: m in r <==> m in materials && m.stock <= m.minStock
  {
    Filter(materials, IsLowStock)
  }

  /** With no threshold set, only materials out of stock (or below zero)
      are listed. */
  lemma NoThresholdOnlyEmptyStock(materials: seq<Material>, m: Material)
    requires m in materials && m.minStock == 0
    ensures m in LowStock(materials) <==> m.stock <= 0
  {
  }
}

=== FILE: documents.dfy ===
/** The Brazilian document validators of the registration form
    (`validateCPF`, `validateCNPJ`, `validatePhone`) and the way registration
    picks between them. JavaScript's `parseInt` of a non-digit character is
    NaN, and NaN poisons every later sum and comparison; the model spells
    NaN as `None`. */
module Documents {
  import opened Wrappers
  import opened Strings

  /** Σ digit(ds[k]) * ws[k]. */
  function Dot(ds: string, ws: seq<int>): int
    requires |ds| == |ws| && AllDigits(ds)
    decreases |ds|
  {
    if |ds| == 0 then 0 else DigitValue(ds[0]) * ws[0] + Dot(ds[1..], ws[1..])
  }

  lemma {:induction false} DotAppend(a: string, b: string, wa: seq<int>, wb: seq<int>)
    requires |a| == |wa| && |b| == |wb| && AllDigits(a) && AllDigits(b)
    ensures AllDigits(a + b) && Dot(a + b, wa + wb) == Dot(a, wa) + Dot(b, wb)
    decreases |a|
  {
    if |a| == 0 {
      assert a + b == b && wa + wb == wb;
    } else {
      assert (a + b)[1..] == a[1..] + b;
      assert (wa + wb)[1..] == wa[1..] + wb;
      DotAppend(a[1..], b, wa[1..], wb);
    }
  }

  /** `n, n-1, …` for `len` terms: the CPF weights. */
  function Descending(n: int, len: nat): (ws: seq<int>)
    ensures |ws| == len
    ensures forall k :: 0 <= k < len ==> ws[k] == n - k
    decreases len
  {
    if len == 0 then [] else [n] + Descending(n - 1, len - 1)
  }

  /** The regular expression `^(\d)\1+$`: two or more copies of one digit. */
  predicate Repeated(s: string) {
    |s| >= 2 && forall k :: 0 <= k < |s| ==> s[k] == s[0]
  }

  // ------------------------------------------------------- CPF

  /** `rev = 11 - sum % 11`, with 10 and 11 read as 0. The weighted sums are
      never negative, so Dafny's `%` agrees with JavaScript's here. */
  function CpfCheck(sum: int): (d: int)
    ensures 0 <= d <= 9
  {
    var rev := 11 - sum % 11;
    if rev == 10 || rev == 11 then 0 else rev
  }

  /** `validateCPF`. */
  function ValidateCpf(cpf: string): bool {
    var c := Digits(cpf);
    if |c| != 11 then false
    else if Repeated(c) then false
    else
      CpfCheck(Dot(c[..9], Descending(10, 9))) == DigitValue(c[9]) &&
      CpfCheck(Dot(c[..10], Descending(11, 10))) == DigitValue(c[10])
  }

  lemma {:induction false} DotNonNegative(ds: string, ws: seq<int>)
    requires |ds| == |ws| && AllDigits(ds)
    requires forall k :: 0 <= k < |ws| ==> ws[k] >= 0
    ensures Dot(ds, ws) >= 0
    decreases |ds|
  {
    if |ds| > 0 {
      DotNonNegative(ds[1..], ws[1..]);
    }
  }

  /** The textbook CPF digit, `(10 * sum mod 11) mod 10`, is the source's rule. */
  lemma CpfCheckIsStandard(sum: nat)
    ensures CpfCheck(sum) == ((10 * sum) % 11) % 10
  {
    var q, r := sum / 11, sum % 11;
    assert sum == 11 * q + r;
    assert 10 * sum == 11 * (10 * q) + 10 * r;
    assert (10 * sum) % 11 == (10 * r) % 11;
    if r >= 2 {
      assert 10 * r == 11 * (r - 1) + (11 - r);
    } else if r == 1 {
      assert (10 * r) % 11 == 10;
    }
  }

  /** The result depends only on the digits of the input. */
  lemma CpfOnlyDigits(a: string, b: string)
    requires Digits(a) == Digits(b)
    ensures ValidateCpf(a) == ValidateCpf(b)
  {
  }

  /** A CPF is accepted exactly when its digits are eleven, not all alike, and
      both check digits follow the textbook rule. */
  lemma CpfIff(cpf: string)
    ensures ValidateCpf(cpf) <==>
      var c := Digits(cpf);
      |c| == 11 && !Repeated(c) &&
      DigitValue(c[9]) == ((10 * Dot(c[..9], Descending(10, 9))) % 11) % 10 &&
      DigitValue(c[10]) == ((10 * Dot(c[..10], Descending(11, 10))) % 11) % 10
  {
    var c := Digits(cpf);
    if |c| == 11 {
      DotNonNegative(c[..9], Descending(10, 9));
      DotNonNegative(c[..10], Descending(11, 10));
      CpfCheckIsStandard(Dot(c[..9], Descending(10, 9)));
      CpfCheckIsStandard(Dot(c[..10], Descending(11, 10)));
    }
  }

  /** A repeated digit is refused although its check digits fit the rule. */
  lemma CpfRepeatedRejected(cpf: string)
    requires cpf == "11111111111"
    ensures !ValidateCpf(cpf)
  {
    DigitsOfDigits(cpf);
    assert Repeated(cpf);
  }

  // ------------------------------------------------------- CNPJ

  /** The character at index `k` (`charAt`), `None` past the end. */
  function CharAt(s: string, k: nat): Option<char> {
    if k < |s| then Some(s[k]) else None
  }

  /** `parseInt` of one character: its value, or NaN. */
  function ParseDigit(c: Option<char>): (r: Option<nat>)
    ensures r.Some? ==> r.value < 10
  {
    if c.Some? && IsDigit(c.value) then Some(DigitValue(c.value)) else None
  }

  /** The weight after `pos`: it decreases and wraps from below 2 back to 9. */
  function NextPos(pos: int): int {
    if pos - 1 < 2 then 9 else pos - 1
  }

  /** The CNPJ loop `for (i = length; i >= 1; i--) { sum += parseInt(numbers.charAt(length - i)) * pos--; if (pos < 2) pos = 9; }`. */
  function CnpjLoop(numbers: string, length: nat, i: nat, pos: int, sum: Option<int>): Option<int>
    requires i <= length
    decreases i
  {
    if i < 1 then sum
    else
      var d := ParseDigit(CharAt(numbers, length - i));
      var sum' := if sum.Some? && d.Some? then Some(sum.value + d.value * pos) else None;
      CnpjLoop(numbers, length, i - 1, NextPos(pos), sum')
  }

  /** `sum % 11 < 2 ? 0 : 11 - sum % 11`; NaN stays NaN. */
  function CnpjCheck(sum: Option<int>): Option<int> {
    match sum
    case None => None
    case Some(s) => if s % 11 < 2 then Some(0) else Some(11 - s % 11)
  }

  /** `validateCNPJ` as written: the second digit's loop reads the raw input. */
  function ValidateCnpj(cnpj: string): bool {
    var c := Digits(cnpj);
    if |c| != 14 then false
    else if Repeated(c) then false
    else
      var first := CnpjCheck(CnpjLoop(c[..12], 12, 12, 5, Some(0)));
      if first != Some(DigitValue(c[12])) then false
      else
        var second := CnpjCheck(CnpjLoop(Prefix(cnpj, 13), 13, 13, 6, Some(0)));
        second == Some(DigitValue(c[13]))
  }

  /** The sequence of weights the loop uses, starting from `pos`. */
  function Weights(pos: int, n: nat): (ws: seq<int>)
    ensures |ws| == n
    decreases n
  {
    if n == 0 then [] else [pos] + Weights(NextPos(pos), n - 1)
  }

  const FirstWeights: seq<int> := [5, 4, 3, 2, 9, 8, 7, 6, 5, 4, 3, 2]
  const SecondWeights: seq<int> := [6, 5, 4, 3, 2, 9, 8, 7, 6, 5, 4, 3, 2]

  lemma WeightTables()
    ensures Weights(5, 12) == FirstWeights
    ensures Weights(6, 13) == SecondWeights
  {
  }

  /** On digits the loop computes the weighted sum. */
  lemma {:induction false} CnpjLoopDigits(numbers: string, length: nat, i: nat, pos: int, acc: int)
    requires i <= length <= |numbers| && AllDigits(numbers[length - i..length])
    ensures CnpjLoop(numbers, length, i, pos, Some(acc)) == Some(acc + Dot(numbers[length - i..length], Weights(pos, i)))
    decreases i
  {
    if i >= 1 {
      var ds := numbers[length - i..length];
      assert ds[0] == numbers[length - i];
      assert ds[1..] == numbers[length - (i - 1)..length];
      CnpjLoopDigits(numbers, length, i - 1, NextPos(pos), acc + DigitValue(numbers[length - i]) * pos);
    }
  }

  /** Once the sum is NaN it stays NaN. */
  lemma {:induction false} CnpjLoopNaN(numbers: string, length: nat, i: nat, pos: int)
    requires i <= length
    ensures CnpjLoop(numbers, length, i, pos, None) == None
    decreases i
  {
    if i >= 1 {
      CnpjLoopNaN(numbers, length, i - 1, NextPos(pos));
    }
  }

  /** A non-digit among the characters the loop reads makes the sum NaN. */
  lemma {:induction false} CnpjLoopNonDigit(numbers: string, length: nat, i: nat, pos: int, sum: Option<int>, k: nat)
    requires i <= length <= |numbers| && length - i <= k < length && !IsDigit(numbers[k])
    ensures CnpjLoop(numbers, length, i, pos, sum) == None
    decreases i
  {
    var d := ParseDigit(CharAt(numbers, length - i));
    var sum' := if sum.Some? && d.Some? then Some(sum.value + d.value * pos) else None;
    if k == length - i {
      CnpjLoopNaN(numbers, length, i - 1, NextPos(pos));
    } else {
      CnpjLoopNonDigit(numbers, length, i - 1, NextPos(pos), sum', k);
    }
  }

  /** The textbook CNPJ check digit over weights `ws`. */
  function StandardDigit(ds: string, ws: seq<int>): int
    requires |ds| == |ws| && AllDigits(ds)
  {
    var s := Dot(ds, ws);
    if s % 11 < 2 then 0 else 11 - s % 11
  }

  /** The textbook CNPJ rule on a string of digits. */
  predicate StandardCnpj(c: string)
    requires AllDigits(c)
  {
    |c| == 14 && !Repeated(c) &&
    StandardDigit(c[..12], FirstWeights) == DigitValue(c[12]) &&
    StandardDigit(c[..13], SecondWeights) == DigitValue(c[13])
  }

  /** The first loop computes the textbook first digit over the cleaned digits. */
  lemma FirstLoopStandard(c: string)
    requires |c| >= 12 && AllDigits(c[..12])
    ensures CnpjCheck(CnpjLoop(c[..12], 12, 12, 5, Some(0))) == Some(StandardDigit(c[..12], FirstWeights))
  {
    WeightTables();
    assert c[..12][0..12] == c[..12];
    CnpjLoopDigits(c[..12], 12, 12, 5, 0);
  }

  /** On a raw input whose first 13 characters are digits, the second loop
      computes the textbook second digit. */
  lemma SecondLoopStandard(raw: string)
    requires |raw| >= 13 && AllDigits(raw[..13])
    ensures CnpjCheck(CnpjLoop(Prefix(raw, 13), 13, 13, 6, Some(0))) == Some(StandardDigit(raw[..13], SecondWeights))
  {
    WeightTables();
    assert Prefix(raw, 13) == raw[..13];
    assert raw[..13][0..13] == raw[..13];
    CnpjLoopDigits(raw[..13], 13, 13, 6, 0);
  }

  /** On input made only of digits the routine is the textbook rule. */
  lemma CnpjDigitsStandard(cnpj: string)
    requires AllDigits(cnpj)
    ensures ValidateCnpj(cnpj) == StandardCnpj(cnpj)
  {
    DigitsOfDigits(cnpj);
    if |cnpj| == 14 {
      FirstLoopStandard(cnpj);
      SecondLoopStandard(cnpj);
    }
  }

  /** Any non-digit among the first 13 raw characters rejects the input, even
      when its digits form a valid CNPJ. */
  lemma CnpjRawNonDigit(cnpj: string, k: nat)
    requires k < 13 <= |cnpj| && !IsDigit(cnpj[k])
    ensures !ValidateCnpj(cnpj)
  {
    if |Digits(cnpj)| == 14 && !Repeated(Digits(cnpj)) {
      CnpjLoopNonDigit(Prefix(cnpj, 13), 13, 13, 6, Some(0), k);
    }
  }

  /** The number 11.222.333/0001-81 is a valid CNPJ by the textbook rule. The
      example is stated for a variable equal to the digits, which keeps the
      solver from unfolding the sums on its own. */
  lemma CnpjExampleStandard(c: string)
    requires c == "11222333000181"
    ensures AllDigits(c) && StandardCnpj(c)
  {
    assert !Repeated(c) by {
      assert c[2] != c[0];
    }
    assert c[12] == '8' && c[13] == '1';
    CnpjExampleFirstSum(c[..12]);
    CnpjExampleSecondSum(c[..13]);
  }

  /** Typed as bare digits it is accepted. */
  lemma CnpjExampleDigits(c: string)
    requires c == "11222333000181"
    ensures ValidateCnpj(c)
  {
    CnpjExampleStandard(c);
    CnpjDigitsStandard(c);
  }

  lemma CnpjExampleFirstSum(ds: string)
    requires ds == "112223330001"
    ensures AllDigits(ds) && Dot(ds, FirstWeights) == 102
  {
    assert ds == "112223" + "330001";
    assert FirstWeights == [5, 4, 3, 2, 9, 8] + [7, 6, 5, 4, 3, 2];
    FirstSumParts();
    DotAppend("112223", "330001", [5, 4, 3, 2, 9, 8], [7, 6, 5, 4, 3, 2]);
  }

  lemma CnpjExampleSecondSum(ds: string)
    requires ds == "1122233300018"
    ensures AllDigits(ds) && Dot(ds, SecondWeights) == 120
  {
    assert ds == "112223" + "3300" + "018";
    assert SecondWeights == [6, 5, 4, 3, 2, 9] + [8, 7, 6, 5] + [4, 3, 2];
    SecondSumParts();
    DotAppend("112223", "3300", [6, 5, 4, 3, 2, 9], [8, 7, 6, 5]);
    DotAppend("112223" + "3300", "018", [6, 5, 4, 3, 2, 9] + [8, 7, 6, 5], [4, 3, 2]);
  }

  /** The two blocks of the first check-digit sum, worked out. */
  lemma FirstSumParts()
    ensures Dot("112223", [5, 4, 3, 2, 9, 8]) == 61 && Dot("330001", [7, 6, 5, 4, 3, 2]) == 41
  {
  }

  /** The three blocks of the second check-digit sum, worked out. */
  lemma SecondSumParts()
    ensures Dot("112223", [6, 5, 4, 3, 2, 9]) == 56 && Dot("3300", [8, 7, 6, 5]) == 45
    ensures Dot("018", [4, 3, 2]) == 19
  {
  }

  /** The same number typed with its usual punctuation is rejected. */
  lemma CnpjExampleFormatted()
    ensures !ValidateCnpj("11.222.333/0001-81")
  {
    CnpjRawNonDigit("11.222.333/0001-81", 2);
  }

  // ------------------------------------------------------- phone and registration

  /** `validatePhone`: area code plus a 8- or 9-digit number. */
  function ValidatePhone(phone: string): (ok: bool)
    ensures ok <==> 10 <= |Digits(phone)| <= 11
  {
    var c := Digits(phone);
    10 <= |c| <= 11
  }

  /** Punctuation, spaces and letters typed into the number never change the
      verdict: only the digits count. */
  lemma PhoneIgnoresPunctuation(a: string, c: char, b: string)
    requires !IsDigit(c)
    ensures ValidatePhone(a + [c] + b) == ValidatePhone(a + b)
  {
    Seqs.FilterAppend(a + [c], b, IsDigit);
    Seqs.FilterAppend(a, [c], IsDigit);
    Seqs.FilterAppend(a, b, IsDigit);
  }

  /** Cleaning a number first gives the same verdict. */
  lemma PhoneCleanedAlike(phone: string)
    ensures ValidatePhone(Digits(phone)) == ValidatePhone(phone)
  {
    DigitsOfDigits(Digits(phone));
  }

  lemma DigitsAppend(a: string, b: string)
    ensures Digits(a + b) == Digits(a) + Digits(b)
  {
    Seqs.FilterAppend(a, b, IsDigit);
  }

  lemma {:induction false} NoDigits(s: string)
    requires forall i :: 0 <= i < |s| ==> !IsDigit(s[i])
    ensures Digits(s) == ""
    decreases |s|
  {
    if |s| > 0 {
      NoDigits(s[1..]);
    }
  }

  /** The usual written form `(AA) NNNNN-NNNN`: valid exactly when area code
      and number together have 10 or 11 digits. */
  lemma PhoneFormatted(area: string, head: string, tail: string)
    requires AllDigits(area) && AllDigits(head) && AllDigits(tail)
    ensures ValidatePhone("(" + area + ") " + head + "-" + tail) <==> 10 <= |area| + |head| + |tail| <= 11
    ensures ValidatePhone(head + "-" + tail) <==> 10 <= |head| + |tail| <= 11
  {
    NoDigits("(");
    NoDigits(") ");
    NoDigits("-");
    DigitsOfDigits(area);
    DigitsOfDigits(head);
    DigitsOfDigits(tail);
    DigitsAppend("(", area);
    DigitsAppend("(" + area, ") ");
    DigitsAppend("(" + area + ") ", head);
    DigitsAppend("(" + area + ") " + head, "-");
    DigitsAppend("(" + area + ") " + head + "-", tail);
    DigitsAppend(head, "-");
    DigitsAppend(head + "-", tail);
  }

  /** `(11) 98765-4321` is accepted; the same number without its area code
      is not. */
  lemma PhoneExampleFormatted(phone: string, local: string)
    requires phone == "(11) 98765-4321" && local == "98765-4321"
    ensures ValidatePhone(phone) && !ValidatePhone(local)
  {
    assert phone == "(" + "11" + ") " + "98765" + "-" + "4321";
    assert local == "98765" + "-" + "4321";
    PhoneFormatted("11", "98765", "4321");
  }

  datatype DocKind = Cpf | Cnpj

  datatype RegisterError = InvalidCpf | InvalidCnpj | WrongDocumentLength | InvalidPhone

  /** The validation block of `handleRegister`: the document by its digit count, then the phone. */
  function CheckRegistration(document: string, whatsapp: string): (r: Result<DocKind, RegisterError>)
    ensures r == Ok(Cpf) <==> |Digits(document)| == 11 && ValidateCpf(document) && ValidatePhone(whatsapp)
    ensures r == Ok(Cnpj) <==> |Digits(document)| == 14 && ValidateCnpj(document) && ValidatePhone(whatsapp)
    ensures r == Err(WrongDocumentLength) <==> |Digits(document)| != 11 && |Digits(document)| != 14
    ensures r == Err(InvalidPhone) ==> !ValidatePhone(whatsapp)
  {
    var n := |Digits(document)|;
    if n == 11 && !ValidateCpf(document) then Err(InvalidCpf)
    else if n == 14 && !ValidateCnpj(document) then Err(InvalidCnpj)
    else if n != 11 && n != 14 then Err(WrongDocumentLength)
    else if !ValidatePhone(whatsapp) then Err(InvalidPhone)
    else if n == 11 then Ok(Cpf)
    else Ok(Cnpj)
  }
}

=== FILE: expected_value.dfy ===
/** `db.calculateExpectedValue` (`services/dbService.ts`): the amount a
    cashier session should hold for one closing item. The tenant's financial
    records and payment terms, which the source reads through `queryTenant`,
    are parameters; `tipo` is lower-cased in ASCII only. */
module ExpectedValue {
  import opened Wrappers
  import opened Seqs
  import opened Strings
  import opened Records

  /** Item ids that mean physical cash, and physical cheques. */
  const CashIds: seq<string> := ["vista", "physical_cash", "00000000-0000-0000-0000-000000000001"]
  const CheckIds: seq<string> := ["cheque", "physical_check", "00000000-0000-0000-0000-000000000003"]

  /** Lower-cased `tipo` values that count as money coming in. */
  const EntryTipos: seq<string> := ["vendas", "suprimento", "entrada", "pagamento", "sell"]

  /** `flowType`. */
  datatype Flow = FlowIn | FlowOut

  /** `r.paymentTermId || r.payment_term_id`: the reverse order of `Records.TermId`. */
  function RecordTermId(r: FinancialRecord): string {
    if r.paymentTermId != "" then r.paymentTermId else r.payment_term_id
  }

  /** `terms.find(t => t.id === termId || t.uuid === termId)`. */
  function FindTerm(terms: seq<PaymentTerm>, termId: string): Option<PaymentTerm> {
    Find(terms, (t: PaymentTerm) => t.id == termId || t.uuid == termId)
  }

  /** Opening-of-session records and reversed records never count. Only
      `isReversed` and the status are read here, not `is_reversed`. */
  predicate Skipped(r: FinancialRecord) {
    r.categoria == "Abertura de Caixa" || r.isReversed || r.status == Reversed
  }

  predicate IsEntry(r: FinancialRecord) {
    Lower(r.tipo) in EntryTipos
  }

  /** Paid in cash: a term whose name mentions DINHEIRO, or no term at all. */
  predicate IsDinheiro(r: FinancialRecord, terms: seq<PaymentTerm>) {
    var termId := RecordTermId(r);
    var term := FindTerm(terms, termId);
    (term.Some? && Contains(Upper(term.value.name), "DINHEIRO")) || (termId == "" && term.None?)
  }

  predicate IsCheque(r: FinancialRecord, terms: seq<PaymentTerm>) {
    var term := FindTerm(terms, RecordTermId(r));
    term.Some? && Contains(Upper(term.value.name), "CHEQUE")
  }

  /** `session.openingBalance || session.opening_balance || 0`. */
  function OpeningBalance(s: Session): int {
    if s.openingBalance != 0 then s.openingBalance else s.opening_balance
  }

  /** The records of the session: `f.caixa_id === session.id`. */
  function SessionRecords(financials: seq<FinancialRecord>, s: Session): seq<FinancialRecord> {
    Filter(financials, (r: FinancialRecord) => r.caixa_id == s.id)
  }

  /** What one record does to the physical-cash total. */
  function CashDelta(r: FinancialRecord, terms: seq<PaymentTerm>): int {
    if Skipped(r) || !IsDinheiro(r, terms) then 0
    else if IsEntry(r) then (if r.status == Paid then r.valor else 0)
    else -r.valor
  }

  /** `categoryObj?.name`: the name of the category with id `itemId`, if any. */
  function CategoryName(categories: seq<FinanceCategory>, itemId: string): Option<string> {
    match Find(categories, (c: FinanceCategory) => c.id == itemId)
    case None => None
    case Some(c) => Some(c.name)
  }

  /** Whether a record belongs to a non-cash item: any cheque for the cheque
      item, else a record whose term is the item or whose category is the
      item's (non-empty) name. */
  predicate Matches(r: FinancialRecord, terms: seq<PaymentTerm>, itemId: string, catName: Option<string>) {
    var termId := RecordTermId(r);
    var term := FindTerm(terms, termId);
    if itemId in CheckIds then IsCheque(r, terms)
    else (termId == itemId || (term.Some? && term.value.uuid == itemId)
          || (catName.Some? && catName.value != "" && r.categoria == catName.value))
  }

  /** What one record adds to a non-cash item of the given flow. */
  function ItemDelta(r: FinancialRecord, terms: seq<PaymentTerm>, itemId: string, catName: Option<string>, flow: Flow): int {
    if Skipped(r) || !Matches(r, terms, itemId, catName) then 0
    else if flow == FlowIn && IsEntry(r) then r.valor
    else if flow == FlowOut && !IsEntry(r) then r.valor
    else 0
  }

  /** The contribution of one record to the item. */
  function Delta(r: FinancialRecord, terms: seq<PaymentTerm>, categories: seq<FinanceCategory>, itemId: string, flow: Flow): int {
    if itemId in CashIds then CashDelta(r, terms)
    else ItemDelta(r, terms, itemId, CategoryName(categories, itemId), flow)
  }

  /** The expected value as a sum: the opening balance for cash (0 otherwise)
      plus every session record's contribution. */
  function Expected(financials: seq<FinancialRecord>, s: Session, itemId: string, terms: seq<PaymentTerm>,
                    categories: seq<FinanceCategory>, flow: Flow): int
  {
    (if itemId in CashIds then OpeningBalance(s) else 0)
      + Sum(SessionRecords(financials, s), (r: FinancialRecord) => Delta(r, terms, categories, itemId, flow))
  }

  /** The source's `forEach` accumulation, which computes `Expected`. */
  method CalculateExpectedValue(financials: seq<FinancialRecord>, s: Session, itemId: string, terms: seq<PaymentTerm>,
                                categories: seq<FinanceCategory>, flow: Flow) returns (total: int)
    ensures total == Expected(financials, s, itemId, terms, categories, flow)
  {
    var records := SessionRecords(financials, s);
    var isCash := itemId in CashIds;
    var catName := CategoryName(categories, itemId);
    ghost var f := (r: FinancialRecord) => Delta(r, terms, categories, itemId, flow);
    total := if isCash then OpeningBalance(s) else 0;
    var i := 0;
    while i < |records|
      invariant 0 <= i <= |records|
      invariant total + Sum(records[i..], f) == Expected(financials, s, itemId, terms, categories, flow)
    {
      var r := records[i];
      assert records[i..][1..] == records[i + 1..];
      if !Skipped(r) {
        if isCash {
          if IsDinheiro(r, terms) {
            if IsEntry(r) {
              if r.status == Paid {
                total := total + r.valor;
              }
            } else {
              total := total - r.valor;
            }
          }
        } else if Matches(r, terms, itemId, catName) {
          if flow == FlowIn && IsEntry(r) {
            total := total + r.valor;
          } else if flow == FlowOut && !IsEntry(r) {
            total := total + r.valor;
          }
        }
      }
      i := i + 1;
    }
  }

  /** A record that is skipped (session opening or reversed) or belongs to
      another session can be removed without changing any expected value. */
  lemma IgnoredRecordsNeverCount(a: seq<FinancialRecord>, r: FinancialRecord, b: seq<FinancialRecord>, s: Session,
                                 itemId: string, terms: seq<PaymentTerm>, categories: seq<FinanceCategory>, flow: Flow)
    requires Skipped(r) || r.caixa_id != s.id
    ensures Expected(a + [r] + b, s, itemId, terms, categories, flow) == Expected(a + b, s, itemId, terms, categories, flow)
  {
    SumDropZero(a, r, b, (x: FinancialRecord) => x.caixa_id == s.id,
                (x: FinancialRecord) => Delta(x, terms, categories, itemId, flow));
  }

  /** The physical-cash total is the opening balance, plus the paid cash
      entries, minus every cash exit. */
  lemma CashTotal(financials: seq<FinancialRecord>, s: Session, itemId: string, terms: seq<PaymentTerm>,
                  categories: seq<FinanceCategory>, flow: Flow)
    requires itemId in CashIds
    ensures var records := SessionRecords(financials, s);
      Expected(financials, s, itemId, terms, categories, flow)
        == OpeningBalance(s)
           + Sum(Filter(records, (r: FinancialRecord) => !Skipped(r) && IsDinheiro(r, terms) && IsEntry(r) && r.status == Paid),
                 (r: FinancialRecord) => r.valor)
           - Sum(Filter(records, (r: FinancialRecord) => !Skipped(r) && IsDinheiro(r, terms) && !IsEntry(r)),
                 (r: FinancialRecord) => r.valor)
  {
    var records := SessionRecords(financials, s);
    var valor := (r: FinancialRecord) => r.valor;
    var pIn := (r: FinancialRecord) => !Skipped(r) && IsDinheiro(r, terms) && IsEntry(r) && r.status == Paid;
    var pOut := (r: FinancialRecord) => !Skipped(r) && IsDinheiro(r, terms) && !IsEntry(r);
    var gIn := (r: FinancialRecord) => if pIn(r) then r.valor else 0;
    var gOut := (r: FinancialRecord) => if pOut(r) then r.valor else 0;
    SumDiff(records, gIn, gOut, (r: FinancialRecord) => Delta(r, terms, categories, itemId, flow));
    SumFilterAs(records, pIn, valor, gIn);
    SumFilterAs(records, pOut, valor, gOut);
  }

  /** The cheque item counts exactly the non-skipped cheque records of the
      requested flow, whatever their category or term id. */
  lemma ChequeTotal(financials: seq<FinancialRecord>, s: Session, itemId: string, terms: seq<PaymentTerm>,
                    categories: seq<FinanceCategory>, flow: Flow)
    requires itemId in CheckIds
    ensures Expected(financials, s, itemId, terms, categories, flow)
      == Sum(Filter(SessionRecords(financials, s),
                    (r: FinancialRecord) => !Skipped(r) && IsCheque(r, terms) && (IsEntry(r) <==> flow == FlowIn)),
             (r: FinancialRecord) => r.valor)
  {
    assert itemId !in CashIds;
    SumFilterAs(SessionRecords(financials, s),
                (r: FinancialRecord) => !Skipped(r) && IsCheque(r, terms) && (IsEntry(r) <==> flow == FlowIn),
                (r: FinancialRecord) => r.valor,
                (r: FinancialRecord) => Delta(r, terms, categories, itemId, flow));
  }
}

=== FILE: finance_edit.dfy ===
/** The settings half of the Finance page: payment terms and finance
    categories. New rows are written directly; edits and deletions go
    through an authorization request whose text carries the row id and,
    for an edit, only the fields that changed. */
module FinanceEdit {
  import opened Wrappers
  import opened Seqs
  import opened Strings
  import opened ActionLabels
  import opened Authorization
  import Store

  // ------------------------------------------------------- values

  /** A JavaScript value as a stored row or a form holds it. */
  datatype Val = Undef | Null | Str(s: string) | Num(n: int) | Bool(b: bool) | Obj(text: string)

  predicate Truthy(v: Val) {
    match v
    case Undef => false
    case Null => false
    case Str(s) => s != ""
    case Num(n) => n != 0
    case Bool(b) => b
    case Obj(_) => true
  }

  predicate Nullish(v: Val) {
    v.Undef? || v.Null?
  }

  /** `a || b` */
  function OrElse(a: Val, b: Val): Val {
    if Truthy(a) then a else b
  }

  /** `a ?? b` */
  function Coalesce(a: Val, b: Val): Val {
    if Nullish(a) then b else a
  }

  /** `${v}` in a template literal. */
  function Render(v: Val): string {
    match v
    case Undef => "undefined"
    case Null => "null"
    case Str(s) => s
    case Num(n) => if n < 0 then "-" + NatText(-n) else NatText(n)
    case Bool(b) => if b then "true" else "false"
    case Obj(t) => t
  }

  /** A stored payment term or finance category: its id and its fields under
      whatever spelling the writer used. */
  datatype Row = Row(id: string, fields: map<string, Val>)

  /** `row[k]`, `undefined` when the field is absent. */
  function Look(row: Row, k: string): Val {
    if k in row.fields then row.fields[k] else Undef
  }

  /** `term.isDefault || term.is_default`: system rows offer neither edit
      nor delete. */
  predicate IsDefault(row: Row) {
    Truthy(OrElse(Look(row, "isDefault"), Look(row, "is_default")))
  }

  // ------------------------------------------------------- key spellings

  function UnderscorePiece(c: char): string {
    if IsUpperAscii(c) then ['_', c] else [c]
  }

  /** `k.replace(/([A-Z])/g, "_$1")` */
  function Underscored(k: string): (r: string)
    ensures |r| >= |k|
  {
    if |k| == 0 then "" else UnderscorePiece(k[0]) + Underscored(k[1..])
  }

  /** `k.replace(/([A-Z])/g, "_$1").toLowerCase()`: the snake_case spelling. */
  function SnakeKey(k: string): string {
    Lower(Underscored(k))
  }

  /** The characters of the regular-expression class `\w`. */
  predicate WordChar(c: char) {
    IsLowerAscii(c) || IsUpperAscii(c) || IsDigit(c) || c == '_'
  }

  /** `k.replace(/(_\w)/g, m => m[1].toUpperCase())`: the camelCase
      spelling. Matches are taken left to right and do not overlap. */
  function CamelKey(k: string): string
    decreases |k|
  {
    if |k| == 0 then ""
    else if k[0] == '_' && |k| >= 2 && WordChar(k[1]) then [UpperChar(k[1])] + CamelKey(k[2..])
    else [k[0]] + CamelKey(k[1..])
  }

  /** A camelCase key: letters and digits only. */
  predicate CamelShaped(k: string) {
    forall i :: 0 <= i < |k| ==> IsLowerAscii(k[i]) || IsUpperAscii(k[i]) || IsDigit(k[i])
  }

  /** A snake_case key: lower-case letters, digits and underscores, each
      underscore followed by a lower-case letter. */
  predicate SnakeShaped(k: string) {
    && (forall i :: 0 <= i < |k| ==> IsLowerAscii(k[i]) || IsDigit(k[i]) || k[i] == '_')
    && (forall i :: 0 <= i < |k| && k[i] == '_' ==> i + 1 < |k| && IsLowerAscii(k[i + 1]))
  }

  lemma SnakeCons(c: char, t: string)
    ensures SnakeKey([c] + t) == Lower(UnderscorePiece(c)) + SnakeKey(t)
  {
    assert ([c] + t)[1..] == t;
    LowerAppend(UnderscorePiece(c), Underscored(t));
  }

  lemma CamelOfPiece(c: char, t: string)
    requires IsLowerAscii(c) || IsUpperAscii(c) || IsDigit(c)
    ensures CamelKey(Lower(UnderscorePiece(c)) + t) == [c] + CamelKey(t)
  {
    if IsUpperAscii(c) {
      var s := Lower(UnderscorePiece(c)) + t;
      assert s[0] == '_' && s[1] == LowerChar(c) && s[2..] == t;
    } else {
      var s := Lower(UnderscorePiece(c)) + t;
      assert s[0] == c && s[1..] == t;
    }
  }

  /** camelCase survives the trip through snake_case and back. */
  lemma {:induction false} CamelSnakeRoundTrip(k: string)
    requires CamelShaped(k)
    ensures CamelKey(SnakeKey(k)) == k
    decreases |k|
  {
    if |k| > 0 {
      assert k == [k[0]] + k[1..];
      SnakeCons(k[0], k[1..]);
      CamelOfPiece(k[0], SnakeKey(k[1..]));
      CamelSnakeRoundTrip(k[1..]);
    }
  }

  /** snake_case survives the trip through camelCase and back. */
  lemma {:induction false} SnakeCamelRoundTrip(k: string)
    requires SnakeShaped(k)
    ensures SnakeKey(CamelKey(k)) == k
    decreases |k|
  {
    if |k| > 0 {
      var n := if k[0] == '_' then 2 else 1;
      SnakeTail(k, n);
      SnakeCamelRoundTrip(k[n..]);
      if n == 2 {
        SnakeStepUnderscore(k);
      } else {
        SnakeStepPlain(k);
      }
    }
  }

  /** What follows a letter, a digit, or an underscore and its letter, is
      snake_case too. */
  lemma SnakeTail(k: string, n: nat)
    requires SnakeShaped(k) && 0 < n <= 2 && n <= |k|
    requires n == 2 <==> k[0] == '_'
    ensures SnakeShaped(k[n..])
  {
    forall i | 0 <= i < |k[n..]| && k[n..][i] == '_'
      ensures i + 1 < |k[n..]| && IsLowerAscii(k[n..][i + 1])
    {
      assert k[i + n] == '_';
    }
  }

  lemma SnakeStepUnderscore(k: string)
    requires SnakeShaped(k) && |k| >= 2 && k[0] == '_'
    requires SnakeKey(CamelKey(k[2..])) == k[2..]
    ensures SnakeKey(CamelKey(k)) == k
  {
    var c := UpperChar(k[1]);
    assert CamelKey(k) == [c] + CamelKey(k[2..]);
    SnakeCons(c, CamelKey(k[2..]));
    assert Lower(UnderscorePiece(c)) == k[..2];
    assert k == k[..2] + k[2..];
  }

  lemma SnakeStepPlain(k: string)
    requires SnakeShaped(k) && |k| >= 1 && k[0] != '_'
    requires SnakeKey(CamelKey(k[1..])) == k[1..]
    ensures SnakeKey(CamelKey(k)) == k
  {
    assert CamelKey(k) == [k[0]] + CamelKey(k[1..]);
    SnakeCons(k[0], CamelKey(k[1..]));
    assert k == [k[0]] + k[1..];
  }

  /** A key with no capital letter is its own snake_case spelling. */
  lemma {:induction false} SnakeOfSnake(k: string)
    requires forall i :: 0 <= i < |k| ==> !IsUpperAscii(k[i])
    ensures SnakeKey(k) == k
    decreases |k|
  {
    if |k| > 0 {
      assert k == [k[0]] + k[1..];
      SnakeCons(k[0], k[1..]);
      SnakeOfSnake(k[1..]);
    }
  }

  /** A character other than an underscore is copied as it is. */
  lemma CamelChar(c: char, t: string)
    requires c != '_'
    ensures CamelKey([c] + t) == [c] + CamelKey(t)
  {
    assert ([c] + t)[1..] == t;
  }

  /** A stretch without underscores is copied as it is. */
  lemma {:induction false} CamelPlain(a: string, b: string)
    requires '_' !in a
    ensures CamelKey(a + b) == a + CamelKey(b)
    decreases |a|
  {
    if |a| == 0 {
      assert a + b == b;
    } else {
      var t := a[1..];
      assert '_' !in t by {
        assert forall x :: x in t ==> x in a;
      }
      CamelPlain(t, b);
      CamelChar(a[0], t + b);
      assert a + b == [a[0]] + (t + b);
    }
  }

  /** An underscore and a letter become the capital letter. */
  lemma CamelWordStart(c: char, t: string)
    requires IsLowerAscii(c)
    ensures CamelKey(['_', c] + t) == [UpperChar(c)] + CamelKey(t)
  {
    assert (['_', c] + t)[2..] == t;
  }

  /** An underscore, a letter and a stretch without underscores become the
      capital letter and the stretch. */
  lemma CamelNextWord(c: char, w: string, rest: string)
    requires '_' !in w
    requires IsLowerAscii(c)
    ensures CamelKey(['_', c] + (w + rest)) == [UpperChar(c)] + (w + CamelKey(rest))
  {
    CamelWordStart(c, w + rest);
    CamelPlain(w, rest);
  }

  /** Four words joined by underscores become one camelCase word. */
  lemma CamelFourWords(w0: string, c1: char, w1: string, c2: char, w2: string, c3: char, w3: string)
    requires '_' !in w0
    requires '_' !in w1
    requires '_' !in w2
    requires '_' !in w3
    requires IsLowerAscii(c1) && IsLowerAscii(c2) && IsLowerAscii(c3)
    ensures CamelKey(w0 + (['_', c1] + (w1 + (['_', c2] + (w2 + (['_', c3] + w3))))))
      == w0 + ([UpperChar(c1)] + (w1 + ([UpperChar(c2)] + (w2 + ([UpperChar(c3)] + w3)))))
  {
    var s3 := ['_', c3] + (w3 + "");
    assert w3 + "" == w3;
    assert CamelKey("") == "";
    CamelNextWord(c3, w3, "");
    var s2 := ['_', c2] + (w2 + s3);
    CamelNextWord(c2, w2, s3);
    var s1 := ['_', c1] + (w1 + s2);
    CamelNextWord(c1, w1, s2);
    CamelPlain(w0, s1);
  }

  lemma TitleLaunchWords(s: string)
    requires s == "show_in_title_launch"
    ensures s == "show" + (['_', 'i'] + ("n" + (['_', 't'] + ("itle" + (['_', 'l'] + "aunch")))))
  {
  }

  lemma TitleLaunchJoined(c: string)
    requires c == "show" + ([UpperChar('i')] + ("n" + ([UpperChar('t')] + ("itle" + ([UpperChar('l')] + "aunch")))))
    ensures c == "showInTitleLaunch"
  {
  }

  /** The camelCase spelling of `show_in_title_launch` is `showInTitleLaunch`. */
  lemma TitleLaunchCamel(s: string)
    requires s == "show_in_title_launch"
    ensures CamelKey(s) == "showInTitleLaunch"
  {
    TitleLaunchWords(s);
    CamelFourWords("show", 'i', "n", 't', "itle", 'l', "aunch");
    TitleLaunchJoined(CamelKey(s));
  }

  /** `show_in_title_launch` is its own snake_case spelling. */
  lemma TitleLaunchSnake(s: string)
    requires s == "show_in_title_launch"
    ensures SnakeKey(s) == s
  {
    assert forall i :: 0 <= i < |s| ==> !IsUpperAscii(s[i]);
    SnakeOfSnake(s);
  }

  // ------------------------------------------------------- the change set

  /** The original value of form key `k`: under the same spelling, else
      under its snake_case spelling, else under its camelCase one. */
  function OriginalValue(orig: Row, k: string): Val {
    if Look(orig, k) != Undef then Look(orig, k)
    else if Look(orig, SnakeKey(k)) != Undef then Look(orig, SnakeKey(k))
    else Look(orig, CamelKey(k))
  }

  /** A field stored under exactly one of its two spellings. */
  predicate StoredOnce(row: Row, snake: string, v: Val) {
    && !Nullish(v)
    && ((Look(row, snake) == v && Look(row, CamelKey(snake)) == Undef)
        || (Look(row, snake) == Undef && Look(row, CamelKey(snake)) == v))
  }

  /** Whichever spelling the form uses and whichever the row was stored
      under, the original value is found. */
  lemma EitherSpellingFound(orig: Row, snake: string, v: Val)
    requires SnakeShaped(snake)
    requires StoredOnce(orig, snake, v)
    ensures OriginalValue(orig, snake) == v
    ensures OriginalValue(orig, CamelKey(snake)) == v
  {
    SnakeOfSnake(snake);
    SnakeCamelRoundTrip(snake);
  }

  /** The fields of the term and category forms. */
  datatype FormKey =
    | Name | Days | Installments | Type
    | ShowInSale | ShowInPurchase | ShowInSettle | ShowInBankManual | ShowInPdvManual | ShowInManualPdv
    | ShowInCashierClose | ShowInOpening | ShowInTitleLaunch
    | ShowInSales | ShowInPurchases | ShowInLiquidation
  {
    /** The key as the page spells it. */
    function Spelling(): string {
      match this
      case Name => "name"
      case Days => "days"
      case Installments => "installments"
      case Type => "type"
      case ShowInSale => "show_in_sale"
      case ShowInPurchase => "show_in_purchase"
      case ShowInSettle => "show_in_settle"
      case ShowInBankManual => "show_in_bank_manual"
      case ShowInPdvManual => "show_in_pdv_manual"
      case ShowInManualPdv => "show_in_manual_pdv"
      case ShowInCashierClose => "show_in_cashier_close"
      case ShowInOpening => "show_in_opening"
      case ShowInTitleLaunch => "show_in_title_launch"
      case ShowInSales => "showInSales"
      case ShowInPurchases => "showInPurchases"
      case ShowInLiquidation => "showInLiquidation"
    }
  }

  /** A form object: its keys in `Object.keys` order and their values. */
  datatype Form = Form(keys: seq<FormKey>, values: map<FormKey, Val>)

  /** `f[k]` */
  function Get(f: Form, k: FormKey): Val {
    if k in f.values then f.values[k] else Undef
  }

  /** `{...f, [k]: v}`: an existing key keeps its place, a new one goes last. */
  function Set(f: Form, k: FormKey, v: Val): (g: Form)
    ensures Get(g, k) == v
    ensures forall j :: j != k ==> Get(g, j) == Get(f, j)
    ensures k in f.keys ==> g.keys == f.keys
    ensures k !in f.keys ==> g.keys == f.keys + [k]
  {
    Form(if k in f.keys then f.keys else f.keys + [k], f.values[k := v])
  }

  /** The form's fields in order, as `Object.keys(f).forEach` visits them. */
  function Fields(f: Form): (r: seq<(string, Val)>)
    ensures |r| == |f.keys|
    ensures forall i :: 0 <= i < |r| ==> r[i] == (f.keys[i].Spelling(), Get(f, f.keys[i]))
  {
    Map(f.keys, (k: FormKey) => (k.Spelling(), Get(f, k)))
  }

  /** The delta: the form's fields whose value is not `===` the original,
      in form order. */
  function Delta(f: Form, orig: Row): (d: seq<(string, Val)>)
    ensures forall kv :: kv in d <==> kv in Fields(f) && kv.1 != OriginalValue(orig, kv.0)
    ensures IsSubseq(d, Fields(f))
  {
    Filter(Fields(f), (kv: (string, Val)) => kv.1 != OriginalValue(orig, kv.0))
  }

  /** No field differs exactly when the delta is empty. */
  lemma DeltaEmptyIff(f: Form, orig: Row)
    ensures Delta(f, orig) == [] <==> forall k :: k in f.keys ==> Get(f, k) == OriginalValue(orig, k.Spelling())
  {
    if Delta(f, orig) != [] {
      DeltaWitness(f, orig);
    }
    if exists k :: k in f.keys && Get(f, k) != OriginalValue(orig, k.Spelling()) {
      var k :| k in f.keys && Get(f, k) != OriginalValue(orig, k.Spelling());
      ChangedInDelta(f, orig, k);
    }
  }

  lemma DeltaWitness(f: Form, orig: Row)
    requires Delta(f, orig) != []
    ensures exists k :: k in f.keys && Get(f, k) != OriginalValue(orig, k.Spelling())
  {
    var d := Delta(f, orig);
    var fs := Fields(f);
    assert d[0] in d;
    var i :| 0 <= i < |fs| && fs[i] == d[0];
    assert f.keys[i] in f.keys;
  }

  lemma ChangedInDelta(f: Form, orig: Row, k: FormKey)
    requires k in f.keys && Get(f, k) != OriginalValue(orig, k.Spelling())
    ensures Delta(f, orig) != []
  {
    var fs := Fields(f);
    var i :| 0 <= i < |f.keys| && f.keys[i] == k;
    assert fs[i] in fs;
    assert fs[i] in Delta(f, orig);
  }

  /** A row holding the title-launch flag under neither spelling has no
      original value for it. */
  lemma TitleLaunchUnstored(row: Row)
    requires Look(row, "show_in_title_launch") == Undef && Look(row, "showInTitleLaunch") == Undef
    ensures OriginalValue(row, ShowInTitleLaunch.Spelling()) == Undef
  {
    var s := ShowInTitleLaunch.Spelling();
    TitleLaunchCamel(s);
    TitleLaunchSnake(s);
  }

  /** A form whose only change from a row lacking the title-launch flag is
      that flag files exactly that field. */
  lemma DeltaOnlyTitleLaunch(f: Form, row: Row, v: Val)
    requires ShowInTitleLaunch in f.keys && Get(f, ShowInTitleLaunch) == v && v != Undef
    requires OriginalValue(row, ShowInTitleLaunch.Spelling()) == Undef
    requires forall k :: k in f.keys && k != ShowInTitleLaunch ==> Get(f, k) == OriginalValue(row, k.Spelling())
    ensures forall kv :: kv in Delta(f, row) <==> kv == (ShowInTitleLaunch.Spelling(), v)
  {
    DeltaOnly(f, row, ShowInTitleLaunch);
  }

  /** When exactly one key of the form differs from the original, the delta
      is that key's field and nothing else. */
  lemma DeltaOnly(f: Form, orig: Row, key: FormKey)
    requires key in f.keys && Get(f, key) != OriginalValue(orig, key.Spelling())
    requires forall k :: k in f.keys && k != key ==> Get(f, k) == OriginalValue(orig, k.Spelling())
    ensures forall kv :: kv in Delta(f, orig) <==> kv == (key.Spelling(), Get(f, key))
  {
    var fs := Fields(f);
    forall kv
      ensures kv in Delta(f, orig) <==> kv == (key.Spelling(), Get(f, key))
    {
      if kv in Delta(f, orig) {
        var i :| 0 <= i < |fs| && fs[i] == kv;
        assert f.keys[i] in f.keys;
      }
      if kv == (key.Spelling(), Get(f, key)) {
        var i :| 0 <= i < |f.keys| && f.keys[i] == key;
        assert fs[i] in fs;
      }
    }
  }

  // ------------------------------------------------------- the term form

  /** The two spellings of the "manual PDV" flag hold the same value. */
  predicate Coupled(f: Form) {
    Get(f, ShowInPdvManual) == Get(f, ShowInManualPdv)
  }

  /** `row[snake] ?? row[camel] ?? d` */
  function FlagOf(row: Row, snake: string, camel: string, d: bool): Val {
    Coalesce(Look(row, snake), Coalesce(Look(row, camel), Bool(d)))
  }

  /** The keys of the term form, in the order the page declares them. */
  const TermKeys: seq<FormKey> := [Name, Days, Installments, Type, ShowInSale, ShowInPurchase, ShowInSettle,
    ShowInBankManual, ShowInPdvManual, ShowInManualPdv, ShowInCashierClose, ShowInOpening, ShowInTitleLaunch]

  /** The value each key of the term form starts with. */
  function TermDefault(k: FormKey): Val {
    match k
    case Name => Str("")
    case Days => Num(0)
    case Installments => Num(1)
    case Type => Str("fixed")
    case ShowInSale => Bool(true)
    case ShowInPurchase => Bool(true)
    case _ => Bool(false)
  }

  /** The empty term form the page starts with. */
  function InitialTermForm(): (f: Form)
    ensures Coupled(f) && Get(f, ShowInPdvManual) == Bool(false)
    ensures forall k :: k in f.keys <==> k in f.values
  {
    assert ShowInPdvManual in TermKeys && ShowInManualPdv in TermKeys;
    Form(TermKeys, map k | k in TermKeys :: TermDefault(k))
  }

  /** The form "Novo Prazo" resets to: the starting values, but no
      `show_in_title_launch`. */
  function NewTermForm(): (f: Form)
    ensures Coupled(f) && Get(f, ShowInPdvManual) == Bool(false)
    ensures Get(f, ShowInTitleLaunch) == Undef && ShowInTitleLaunch !in f.keys
  {
    TermKeysSplit();
    assert TermKeys[..12][8] == ShowInPdvManual && TermKeys[..12][9] == ShowInManualPdv;
    Form(TermKeys[..12], map k | k in TermKeys[..12] :: TermDefault(k))
  }

  /** The title-launch flag is the last key of the term form and only there. */
  lemma TermKeysSplit()
    ensures TermKeys == TermKeys[..12] + [ShowInTitleLaunch]
    ensures ShowInTitleLaunch !in TermKeys[..12]
  {
  }

  /** `isManualPdv`: the first truthy spelling of the flag, else `false`. */
  function ManualPdvOf(row: Row): (v: Val)
    ensures Truthy(v) <==> (Truthy(Look(row, "show_in_pdv_manual")) || Truthy(Look(row, "showInPdvManual"))
      || Truthy(Look(row, "show_in_manual_pdv")) || Truthy(Look(row, "showInManualPdv")))
    ensures !Truthy(v) ==> v == Bool(false)
  {
    OrElse(Look(row, "show_in_pdv_manual"), OrElse(Look(row, "showInPdvManual"),
      OrElse(Look(row, "show_in_manual_pdv"), OrElse(Look(row, "showInManualPdv"), Bool(false)))))
  }

  /** What the edit button puts under each key of the term form: the stored
      text fields as they are, each flag read under both spellings. */
  function TermValue(row: Row, k: FormKey): Val {
    match k
    case Name => Look(row, "name")
    case Days => Look(row, "days")
    case Installments => Look(row, "installments")
    case Type => Look(row, "type")
    case ShowInSale => FlagOf(row, "show_in_sale", "showInSale", true)
    case ShowInPurchase => FlagOf(row, "show_in_purchase", "showInPurchase", true)
    case ShowInSettle => FlagOf(row, "show_in_settle", "showInSettle", false)
    case ShowInBankManual => FlagOf(row, "show_in_bank_manual", "showInBankManual", false)
    case ShowInPdvManual => ManualPdvOf(row)
    case ShowInManualPdv => ManualPdvOf(row)
    case ShowInCashierClose => FlagOf(row, "show_in_cashier_close", "showInCashierClose", false)
    case ShowInOpening => FlagOf(row, "show_in_opening", "showInOpening", false)
    case ShowInTitleLaunch => FlagOf(row, "show_in_title_launch", "showInTitleLaunch", false)
    case _ => Undef
  }

  /** The form the edit button fills from a stored term. */
  function EditTermForm(row: Row): (f: Form)
    ensures Coupled(f) && f.keys == TermKeys
    ensures Truthy(Get(f, ShowInPdvManual)) <==> (Truthy(Look(row, "show_in_pdv_manual")) || Truthy(Look(row, "showInPdvManual"))
      || Truthy(Look(row, "show_in_manual_pdv")) || Truthy(Look(row, "showInManualPdv")))
  {
    assert ShowInPdvManual in TermKeys && ShowInManualPdv in TermKeys;
    Form(TermKeys, map k | k in TermKeys :: TermValue(row, k))
  }

  lemma EditTermFlag(row: Row, k: FormKey)
    requires k in TermKeys
    ensures k in EditTermForm(row).keys && Get(EditTermForm(row), k) == TermValue(row, k)
  {
  }

  /** With the title-launch flag stored under neither spelling, the edit
      form fills it with `false`. */
  lemma EditTermUnsetTitleLaunch(row: Row)
    requires Look(row, "show_in_title_launch") == Undef && Look(row, "showInTitleLaunch") == Undef
    ensures ShowInTitleLaunch in EditTermForm(row).keys && Get(EditTermForm(row), ShowInTitleLaunch) == Bool(false)
  {
    EditTermFlag(row, ShowInTitleLaunch);
  }

  /** The checkboxes of the term form. */
  datatype Context = Sale | Purchase | Settle | BankManual | PdvManual | CashierClose | Opening | TitleLaunch {
    function Key(): FormKey {
      match this
      case Sale => ShowInSale
      case Purchase => ShowInPurchase
      case Settle => ShowInSettle
      case BankManual => ShowInBankManual
      case PdvManual => ShowInPdvManual
      case CashierClose => ShowInCashierClose
      case Opening => ShowInOpening
      case TitleLaunch => ShowInTitleLaunch
    }
  }

  /** What the user can do in the term form. `days` and `installments` hold
      whatever `parseInt` gave. */
  datatype TermEvent = Rename(text: string) | SetDays(days: Val) | SetInstallments(count: Val) | Tick(ctx: Context, on: bool)

  function ApplyTermEvent(f: Form, e: TermEvent): (g: Form)
    ensures Coupled(f) ==> Coupled(g)
    ensures e.Tick? ==> Get(g, e.ctx.Key()) == Bool(e.on)
    ensures e.Tick? && e.ctx == PdvManual ==> Get(g, ShowInManualPdv) == Bool(e.on)
    ensures e.Tick? && e.ctx == PdvManual ==> forall k :: k != ShowInPdvManual && k != ShowInManualPdv ==> Get(g, k) == Get(f, k)
    ensures e.Tick? && e.ctx != PdvManual ==> forall k :: k != e.ctx.Key() ==> Get(g, k) == Get(f, k)
    ensures e.Rename? ==> Get(g, Name) == Str(Upper(e.text)) && forall k :: k != Name ==> Get(g, k) == Get(f, k)
  {
    match e
    case Rename(text) => Set(f, Name, Str(Upper(text)))
    case SetDays(v) => Set(f, Days, v)
    case SetInstallments(v) => Set(f, Installments, v)
    case Tick(ctx, on) =>
      if ctx == PdvManual then Set(Set(f, ShowInPdvManual, Bool(on)), ShowInManualPdv, Bool(on))
      else Set(f, ctx.Key(), Bool(on))
  }

  function ApplyTermEvents(f: Form, es: seq<TermEvent>): Form
    decreases |es|
  {
    if |es| == 0 then f else ApplyTermEvents(ApplyTermEvent(f, es[0]), es[1..])
  }

  /** However the form was opened and whatever the user did, both spellings
      of the manual-PDV flag hold the same value. */
  lemma {:induction false} EventsKeepCoupling(f: Form, es: seq<TermEvent>)
    requires Coupled(f)
    ensures Coupled(ApplyTermEvents(f, es))
    decreases |es|
  {
    if |es| > 0 {
      EventsKeepCoupling(ApplyTermEvent(f, es[0]), es[1..]);
    }
  }

  /** The manual-PDV flag as a term row holds it: the same boolean under
      both snake_case spellings, and no truthy camelCase spelling unless the
      flag is set. */
  predicate ManualPdvStored(row: Row) {
    && Look(row, "show_in_pdv_manual").Bool?
    && Look(row, "show_in_manual_pdv") == Look(row, "show_in_pdv_manual")
    && (Truthy(Look(row, "showInPdvManual")) ==> Truthy(Look(row, "show_in_pdv_manual")))
    && (Truthy(Look(row, "showInManualPdv")) ==> Truthy(Look(row, "show_in_pdv_manual")))
  }

  /** A term row holding every field of the term form under the form's own
      spelling, as a term saved from a complete form is stored (see
      `TermInsertedReopensUnchanged`). */
  predicate TermRowComplete(row: Row) {
    && (forall k :: k in TermKeys ==> !Nullish(Look(row, k.Spelling())))
    && ManualPdvStored(row)
  }

  /** Reopening such a term and saving it untouched finds no change. */
  lemma TermReopenedUnchanged(row: Row)
    requires TermRowComplete(row)
    ensures Delta(EditTermForm(row), row) == []
  {
    var f := EditTermForm(row);
    forall k | k in f.keys
      ensures Get(f, k) == OriginalValue(row, k.Spelling())
    {
      TermFieldUnchanged(row, f, k);
    }
    DeltaEmptyIff(f, row);
  }

  /** A term row holding every field but the title-launch flag, which it
      holds under neither spelling, reopens with exactly one change: the
      flag the edit form fills with `false`. */
  lemma TermReopenedDelta(row: Row)
    requires ManualPdvStored(row)
    requires forall k :: k in TermKeys && k != ShowInTitleLaunch ==> !Nullish(Look(row, k.Spelling()))
    requires Look(row, "show_in_title_launch") == Undef && Look(row, "showInTitleLaunch") == Undef
    ensures forall kv :: kv in Delta(EditTermForm(row), row) <==> kv == (ShowInTitleLaunch.Spelling(), Bool(false))
  {
    TitleLaunchUnstored(row);
    EditTermUnsetTitleLaunch(row);
    TermOthersUnchanged(row);
    DeltaOnlyTitleLaunch(EditTermForm(row), row, Bool(false));
  }

  /** Every key of the edit form but the title-launch flag reads back its
      original value. */
  lemma TermOthersUnchanged(row: Row)
    requires ManualPdvStored(row)
    requires forall k :: k in TermKeys && k != ShowInTitleLaunch ==> !Nullish(Look(row, k.Spelling()))
    ensures forall k :: k in EditTermForm(row).keys && k != ShowInTitleLaunch ==>
      Get(EditTermForm(row), k) == OriginalValue(row, k.Spelling())
  {
    var f := EditTermForm(row);
    forall k | k in f.keys && k != ShowInTitleLaunch
      ensures Get(f, k) == OriginalValue(row, k.Spelling())
    {
      TermFieldUnchanged(row, f, k);
    }
  }

  lemma TermFieldUnchanged(row: Row, f: Form, k: FormKey)
    requires ManualPdvStored(row) && f == EditTermForm(row) && k in TermKeys
    requires !Nullish(Look(row, k.Spelling()))
    ensures Get(f, k) == OriginalValue(row, k.Spelling())
  {
    var v := Look(row, k.Spelling());
    assert OriginalValue(row, k.Spelling()) == v;
    assert Get(f, k) == TermValue(row, k);
    match k
    case ShowInSale => FlagKept(row, "show_in_sale", "showInSale", true);
    case ShowInPurchase => FlagKept(row, "show_in_purchase", "showInPurchase", true);
    case ShowInSettle => FlagKept(row, "show_in_settle", "showInSettle", false);
    case ShowInBankManual => FlagKept(row, "show_in_bank_manual", "showInBankManual", false);
    case ShowInPdvManual => ManualPdvUnchanged(row);
    case ShowInManualPdv => ManualPdvUnchanged(row);
    case ShowInCashierClose => FlagKept(row, "show_in_cashier_close", "showInCashierClose", false);
    case ShowInOpening => FlagKept(row, "show_in_opening", "showInOpening", false);
    case ShowInTitleLaunch => FlagKept(row, "show_in_title_launch", "showInTitleLaunch", false);
    case _ =>
  }

  /** A flag stored under its snake_case spelling is read back as stored. */
  lemma FlagKept(row: Row, snake: string, camel: string, d: bool)
    requires !Nullish(Look(row, snake))
    ensures FlagOf(row, snake, camel, d) == Look(row, snake)
  {
  }

  lemma ManualPdvUnchanged(row: Row)
    requires ManualPdvStored(row)
    ensures ManualPdvOf(row) == Look(row, "show_in_pdv_manual")
  {
  }

  // ------------------------------------------------------- the category form

  /** The keys of the category form: three in camelCase, three in
      snake_case, as the page declares them. */
  const CategoryKeys: seq<FormKey> := [Name, Type, ShowInSales, ShowInPurchases, ShowInLiquidation,
    ShowInBankManual, ShowInPdvManual, ShowInTitleLaunch]

  /** The value each key of the category form starts with. */
  function CategoryDefault(k: FormKey): Val {
    match k
    case Name => Str("")
    case Type => Str("both")
    case _ => Bool(true)
  }

  /** The category form the page declares as its initial state, every flag
      set. */
  function InitialCategoryForm(): (f: Form)
    ensures Get(f, Type) == Str("both")
    ensures forall k :: k in f.keys <==> k in f.values
    ensures forall k :: k in f.keys && k != Name && k != Type ==> Get(f, k) == Bool(true)
  {
    assert Type in CategoryKeys;
    Form(CategoryKeys, map k | k in CategoryKeys :: CategoryDefault(k))
  }

  /** The form the edit button fills from a stored category: each flag read
      under both spellings, `true` when neither is set. */
  function EditCategoryForm(row: Row): (f: Form)
    ensures f.keys == CategoryKeys
    ensures Get(f, Name) == Look(row, "name")
    ensures forall k :: k in CategoryKeys && k != Name && k != Type ==> Get(f, k).Undef? == false
  {
    Form(CategoryKeys, map[Name := Look(row, "name"), Type := Look(row, "type"),
      ShowInSales := FlagOf(row, "show_in_sales", "showInSales", true),
      ShowInPurchases := FlagOf(row, "show_in_purchases", "showInPurchases", true),
      ShowInLiquidation := FlagOf(row, "show_in_liquidation", "showInLiquidation", true),
      ShowInBankManual := FlagOf(row, "show_in_bank_manual", "showInBankManual", true),
      ShowInPdvManual := FlagOf(row, "show_in_pdv_manual", "showInPdvManual", true),
      ShowInTitleLaunch := FlagOf(row, "show_in_title_launch", "showInTitleLaunch", true)])
  }

  /** The form "Nova Categoria" resets to: the starting values, but no
      `show_in_title_launch`. */
  function NewCategoryForm(): (f: Form)
    ensures ShowInTitleLaunch !in f.keys && Get(f, ShowInTitleLaunch) == Undef
    ensures forall k :: k in f.keys && k != Name && k != Type ==> Get(f, k) == Bool(true)
  {
    CategoryKeysSplit();
    Form(CategoryKeys[..7], map k | k in CategoryKeys[..7] :: CategoryDefault(k))
  }

  /** The title-launch flag is the last key of the category form and only
      there. */
  lemma CategoryKeysSplit()
    ensures CategoryKeys == CategoryKeys[..7] + [ShowInTitleLaunch]
    ensures ShowInTitleLaunch !in CategoryKeys[..7]
  {
  }

  /** A sales-context flag as a category row holds it: defined under the
      camelCase spelling the form uses, and under snake_case either absent
      or the same. */
  predicate SalesFlagStored(row: Row, camel: string, snake: string) {
    !Nullish(Look(row, camel)) && (Nullish(Look(row, snake)) || Look(row, snake) == Look(row, camel))
  }

  /** A category row holding name, type and every flag but perhaps the
      title-launch one. */
  predicate CategoryFlagsStored(row: Row) {
    && Look(row, "name") != Undef && Look(row, "type") != Undef
    && SalesFlagStored(row, "showInSales", "show_in_sales")
    && SalesFlagStored(row, "showInPurchases", "show_in_purchases")
    && SalesFlagStored(row, "showInLiquidation", "show_in_liquidation")
    && !Nullish(Look(row, "show_in_bank_manual")) && !Nullish(Look(row, "show_in_pdv_manual"))
  }

  /** A category row holding every field of the category form, as a
      category saved from a complete form is stored (see
      `CategoryInsertedReopensUnchanged`). */
  predicate CategoryRowComplete(row: Row) {
    CategoryFlagsStored(row) && !Nullish(Look(row, "show_in_title_launch"))
  }

  /** Reopening such a category and saving it untouched finds no change. */
  lemma CategoryReopenedUnchanged(row: Row)
    requires CategoryRowComplete(row)
    ensures Delta(EditCategoryForm(row), row) == []
  {
    var f := EditCategoryForm(row);
    forall k | k in f.keys
      ensures Get(f, k) == OriginalValue(row, k.Spelling())
    {
      CategoryFieldUnchanged(row, f, k);
    }
    DeltaEmptyIff(f, row);
  }

  /** A category row lacking the title-launch flag under both spellings
      reopens with exactly one change: the flag the edit form fills with
      `true`. */
  lemma CategoryReopenedDelta(row: Row)
    requires CategoryFlagsStored(row)
    requires Look(row, "show_in_title_launch") == Undef && Look(row, "showInTitleLaunch") == Undef
    ensures forall kv :: kv in Delta(EditCategoryForm(row), row) <==> kv == (ShowInTitleLaunch.Spelling(), Bool(true))
  {
    TitleLaunchUnstored(row);
    EditCategoryUnsetTitleLaunch(row);
    CategoryOthersUnchanged(row);
    DeltaOnlyTitleLaunch(EditCategoryForm(row), row, Bool(true));
  }

  /** With the title-launch flag stored under neither spelling, the edit
      form fills it with `true`. */
  lemma EditCategoryUnsetTitleLaunch(row: Row)
    requires Look(row, "show_in_title_launch") == Undef && Look(row, "showInTitleLaunch") == Undef
    ensures ShowInTitleLaunch in EditCategoryForm(row).keys && Get(EditCategoryForm(row), ShowInTitleLaunch) == Bool(true)
  {
    assert ShowInTitleLaunch in CategoryKeys;
  }

  /** Every key of the edit form but the title-launch flag reads back its
      original value. */
  lemma CategoryOthersUnchanged(row: Row)
    requires CategoryFlagsStored(row)
    ensures forall k :: k in EditCategoryForm(row).keys && k != ShowInTitleLaunch ==>
      Get(EditCategoryForm(row), k) == OriginalValue(row, k.Spelling())
  {
    var f := EditCategoryForm(row);
    forall k | k in f.keys && k != ShowInTitleLaunch
      ensures Get(f, k) == OriginalValue(row, k.Spelling())
    {
      CategoryFieldUnchanged(row, f, k);
    }
  }

  lemma CategoryFieldUnchanged(row: Row, f: Form, k: FormKey)
    requires CategoryFlagsStored(row) && f == EditCategoryForm(row) && k in CategoryKeys
    requires k == ShowInTitleLaunch ==> !Nullish(Look(row, "show_in_title_launch"))
    ensures Get(f, k) == OriginalValue(row, k.Spelling())
  {
    var v := Look(row, k.Spelling());
    assert v != Undef;
    assert OriginalValue(row, k.Spelling()) == v;
    match k
    case ShowInSales => SalesFlagKept(row, "showInSales", "show_in_sales");
    case ShowInPurchases => SalesFlagKept(row, "showInPurchases", "show_in_purchases");
    case ShowInLiquidation => SalesFlagKept(row, "showInLiquidation", "show_in_liquidation");
    case ShowInBankManual => FlagKept(row, "show_in_bank_manual", "showInBankManual", true);
    case ShowInPdvManual => FlagKept(row, "show_in_pdv_manual", "showInPdvManual", true);
    case ShowInTitleLaunch => FlagKept(row, "show_in_title_launch", "showInTitleLaunch", true);
    case _ =>
  }

  /** A sales-context flag is read back as stored under camelCase. */
  lemma SalesFlagKept(row: Row, camel: string, snake: string)
    requires SalesFlagStored(row, camel, snake)
    ensures FlagOf(row, snake, camel, true) == Look(row, camel)
  {
  }

  // ------------------------------------------------------- rows the page inserts

  /** A form value as the table keeps it; reading it back gives it again. */
  function ToStore(v: Val): (r: Store.Value)
    requires !v.Undef?
    ensures FromStore(r) == v
  {
    match v
    case Null => Store.Null
    case Str(s) => Store.Str(s)
    case Num(n) => Store.Num(n)
    case Bool(b) => Store.Bool(b)
    case Obj(t) => Store.Other(t)
  }

  /** A stored value as the page reads it. */
  function FromStore(v: Store.Value): (r: Val)
    ensures !r.Undef?
  {
    match v
    case Null => Null
    case Str(s) => Str(s)
    case Num(n) => Num(n)
    case Bool(b) => Bool(b)
    case Other(t) => Obj(t)
  }

  /** The spread `{...fields}` as the table keeps it: a later field
      overrides an earlier one, and a field holding `undefined` does not
      survive the JSON copy in local storage. */
  function InsertObject(fields: seq<(string, Val)>): (o: Store.Obj)
    ensures forall k :: k in o ==> exists kv :: kv in fields && kv.0 == k
    decreases |fields|
  {
    if |fields| == 0 then map[]
    else
      var last := fields[|fields| - 1];
      var o := InsertObject(fields[..|fields| - 1]);
      assert forall kv :: kv in fields[..|fields| - 1] ==> kv in fields;
      if last.1.Undef? then o - {last.0} else o[last.0 := ToStore(last.1)]
  }

  /** A name every field of which holds the same defined value is kept
      with that value, whichever field comes last. */
  lemma {:induction false} InsertObjectNamed(fields: seq<(string, Val)>, n: string, v: Val)
    requires !v.Undef? && (n, v) in fields
    requires forall kv :: kv in fields && kv.0 == n ==> kv.1 == v
    ensures n in InsertObject(fields) && InsertObject(fields)[n] == ToStore(v)
    decreases |fields|
  {
    var pre := fields[..|fields| - 1];
    if fields[|fields| - 1].0 != n {
      assert fields == pre + [fields[|fields| - 1]];
      assert (n, v) in pre;
      assert forall kv :: kv in pre ==> kv in fields;
      InsertObjectNamed(pre, n, v);
    }
  }

  /** The keys `db.insert` sets itself. */
  predicate Stamp(k: string) {
    k == "id" || k == "company_id" || k == "user_id" || k == "created_at" || k == "updated_at"
  }

  /** `newItemRaw` of `db.insert`: the item with a fresh id, the company,
      the user and the timestamps. `id`, `user` and `now` stand for
      `generateId()`, the logged-in user and `getBrNow()`. */
  function Stamped(fields: seq<(string, Val)>, id: string, company: Store.Value, user: Store.Value, now: string): (o: Store.Obj)
    ensures forall k :: !Stamp(k) ==> (k in o <==> k in InsertObject(fields))
    ensures forall k :: !Stamp(k) && k in o ==> o[k] == InsertObject(fields)[k]
  {
    InsertObject(fields)["id" := Store.Str(id)]["company_id" := company]["user_id" := user]
      ["created_at" := Store.Str(now)]["updated_at" := Store.Str(now)]
  }

  /** The row `db.insert` keeps, normalised by `applyRedundancy`, as the
      page reads it back. */
  function InsertedRow(fields: seq<(string, Val)>, id: string, company: Store.Value, user: Store.Value, now: string): Row {
    var o := Store.ApplyRedundancy(Stamped(fields, id, company, user, now));
    Row(id, map k | k in o :: FromStore(o[k]))
  }

  /** A field under a spelling the insert does not touch is read back as
      the item carried it. */
  lemma InsertedKeeps(fields: seq<(string, Val)>, id: string, company: Store.Value, user: Store.Value, now: string, k: string)
    requires !Stamp(k) && !Store.IsCompanyKey(k) && !Store.IsPlanKey(k) && k in InsertObject(fields)
    ensures Look(InsertedRow(fields, id, company, user, now), k) == FromStore(InsertObject(fields)[k])
  {
    Store.ApplyRedundancyKeeps(Stamped(fields, id, company, user, now));
  }

  /** A spelling the item lacks and no nomenclature entry names stays
      absent. */
  lemma InsertedLacks(fields: seq<(string, Val)>, id: string, company: Store.Value, user: Store.Value, now: string, k: string)
    requires !Stamp(k) && !Store.IsCompanyKey(k) && !Store.IsPlanKey(k) && k !in InsertObject(fields)
    requires forall j :: 0 <= j < Store.NomenclatureSize ==> Store.Nomenclature(j).0 != k && Store.Nomenclature(j).1 != k
    ensures Look(InsertedRow(fields, id, company, user, now), k) == Undef
  {
    Store.ApplyRedundancyUnnamed(Stamped(fields, id, company, user, now), k);
  }

  /** The missing spelling of a nomenclature pair is read back as the
      present one. */
  lemma InsertedCopied(fields: seq<(string, Val)>, id: string, company: Store.Value, user: Store.Value, now: string,
                       i: nat, given: string, filled: string)
    requires i < Store.NomenclatureSize && Store.PairAlone(i) && given != filled
    requires Store.Nomenclature(i) == (given, filled) || Store.Nomenclature(i) == (filled, given)
    requires !Stamp(given) && !Store.IsCompanyKey(given) && !Store.IsPlanKey(given)
    requires !Stamp(filled) && !Store.IsCompanyKey(filled) && !Store.IsPlanKey(filled)
    requires given in InsertObject(fields) && filled !in InsertObject(fields)
    ensures Look(InsertedRow(fields, id, company, user, now), filled) == FromStore(InsertObject(fields)[given])
  {
    var o := Stamped(fields, id, company, user, now);
    var pair := Store.Nomenclature(i);
    Store.ApplyRedundancyPair(o, i, pair.0, pair.1);
  }

  /** The form key spelled `s`, if any. */
  function KeyOf(s: string): (r: Option<FormKey>)
    ensures r.Some? ==> r.value.Spelling() == s
  {
    if s == "name" then Some(Name)
    else if s == "days" then Some(Days)
    else if s == "installments" then Some(Installments)
    else if s == "type" then Some(Type)
    else if s == "show_in_sale" then Some(ShowInSale)
    else if s == "show_in_purchase" then Some(ShowInPurchase)
    else if s == "show_in_settle" then Some(ShowInSettle)
    else if s == "show_in_bank_manual" then Some(ShowInBankManual)
    else if s == "show_in_pdv_manual" then Some(ShowInPdvManual)
    else if s == "show_in_manual_pdv" then Some(ShowInManualPdv)
    else if s == "show_in_cashier_close" then Some(ShowInCashierClose)
    else if s == "show_in_opening" then Some(ShowInOpening)
    else if s == "show_in_title_launch" then Some(ShowInTitleLaunch)
    else if s == "showInSales" then Some(ShowInSales)
    else if s == "showInPurchases" then Some(ShowInPurchases)
    else if s == "showInLiquidation" then Some(ShowInLiquidation)
    else None
  }

  /** No two form keys share a spelling. */
  lemma SpellingKeyOf(k: FormKey)
    ensures KeyOf(k.Spelling()) == Some(k)
  {
  }

  lemma NotASpelling(s: string)
    requires KeyOf(s) == None
    ensures forall k: FormKey :: k.Spelling() != s
  {
    forall k: FormKey
      ensures k.Spelling() != s
    {
      SpellingKeyOf(k);
    }
  }

  /** No form spelling is one the insert sets or aliases itself. */
  lemma SpellingUntouched(k: FormKey)
    ensures var s := k.Spelling();
      !Stamp(s) && !Store.IsCompanyKey(s) && !Store.IsPlanKey(s) && s != "is_default"
  {
  }

  /** A form key with a defined value is read back from the inserted row as
      the form held it. */
  lemma InsertedFormField(f: Form, t: Table, c: string, id: string, company: Store.Value, user: Store.Value, now: string, k: FormKey)
    requires k in f.keys && !Get(f, k).Undef?
    ensures var o := InsertObject(Fields(f) + InsertExtras(t, c));
      k.Spelling() in o && o[k.Spelling()] == ToStore(Get(f, k))
    ensures Look(InsertedRow(Fields(f) + InsertExtras(t, c), id, company, user, now), k.Spelling()) == Get(f, k)
  {
    var fields := Fields(f) + InsertExtras(t, c);
    var fs := Fields(f);
    var i :| 0 <= i < |f.keys| && f.keys[i] == k;
    assert fields[i] == (k.Spelling(), Get(f, k));
    SpellingKeyOf(k);
    forall kv | kv in fields && kv.0 == k.Spelling()
      ensures kv.1 == Get(f, k)
    {
      var j :| 0 <= j < |fields| && fields[j] == kv;
      if j < |fs| {
        SpellingKeyOf(f.keys[j]);
      }
    }
    InsertObjectNamed(fields, k.Spelling(), Get(f, k));
    SpellingUntouched(k);
    InsertedKeeps(fields, id, company, user, now, k.Spelling());
  }

  /** A spelling that is neither the form's own nor one of the page's
      extras is not in the item. */
  lemma FormObjectLacks(f: Form, t: Table, c: string, s: string)
    requires forall k :: k in f.keys ==> k.Spelling() != s
    requires s != "companyId" && s != "is_default"
    ensures s !in InsertObject(Fields(f) + InsertExtras(t, c))
  {
    var fields := Fields(f) + InsertExtras(t, c);
    forall kv | kv in fields
      ensures kv.0 != s
    {
      var i :| 0 <= i < |fields| && fields[i] == kv;
      if i < |f.keys| {
        assert f.keys[i] in f.keys;
      }
    }
  }

  /** Every defined field of the form is read back from the inserted row as
      the form held it. */
  lemma InsertedFormFields(f: Form, t: Table, c: string, id: string, company: Store.Value, user: Store.Value, now: string)
    requires forall k :: k in f.keys ==> !Get(f, k).Undef?
    ensures forall k :: k in f.keys ==>
      Look(InsertedRow(Fields(f) + InsertExtras(t, c), id, company, user, now), k.Spelling()) == Get(f, k)
  {
    forall k | k in f.keys
      ensures Look(InsertedRow(Fields(f) + InsertExtras(t, c), id, company, user, now), k.Spelling()) == Get(f, k)
    {
      InsertedFormField(f, t, c, id, company, user, now, k);
    }
  }

  /** A spelling no form key uses and the insert neither sets nor aliases
      itself. */
  predicate SpareSpelling(s: string) {
    KeyOf(s) == None && !Stamp(s) && !Store.IsCompanyKey(s) && !Store.IsPlanKey(s) && s != "is_default"
  }

  lemma PdvManualCamelSpare(s: string)
    requires s == "showInPdvManual"
    ensures SpareSpelling(s)
  {
  }

  lemma ManualPdvCamelSpare(s: string)
    requires s == "showInManualPdv"
    ensures SpareSpelling(s)
  {
  }

  /** The other spelling of a nomenclature pair, which no form key uses, is
      read back from the inserted row as the form held the key. */
  lemma InsertedOtherSpelling(f: Form, t: Table, c: string, id: string, company: Store.Value, user: Store.Value, now: string,
                              i: nat, key: FormKey, other: string)
    requires key in f.keys && !Get(f, key).Undef?
    requires i < Store.NomenclatureSize && Store.PairAlone(i)
    requires Store.Nomenclature(i) == (key.Spelling(), other) || Store.Nomenclature(i) == (other, key.Spelling())
    requires SpareSpelling(other)
    ensures Look(InsertedRow(Fields(f) + InsertExtras(t, c), id, company, user, now), other) == Get(f, key)
  {
    var fields := Fields(f) + InsertExtras(t, c);
    InsertedFormField(f, t, c, id, company, user, now, key);
    SpellingUntouched(key);
    NotASpelling(other);
    FormObjectLacks(f, t, c, other);
    InsertedCopied(fields, id, company, user, now, i, key.Spelling(), other);
  }

  /** A form without the title-launch flag inserts a row without
      `show_in_title_launch`. */
  lemma TitleSnakeAbsent(f: Form, t: Table, c: string, id: string, company: Store.Value, user: Store.Value, now: string)
    requires ShowInTitleLaunch !in f.keys
    ensures Look(InsertedRow(Fields(f) + InsertExtras(t, c), id, company, user, now), "show_in_title_launch") == Undef
  {
    forall k | k in f.keys
      ensures k.Spelling() != "show_in_title_launch"
    {
      SpellingKeyOf(k);
    }
    FormObjectLacks(f, t, c, "show_in_title_launch");
    Store.TitleLaunchUnnamed();
    InsertedLacks(Fields(f) + InsertExtras(t, c), id, company, user, now, "show_in_title_launch");
  }

  /** Nor, since no nomenclature entry names the flag, `showInTitleLaunch`. */
  lemma TitleCamelAbsent(f: Form, t: Table, c: string, id: string, company: Store.Value, user: Store.Value, now: string)
    ensures Look(InsertedRow(Fields(f) + InsertExtras(t, c), id, company, user, now), "showInTitleLaunch") == Undef
  {
    NotASpelling("showInTitleLaunch");
    FormObjectLacks(f, t, c, "showInTitleLaunch");
    Store.TitleLaunchUnnamed();
    InsertedLacks(Fields(f) + InsertExtras(t, c), id, company, user, now, "showInTitleLaunch");
  }

  // ------------------------------------------------------- new terms

  /** A term form the user can save: keys of the term form, no value
      undefined or null, both manual-PDV spellings holding the same boolean,
      and every key present except perhaps the title-launch flag. */
  predicate TermFormFilled(f: Form) {
    && (forall k :: k in f.keys ==> k in TermKeys && !Nullish(Get(f, k)))
    && (forall k :: k in TermKeys && k != ShowInTitleLaunch ==> k in f.keys)
    && Coupled(f) && Get(f, ShowInPdvManual).Bool?
  }

  /** The term `handleSaveTerm` inserts for a new form, as read back. */
  function InsertedTerm(f: Form, c: string, id: string, company: Store.Value, user: Store.Value, now: string): Row {
    InsertedRow(Fields(f) + InsertExtras(PaymentTerms, c), id, company, user, now)
  }

  /** Read back, a new term holds the manual-PDV flag also under the
      camelCase spelling `applyRedundancy` fills in for `show_in_pdv_manual`. */
  lemma InsertedTermPdvManualCamel(f: Form, c: string, id: string, company: Store.Value, user: Store.Value, now: string)
    requires TermFormFilled(f)
    ensures Look(InsertedTerm(f, c, id, company, user, now), "showInPdvManual") == Get(f, ShowInPdvManual)
  {
    assert ShowInPdvManual in TermKeys;
    PdvManualCamelSpare("showInPdvManual");
    Store.PdvManualPairAlone();
    InsertedOtherSpelling(f, PaymentTerms, c, id, company, user, now, 21, ShowInPdvManual, "showInPdvManual");
  }

  /** And under the one it fills in for `show_in_manual_pdv`. */
  lemma InsertedTermManualPdvCamel(f: Form, c: string, id: string, company: Store.Value, user: Store.Value, now: string)
    requires TermFormFilled(f)
    ensures Look(InsertedTerm(f, c, id, company, user, now), "showInManualPdv") == Get(f, ShowInPdvManual)
  {
    assert ShowInManualPdv in TermKeys && Get(f, ShowInManualPdv) == Get(f, ShowInPdvManual);
    ManualPdvCamelSpare("showInManualPdv");
    Store.ManualPdvPairAlone();
    InsertedOtherSpelling(f, PaymentTerms, c, id, company, user, now, 22, ShowInManualPdv, "showInManualPdv");
  }

  /** A row holding one boolean under all four spellings of the manual-PDV
      flag keeps it as a term row does. */
  lemma ManualPdvStoredOnce(row: Row, v: Val)
    requires v.Bool?
    requires Look(row, ShowInPdvManual.Spelling()) == v && Look(row, ShowInManualPdv.Spelling()) == v
    requires Look(row, "showInPdvManual") == v && Look(row, "showInManualPdv") == v
    ensures ManualPdvStored(row)
  {
  }

  /** A new term stores the manual-PDV flag as a term row keeps it. */
  lemma InsertedTermManualPdv(f: Form, c: string, id: string, company: Store.Value, user: Store.Value, now: string)
    requires TermFormFilled(f)
    ensures ManualPdvStored(InsertedTerm(f, c, id, company, user, now))
  {
    assert ShowInPdvManual in TermKeys && ShowInManualPdv in TermKeys;
    assert Get(f, ShowInManualPdv) == Get(f, ShowInPdvManual);
    InsertedFormField(f, PaymentTerms, c, id, company, user, now, ShowInPdvManual);
    InsertedFormField(f, PaymentTerms, c, id, company, user, now, ShowInManualPdv);
    InsertedTermPdvManualCamel(f, c, id, company, user, now);
    InsertedTermManualPdvCamel(f, c, id, company, user, now);
    ManualPdvStoredOnce(InsertedTerm(f, c, id, company, user, now), Get(f, ShowInPdvManual));
  }

  /** A new term saved from a complete form, the title-launch flag included
      as in the page's initial form, reopens unchanged: saving it untouched
      files no request. */
  lemma TermInsertedReopensUnchanged(f: Form, c: string, id: string, company: Store.Value, user: Store.Value, now: string)
    requires TermFormFilled(f) && ShowInTitleLaunch in f.keys
    ensures TermRowComplete(InsertedTerm(f, c, id, company, user, now))
    ensures var row := InsertedTerm(f, c, id, company, user, now); Delta(EditTermForm(row), row) == []
  {
    var row := InsertedTerm(f, c, id, company, user, now);
    InsertedFormFields(f, PaymentTerms, c, id, company, user, now);
    InsertedTermManualPdv(f, c, id, company, user, now);
    CompleteFromForm(f, row);
    TermReopenedUnchanged(row);
  }

  /** A row holding every field of a complete term form is a complete term
      row. */
  lemma CompleteFromForm(f: Form, row: Row)
    requires TermFormFilled(f) && ShowInTitleLaunch in f.keys && ManualPdvStored(row)
    requires forall k :: k in f.keys ==> Look(row, k.Spelling()) == Get(f, k)
    ensures TermRowComplete(row)
  {
  }

  /** A new term saved from a form without the title-launch flag does not
      reopen unchanged: saving it untouched files a request whose delta is
      exactly `{"show_in_title_launch": false}`. */
  lemma TermInsertedWithoutTitleLaunch(f: Form, c: string, id: string, company: Store.Value, user: Store.Value, now: string)
    requires TermFormFilled(f) && ShowInTitleLaunch !in f.keys
    ensures !TermRowComplete(InsertedTerm(f, c, id, company, user, now))
    ensures var row := InsertedTerm(f, c, id, company, user, now);
      forall kv :: kv in Delta(EditTermForm(row), row) <==> kv == (ShowInTitleLaunch.Spelling(), Bool(false))
  {
    var row := InsertedTerm(f, c, id, company, user, now);
    InsertedFormFields(f, PaymentTerms, c, id, company, user, now);
    InsertedTermManualPdv(f, c, id, company, user, now);
    TitleSnakeAbsent(f, PaymentTerms, c, id, company, user, now);
    TitleCamelAbsent(f, PaymentTerms, c, id, company, user, now);
    assert ShowInTitleLaunch in TermKeys;
    TermReopenedDelta(row);
    TitleLaunchIncomplete(row);
  }

  /** A row without `show_in_title_launch` is not a complete term row. */
  lemma TitleLaunchIncomplete(row: Row)
    requires Look(row, "show_in_title_launch") == Undef
    ensures !TermRowComplete(row)
  {
    assert ShowInTitleLaunch in TermKeys && ShowInTitleLaunch.Spelling() == "show_in_title_launch";
  }

  lemma NewTermFilled()
    ensures TermFormFilled(NewTermForm())
  {
    NewTermValuesSet();
    NewTermKeysPresent();
  }

  lemma NewTermValuesSet()
    ensures forall k :: k in NewTermForm().keys ==> k in TermKeys && !Nullish(Get(NewTermForm(), k))
  {
    var f := NewTermForm();
    forall k | k in f.keys
      ensures k in TermKeys && !Nullish(Get(f, k))
    {
      assert Get(f, k) == TermDefault(k);
    }
  }

  lemma NewTermKeysPresent()
    ensures forall k :: k in TermKeys && k != ShowInTitleLaunch ==> k in NewTermForm().keys
  {
    TermKeysSplit();
  }

  lemma InitialTermFilled()
    ensures TermFormFilled(InitialTermForm()) && ShowInTitleLaunch in InitialTermForm().keys
  {
  }

  /** "Novo Prazo" as the page writes it: every term created through its
      form, untouched, files a spurious edit request when reopened. */
  lemma NewTermReopensChanged(c: string, id: string, company: Store.Value, user: Store.Value, now: string)
    ensures var row := InsertedTerm(NewTermForm(), c, id, company, user, now);
      forall kv :: kv in Delta(EditTermForm(row), row) <==> kv == (ShowInTitleLaunch.Spelling(), Bool(false))
  {
    NewTermFilled();
    TermInsertedWithoutTitleLaunch(NewTermForm(), c, id, company, user, now);
  }

  /** Resetting to the page's initial form instead, a term created untouched
      reopens unchanged. */
  lemma InitialTermReopensUnchanged(c: string, id: string, company: Store.Value, user: Store.Value, now: string)
    ensures var row := InsertedTerm(InitialTermForm(), c, id, company, user, now);
      Delta(EditTermForm(row), row) == []
  {
    InitialTermFilled();
    TermInsertedReopensUnchanged(InitialTermForm(), c, id, company, user, now);
  }

  // ------------------------------------------------------- new categories

  /** A category form the user can save: keys of the category form, no
      value undefined or null, and every key present except perhaps the
      title-launch flag. */
  predicate CategoryFormFilled(f: Form) {
    && (forall k :: k in f.keys ==> k in CategoryKeys && !Nullish(Get(f, k)))
    && (forall k :: k in CategoryKeys && k != ShowInTitleLaunch ==> k in f.keys)
  }

  /** The category `handleSaveCategory` inserts for a new form, as read
      back. */
  function InsertedCategory(f: Form, c: string, id: string, company: Store.Value, user: Store.Value, now: string): Row {
    InsertedRow(Fields(f) + InsertExtras(FinanceCategories, c), id, company, user, now)
  }

  lemma SalesSnakeSpare(s: string)
    requires s == "show_in_sales"
    ensures SpareSpelling(s)
  {
  }

  lemma PurchasesSnakeSpare(s: string)
    requires s == "show_in_purchases"
    ensures SpareSpelling(s)
  {
  }

  lemma LiquidationSnakeSpare(s: string)
    requires s == "show_in_liquidation"
    ensures SpareSpelling(s)
  {
  }

  /** Read back, a new category holds the sales flag also under the
      snake_case spelling `applyRedundancy` fills in. */
  lemma InsertedCategorySales(f: Form, c: string, id: string, company: Store.Value, user: Store.Value, now: string)
    requires CategoryFormFilled(f)
    ensures Look(InsertedCategory(f, c, id, company, user, now), "show_in_sales") == Get(f, ShowInSales)
  {
    assert ShowInSales in CategoryKeys;
    SalesSnakeSpare("show_in_sales");
    Store.SalesPairAlone();
    InsertedOtherSpelling(f, FinanceCategories, c, id, company, user, now, 25, ShowInSales, "show_in_sales");
  }

  /** Likewise the purchases flag. */
  lemma InsertedCategoryPurchases(f: Form, c: string, id: string, company: Store.Value, user: Store.Value, now: string)
    requires CategoryFormFilled(f)
    ensures Look(InsertedCategory(f, c, id, company, user, now), "show_in_purchases") == Get(f, ShowInPurchases)
  {
    assert ShowInPurchases in CategoryKeys;
    PurchasesSnakeSpare("show_in_purchases");
    Store.PurchasesPairAlone();
    InsertedOtherSpelling(f, FinanceCategories, c, id, company, user, now, 26, ShowInPurchases, "show_in_purchases");
  }

  /** Likewise the settlement flag. */
  lemma InsertedCategoryLiquidation(f: Form, c: string, id: string, company: Store.Value, user: Store.Value, now: string)
    requires CategoryFormFilled(f)
    ensures Look(InsertedCategory(f, c, id, company, user, now), "show_in_liquidation") == Get(f, ShowInLiquidation)
  {
    assert ShowInLiquidation in CategoryKeys;
    LiquidationSnakeSpare("show_in_liquidation");
    Store.LiquidationPairAlone();
    InsertedOtherSpelling(f, FinanceCategories, c, id, company, user, now, 27, ShowInLiquidation, "show_in_liquidation");
  }

  /** A key a filled category form holds is read back from a row holding
      the form's fields, and is neither undefined nor null there. */
  lemma CategoryFieldFilled(f: Form, row: Row, k: FormKey)
    requires CategoryFormFilled(f) && k in CategoryKeys && k != ShowInTitleLaunch
    requires forall k :: k in f.keys ==> Look(row, k.Spelling()) == Get(f, k)
    ensures Look(row, k.Spelling()) == Get(f, k) && !Nullish(Get(f, k))
  {
  }

  /** A row holding every field of a filled category form, each sales flag
      under both spellings, keeps the flags as a category row does. */
  lemma CategoryStoredFromForm(f: Form, row: Row)
    requires CategoryFormFilled(f)
    requires forall k :: k in f.keys ==> Look(row, k.Spelling()) == Get(f, k)
    requires Look(row, "show_in_sales") == Get(f, ShowInSales)
    requires Look(row, "show_in_purchases") == Get(f, ShowInPurchases)
    requires Look(row, "show_in_liquidation") == Get(f, ShowInLiquidation)
    ensures CategoryFlagsStored(row)
  {
    CategoryFieldFilled(f, row, Name);
    CategoryFieldFilled(f, row, Type);
    CategoryFieldFilled(f, row, ShowInSales);
    CategoryFieldFilled(f, row, ShowInPurchases);
    CategoryFieldFilled(f, row, ShowInLiquidation);
    CategoryFieldFilled(f, row, ShowInBankManual);
    CategoryFieldFilled(f, row, ShowInPdvManual);
    CategoryFlagsStoredOnce(row);
  }

  /** A row holding name, type and every flag but the title-launch one,
      each sales flag the same under both spellings, keeps the flags as a
      category row does. */
  lemma CategoryFlagsStoredOnce(row: Row)
    requires !Nullish(Look(row, Name.Spelling())) && !Nullish(Look(row, Type.Spelling()))
    requires !Nullish(Look(row, ShowInSales.Spelling())) && Look(row, "show_in_sales") == Look(row, ShowInSales.Spelling())
    requires !Nullish(Look(row, ShowInPurchases.Spelling()))
    requires Look(row, "show_in_purchases") == Look(row, ShowInPurchases.Spelling())
    requires !Nullish(Look(row, ShowInLiquidation.Spelling()))
    requires Look(row, "show_in_liquidation") == Look(row, ShowInLiquidation.Spelling())
    requires !Nullish(Look(row, ShowInBankManual.Spelling())) && !Nullish(Look(row, ShowInPdvManual.Spelling()))
    ensures CategoryFlagsStored(row)
  {
  }

  /** With the title-launch flag in the form too, the row is complete. */
  lemma CategoryCompleteFromForm(f: Form, row: Row)
    requires CategoryFormFilled(f) && ShowInTitleLaunch in f.keys && CategoryFlagsStored(row)
    requires forall k :: k in f.keys ==> Look(row, k.Spelling()) == Get(f, k)
    ensures CategoryRowComplete(row)
  {
    assert Look(row, ShowInTitleLaunch.Spelling()) == Get(f, ShowInTitleLaunch);
  }

  /** A new category stores its flags as a category row keeps them. */
  lemma InsertedCategoryStored(f: Form, c: string, id: string, company: Store.Value, user: Store.Value, now: string)
    requires CategoryFormFilled(f)
    ensures CategoryFlagsStored(InsertedCategory(f, c, id, company, user, now))
    ensures ShowInTitleLaunch in f.keys ==> CategoryRowComplete(InsertedCategory(f, c, id, company, user, now))
  {
    InsertedFormFields(f, FinanceCategories, c, id, company, user, now);
    InsertedCategorySales(f, c, id, company, user, now);
    InsertedCategoryPurchases(f, c, id, company, user, now);
    InsertedCategoryLiquidation(f, c, id, company, user, now);
    CategoryStoredFromForm(f, InsertedCategory(f, c, id, company, user, now));
    if ShowInTitleLaunch in f.keys {
      CategoryCompleteFromForm(f, InsertedCategory(f, c, id, company, user, now));
    }
  }

  /** A new category saved from a complete form, the title-launch flag
      included as in the page's initial form, reopens unchanged. */
  lemma CategoryInsertedReopensUnchanged(f: Form, c: string, id: string, company: Store.Value, user: Store.Value, now: string)
    requires CategoryFormFilled(f) && ShowInTitleLaunch in f.keys
    ensures CategoryRowComplete(InsertedCategory(f, c, id, company, user, now))
    ensures var row := InsertedCategory(f, c, id, company, user, now); Delta(EditCategoryForm(row), row) == []
  {
    InsertedCategoryStored(f, c, id, company, user, now);
    CategoryReopenedUnchanged(InsertedCategory(f, c, id, company, user, now));
  }

  /** A new category saved from a form without the title-launch flag does
      not reopen unchanged: saving it untouched files a request whose delta
      is exactly `{"show_in_title_launch": true}`. */
  lemma CategoryInsertedWithoutTitleLaunch(f: Form, c: string, id: string, company: Store.Value, user: Store.Value, now: string)
    requires CategoryFormFilled(f) && ShowInTitleLaunch !in f.keys
    ensures !CategoryRowComplete(InsertedCategory(f, c, id, company, user, now))
    ensures var row := InsertedCategory(f, c, id, company, user, now);
      forall kv :: kv in Delta(EditCategoryForm(row), row) <==> kv == (ShowInTitleLaunch.Spelling(), Bool(true))
  {
    var row := InsertedCategory(f, c, id, company, user, now);
    InsertedCategoryStored(f, c, id, company, user, now);
    TitleSnakeAbsent(f, FinanceCategories, c, id, company, user, now);
    TitleCamelAbsent(f, FinanceCategories, c, id, company, user, now);
    CategoryReopenedDelta(row);
  }

  lemma NewCategoryFilled()
    ensures CategoryFormFilled(NewCategoryForm())
  {
    NewCategoryValuesSet();
    NewCategoryKeysPresent();
  }

  lemma NewCategoryValuesSet()
    ensures forall k :: k in NewCategoryForm().keys ==> k in CategoryKeys && !Nullish(Get(NewCategoryForm(), k))
  {
    var f := NewCategoryForm();
    forall k | k in f.keys
      ensures k in CategoryKeys && !Nullish(Get(f, k))
    {
      assert Get(f, k) == CategoryDefault(k);
    }
  }

  lemma NewCategoryKeysPresent()
    ensures forall k :: k in CategoryKeys && k != ShowInTitleLaunch ==> k in NewCategoryForm().keys
  {
    CategoryKeysSplit();
  }

  lemma InitialCategoryFilled()
    ensures CategoryFormFilled(InitialCategoryForm()) && ShowInTitleLaunch in InitialCategoryForm().keys
  {
    var f := InitialCategoryForm();
    forall k | k in f.keys
      ensures k in CategoryKeys && !Nullish(Get(f, k))
    {
      assert Get(f, k) == CategoryDefault(k);
    }
  }

  /** "Nova Categoria" as the page writes it: every category created
      through its form, untouched, files a spurious edit request when
      reopened. */
  lemma NewCategoryReopensChanged(c: string, id: string, company: Store.Value, user: Store.Value, now: string)
    ensures var row := InsertedCategory(NewCategoryForm(), c, id, company, user, now);
      forall kv :: kv in Delta(EditCategoryForm(row), row) <==> kv == (ShowInTitleLaunch.Spelling(), Bool(true))
  {
    NewCategoryFilled();
    CategoryInsertedWithoutTitleLaunch(NewCategoryForm(), c, id, company, user, now);
  }

  /** Resetting to the page's initial form instead, a category created
      untouched reopens unchanged. */
  lemma InitialCategoryReopensUnchanged(c: string, id: string, company: Store.Value, user: Store.Value, now: string)
    ensures var row := InsertedCategory(InitialCategoryForm(), c, id, company, user, now);
      Delta(EditCategoryForm(row), row) == []
  {
    InitialCategoryFilled();
    CategoryInsertedReopensUnchanged(InitialCategoryForm(), c, id, company, user, now);
  }

  // ------------------------------------------------------- requests

  datatype Table = PaymentTerms | FinanceCategories

  function EditKey(t: Table): string {
    match t
    case PaymentTerms => "EDITAR_PRAZO_COMERCIAL"
    case FinanceCategories => "EDITAR_CATEGORIA_FINANCEIRA"
  }

  function DeleteKey(t: Table): string {
    match t
    case PaymentTerms => "EXCLUIR_PRAZO_COMERCIAL"
    case FinanceCategories => "EXCLUIR_CATEGORIA_FINANCEIRA"
  }

  /** The narrative an edit request opens with, up to `REAL_ID: `. */
  function EditHead(t: Table, id: string, name: string): string {
    match t
    case PaymentTerms =>
      "OP: EDIÇÃO DE PRAZO | ID: #" + Last(id, 5) + " | CTX: FINANCEIRO ESTRUTURAL | DET: Alteração das condições de vencimento e parcelamento do prazo "
        + name + ". | VAL: R$ 0,00 para R$ 0,00 | "
    case FinanceCategories =>
      "OP: EDIÇÃO DE CATEGORIA | ID: #" + Last(id, 5) + " | CTX: PLANO DE CONTAS | DET: Alteração na classificação e finalidade da categoria "
        + name + ". | VAL: R$ 0,00 para R$ 0,00 | "
  }

  /** The narrative a delete request opens with, up to `REAL_ID: `. */
  function DeleteHead(t: Table, id: string, name: string): string {
    match t
    case PaymentTerms =>
      "OP: EXCLUSÃO DE PRAZO | ID: #" + Last(id, 5) + " | CTX: FINANCEIRO ESTRUTURAL | DET: Desativação permanente do prazo comercial "
        + name + ". | VAL: R$ 0,00 para R$ 0,00 | "
    case FinanceCategories =>
      "OP: EXCLUSÃO DE CATEGORIA | ID: #" + Last(id, 5) + " | CTX: PLANO DE CONTAS | DET: Remoção definitiva da categoria "
        + name + ". | VAL: R$ 0,00 para R$ 0,00 | "
  }

  function EditLabel(t: Table, id: string, name: string, json: string): string {
    EditHead(t, id, name) + RealIdJsonLabel(id, json)
  }

  function DeleteLabel(t: Table, id: string, name: string): string {
    DeleteHead(t, id, name) + RealIdKey + id
  }

  /** What saving a form leads to. An insert carries the form's fields
      followed by the extra ones the page adds. */
  datatype SaveOutcome =
    | Insert(table: Table, fields: seq<(string, Val)>)
    | CloseOnly
    | FileRequest(key: string, text: string)
    | KeepOpen

  /** The fields the page adds to a new row: the company and, for a
      category, `is_default: false`. */
  function InsertExtras(t: Table, companyId: string): seq<(string, Val)> {
    match t
    case PaymentTerms => [("companyId", Str(companyId))]
    case FinanceCategories => [("companyId", Str(companyId)), ("is_default", Bool(false))]
  }

  function RowById(rows: seq<Row>, id: string): (r: Option<Row>)
    ensures r.Some? ==> r.value in rows && r.value.id == id
    ensures r.None? <==> forall row :: row in rows ==> row.id != id
  {
    Find(rows, (row: Row) => row.id == id)
  }

  /** `handleSaveTerm` / `handleSaveCategory`. With no row being edited the
      form is inserted directly; otherwise the delta against the stored row
      is computed, and only a non-empty one becomes a request. `stringify`
      stands for `JSON.stringify`. */
  function SaveForm(t: Table, editingId: string, rows: seq<Row>, form: Form, companyId: string,
                    stringify: seq<(string, Val)> -> string): (o: SaveOutcome)
    ensures editingId == "" <==> o.Insert?
    ensures o.Insert? ==> o.table == t && o.fields == Fields(form) + InsertExtras(t, companyId)
    ensures o.KeepOpen? <==> editingId != "" && forall row :: row in rows ==> row.id != editingId
    ensures o.CloseOnly? ==> exists row :: row in rows && row.id == editingId && Delta(form, row) == []
    ensures o.FileRequest? ==> o.key == EditKey(t) && exists row :: (row in rows && row.id == editingId
      && Delta(form, row) != [] && o.text == EditLabel(t, editingId, Render(Look(row, "name")), stringify(Delta(form, row))))
  {
    if editingId == "" then Insert(t, Fields(form) + InsertExtras(t, companyId))
    else
      match RowById(rows, editingId)
      case None => KeepOpen
      case Some(row) =>
        var delta := Delta(form, row);
        if delta == [] then CloseOnly
        else FileRequest(EditKey(t), EditLabel(t, editingId, Render(Look(row, "name")), stringify(delta)))
  }

  /** The delete button of a row: none on system rows. */
  function DeleteRequest(t: Table, row: Row): (o: Option<(string, string)>)
    ensures o.Some? <==> !IsDefault(row)
    ensures o.Some? ==> o.value.0 == DeleteKey(t)
  {
    if IsDefault(row) then None else Some((DeleteKey(t), DeleteLabel(t, row.id, Render(Look(row, "name")))))
  }

  /** The edit button of a row: none on system rows. */
  function StartEdit(t: Table, row: Row): (o: Option<Form>)
    ensures o.Some? <==> !IsDefault(row)
    ensures o.Some? ==> o.value.keys == (if t == PaymentTerms then TermKeys else CategoryKeys)
    ensures t == PaymentTerms && o.Some? ==> Coupled(o.value)
  {
    if IsDefault(row) then None
    else if t == PaymentTerms then Some(EditTermForm(row))
    else Some(EditCategoryForm(row))
  }

  // ------------------------------------------------------- approvals

  datatype FinanceAction = DeleteRow(table: Table, id: string) | UpdateRow(table: Table, id: string, json: string) | NoFinanceAction

  /** What the page does with one approved request it picked up (the request
      is marked processed in every case). */
  function ApprovedFinanceAction(req: AuthRequest): (a: FinanceAction)
    ensures a.DeleteRow? ==> req.action_key == DeleteKey(a.table) && RealId(req.action_label) == Some(a.id) && a.id != ""
    ensures a.UpdateRow? ==> (req.action_key == EditKey(a.table) && RealId(req.action_label) == Some(a.id) && a.id != ""
      && Json(req.action_label) == Some(a.json) && a.json != "")
    ensures a.NoFinanceAction? ==> forall t: Table ::
      && (req.action_key == DeleteKey(t) ==> RealId(req.action_label) in {None, Some("")})
      && (req.action_key == EditKey(t) ==> RealId(req.action_label) in {None, Some("")} || Json(req.action_label) in {None, Some("")})
  {
    var id := RealId(req.action_label);
    var json := Json(req.action_label);
    var hasId := id.Some? && id.value != "";
    var hasJson := json.Some? && json.value != "";
    if req.action_key == DeleteKey(PaymentTerms) then
      if hasId then DeleteRow(PaymentTerms, id.value) else NoFinanceAction
    else if req.action_key == DeleteKey(FinanceCategories) then
      if hasId then DeleteRow(FinanceCategories, id.value) else NoFinanceAction
    else if req.action_key == EditKey(PaymentTerms) then
      if hasId && hasJson then UpdateRow(PaymentTerms, id.value, json.value) else NoFinanceAction
    else if req.action_key == EditKey(FinanceCategories) then
      if hasId && hasJson then UpdateRow(FinanceCategories, id.value, json.value) else NoFinanceAction
    else NoFinanceAction
  }

  /** An approved edit request updates the row it was filed for with the
      delta it carries, when `REAL_ID: ` and `JSON: ` occur in the text only
      where the page wrote them. */
  lemma EditRoundTrip(req: AuthRequest, t: Table, id: string, name: string, json: string)
    requires GeneratedId(id) && Trim(json) != ""
    requires req.action_key == EditKey(t) && req.action_label == EditLabel(t, id, name, json)
    requires Once(req.action_label, RealIdKey) && Once(req.action_label, JsonKey)
    ensures ApprovedFinanceAction(req) == UpdateRow(t, id, Trim(json))
  {
    EditLabelReads(req.action_label, t, id, name, json);
    UpdateActionOf(req, t, id, Trim(json));
  }

  lemma EditLabelReads(text: string, t: Table, id: string, name: string, json: string)
    requires GeneratedId(id) && text == EditLabel(t, id, name, json)
    requires Once(text, RealIdKey) && Once(text, JsonKey)
    ensures RealId(text) == Some(id) && Json(text) == Some(Trim(json))
  {
    HeadedRealIdJson(EditHead(t, id, name), id, json);
  }

  lemma UpdateActionOf(req: AuthRequest, t: Table, id: string, json: string)
    requires req.action_key == EditKey(t)
    requires RealId(req.action_label) == Some(id) && id != ""
    requires Json(req.action_label) == Some(json) && json != ""
    ensures ApprovedFinanceAction(req) == UpdateRow(t, id, json)
  {
    if t == PaymentTerms {
      assert EditKey(t) != DeleteKey(PaymentTerms) && EditKey(t) != DeleteKey(FinanceCategories);
    } else {
      assert EditKey(t) != DeleteKey(PaymentTerms) && EditKey(t) != DeleteKey(FinanceCategories);
      assert EditKey(t) != EditKey(PaymentTerms);
    }
  }

  /** An approved delete request removes the row it was filed for. */
  lemma DeleteRoundTrip(req: AuthRequest, t: Table, id: string, name: string)
    requires GeneratedId(id)
    requires req.action_key == DeleteKey(t) && req.action_label == DeleteLabel(t, id, name)
    requires Once(req.action_label, RealIdKey)
    ensures ApprovedFinanceAction(req) == DeleteRow(t, id)
  {
    HeadedRealId(DeleteHead(t, id, name), id);
  }

  /** Saving an edited form and approving the request it files updates the
      edited row with exactly the fields that changed. */
  lemma SavedEditApplies(t: Table, row: Row, rows: seq<Row>, form: Form, companyId: string,
                         stringify: seq<(string, Val)> -> string, req: AuthRequest)
    requires GeneratedId(row.id) && RowById(rows, row.id) == Some(row)
    requires Delta(form, row) != [] && Trim(stringify(Delta(form, row))) != ""
    requires req.action_key == EditKey(t)
    requires req.action_label == SaveForm(t, row.id, rows, form, companyId, stringify).text
    requires Once(req.action_label, RealIdKey) && Once(req.action_label, JsonKey)
    ensures ApprovedFinanceAction(req) == UpdateRow(t, row.id, Trim(stringify(Delta(form, row))))
  {
    EditRoundTrip(req, t, row.id, Render(Look(row, "name")), stringify(Delta(form, row)));
  }

  /** The delete button of a non-system row, once approved, removes it. */
  lemma DeleteButtonApplies(t: Table, row: Row, req: AuthRequest)
    requires GeneratedId(row.id) && !IsDefault(row)
    requires req.action_key == DeleteKey(t) && req.action_label == DeleteRequest(t, row).value.1
    requires Once(req.action_label, RealIdKey)
    ensures ApprovedFinanceAction(req) == DeleteRow(t, row.id)
  {
    DeleteRoundTrip(req, t, row.id, Render(Look(row, "name")));
  }

  /** One round of the polling effect: the actions taken in list order, the
      ids remembered as processed, and whether the lists are reloaded. */
  datatype FinanceRound = FinanceRound(actions: seq<FinanceAction>, processed: set<string>, refresh: bool)

  function ProcessFinanceRound(requests: seq<AuthRequest>, userId: string, processed: set<string>): (r: FinanceRound)
    ensures processed <= r.processed
    ensures forall id :: id in r.processed - processed ==>
      exists q :: q in requests && q.id == id && q.status == Approved && q.requested_by_id == userId
    ensures |r.actions| == |ApprovedToProcess(requests, userId, processed)|
    ensures r.refresh <==> exists a :: a in r.actions && !a.NoFinanceAction?
    ensures ApprovedToProcess(requests, userId, r.processed) == []
  {
    var todo := ApprovedToProcess(requests, userId, processed);
    var actions := Map(todo, ApprovedFinanceAction);
    var after := processed + set q | q in todo :: q.id;
    assert forall q :: q in ApprovedToProcess(requests, userId, after) ==> q.id in after;
    FinanceRound(actions, after, exists a :: a in actions && !a.NoFinanceAction?)
  }

  /** Each action of a round is what one approved, unprocessed request of the
      current user asks for. */
  lemma FinanceRoundActsOnOwnApprovals(requests: seq<AuthRequest>, userId: string, processed: set<string>, k: nat)
    requires k < |ProcessFinanceRound(requests, userId, processed).actions|
    ensures exists q :: (q in requests && q.status == Approved && q.requested_by_id == userId
      && q.id !in processed && ProcessFinanceRound(requests, userId, processed).actions[k] == ApprovedFinanceAction(q))
  {
    var todo := ApprovedToProcess(requests, userId, processed);
    assert todo[k] in todo;
  }
}

=== FILE: finance_hub.dfy ===
/** The financial hub (`pages/FinanceHub.tsx`): the shift-audit items and
    their system values, the liquidation list and its metrics, the manual
    wallet entry and the shift reconciliation. "Today", the queried records
    and the parsed amounts are parameters. */
module FinanceHub {
  import opened Wrappers
  import opened Seqs
  import opened Strings
  import opened Records
  import opened FinanceStatus
  import ExpectedValue

  // ------------------------------------------------------- item keys

  /** `cat_${categoria}_${natureza}` / `term_${name}_${natureza}`. */
  function MakeKey(prefix: string, name: string, natureza: string): string {
    prefix + "_" + name + "_" + natureza
  }

  /** Splits a key on `_`: the last part is the natureza, the parts between
      the first and the last, re-joined with `_`, are the name. */
  function ParseKey(itemId: string): (string, string) {
    var parts := Split(itemId, "_");
    var middle := if |parts| >= 2 then parts[1..|parts| - 1] else [];
    (Join(middle, "_"), parts[|parts| - 1])
  }

  /** A key parses back to its name and natureza whenever neither the prefix
      nor the natureza contains `_`; the name may contain any number of them. */
  lemma KeyRoundTrip(prefix: string, name: string, natureza: string)
    requires '_' !in prefix && '_' !in natureza
    ensures ParseKey(MakeKey(prefix, name, natureza)) == (name, natureza)
  {
    var sep := "_";
    assert sep == ['_'];
    var tail := name + sep + natureza;
    assert MakeKey(prefix, name, natureza) == prefix + sep + tail;
    SplitCharAppend(prefix, '_', tail);
    SplitCharAppend(name, '_', natureza);
    FreeByChar(prefix, sep, 0);
    FreeByChar(natureza, sep, 0);
    SplitFree(prefix, sep);
    SplitFree(natureza, sep);
    var parts := Split(MakeKey(prefix, name, natureza), sep);
    assert parts == [prefix] + Split(name, sep) + [natureza];
    assert parts[1..|parts| - 1] == Split(name, sep);
    SplitJoin(name, sep);
  }

  lemma NatureTextHasNoUnderscore(n: Nature)
    ensures '_' !in n.Text()
  {
    match n
    case Entrada => assert "ENTRADA" == ['E', 'N', 'T', 'R', 'A', 'D', 'A'];
    case Saida => assert "SAIDA" == ['S', 'A', 'I', 'D', 'A'];
    case NoNature => assert "undefined" == ['u', 'n', 'd', 'e', 'f', 'i', 'n', 'e', 'd'];
  }

  function CatKey(r: FinancialRecord): string {
    MakeKey("cat", r.categoria, r.natureza.Text())
  }

  /** `f.natureza === natureza`: a record without natureza equals no string. */
  predicate NatureIs(n: Nature, text: string) {
    n != NoNature && n.Text() == text
  }

  // ------------------------------------------------------- system values

  /** The session's records that are not reversed by status. */
  function LiveRecords(financials: seq<FinancialRecord>, s: Session): seq<FinancialRecord> {
    Filter(financials, Live(s))
  }

  function Live(s: Session): FinancialRecord -> bool {
    (f: FinancialRecord) => f.caixa_id == s.id && f.status != Reversed
  }

  function Valor(): FinancialRecord -> int {
    (r: FinancialRecord) => r.valor
  }

  /** Records of category `c` whose natureza is the text `n`. */
  function InCategory(c: string, n: string): FinancialRecord -> bool {
    (f: FinancialRecord) => f.categoria == c && NatureIs(f.natureza, n)
  }

  /** Records whose term (by `payment_term_id || paymentTermId`) is named `name`. */
  function InTerm(terms: seq<PaymentTerm>, name: string, n: string): FinancialRecord -> bool {
    (f: FinancialRecord) =>
      var termId := TermId(f);
      var term := ExpectedValue.FindTerm(terms, termId);
      termId != "" && term.Some? && term.value.name == name && NatureIs(f.natureza, n)
  }

  /** `getSystemValue`: what the system expects for one audit item. */
  function GetSystemValue(itemId: string, session: Option<Session>, financials: seq<FinancialRecord>,
                          terms: seq<PaymentTerm>, categories: seq<FinanceCategory>): int
  {
    match session
    case None => 0
    case Some(s) =>
      var records := LiveRecords(financials, s);
      if itemId == "physical_cash" then
        ExpectedValue.Expected(financials, s, "vista", terms, categories, ExpectedValue.FlowIn)
      else if itemId == "physical_check" then
        ExpectedValue.Expected(financials, s, "cheque", terms, categories, ExpectedValue.FlowIn)
      else if StartsWith(itemId, "cat_") then
        var (c, n) := ParseKey(itemId);
        Sum(Filter(records, InCategory(c, n)), Valor())
      else if StartsWith(itemId, "term_") then
        var (name, n) := ParseKey(itemId);
        Sum(Filter(records, InTerm(terms, name, n)), Valor())
      else 0
  }

  /** The system value of a category item is the total of the session's
      non-reversed records of that category and natureza. */
  lemma CategoryItemValue(c: string, n: Nature, s: Session, financials: seq<FinancialRecord>,
                          terms: seq<PaymentTerm>, categories: seq<FinanceCategory>)
    ensures GetSystemValue(MakeKey("cat", c, n.Text()), Some(s), financials, terms, categories)
      == Sum(Filter(LiveRecords(financials, s), InCategory(c, n.Text())), Valor())
  {
    var key := MakeKey("cat", c, n.Text());
    NatureTextHasNoUnderscore(n);
    KeyRoundTrip("cat", c, n.Text());
    assert StartsWith(key, "cat_") by {
      assert key[..4] == "cat_";
    }
    assert key != "physical_cash" && key != "physical_check" by {
      assert key[0] == 'c';
    }
  }

  /** Likewise for payment-term items. */
  lemma TermItemValue(name: string, n: Nature, s: Session, financials: seq<FinancialRecord>,
                      terms: seq<PaymentTerm>, categories: seq<FinanceCategory>)
    ensures GetSystemValue(MakeKey("term", name, n.Text()), Some(s), financials, terms, categories)
      == Sum(Filter(LiveRecords(financials, s), InTerm(terms, name, n.Text())), Valor())
  {
    var key := MakeKey("term", name, n.Text());
    NatureTextHasNoUnderscore(n);
    KeyRoundTrip("term", name, n.Text());
    assert StartsWith(key, "term_") by {
      assert key[..5] == "term_";
    }
    assert !StartsWith(key, "cat_") by {
      assert key[..4][0] == 't';
    }
    assert key != "physical_cash" && key != "physical_check" by {
      assert key[0] == 't';
    }
  }

  /** An item built from records without natureza reads "undefined" and so
      matches no record: its system value is always 0. */
  lemma UndefinedNatureItemIsZero(c: string, s: Session, financials: seq<FinancialRecord>,
                                  terms: seq<PaymentTerm>, categories: seq<FinanceCategory>)
    ensures GetSystemValue(MakeKey("cat", c, NoNature.Text()), Some(s), financials, terms, categories) == 0
  {
    CategoryItemValue(c, NoNature, s, financials, terms, categories);
    var records := LiveRecords(financials, s);
    assert Filter(records, InCategory(c, "undefined")) == [] by {
      forall r | r in records ensures !InCategory(c, "undefined")(r) {
        if r.natureza == Entrada {
          assert "ENTRADA"[0] != "undefined"[0];
        } else if r.natureza == Saida {
          assert "SAIDA"[0] != "undefined"[0];
        }
      }
    }
  }

  /** Reversed records never count towards any item: removing one leaves every value unchanged. */
  lemma ReversedNeverCounts(itemId: string, s: Session, a: seq<FinancialRecord>, r: FinancialRecord,
                            b: seq<FinancialRecord>, terms: seq<PaymentTerm>, categories: seq<FinanceCategory>)
    requires r.status == Reversed
    ensures GetSystemValue(itemId, Some(s), a + [r] + b, terms, categories)
         == GetSystemValue(itemId, Some(s), a + b, terms, categories)
  {
    FilterDrop(a, r, b, Live(s));
    if itemId == "physical_cash" {
      ExpectedValue.IgnoredRecordsNeverCount(a, r, b, s, "vista", terms, categories, ExpectedValue.FlowIn);
    } else if itemId == "physical_check" {
      ExpectedValue.IgnoredRecordsNeverCount(a, r, b, s, "cheque", terms, categories, ExpectedValue.FlowIn);
    }
  }

  // ------------------------------------------------------- audit items

  datatype Group = Fisico | EntradaInfo | SaidaInfo

  datatype AuditItem = AuditItem(id: string, text: string, group: Group)

  const ExcludedCategories: seq<string> := ["Compra de Materiais", "Venda de Materiais"]

  /** The shift's records that may yield a category item. */
  function CategoryRecords(shift: seq<FinancialRecord>): seq<FinancialRecord> {
    Filter(shift, (r: FinancialRecord) => r.categoria !in ExcludedCategories)
  }

  /** The term of a record, when it has one that is not cash on delivery. */
  function ItemTerm(r: FinancialRecord, terms: seq<PaymentTerm>): Option<PaymentTerm> {
    if TermId(r) == "" then None
    else match ExpectedValue.FindTerm(terms, TermId(r))
      case None => None
      case Some(t) => if t.name == "À VISTA (DINHEIRO)" || t.name == "À VISTA" then None else Some(t)
  }

  function TermRecords(shift: seq<FinancialRecord>, terms: seq<PaymentTerm>): seq<FinancialRecord> {
    Filter(shift, (r: FinancialRecord) => ItemTerm(r, terms).Some?)
  }

  function TermKey(r: FinancialRecord, terms: seq<PaymentTerm>): string {
    match ItemTerm(r, terms)
    case None => ""
    case Some(t) => MakeKey("term", t.name, r.natureza.Text())
  }

  function GroupOf(n: Nature): Group {
    if n == Entrada then EntradaInfo else SaidaInfo
  }

  /** `key.replace('<prefix>_', '').replace('_<natureza>', '').toUpperCase()`. */
  function ItemText(prefix: string, key: string, n: Nature): string {
    Upper(ReplaceFirst(ReplaceFirst(key, prefix + "_", ""), "_" + n.Text(), ""))
  }

  /** One entry per distinct key, in order of first appearance, with the
      natureza of the first record carrying it (a JavaScript `Map`). */
  function CategoryItems(recs: seq<FinancialRecord>, keys: seq<string>): (items: seq<AuditItem>)
    ensures |items| == |keys|
    ensures forall i :: 0 <= i < |keys| ==> items[i].id == keys[i]
  {
    if |keys| == 0 then []
    else [CategoryItem(recs, keys[0])] + CategoryItems(recs, keys[1..])
  }

  /** The item of one category key. */
  function CategoryItem(recs: seq<FinancialRecord>, key: string): (item: AuditItem)
    ensures item.id == key
  {
    var first := Find(recs, (r: FinancialRecord) => CatKey(r) == key);
    var n := if first.Some? then first.value.natureza else NoNature;
    AuditItem(key, ItemText("cat", key, n), GroupOf(n))
  }

  function TermItems(recs: seq<FinancialRecord>, terms: seq<PaymentTerm>, keys: seq<string>): (items: seq<AuditItem>)
    ensures |items| == |keys|
    ensures forall i :: 0 <= i < |keys| ==> items[i].id == keys[i]
  {
    if |keys| == 0 then []
    else [TermItem(recs, terms, keys[0])] + TermItems(recs, terms, keys[1..])
  }

  /** The item of one payment-term key. */
  function TermItem(recs: seq<FinancialRecord>, terms: seq<PaymentTerm>, key: string): (item: AuditItem)
    ensures item.id == key
  {
    var first := Find(recs, (r: FinancialRecord) => TermKey(r, terms) == key);
    var n := if first.Some? then first.value.natureza else NoNature;
    AuditItem(key, ItemText("term", key, n), GroupOf(n))
  }

  lemma {:induction false} CategoryItemsAt(recs: seq<FinancialRecord>, keys: seq<string>, i: nat)
    requires i < |keys|
    ensures CategoryItems(recs, keys)[i] == CategoryItem(recs, keys[i])
    decreases i
  {
    if i > 0 {
      assert CategoryItems(recs, keys)[i] == CategoryItems(recs, keys[1..])[i - 1];
      CategoryItemsAt(recs, keys[1..], i - 1);
      assert keys[1..][i - 1] == keys[i];
    }
  }

  lemma {:induction false} TermItemsAt(recs: seq<FinancialRecord>, terms: seq<PaymentTerm>, keys: seq<string>, i: nat)
    requires i < |keys|
    ensures TermItems(recs, terms, keys)[i] == TermItem(recs, terms, keys[i])
    decreases i
  {
    if i > 0 {
      assert TermItems(recs, terms, keys)[i] == TermItems(recs, terms, keys[1..])[i - 1];
      TermItemsAt(recs, terms, keys[1..], i - 1);
      assert keys[1..][i - 1] == keys[i];
    }
  }

  lemma NatureTextInjective(a: Nature, b: Nature)
    requires a.Text() == b.Text()
    ensures a == b
  {
    assert a.Text()[0] == b.Text()[0];
  }

  /** A key names its natureza: two records sharing a category key share
      category and natureza. */
  lemma CatKeyInjective(r: FinancialRecord, q: FinancialRecord)
    requires CatKey(r) == CatKey(q)
    ensures r.categoria == q.categoria && r.natureza == q.natureza
  {
    assert "cat" == ['c', 'a', 't'];
    NatureTextHasNoUnderscore(r.natureza);
    NatureTextHasNoUnderscore(q.natureza);
    KeyRoundTrip("cat", r.categoria, r.natureza.Text());
    KeyRoundTrip("cat", q.categoria, q.natureza.Text());
    NatureTextInjective(r.natureza, q.natureza);
  }

  lemma TermKeyNature(r: FinancialRecord, q: FinancialRecord, terms: seq<PaymentTerm>)
    requires ItemTerm(r, terms).Some? && ItemTerm(q, terms).Some?
    requires TermKey(r, terms) == TermKey(q, terms)
    ensures ItemTerm(r, terms).value.name == ItemTerm(q, terms).value.name && r.natureza == q.natureza
  {
    assert "term" == ['t', 'e', 'r', 'm'];
    NatureTextHasNoUnderscore(r.natureza);
    NatureTextHasNoUnderscore(q.natureza);
    KeyRoundTrip("term", ItemTerm(r, terms).value.name, r.natureza.Text());
    KeyRoundTrip("term", ItemTerm(q, terms).value.name, q.natureza.Text());
    NatureTextInjective(r.natureza, q.natureza);
  }

  /** The item of a record's category key carries that record's natureza:
      its group and its text follow from the record alone, whichever record
      with the key came first. */
  lemma CategoryItemOf(recs: seq<FinancialRecord>, r: FinancialRecord)
    requires r in recs
    ensures CategoryItem(recs, CatKey(r)) == AuditItem(CatKey(r), ItemText("cat", CatKey(r), r.natureza), GroupOf(r.natureza))
  {
    var first := Find(recs, (q: FinancialRecord) => CatKey(q) == CatKey(r));
    assert first.Some?;
    CatKeyInjective(first.value, r);
  }

  lemma TermItemOf(recs: seq<FinancialRecord>, terms: seq<PaymentTerm>, r: FinancialRecord)
    requires r in recs
    requires forall q :: q in recs ==> ItemTerm(q, terms).Some?
    ensures TermItem(recs, terms, TermKey(r, terms))
         == AuditItem(TermKey(r, terms), ItemText("term", TermKey(r, terms), r.natureza), GroupOf(r.natureza))
  {
    var first := Find(recs, (q: FinancialRecord) => TermKey(q, terms) == TermKey(r, terms));
    assert first.Some?;
    TermKeyNature(first.value, r, terms);
  }

  function CategoryKeys(shift: seq<FinancialRecord>): seq<string> {
    Distinct(Map(CategoryRecords(shift), CatKey))
  }

  function TermKeys(shift: seq<FinancialRecord>, terms: seq<PaymentTerm>): seq<string> {
    var recs := TermRecords(shift, terms);
    Distinct(seq(|recs|, i requires 0 <= i < |recs| => TermKey(recs[i], terms)))
  }

  const PhysicalItems: seq<AuditItem> := [
    AuditItem("physical_cash", "DINHEIRO EM MÃOS", Fisico),
    AuditItem("physical_check", "CHEQUE EM MÃOS", Fisico)
  ]

  /** `auditItems`: the two physical items, then one item per distinct
      category key and one per distinct payment-term key of the shift. */
  function AuditItems(session: Option<Session>, financials: seq<FinancialRecord>, terms: seq<PaymentTerm>): (items: seq<AuditItem>)
    ensures session.None? ==> items == []
    ensures session.Some? ==> |items| >= 2 && items[..2] == PhysicalItems
  {
    match session
    case None => []
    case Some(s) =>
      var shift := Filter(financials, (f: FinancialRecord) => f.caixa_id == s.id);
      var catRecs := CategoryRecords(shift);
      var termRecs := TermRecords(shift, terms);
      PhysicalItems + CategoryItems(catRecs, CategoryKeys(shift)) + TermItems(termRecs, terms, TermKeys(shift, terms))
  }

  /** The category items: their ids are exactly the keys of the shift's
      records outside the excluded categories, each once. */
  lemma CategoryItemIds(s: Session, financials: seq<FinancialRecord>, terms: seq<PaymentTerm>)
    ensures var shift := Filter(financials, (f: FinancialRecord) => f.caixa_id == s.id);
      var ids := CategoryKeys(shift);
      (forall k :: k in ids <==> exists r :: r in shift && r.categoria !in ExcludedCategories && CatKey(r) == k)
      && (forall i, j :: 0 <= i < j < |ids| ==> ids[i] != ids[j])
  {
    var shift := Filter(financials, (f: FinancialRecord) => f.caixa_id == s.id);
    var recs := CategoryRecords(shift);
    forall k
      ensures k in Map(recs, CatKey) <==> exists r :: r in shift && r.categoria !in ExcludedCategories && CatKey(r) == k
    {
      MapMember(recs, CatKey, k);
    }
  }

  /** No payment-term item comes from a cash-on-delivery term. */
  lemma NoCashTermItems(s: Session, financials: seq<FinancialRecord>, terms: seq<PaymentTerm>)
    ensures var shift := Filter(financials, (f: FinancialRecord) => f.caixa_id == s.id);
      forall k :: k in TermKeys(shift, terms) ==>
        exists r :: (r in shift && ItemTerm(r, terms).Some? && k == TermKey(r, terms)
          && ItemTerm(r, terms).value.name != "À VISTA" && ItemTerm(r, terms).value.name != "À VISTA (DINHEIRO)")
  {
    var shift := Filter(financials, (f: FinancialRecord) => f.caixa_id == s.id);
    var recs := TermRecords(shift, terms);
    var keys := seq(|recs|, i requires 0 <= i < |recs| => TermKey(recs[i], terms));
    forall k | k in TermKeys(shift, terms)
      ensures exists r :: (r in shift && ItemTerm(r, terms).Some? && k == TermKey(r, terms)
          && ItemTerm(r, terms).value.name != "À VISTA" && ItemTerm(r, terms).value.name != "À VISTA (DINHEIRO)")
    {
      assert k in keys;
      var i :| 0 <= i < |keys| && keys[i] == k;
      assert recs[i] in recs;
    }
  }

  /** An item's text is its upper-cased category whenever the category does
      not itself contain `_<natureza>`. */
  lemma ItemTextRecoversName(prefix: string, name: string, n: Nature)
    requires !Contains(name, "_" + n.Text())
    ensures ItemText(prefix, MakeKey(prefix, name, n.Text()), n) == Upper(name)
  {
    var pat := "_" + n.Text();
    assert MakeKey(prefix, name, n.Text()) == (prefix + "_") + (name + pat);
    ReplaceFirstAtStart(prefix + "_", name + pat);
    NatureTextHasNoUnderscore(n);
    assert pat[1..] == n.Text();
    ReplaceFirstAtEnd(name, pat);
  }

  // ------------------------------------------------------- liquidation list

  /** The type filter: `None` is 'ALL'. */
  type TypeFilter = Option<Nature>

  /** `(r.dueDate || r.due_date || r.created_at || '').substring(0, 10)`. */
  function ListDate(r: FinancialRecord): string {
    Prefix(if DueDate(r) != "" then DueDate(r) else r.created_at, 10)
  }

  predicate InRange(d: string, dateStart: string, dateEnd: string) {
    !StrLess(d, dateStart) && !StrLess(dateEnd, d)
  }

  function PartnerName(partners: seq<Partner>, id: string): string {
    match Find(partners, (p: Partner) => p.id == id)
    case None => ""
    case Some(p) => p.name
  }

  /** Whether a record is listed for liquidation. */
  predicate Listed(r: FinancialRecord, today: string, dateStart: string, dateEnd: string, search: string,
                   partners: seq<Partner>, filter: TypeFilter)
  {
    var lab := StatusLabel(r, today);
    lab != Liquidado && lab != Cancelado && lab != Pendente
    && InRange(ListDate(r), dateStart, dateEnd)
    && (Contains(Lower(r.description), Lower(search)) || Contains(Lower(PartnerName(partners, r.parceiro_id)), Lower(search)))
    && (filter.None? || (filter.value != NoNature && r.natureza == filter.value))
  }

  /** `filteredItems`: only open or overdue records within the date range. */
  function FilteredItems(records: seq<FinancialRecord>, today: string, dateStart: string, dateEnd: string,
                         search: string, partners: seq<Partner>, filter: TypeFilter): (r: seq<FinancialRecord>)
    ensures IsSubseq(r, records)
    ensures forall i :: 0 <= i < |r| ==> StatusLabel(r[i], today) in {Aberto, Atrasado}
    ensures forall i :: 0 <= i < |r| ==> InRange(ListDate(r[i]), dateStart, dateEnd)
    ensures forall x :: x in r <==> x in records && Listed(x, today, dateStart, dateEnd, search, partners, filter)
  {
    Filter(records, (x: FinancialRecord) => Listed(x, today, dateStart, dateEnd, search, partners, filter))
  }

  // ------------------------------------------------------- metrics

  datatype Metrics = Metrics(abertoIn: int, abertoOut: int, atrasadoIn: int, atrasadoOut: int)

  /** One step of `baixasMetrics` as the source writes it: an open record
      that is not an entry is added to `atrasadoOut`. */
  function MetricsStepAsWritten(m: Metrics, item: FinancialRecord, today: string): Metrics {
    var lab := StatusLabel(item, today);
    if lab == Aberto then
      (if item.natureza == Entrada then m.(abertoIn := m.abertoIn + item.valor)
       else m.(atrasadoOut := m.atrasadoOut + item.valor))
    else if lab == Atrasado then
      (if item.natureza == Entrada then m.(atrasadoIn := m.atrasadoIn + item.valor)
       else m.(atrasadoOut := m.atrasadoOut + item.valor))
    else m
  }

  function Counted(today: string): FinancialRecord -> bool {
    (r: FinancialRecord) => StatusLabel(r, today) in {Aberto, Atrasado}
  }

  /** `baixasMetrics` as written: `abertoOut` is never written, and the
      three other fields share out the open and overdue total. */
  function BaixasMetricsAsWritten(items: seq<FinancialRecord>, today: string): (m: Metrics)
    ensures m.abertoOut == 0
    ensures m.abertoIn + m.atrasadoIn + m.atrasadoOut == Sum(Filter(items, Counted(today)), Valor())
    decreases |items|
  {
    if |items| == 0 then Metrics(0, 0, 0, 0)
    else MetricsStepAsWritten(BaixasMetricsAsWritten(items[1..], today), items[0], today)
  }

  /** The evidently intended step: open exits go to `abertoOut`. */
  function MetricsStep(m: Metrics, item: FinancialRecord, today: string): Metrics {
    var lab := StatusLabel(item, today);
    if lab == Aberto then
      (if item.natureza == Entrada then m.(abertoIn := m.abertoIn + item.valor)
       else m.(abertoOut := m.abertoOut + item.valor))
    else if lab == Atrasado then
      (if item.natureza == Entrada then m.(atrasadoIn := m.atrasadoIn + item.valor)
       else m.(atrasadoOut := m.atrasadoOut + item.valor))
    else m
  }

  function Bucket(today: string, want: Label, entry: bool): FinancialRecord -> bool {
    (r: FinancialRecord) => StatusLabel(r, today) == want && (r.natureza == Entrada <==> entry)
  }

  /** The corrected metrics. */
  function BaixasMetrics(items: seq<FinancialRecord>, today: string): Metrics
    decreases |items|
  {
    if |items| == 0 then Metrics(0, 0, 0, 0)
    else MetricsStep(BaixasMetrics(items[1..], today), items[0], today)
  }

  /** The field of the metrics for a status and direction. */
  function Pick(m: Metrics, want: Label, entry: bool): int {
    if want == Aberto then (if entry then m.abertoIn else m.abertoOut)
    else if entry then m.atrasadoIn else m.atrasadoOut
  }

  lemma PickStep(m: Metrics, x: FinancialRecord, today: string, want: Label, entry: bool)
    requires want in {Aberto, Atrasado}
    ensures Pick(MetricsStep(m, x, today), want, entry)
         == Pick(m, want, entry) + (if Bucket(today, want, entry)(x) then x.valor else 0)
  {
  }

  lemma {:induction false} PickSum(items: seq<FinancialRecord>, today: string, want: Label, entry: bool)
    requires want in {Aberto, Atrasado}
    ensures Pick(BaixasMetrics(items, today), want, entry) == Sum(Filter(items, Bucket(today, want, entry)), Valor())
    decreases |items|
  {
    if |items| > 0 {
      PickSum(items[1..], today, want, entry);
      PickStep(BaixasMetrics(items[1..], today), items[0], today, want, entry);
    }
  }

  /** The corrected metrics: each field is the total of its own status and direction. */
  lemma BaixasMetricsBuckets(items: seq<FinancialRecord>, today: string)
    ensures var m := BaixasMetrics(items, today);
      m.abertoIn == Sum(Filter(items, Bucket(today, Aberto, true)), Valor())
      && m.abertoOut == Sum(Filter(items, Bucket(today, Aberto, false)), Valor())
      && m.atrasadoIn == Sum(Filter(items, Bucket(today, Atrasado, true)), Valor())
      && m.atrasadoOut == Sum(Filter(items, Bucket(today, Atrasado, false)), Valor())
  {
    PickSum(items, today, Aberto, true);
    PickSum(items, today, Aberto, false);
    PickSum(items, today, Atrasado, true);
    PickSum(items, today, Atrasado, false);
  }

  /** The source's metrics are the corrected ones with the open exits moved into `atrasadoOut`. */
  lemma {:induction false} AsWrittenMergesOpenExits(items: seq<FinancialRecord>, today: string)
    ensures var c := BaixasMetrics(items, today);
      BaixasMetricsAsWritten(items, today) == Metrics(c.abertoIn, 0, c.atrasadoIn, c.atrasadoOut + c.abertoOut)
    decreases |items|
  {
    if |items| > 0 {
      AsWrittenMergesOpenExits(items[1..], today);
    }
  }

  /** A single open exit shows the discrepancy. */
  lemma OpenExitMisfiled(r: FinancialRecord, today: string)
    requires StatusLabel(r, today) == Aberto && r.natureza == Saida
    ensures BaixasMetricsAsWritten([r], today) == Metrics(0, 0, 0, r.valor)
    ensures BaixasMetrics([r], today) == Metrics(0, r.valor, 0, 0)
  {
  }

  /** Over the liquidation list the metrics account for every listed amount. */
  lemma MetricsCoverList(records: seq<FinancialRecord>, today: string, dateStart: string, dateEnd: string,
                         search: string, partners: seq<Partner>, filter: TypeFilter)
    ensures var items := FilteredItems(records, today, dateStart, dateEnd, search, partners, filter);
      var m := BaixasMetricsAsWritten(items, today);
      m.abertoIn + m.atrasadoIn + m.atrasadoOut == Sum(items, Valor())
  {
    var items := FilteredItems(records, today, dateStart, dateEnd, search, partners, filter);
    FilterAll(items, Counted(today));
  }

  // ------------------------------------------------------- wallet

  /** How a wallet row came to be written. */
  datatype Origin = ManualEntry(descricao: string) | CashDeposit(shift: string) | ChequeDeposit(shift: string)
                  | NoPhysicalBalance(shift: string)

  /** A `WalletTransaction`; ids, operators and timestamps are left out. */
  datatype WalletTx = WalletTx(origin: Origin, categoria: string, parceiro: string, payment_term_id: string,
                               valor_entrada: int, valor_saida: int, saldo_real: int)

  /** `walletTransactions[0]?.saldo_real || 0`: the list is newest first. */
  function Balance(wallet: seq<WalletTx>): int {
    if |wallet| == 0 then 0 else wallet[0].saldo_real
  }

  /** Every row's balance is the balance before it plus its entry minus its exit. */
  predicate Chained(wallet: seq<WalletTx>) {
    forall i :: 0 <= i < |wallet| ==>
      wallet[i].saldo_real == Balance(wallet[i + 1..]) + wallet[i].valor_entrada - wallet[i].valor_saida
  }

  lemma PushChained(row: WalletTx, wallet: seq<WalletTx>)
    requires Chained(wallet)
    requires row.saldo_real == Balance(wallet) + row.valor_entrada - row.valor_saida
    ensures Chained([row] + wallet)
  {
    var w := [row] + wallet;
    forall i | 0 <= i < |w|
      ensures w[i].saldo_real == Balance(w[i + 1..]) + w[i].valor_entrada - w[i].valor_saida
    {
      if i == 0 {
        assert w[1..] == wallet;
      } else {
        assert w[i] == wallet[i - 1];
        assert w[i + 1..] == wallet[i..];
      }
    }
  }

  /** Rows inserted in order, each landing on top of the newest-first list. */
  function Inserted(rows: seq<WalletTx>, wallet: seq<WalletTx>): seq<WalletTx>
    decreases |rows|
  {
    if |rows| == 0 then wallet else Inserted(rows[1..], [rows[0]] + wallet)
  }

  /** The manual-entry form, with its amount already parsed. */
  datatype WalletForm = WalletForm(tipo: Nature, amount: int, categoria: string, parceiro: string,
                                   payment_term_id: string, descricao: string)

  datatype WalletError = InvalidAmount | MissingTerm

  /** `handleWalletManualSubmit`. */
  function WalletManualEntry(form: WalletForm, wallet: seq<WalletTx>, bankTerms: seq<PaymentTerm>): (r: Result<WalletTx, WalletError>)
    ensures r == Err(InvalidAmount) <==> form.amount <= 0
    ensures r == Err(MissingTerm) <==> form.amount > 0 && form.payment_term_id == ""
    ensures r.Ok? ==> ((r.value.valor_entrada == form.amount && r.value.valor_saida == 0 && form.tipo == Entrada)
                    || (r.value.valor_entrada == 0 && r.value.valor_saida == form.amount && form.tipo != Entrada))
    ensures r.Ok? ==> r.value.saldo_real == Balance(wallet) + r.value.valor_entrada - r.value.valor_saida
    ensures r.Ok? ==> r.value.payment_term_id != ""
  {
    if form.amount <= 0 then Err(InvalidAmount)
    else if form.payment_term_id == "" then Err(MissingTerm)
    else
      var isEntry := form.tipo == Entrada;
      var term := ExpectedValue.FindTerm(bankTerms, form.payment_term_id);
      var termId := if term.Some? && term.value.id != "" then term.value.id else form.payment_term_id;
      var descricao := if form.descricao != "" then Upper(form.descricao) else "LANÇAMENTO MANUAL " + form.tipo.Text();
      var last := Balance(wallet);
      Ok(WalletTx(ManualEntry(descricao), form.categoria, form.parceiro, termId,
                  if isEntry then form.amount else 0,
                  if isEntry then 0 else form.amount,
                  if isEntry then last + form.amount else last - form.amount))
  }

  /** A manual entry keeps the wallet's balance chain. */
  lemma WalletEntryKeepsChain(form: WalletForm, wallet: seq<WalletTx>, bankTerms: seq<PaymentTerm>)
    requires Chained(wallet)
    requires WalletManualEntry(form, wallet, bankTerms).Ok?
    ensures Chained([WalletManualEntry(form, wallet, bankTerms).value] + wallet)
  {
    PushChained(WalletManualEntry(form, wallet, bankTerms).value, wallet);
  }

  // ------------------------------------------------------- reconciliation

  /** The category of the reconciliation's bank entries, kept exactly as the
      page spells it: `CONFERÊNCIA` mis-encoded (its UTF-8 bytes read as Windows-1252). */
  const ReconCategory := "CONFERÃŠNCIA DE CAIXA"

  /** `term?.id || term?.uuid || null` for the first term whose name mentions `word`. */
  function TermIdByName(terms: seq<PaymentTerm>, word: string): string {
    match Find(terms, (t: PaymentTerm) => Contains(Upper(t.name), word))
    case None => ""
    case Some(t) => if t.id != "" then t.id else t.uuid
  }

  datatype Reconciliation = Reconciliation(rows: seq<WalletTx>, reconciledBalance: int)

  datatype ReconError = MissingDestination

  function Pos(x: int): int {
    if x > 0 then x else 0
  }

  /** `handleProcessReconciliation`: one deposit row for positive cash, one
      for positive cheques, each continuing the running balance, and a
      single zero row when both amounts are zero. */
  function ProcessReconciliation(session: Option<Session>, bankName: string, valVista: int, valCheque: int,
                                 wallet: seq<WalletTx>, hubTerms: seq<PaymentTerm>): (r: Result<Reconciliation, ReconError>)
    ensures r.Err? <==> session.None? || bankName == ""
    ensures r.Ok? ==> r.value.reconciledBalance == valVista + valCheque
    ensures r.Ok? ==> |r.value.rows| == (if valVista > 0 then 1 else 0) + (if valCheque > 0 then 1 else 0)
                                       + (if valVista == 0 && valCheque == 0 then 1 else 0)
    ensures r.Ok? ==> forall i :: 0 <= i < |r.value.rows| ==>
      r.value.rows[i].valor_saida == 0 && r.value.rows[i].parceiro == bankName && r.value.rows[i].categoria == ReconCategory
  {
    if session.None? || bankName == "" then Err(MissingDestination)
    else
      var s := session.value;
      var shift := Upper(Prefix(s.id, 6));
      var base := Balance(wallet);
      var idDinheiro := TermIdByName(hubTerms, "DINHEIRO");
      var idCheque := TermIdByName(hubTerms, "CHEQUE");
      var cash := if valVista > 0 then [WalletTx(CashDeposit(shift), ReconCategory, bankName, idDinheiro, valVista, 0, base + valVista)] else [];
      var running := if valVista > 0 then base + valVista else base;
      var cheque := if valCheque > 0 then [WalletTx(ChequeDeposit(shift), ReconCategory, bankName, idCheque, valCheque, 0, running + valCheque)] else [];
      var zero := if valVista == 0 && valCheque == 0 then [WalletTx(NoPhysicalBalance(shift), ReconCategory, bankName, idDinheiro, 0, 0, running)] else [];
      Ok(Reconciliation(cash + cheque + zero, valVista + valCheque))
  }

  /** Writing the reconciliation rows keeps the wallet's balance chain, and
      the new balance is the old one plus the positive audited amounts. */
  lemma ReconciliationKeepsChain(session: Option<Session>, bankName: string, valVista: int, valCheque: int,
                                 wallet: seq<WalletTx>, hubTerms: seq<PaymentTerm>)
    requires Chained(wallet)
    requires ProcessReconciliation(session, bankName, valVista, valCheque, wallet, hubTerms).Ok?
    ensures var rows := ProcessReconciliation(session, bankName, valVista, valCheque, wallet, hubTerms).value.rows;
      Chained(Inserted(rows, wallet)) && Balance(Inserted(rows, wallet)) == Balance(wallet) + Pos(valVista) + Pos(valCheque)
  {
    var rows := ProcessReconciliation(session, bankName, valVista, valCheque, wallet, hubTerms).value.rows;
    var w := wallet;
    var k := 0;
    while k < |rows|
      invariant 0 <= k <= |rows|
      invariant Chained(w)
      invariant Inserted(rows[k..], w) == Inserted(rows, wallet)
      invariant Balance(w) == Balance(wallet) + (if k >= 1 && valVista > 0 then valVista else 0)
                              + (if valCheque > 0 && ((valVista > 0 && k >= 2) || (valVista <= 0 && k >= 1)) then valCheque else 0)
      decreases |rows| - k
    {
      PushChained(rows[k], w);
      assert rows[k..][1..] == rows[k + 1..];
      w := [rows[k]] + w;
      k := k + 1;
    }
    assert rows[k..] == [];
  }
}

=== FILE: finance_status.dfy ===
/** `getStatusInfo` and the per-row button rules of the finance table
    (`components/FinanceTableLayout.tsx`). The same classification is copied
    into several pages; this module is the one definition the rest of the
    model uses. "Today" is a parameter, an ISO date string compared with
    JavaScript's string `<`. */
module FinanceStatus {
  import opened Records
  import opened Strings

  datatype Label = Cancelado | Liquidado | Pendente | Atrasado | Aberto {
    function Text(): string {
      match this
      case Cancelado => "CANCELADO"
      case Liquidado => "LIQUIDADO"
      case Pendente => "PENDENTE"
      case Atrasado => "ATRASADO"
      case Aberto => "ABERTO"
    }
  }

  datatype StatusInfo = StatusInfo(tag: Label, isStriked: bool)

  /** Reversed by status or by either spelling of the flag. */
  predicate IsCanceled(r: FinancialRecord) {
    r.status == Reversed || r.is_reversed || r.isReversed
  }

  /** Paid by status or by having a liquidation date. */
  predicate IsPaid(r: FinancialRecord) {
    r.liquidation_date != "" || r.status == Paid
  }

  /** The five labels in priority order: cancelled, paid, no due date, overdue, open. */
  function GetStatusInfo(r: FinancialRecord, today: string): (info: StatusInfo)
    ensures info.isStriked <==> info.tag == Cancelado
    ensures info.tag == Cancelado <==> IsCanceled(r)
    ensures info.tag == Liquidado <==> !IsCanceled(r) && IsPaid(r)
    ensures info.tag == Pendente <==> !IsCanceled(r) && !IsPaid(r) && DueDate(r) == ""
    ensures info.tag == Atrasado <==> !IsCanceled(r) && !IsPaid(r) && DueDate(r) != "" && StrLess(DueDate(r), today)
    ensures info.tag == Aberto <==> !IsCanceled(r) && !IsPaid(r) && DueDate(r) != "" && !StrLess(DueDate(r), today)
  {
    var due := DueDate(r);
    if IsCanceled(r) then StatusInfo(Cancelado, true)
    else if IsPaid(r) then StatusInfo(Liquidado, false)
    else if due == "" then StatusInfo(Pendente, false)
    else if StrLess(due, today) then StatusInfo(Atrasado, false)
    else StatusInfo(Aberto, false)
  }

  function StatusLabel(r: FinancialRecord, today: string): Label {
    GetStatusInfo(r, today).tag
  }

  /** A record due today is still open, not overdue. */
  lemma DueTodayIsOpen(r: FinancialRecord)
    requires !IsCanceled(r) && !IsPaid(r) && DueDate(r) != ""
    ensures StatusLabel(r, DueDate(r)) == Aberto
  {
    StrLessIrreflexive(DueDate(r));
  }

  /** Only the overdue/open split depends on the day, and it is monotone:
      once overdue a record stays overdue on every later day, and a record
      open on some day was open on every earlier day. */
  lemma StatusAsDaysPass(r: FinancialRecord, today: string, later: string)
    requires StrLe(today, later)
    ensures StatusLabel(r, today) == Atrasado ==> StatusLabel(r, later) == Atrasado
    ensures StatusLabel(r, later) == Aberto ==> StatusLabel(r, today) == Aberto
    ensures StatusLabel(r, today) !in {Atrasado, Aberto} ==> StatusLabel(r, later) == StatusLabel(r, today)
  {
    if StrLess(DueDate(r), today) && StrLess(today, later) {
      StrLessTransitive(DueDate(r), today, later);
    }
  }

  /** The buttons of one table row. */
  datatype RowButtons = RowButtons(editDelete: bool, reverse: bool, baixarEnabled: bool)

  /** Edit/delete only for hand-made records (no transaction, not a sale or
      purchase); reverse for records paid by status; Baixar enabled only with
      an open session, no liquidation running, and a status neither paid nor
      reversed. */
  function Buttons(r: FinancialRecord, activeSession: bool, isLiquidating: bool, hasOnReverse: bool): (b: RowButtons)
    ensures b.editDelete <==> r.transaction_id == "" && r.tipo != "vendas" && r.tipo != "compras"
    ensures b.reverse <==> r.status == Paid && hasOnReverse
    ensures b.baixarEnabled <==> activeSession && !isLiquidating && r.status != Paid && r.status != Reversed
  {
    RowButtons(
      r.transaction_id == "" && r.tipo != "vendas" && r.tipo != "compras",
      r.status == Paid && hasOnReverse,
      !(!activeSession || isLiquidating || r.status == Paid || r.status == Reversed))
  }

  /** The buttons follow a record through its life: while open it offers
      Baixar (with a session) and no Reverse; once settled (status paid) it
      offers Reverse (where the page handles it) and no Baixar; once
      reversed it offers neither. Edit/delete never depend on the status. */
  lemma ButtonsThroughLifecycle(r: FinancialRecord, activeSession: bool, hasOnReverse: bool, paidOn: string)
    requires r.status == Pending
    ensures var open := Buttons(r, activeSession, false, hasOnReverse);
      var paid := Buttons(r.(status := Paid, liquidation_date := paidOn), activeSession, false, hasOnReverse);
      var reversed := Buttons(r.(status := Reversed), activeSession, false, hasOnReverse);
      && (open.baixarEnabled <==> activeSession) && !open.reverse
      && !paid.baixarEnabled && (paid.reverse <==> hasOnReverse)
      && !reversed.baixarEnabled && !reversed.reverse
      && open.editDelete == paid.editDelete == reversed.editDelete
  {
  }

  /** Reverse and Baixar are never offered together, and a LIQUIDADO-by-status
      record can never be settled again. */
  lemma ReverseExcludesBaixar(r: FinancialRecord, activeSession: bool, isLiquidating: bool, hasOnReverse: bool, today: string)
    ensures var b := Buttons(r, activeSession, isLiquidating, hasOnReverse);
      !(b.reverse && b.baixarEnabled) &&
      (b.baixarEnabled ==> StatusLabel(r, today) != Cancelado || r.is_reversed || r.isReversed)
  {
  }

  /** The Baixar rule reads the raw status only: a record cancelled by its
      flag alone is labelled CANCELADO and still offers Baixar. */
  lemma BaixarIgnoresReversedFlag(r: FinancialRecord, today: string)
    requires r.status == Pending && r.is_reversed
    ensures StatusLabel(r, today) == Cancelado
    ensures Buttons(r, true, false, false).baixarEnabled
  {
  }
}

=== FILE: inventory.dfy ===
/** The stock page (`Inventory`): the edit delta and what saving does, the
    stock indicator, and the three authorization requests (edit, delete,
    quick adjust) with the way the page reads them back once approved.
    Stock and thresholds are whole units, prices whole cents; the quantity
    typed into the adjust box is read exactly as a `Dec`. */
module Inventory {
  import opened Wrappers
  import opened Seqs
  import opened Strings
  import opened Records
  import opened Permissions
  import opened Authorization
  import opened ActionLabels
  import opened Money

  /** `a || b` on numbers: a zero (or absent) `a` falls through to `b`. */
  function OrNum(a: int, b: int): int {
    if a != 0 then a else b
  }

  // ------------------------------------------------------- stock indicator

  /** `m.min_stock || m.minStock || 0`. */
  function MinOf(m: Material): int {
    OrNum(m.min_stock, m.minStock)
  }

  /** `m.max_stock || m.maxStock || 1000`. */
  function MaxOf(m: Material): (r: int)
    ensures r != 0
  {
    OrNum(OrNum(m.max_stock, m.maxStock), 1000)
  }

  /** The indicator colour: warning, error or success. */
  datatype Level = Low | High | Normal

  function StockLevel(m: Material): (l: Level)
    ensures l == Low <==> m.stock <= MinOf(m)
    ensures l == High <==> MinOf(m) < m.stock && MaxOf(m) <= m.stock
    ensures l == Normal <==> MinOf(m) < m.stock < MaxOf(m)
  {
    if m.stock <= MinOf(m) then Low else if m.stock >= MaxOf(m) then High else Normal
  }

  function Rank(l: Level): nat {
    match l
    case Low => 0
    case Normal => 1
    case High => 2
  }

  /** With the same thresholds, more stock never moves the colour back
      towards warning. */
  lemma LevelMonotone(m: Material, stock: int)
    requires m.stock <= stock
    ensures Rank(StockLevel(m)) <= Rank(StockLevel(m.(stock := stock)))
  {
  }

  /** The bar width `min(100, max(0, stock / max * 100))`, in percent. */
  function BarWidth(m: Material): (w: real)
    ensures 0.0 <= w <= 100.0
    ensures MaxOf(m) > 0 && m.stock <= 0 ==> w == 0.0
    ensures MaxOf(m) > 0 && m.stock >= MaxOf(m) ==> w == 100.0
  {
    var raw := Ratio(m.stock, MaxOf(m)) * 100.0;
    var low := if raw < 0.0 then 0.0 else raw;
    if low > 100.0 then 100.0 else low
  }

  /** `a / b` for a positive `b` keeps the sign of `a` and reaches 1 at `b`. */
  function Ratio(a: int, b: int): (r: real)
    requires b != 0
    ensures b > 0 && a <= 0 ==> r <= 0.0
    ensures b > 0 && a >= b ==> r >= 1.0
  {
    RatioFacts(a, b);
    a as real / b as real
  }

  lemma RatioFacts(a: int, b: int)
    requires b != 0
    ensures b > 0 && a <= 0 ==> a as real / b as real <= 0.0
    ensures b > 0 && a >= b ==> a as real / b as real >= 1.0
  {
    if b > 0 {
      var q := a as real / b as real;
      assert q * b as real == a as real;
    }
  }

  // ------------------------------------------------------- the edit form

  /** The edit form (`formData`), camelCase as the page reads it. */
  datatype MaterialForm = MaterialForm(
    name: string, unit: Unit, stock: int, minStock: int, maxStock: int, buyPrice: int, sellPrice: int)

  /** `setFormData({ ...m })`. */
  function FormOf(m: Material): MaterialForm {
    MaterialForm(m.name, m.unit, m.stock, m.minStock, m.maxStock, m.buyPrice, m.sellPrice)
  }

  /** The form the "Cadastrar Material" button opens. */
  const NewForm := MaterialForm("", Kg, 0, 10, 1000, 0, 0)

  /** A row whose two spellings of each threshold and price agree, as the
      store keeps them (`applyRedundancy` on every write). */
  predicate Synced(m: Material) {
    m.minStock == m.min_stock && m.maxStock == m.max_stock &&
    m.buyPrice == m.buy_price && m.sellPrice == m.sell_price
  }

  /** One key of the delta object, with the value it carries. */
  datatype Change =
    | NameTo(name: string)
    | UnitTo(unit: Unit)
    | MinStockTo(n: int)
    | MaxStockTo(n: int)
    | BuyPriceTo(n: int)
    | SellPriceTo(n: int)
    | StockTo(n: int)

  datatype Field = NameField | UnitField | MinField | MaxField | BuyField | SellField | StockField

  function FieldOf(c: Change): Field {
    match c
    case NameTo(_) => NameField
    case UnitTo(_) => UnitField
    case MinStockTo(_) => MinField
    case MaxStockTo(_) => MaxField
    case BuyPriceTo(_) => BuyField
    case SellPriceTo(_) => SellField
    case StockTo(_) => StockField
  }

  /** Whether the form holds a value the page compares unequal to the
      original: the snake spelling first, then the camel one. */
  predicate Differs(f: MaterialForm, m: Material, k: Field) {
    match k
    case NameField => f.name != m.name
    case UnitField => f.unit != m.unit
    case MinField => f.minStock != OrNum(m.min_stock, m.minStock)
    case MaxField => f.maxStock != OrNum(m.max_stock, m.maxStock)
    case BuyField => f.buyPrice != OrNum(m.buy_price, m.buyPrice)
    case SellField => f.sellPrice != OrNum(m.sell_price, m.sellPrice)
    case StockField => f.stock != m.stock
  }

  /** Every key of the form with its value, in the page's order. */
  function FormChanges(f: MaterialForm): seq<Change> {
    [NameTo(f.name), UnitTo(f.unit), MinStockTo(f.minStock), MaxStockTo(f.maxStock),
     BuyPriceTo(f.buyPrice), SellPriceTo(f.sellPrice), StockTo(f.stock)]
  }

  /** The delta object `handleSave` builds in edit mode. */
  function Delta(f: MaterialForm, m: Material): (d: seq<Change>)
    ensures IsSubseq(d, FormChanges(f))
  {
    Filter(FormChanges(f), Keep(f, m))
  }

  /** The test a form key passes to enter the delta. */
  function Keep(f: MaterialForm, m: Material): Change -> bool {
    (c: Change) => Differs(f, m, FieldOf(c))
  }

  predicate HasField(d: seq<Change>, k: Field) {
    exists i :: 0 <= i < |d| && FieldOf(d[i]) == k
  }

  /** The delta holds a key exactly when that field differs, and then with
      the form's value. */
  lemma DeltaFields(f: MaterialForm, m: Material, k: Field)
    ensures HasField(Delta(f, m), k) <==> Differs(f, m, k)
    ensures forall c :: c in Delta(f, m) ==> c in FormChanges(f)
  {
    var d := Delta(f, m);
    var all := FormChanges(f);
    var j :| 0 <= j < |all| && FieldOf(all[j]) == k by {
      match k
      case NameField => assert FieldOf(all[0]) == k;
      case UnitField => assert FieldOf(all[1]) == k;
      case MinField => assert FieldOf(all[2]) == k;
      case MaxField => assert FieldOf(all[3]) == k;
      case BuyField => assert FieldOf(all[4]) == k;
      case SellField => assert FieldOf(all[5]) == k;
      case StockField => assert FieldOf(all[6]) == k;
    }
    if Differs(f, m, k) {
      assert all[j] in d;
    }
    if HasField(d, k) {
      var i :| 0 <= i < |d| && FieldOf(d[i]) == k;
      assert d[i] in d;
    }
  }

  predicate Unchanged(f: MaterialForm, m: Material) {
    forall k: Field :: !Differs(f, m, k)
  }

  /** No key in the delta exactly when no field differs. */
  lemma DeltaEmptyIff(f: MaterialForm, m: Material)
    ensures Delta(f, m) == [] <==> Unchanged(f, m)
  {
    var d := Delta(f, m);
    if d != [] {
      DeltaFields(f, m, FieldOf(d[0]));
    }
    if !Unchanged(f, m) {
      var k: Field :| Differs(f, m, k);
      DeltaFields(f, m, k);
    }
  }

  /** Opening a stored row for editing and saving it untouched changes
      nothing. */
  lemma ReopenedUnchanged(m: Material)
    requires Synced(m)
    ensures Delta(FormOf(m), m) == []
  {
    DeltaEmptyIff(FormOf(m), m);
  }

  /** `db.update` with one delta key: both spellings are written, as
      `applyRedundancy` pairs `min_stock`/`minStock` and the others. */
  function ApplyChange(m: Material, c: Change): Material {
    match c
    case NameTo(n) => m.(name := n)
    case UnitTo(u) => m.(unit := u)
    case MinStockTo(n) => m.(minStock := n, min_stock := n)
    case MaxStockTo(n) => m.(maxStock := n, max_stock := n)
    case BuyPriceTo(n) => m.(buyPrice := n, buy_price := n)
    case SellPriceTo(n) => m.(sellPrice := n, sell_price := n)
    case StockTo(n) => m.(stock := n)
  }

  function ApplyChanges(m: Material, d: seq<Change>): Material
    decreases |d|
  {
    if |d| == 0 then m else ApplyChanges(ApplyChange(m, d[0]), d[1..])
  }

  /** Applying the delta to a synced row gives a row whose edit form is the
      form that was saved, and which is still synced. */
  lemma DeltaThenApply(f: MaterialForm, m: Material)
    requires Synced(m)
    ensures var n := ApplyChanges(m, Delta(f, m));
      FormOf(n) == f && Synced(n) && n.id == m.id
  {
    var all := FormChanges(f);
    ApplyFiltered(m, all, Keep(f, m));
    StepAllSeven(m, all, Keep(f, m));
    AppliedSeven(f, m);
  }

  /** Applying every key of the form to a synced row, one by one. */
  lemma AppliedSeven(f: MaterialForm, m: Material)
    requires Synced(m)
    ensures var p := Keep(f, m); var all := FormChanges(f);
      var n := Step(Step(Step(Step(Step(Step(Step(m, all[0], p), all[1], p), all[2], p), all[3], p), all[4], p), all[5], p), all[6], p);
      FormOf(n) == f && Synced(n) && n.id == m.id
  {
    var all := FormChanges(f);
    var m1 := ApplyChange(m, all[0]);
    var m2 := ApplyChange(m1, all[1]);
    var m3 := ApplyChange(m2, all[2]);
    var m4 := ApplyChange(m3, all[3]);
    var m5 := ApplyChange(m4, all[4]);
    var m6 := ApplyChange(m5, all[5]);
    StepIsApply(f, m, m, all[0]);
    StepIsApply(f, m, m1, all[1]);
    StepIsApply(f, m, m2, all[2]);
    StepIsApply(f, m, m3, all[3]);
    StepIsApply(f, m, m4, all[4]);
    StepIsApply(f, m, m5, all[5]);
    StepIsApply(f, m, m6, all[6]);
  }

  lemma StepAllSeven(m: Material, all: seq<Change>, p: Change -> bool)
    requires |all| == 7
    ensures StepAll(m, all, p) ==
      Step(Step(Step(Step(Step(Step(Step(m, all[0], p), all[1], p), all[2], p), all[3], p), all[4], p), all[5], p), all[6], p)
  {
    var s1 := Step(m, all[0], p);
    var s2 := Step(s1, all[1], p);
    var s3 := Step(s2, all[2], p);
    var s4 := Step(s3, all[3], p);
    var s5 := Step(s4, all[4], p);
    var s6 := Step(s5, all[5], p);
    var s7 := Step(s6, all[6], p);
    assert StepAll(m, all, p) == StepAll(s1, all[1..], p);
    assert all[1..][0] == all[1] && all[1..][1..] == all[2..];
    assert StepAll(s1, all[1..], p) == StepAll(s2, all[2..], p);
    assert all[2..][0] == all[2] && all[2..][1..] == all[3..];
    assert StepAll(s2, all[2..], p) == StepAll(s3, all[3..], p);
    assert all[3..][0] == all[3] && all[3..][1..] == all[4..];
    assert StepAll(s3, all[3..], p) == StepAll(s4, all[4..], p);
    assert all[4..][0] == all[4] && all[4..][1..] == all[5..];
    assert StepAll(s4, all[4..], p) == StepAll(s5, all[5..], p);
    assert all[5..][0] == all[5] && all[5..][1..] == all[6..];
    assert StepAll(s5, all[5..], p) == StepAll(s6, all[6..], p);
    assert all[6..][0] == all[6] && all[6..][1..] == all[7..];
    assert StepAll(s6, all[6..], p) == StepAll(s7, all[7..], p);
  }

  /** `x` holds the same value as `m` in field `k`. */
  predicate AgreeOn(x: Material, m: Material, k: Field) {
    match k
    case NameField => x.name == m.name
    case UnitField => x.unit == m.unit
    case MinField => x.minStock == m.minStock
    case MaxField => x.maxStock == m.maxStock
    case BuyField => x.buyPrice == m.buyPrice
    case SellField => x.sellPrice == m.sellPrice
    case StockField => x.stock == m.stock
  }

  /** On a synced row, a key that does not enter the delta already holds the
      form's value, so skipping it and writing it agree. */
  lemma StepIsApply(f: MaterialForm, m: Material, x: Material, c: Change)
    requires Synced(m) && Synced(x) && c in FormChanges(f) && AgreeOn(x, m, FieldOf(c))
    ensures Step(x, c, Keep(f, m)) == ApplyChange(x, c)
    ensures Synced(ApplyChange(x, c))
  {
  }

  /** Applying `c` when it passes `p`. */
  function Step(m: Material, c: Change, p: Change -> bool): Material {
    if p(c) then ApplyChange(m, c) else m
  }

  function StepAll(m: Material, cs: seq<Change>, p: Change -> bool): Material
    decreases |cs|
  {
    if |cs| == 0 then m else StepAll(Step(m, cs[0], p), cs[1..], p)
  }

  lemma {:induction false} ApplyFiltered(m: Material, cs: seq<Change>, p: Change -> bool)
    ensures ApplyChanges(m, Filter(cs, p)) == StepAll(m, cs, p)
    decreases |cs|
  {
    if |cs| > 0 {
      ApplyFiltered(Step(m, cs[0], p), cs[1..], p);
      if p(cs[0]) {
        assert Filter(cs, p)[1..] == Filter(cs[1..], p);
      }
    }
  }

  // ------------------------------------------------------- saving

  datatype Mode = Create | Edit | View

  /** What `handleSave` does. */
  datatype SaveOutcome =
    | Ignore                                                // view mode, or the row is gone
    | CloseModal                                            // edit with no change
    | RequestEdit(id: string, name: string, delta: seq<Change>)
    | Refuse                                                // the permission alert
    | Insert(form: MaterialForm, companyId: string)

  predicate IsMaster(user: Option<User>) {
    user.Some? && user.value.role == SuperAdmin
  }

  /** `handleSave`. `stock` is the permission the create branch checks. */
  function Save(mode: Mode, editingId: string, materials: seq<Material>, f: MaterialForm,
                user: Option<User>, stock: Requirement, companyId: string): (o: SaveOutcome)
    ensures mode == View ==> o == Ignore
    ensures mode == Edit && editingId != "" ==> !o.Insert? && !o.Refuse?
    ensures o.Insert? ==> IsMaster(user) || (user.Some? && Grants(user.value.permissions, stock))
    ensures o.RequestEdit? ==> o.id == editingId && o.delta != [] &&
                               exists m :: m in materials && m.id == editingId && o.delta == Delta(f, m) && o.name == m.name
    ensures o.CloseModal? ==> exists m :: m in materials && m.id == editingId && Unchanged(f, m)
  {
    if mode == View then Ignore
    else if mode == Edit && editingId != "" then
      match Find(materials, (m: Material) => m.id == editingId)
      case None => Ignore
      case Some(m) =>
        var d := Delta(f, m);
        DeltaEmptyIff(f, m);
        if d == [] then CloseModal else RequestEdit(editingId, m.name, d)
    else if !IsMaster(user) && (user.None? || !Grants(user.value.permissions, stock)) then Refuse
    else Insert(f, companyId)
  }

  /** Create is refused exactly to users who are neither super admin nor
      hold the stock permission. */
  lemma CreateNeedsPermission(materials: seq<Material>, f: MaterialForm, user: Option<User>,
                              stock: Requirement, companyId: string)
    ensures var o := Save(Create, "", materials, f, user, stock, companyId);
      o.Refuse? <==> !IsMaster(user) && (user.None? || !Grants(user.value.permissions, stock))
    ensures var o := Save(Create, "", materials, f, user, stock, companyId);
      !o.Refuse? ==> o == Insert(f, companyId)
  {
  }

  /** A page-level name used in `PermissionModule.STOCK` is not a member of
      the enum: only a super admin gets past the create check then. */
  lemma UndeclaredStockOnlyMaster(materials: seq<Material>, f: MaterialForm, user: Option<User>,
                                  name: string, companyId: string)
    ensures Save(Create, "", materials, f, user, Undeclared(name), companyId).Insert? <==> IsMaster(user)
  {
  }

  // ------------------------------------------------------- request labels

  /** `id.slice(-5) || '00000'`. */
  function ShortId(id: string): (r: string)
    ensures |r| == 5 || (0 < |r| == |id| < 5)
    ensures id == "" ==> r == "00000"
    ensures id != "" ==> |r| <= |id| && r == id[|id| - |r|..]
  {
    if id == "" then "00000" else Last(id, 5)
  }

  /** `name || 'MATERIAL'`. */
  function NameOr(name: string): string {
    if name == "" then "MATERIAL" else name
  }

  function EditHead(id: string, name: string): string {
    "OP: EDIÇÃO DE MATERIAL | ID: #" + ShortId(id) + " | CTX: ESTOQUE CENTRAL | DET: Edição de preços e configurações técnicas do material "
      + NameOr(name) + ". | VAL: 0,00 para 0,00 | "
  }

  /** The label of an edit request; `json` is `JSON.stringify(delta)`. */
  function EditLabel(id: string, name: string, json: string): string {
    EditHead(id, name) + RealIdJsonLabel(id, json)
  }

  function DeleteHead(id: string, name: string): string {
    "OP: EXCLUSÃO DE MATERIAL | ID: #" + ShortId(id) + " | CTX: ESTOQUE CENTRAL | DET: Remoção permanente do cadastro do material "
      + NameOr(name) + ". | VAL: 0,00 para 0,00 | "
  }

  /** The label of a delete request for the material with id `id`; the name
      is looked up in the loaded list. */
  function DeleteLabel(materials: seq<Material>, id: string): string {
    var name := match Find(materials, (m: Material) => m.id == id) case Some(m) => m.name case None => "";
    DeleteHead(id, name) + RealIdKey + id
  }

  const ValKey := "VAL: "
  const ValEnd := " | REAL_ID"
  const ParaSep := " para "

  function AdjustHead(id: string, name: string): string {
    "OP: AJUSTE DE ESTOQUE | ID: #" + ShortId(id) + " | CTX: INVENTÁRIO REAL | DET: Correção manual da quantidade em estoque do material "
      + NameOr(name) + " para igualar ao pátio. | "
  }

  /** An adjust label carrying the two value texts. */
  function AdjustLabelWith(id: string, name: string, oldText: string, newText: string): string {
    AdjustHead(id, name) + ValKey + oldText + ParaSep + newText + " | " + RealIdKey + id
  }

  /** The adjust label as the page writes it: both values through
      `formatCurrency`. */
  function AdjustLabel(id: string, name: string, oldStock: int, newVal: Dec): string {
    AdjustLabelWith(id, name, FormatCurrency(Dec(oldStock, 0)), FormatCurrency(newVal))
  }

  /** `handleAdjustStock`: the quantity typed is read with `parseFloat`;
      text that is not a number files nothing. */
  function AdjustRequest(m: Material, input: string): (r: Option<string>)
    ensures r.None? <==> ParseFloat(input).None?
    ensures r.Some? ==> r.value == AdjustLabel(m.id, m.name, m.stock, ParseFloat(input).value)
  {
    match ParseFloat(input)
    case None => None
    case Some(v) => Some(AdjustLabel(m.id, m.name, m.stock, v))
  }

  // ------------------------------------------------------- reading approvals

  datatype InventoryAction =
    | UpdateMaterial(id: string, json: string)
    | DeleteMaterial(id: string)
    | SetStock(id: string, value: Dec)
    | NoInventoryAction

  /** The edit branch of the polling effect: the id after `REAL_ID: ` and the
      JSON after `JSON: `, both non-empty. */
  function EditAction(text: string): (a: InventoryAction)
    ensures a.UpdateMaterial? ==> RealId(text) == Some(a.id) && Json(text) == Some(a.json) && a.id != "" && a.json != ""
    ensures !a.UpdateMaterial? ==> a == NoInventoryAction
  {
    match (RealId(text), Json(text))
    case (Some(id), Some(json)) => if id != "" && json != "" then UpdateMaterial(id, json) else NoInventoryAction
    case _ => NoInventoryAction
  }

  /** The delete branch. */
  function DeleteAction(text: string): (a: InventoryAction)
    ensures a.DeleteMaterial? ==> RealId(text) == Some(a.id) && a.id != ""
    ensures !a.DeleteMaterial? ==> a == NoInventoryAction
  {
    match RealId(text)
    case Some(id) => if id != "" then DeleteMaterial(id) else NoInventoryAction
    case None => NoInventoryAction
  }

  /** The text between `VAL: ` and ` | REAL_ID`, then after ` para `,
      trimmed: where the adjust label keeps the new quantity. */
  function NewValueText(text: string): Option<string> {
    match After(text, ValKey)
    case None => None
    case Some(rest) =>
      match After(Before(rest, ValEnd), ParaSep)
      case None => None
      case Some(v) => Some(Trim(v))
  }

  /** The adjust branch: the id is everything after `REAL_ID: `, trimmed; the
      value is the new quantity read back as a pt-BR number (`'0'` when the
      text is missing); the stock is set when the id is non-empty and the
      value is a number. */
  function AdjustAction(text: string): (a: InventoryAction)
    ensures a.SetStock? ==> Tail(text, RealIdKey) == Some(a.id) && a.id != ""
    ensures a.SetStock? ==> ReadBr(match NewValueText(text) case Some(v) => v case None => "") == Some(a.value)
    ensures !a.SetStock? ==> a == NoInventoryAction
  {
    var id := Tail(text, RealIdKey);
    var val := ReadBr(match NewValueText(text) case Some(v) => v case None => "");
    if id.Some? && id.value != "" && val.Some? then SetStock(id.value, val.value) else NoInventoryAction
  }

  /** An approved edit updates the material it was filed for with the JSON
      it carries, when `REAL_ID: ` and `JSON: ` occur in the label only
      where the page wrote them. */
  lemma EditRoundTrip(id: string, name: string, json: string)
    requires GeneratedId(id) && Trim(json) != ""
    requires Once(EditLabel(id, name, json), RealIdKey) && Once(EditLabel(id, name, json), JsonKey)
    ensures EditAction(EditLabel(id, name, json)) == UpdateMaterial(id, Trim(json))
  {
    HeadedRealIdJson(EditHead(id, name), id, json);
  }

  /** An approved delete removes the material it was filed for. */
  lemma DeleteRoundTrip(materials: seq<Material>, id: string)
    requires GeneratedId(id)
    requires Once(DeleteLabel(materials, id), RealIdKey)
    ensures DeleteAction(DeleteLabel(materials, id)) == DeleteMaterial(id)
  {
    var name := match Find(materials, (m: Material) => m.id == id) case Some(m) => m.name case None => "";
    HeadedRealId(DeleteHead(id, name), id);
  }

  /** The adjust processor reads back the id and whatever number the new
      value text holds, for any value texts made of number characters. */
  lemma AdjustReads(id: string, name: string, oldText: string, newText: string)
    requires GeneratedId(id) && NumberText(oldText) && NumberText(newText)
    requires ReadBr(newText).Some?
    requires Once(AdjustLabelWith(id, name, oldText, newText), ValKey)
    requires Once(AdjustLabelWith(id, name, oldText, newText), RealIdKey)
    ensures AdjustAction(AdjustLabelWith(id, name, oldText, newText)) == SetStock(id, ReadBr(newText).value)
  {
    var text := AdjustLabelWith(id, name, oldText, newText);
    AdjustId(id, name, oldText, newText);
    AdjustValue(id, name, oldText, newText);
  }

  lemma AdjustId(id: string, name: string, oldText: string, newText: string)
    requires GeneratedId(id)
    requires Once(AdjustLabelWith(id, name, oldText, newText), RealIdKey)
    ensures Tail(AdjustLabelWith(id, name, oldText, newText), RealIdKey) == Some(id)
  {
    var pre := AdjustHead(id, name) + ValKey + oldText + ParaSep + newText + " | ";
    assert AdjustLabelWith(id, name, oldText, newText) == pre + RealIdKey + id;
    AfterOnce(pre, RealIdKey, id);
    TrimmedId(id);
  }

  lemma AdjustValue(id: string, name: string, oldText: string, newText: string)
    requires NumberText(oldText) && NumberText(newText)
    requires Once(AdjustLabelWith(id, name, oldText, newText), ValKey)
    ensures NewValueText(AdjustLabelWith(id, name, oldText, newText)) == Some(newText)
  {
    var x := oldText + ParaSep + newText;
    var rest := x + ValEnd + (": " + id);
    AdjustLabelParts(id, name, x, oldText, newText);
    AfterOnce(AdjustHead(id, name), ValKey, rest);
    BeforeValEnd(x, id, oldText, newText);
    ParaSplit(oldText, newText);
  }

  /** The adjust label cut where `ValEnd` starts. */
  lemma AdjustLabelParts(id: string, name: string, x: string, oldText: string, newText: string)
    requires x == oldText + ParaSep + newText
    ensures AdjustLabelWith(id, name, oldText, newText) == AdjustHead(id, name) + ValKey + (x + ValEnd + (": " + id))
  {
    ValEndJoin();
    Regroup(AdjustHead(id, name), ValKey, oldText, ParaSep, newText, " | ", RealIdKey, ValEnd, ": ", id);
  }

  lemma ValEndJoin()
    ensures " | " + RealIdKey == ValEnd + ": "
  {
  }

  lemma Regroup(h: string, v: string, o: string, p: string, n: string,
                sep: string, key: string, valEnd: string, colon: string, id: string)
    requires sep + key == valEnd + colon
    ensures h + v + o + p + n + sep + key + id == h + v + (o + p + n + valEnd + (colon + id))
  {
    assert h + v + o + p + n + sep + key + id == h + v + (o + p + n) + (sep + key) + id;
  }

  lemma BeforeValEnd(x: string, id: string, oldText: string, newText: string)
    requires NumberText(oldText) && NumberText(newText) && x == oldText + ParaSep + newText
    ensures Before(x + ValEnd + (": " + id), ValEnd) == x
  {
    assert ValEnd[1] == '|' && ValEnd[..1] == " ";
    assert '|' !in x by {
      forall i | 0 <= i < |x|
        ensures x[i] != '|'
      {
        if i < |oldText| {
          assert x[i] == oldText[i];
        } else if i < |oldText| + |ParaSep| {
          assert x[i] == ParaSep[i - |oldText|];
        } else {
          assert x[i] == newText[i - |oldText| - |ParaSep|];
        }
      }
    }
    CleanByChar(x, ValEnd, 1);
    AfterCons(x, ValEnd, ": " + id);
  }

  lemma ParaSplit(oldText: string, newText: string)
    requires NumberText(oldText) && NumberText(newText)
    ensures After(oldText + ParaSep + newText, ParaSep) == Some(newText)
    ensures Trim(newText) == newText
  {
    assert ParaSep[1] == 'p' && ParaSep[..1] == " ";
    assert 'p' !in oldText by {
      forall i | 0 <= i < |oldText|
        ensures oldText[i] != 'p'
      {
        assert NumberChar(oldText[i]);
      }
    }
    assert 'p' !in newText by {
      forall i | 0 <= i < |newText|
        ensures newText[i] != 'p'
      {
        assert NumberChar(newText[i]);
      }
    }
    CleanByChar(oldText, ParaSep, 1);
    AfterCons(oldText, ParaSep, newText);
    FreeByChar(newText, ParaSep, 1);
    FreeBefore(newText, ParaSep);
    assert NumberChar(newText[0]) && NumberChar(newText[|newText| - 1]);
    TrimmedFixed(newText);
  }

  /** As written: the quantity that reaches the stock is the typed one
      rounded to hundredths, since the label writes it with
      `formatCurrency`. */
  lemma AdjustRoundTripAsWritten(m: Material, input: string)
    requires GeneratedId(m.id) && ParseFloat(input).Some?
    requires Once(AdjustRequest(m, input).value, ValKey) && Once(AdjustRequest(m, input).value, RealIdKey)
    ensures AdjustAction(AdjustRequest(m, input).value) == SetStock(m.id, Dec(Cents(ParseFloat(input).value), 2))
  {
    var v := ParseFloat(input).value;
    FormatFixedText(Cents(Dec(m.stock, 0)), 2);
    FormatFixedText(Cents(v), 2);
    FormatFixedRoundTrip(Cents(v), 2);
    AdjustReads(m.id, m.name, FormatCurrency(Dec(m.stock, 0)), FormatCurrency(v));
  }

  /** A quantity with three decimals, which the adjust box accepts
      (`step="0.001"`), loses its last decimal on the way. */
  lemma AdjustLosesThousandths(input: string)
    requires input == "12.346"
    ensures ParseFloat(input) == Some(Dec(12346, 3))
    ensures Cents(Dec(12346, 3)) == 1235
    ensures !SameNumber(Dec(1235, 2), Dec(12346, 3))
  {
    ThousandthsParsed(input);
    ThousandthsRounded();
  }

  lemma ThousandthsParsed(input: string)
    requires input == "12.346"
    ensures ParseFloat(input) == Some(Dec(12346, 3))
  {
    assert input == "12" + "." + "346";
    ParseDecimalPlain("12", "346");
    ThousandthsDigits();
  }

  lemma ThousandthsDigits()
    ensures DecOf("12", "346") == Dec(12346, 3)
  {
    assert "12"[..1] == "1" && "346"[..2] == "34" && "34"[..1] == "3";
    assert DigitsValue("12") == 12;
    assert DigitsValue("346") == 346;
    assert Pow10(3) == 1000;
  }

  lemma ThousandthsRounded()
    ensures Cents(Dec(12346, 3)) == 1235
    ensures !SameNumber(Dec(1235, 2), Dec(12346, 3))
  {
    assert Pow10(1) == 10 && Pow10(2) == 100 && Pow10(3) == 1000;
    assert RoundTo(12346, 10) == 1235;
  }

  /** The new quantity written with as many decimals as it was typed with
      (at least one). */
  function QuantityText(v: Dec): string {
    if v.places == 0 then FormatFixed(v.units * 10, 1) else FormatFixed(v.units, v.places)
  }

  /** The adjust label with the new quantity written exactly. */
  function AdjustLabelExact(id: string, name: string, oldStock: int, newVal: Dec): string {
    AdjustLabelWith(id, name, FormatCurrency(Dec(oldStock, 0)), QuantityText(newVal))
  }

  function AdjustRequestExact(m: Material, input: string): (r: Option<string>)
    ensures r.None? <==> ParseFloat(input).None?
  {
    match ParseFloat(input)
    case None => None
    case Some(v) => Some(AdjustLabelExact(m.id, m.name, m.stock, v))
  }

  /** Corrected: the quantity that reaches the stock is the number typed. */
  lemma AdjustRoundTripExact(m: Material, input: string)
    requires GeneratedId(m.id) && ParseFloat(input).Some?
    requires Once(AdjustRequestExact(m, input).value, ValKey) && Once(AdjustRequestExact(m, input).value, RealIdKey)
    ensures AdjustAction(AdjustRequestExact(m, input).value).SetStock?
    ensures AdjustAction(AdjustRequestExact(m, input).value).id == m.id
    ensures SameNumber(AdjustAction(AdjustRequestExact(m, input).value).value, ParseFloat(input).value)
  {
    var v := ParseFloat(input).value;
    FormatFixedText(Cents(Dec(m.stock, 0)), 2);
    if v.places == 0 {
      FormatFixedText(v.units * 10, 1);
      FormatFixedRoundTrip(v.units * 10, 1);
    } else {
      FormatFixedText(v.units, v.places);
      FormatFixedRoundTrip(v.units, v.places);
    }
    AdjustReads(m.id, m.name, FormatCurrency(Dec(m.stock, 0)), QuantityText(v));
  }
}

=== FILE: labels.dfy ===
/** The pipe-delimited action labels through which pages hand data to an
    authorization request and read it back once the request is approved:
    `REAL_ID: <id>`, optionally followed by ` | JSON: <payload>`, and labels
    of `KEY: value` fields joined with ` | `. The readers are the idioms
    `label.split(key)[1]?.split(' |')[0]?.trim()` and
    `label.split('JSON: ')[1]?.trim()`. */
module ActionLabels {
  import opened Wrappers
  import opened Strings

  const RealIdKey := "REAL_ID: "
  const JsonKey := "JSON: "
  const FieldEnd := " |"

  /** `label.split(key)[1]?.split(' |')[0]?.trim()`: the trimmed text after
      the first `key`, up to the next ` |` (or the next `key`). */
  function Field(text: string, key: string): (r: Option<string>)
    requires |key| > 0
    ensures r.None? <==> !Contains(text, key)
    ensures r.Some? ==> Trimmed(r.value)
  {
    match After(text, key)
    case None => None
    case Some(rest) => Some(Trim(Before(rest, FieldEnd)))
  }

  /** `label.split(key)[1]?.trim()`: everything after the first `key`, up to a
      second `key` if there is one. */
  function Tail(text: string, key: string): (r: Option<string>)
    requires |key| > 0
    ensures r.None? <==> !Contains(text, key)
  {
    match After(text, key)
    case None => None
    case Some(rest) => Some(Trim(rest))
  }

  function RealId(text: string): Option<string> {
    Field(text, RealIdKey)
  }

  function Json(text: string): Option<string> {
    Tail(text, JsonKey)
  }

  /** The characters of a generated id (`crypto.randomUUID` or base-36
      `Math.random` text): lower-case letters, digits and `-`. */
  predicate IdChar(c: char) {
    'a' <= c <= 'z' || '0' <= c <= '9' || c == '-'
  }

  predicate GeneratedId(id: string) {
    |id| > 0 && forall i :: 0 <= i < |id| ==> IdChar(id[i])
  }

  /** `key` occurs at most once in `s`. */
  ghost predicate Once(s: string, key: string) {
    forall i: nat, j: nat :: OccursAt(s, key, i) && OccursAt(s, key, j) ==> i == j
  }

  // ------------------------------------------------------- helpers

  lemma TrimmedId(id: string)
    requires GeneratedId(id)
    ensures Trim(id) == id
  {
    TrimmedFixed(id);
  }

  /** A string free of `sep` whose first character does not recur in `sep`
      is clean: no occurrence can straddle a following `sep`. */
  lemma CleanIfFree(x: string, sep: string)
    requires |sep| > 0 && sep[0] !in sep[1..]
    requires Free(x, sep)
    ensures Clean(x, sep)
  {
    var s := x + sep;
    forall j: nat | j < |x|
      ensures !OccursAt(s, sep, j)
    {
      if j + |sep| <= |x| {
        OccursInPrefix(x, sep, sep, j);
      } else if j + |sep| <= |s| {
        var k := |x| - j;
        OccursChar(s, sep, j, k);
        assert s[j + k] == sep[0];
        assert sep[1..][k - 1] == sep[k];
      }
    }
  }

  lemma FreeBefore(s: string, sep: string)
    requires |sep| > 0 && Free(s, sep)
    ensures Before(s, sep) == s
  {
  }

  /** When `sep` cannot start before position `n`, the text before the first
      `sep` still begins with `s[..n]`. */
  lemma BeforeKeepsPrefix(s: string, sep: string, n: nat)
    requires |sep| > 0 && n <= |s|
    requires forall j: nat :: j < n ==> !OccursAt(s, sep, j)
    ensures n <= |Before(s, sep)| && Before(s, sep)[..n] == s[..n]
  {
  }

  /** No occurrence of `pat` starts where its first character is missing. */
  lemma NoStartBefore(s: string, pat: string, n: nat)
    requires |pat| > 0 && n <= |s|
    requires pat[0] !in s[..n]
    ensures forall j: nat :: j < n ==> !OccursAt(s, pat, j)
  {
    forall j: nat | j < n
      ensures !OccursAt(s, pat, j)
    {
      if j + |pat| <= |s| {
        OccursChar(s, pat, j, 0);
        assert s[..n][j] == s[j];
      }
    }
  }

  /** The ` |`-terminated field at the front of `v + post`. */
  lemma FieldValue(v: string, post: string)
    requires !Contains(v, FieldEnd)
    requires post == "" || StartsWith(post, FieldEnd)
    ensures Before(v + post, FieldEnd) == v
  {
    assert Free(v, FieldEnd);
    if post == "" {
      assert v + post == v;
    } else {
      assert FieldEnd[1..] == "|";
      CleanIfFree(v, FieldEnd);
      assert post == FieldEnd + post[2..];
      AfterCons(v, FieldEnd, post[2..]);
      assert v + post == v + FieldEnd + post[2..];
    }
  }

  // ------------------------------------------------------- reading fields back

  lemma ShiftOccurs(pre: string, key: string, rest: string, j: nat)
    requires OccursAt(rest, key, j)
    ensures OccursAt(pre + key + rest, key, |pre| + |key| + j)
  {
    var s := pre + key + rest;
    assert s[|pre| + |key| + j..|pre| + |key| + j + |key|] == rest[j..j + |key|];
  }

  /** A key that occurs once is found where the writer put it, and everything
      after it is the text the reader sees. */
  lemma AfterOnce(pre: string, key: string, rest: string)
    requires |key| > 0 && Once(pre + key + rest, key)
    ensures After(pre + key + rest, key) == Some(rest)
  {
    var s := pre + key + rest;
    assert s[|pre|..|pre| + |key|] == key;
    IndexOfIs(s, key, |pre|);
    assert s[|pre| + |key|..] == rest;
    forall j: nat | OccursAt(rest, key, j)
      ensures OccursAt(s, key, |pre| + |key| + j)
    {
      ShiftOccurs(pre, key, rest, j);
    }
    assert Free(rest, key);
  }

  /** A field written as `key + v` and followed by ` | …` or nothing reads back
      as `trim(v)`, when the key occurs once and `v` holds no ` |`. */
  lemma FieldAt(pre: string, key: string, v: string, post: string)
    requires |key| > 0 && Once(pre + key + v + post, key)
    requires !Contains(v, FieldEnd)
    requires post == "" || StartsWith(post, FieldEnd)
    ensures Field(pre + key + v + post, key) == Some(Trim(v))
  {
    assert pre + key + v + post == pre + key + (v + post);
    AfterOnce(pre, key, v + post);
    FieldValue(v, post);
  }

  // ------------------------------------------------------- REAL_ID and JSON

  lemma AfterRealIdKey(rest: string)
    ensures After(RealIdKey + rest, RealIdKey) == Some(Before(rest, RealIdKey))
  {
    assert RealIdKey + rest == "" + RealIdKey + rest;
    AfterCons("", RealIdKey, rest);
  }

  /** A generated id holds no `R`, so the first `REAL_ID: ` after it cannot
      cut into it or into the ` |` that ends it. */
  lemma IdBeforeFieldEnd(id: string, tail: string)
    requires GeneratedId(id)
    requires tail == "" || StartsWith(tail, FieldEnd)
    ensures Before(Before(id + tail, RealIdKey), FieldEnd) == id
  {
    assert RealIdKey[0] == 'R';
    assert FieldEnd[1] == '|';
    if tail == "" {
      FreeByChar(id, RealIdKey, 0);
      assert id + tail == id;
      FreeBefore(id, RealIdKey);
      FieldValue(id, "");
    } else {
      var rest := id + tail;
      var n := |id| + 2;
      assert rest[..n] == id + FieldEnd;
      NoStartBefore(rest, RealIdKey, n);
      BeforeKeepsPrefix(rest, RealIdKey, n);
      var b := Before(rest, RealIdKey);
      assert b == id + FieldEnd + b[n..];
      FreeByChar(id, FieldEnd, 1);
      FieldValue(id, FieldEnd + b[n..]);
      assert id + (FieldEnd + b[n..]) == b;
    }
  }

  /** The id of `REAL_ID: <id>` followed by nothing or by ` | …` reads back
      exactly, for every generated id. */
  lemma RealIdOf(id: string, tail: string)
    requires GeneratedId(id)
    requires tail == "" || StartsWith(tail, FieldEnd)
    ensures RealId(RealIdKey + id + tail) == Some(id)
  {
    assert RealIdKey + id + tail == RealIdKey + (id + tail);
    AfterRealIdKey(id + tail);
    IdBeforeFieldEnd(id, tail);
    TrimmedId(id);
  }

  /** `pre + 'JSON: ' + j` reads back `trim(j)` when the writer's `JSON: ` is
      the first one (no `J` before it) and `j` does not repeat the key. */
  lemma JsonOf(pre: string, j: string)
    requires 'J' !in pre
    requires !Contains(j, JsonKey)
    ensures Json(pre + JsonKey + j) == Some(Trim(j))
  {
    assert JsonKey[0] == 'J';
    CleanByChar(pre, JsonKey, 0);
    AfterCons(pre, JsonKey, j);
    assert Free(j, JsonKey);
    FreeBefore(j, JsonKey);
  }

  /** `REAL_ID: <id> | JSON: <payload>`, the edit-request label. */
  function RealIdJsonLabel(id: string, payload: string): string {
    RealIdKey + id + " | " + JsonKey + payload
  }

  lemma NoJsonBeforeId(id: string)
    requires GeneratedId(id)
    ensures 'J' !in RealIdKey + id + " | "
  {
    var pre := RealIdKey + id + " | ";
    forall i | 0 <= i < |pre|
      ensures pre[i] != 'J'
    {
      if 9 <= i < 9 + |id| {
        assert pre[i] == id[i - 9];
      }
    }
  }

  /** Both halves of an edit-request label read back: the generated id
      exactly and the payload trimmed, unless the payload itself repeats
      `JSON: `. */
  lemma RealIdJsonRoundTrip(id: string, payload: string)
    requires GeneratedId(id)
    requires !Contains(payload, JsonKey)
    ensures RealId(RealIdJsonLabel(id, payload)) == Some(id)
    ensures Json(RealIdJsonLabel(id, payload)) == Some(Trim(payload))
  {
    var tail := " | " + JsonKey + payload;
    assert StartsWith(tail, FieldEnd) by {
      assert tail[..2] == FieldEnd;
    }
    assert RealIdJsonLabel(id, payload) == RealIdKey + id + tail;
    RealIdOf(id, tail);
    NoJsonBeforeId(id);
    JsonOf(RealIdKey + id + " | ", payload);
  }

  /** A page label ends with `REAL_ID: <id> | JSON: <payload>` after a
      narrative head; both read back when each key occurs only there. */
  lemma HeadedRealIdJson(head: string, id: string, payload: string)
    requires GeneratedId(id)
    requires Once(head + RealIdJsonLabel(id, payload), RealIdKey) && Once(head + RealIdJsonLabel(id, payload), JsonKey)
    ensures RealId(head + RealIdJsonLabel(id, payload)) == Some(id)
    ensures Json(head + RealIdJsonLabel(id, payload)) == Some(Trim(payload))
  {
    HeadedIdBeforeJson(head, id, payload);
    var pre := head + RealIdKey + id + " | ";
    JsonLabelShape(head, id, payload);
    HeadedJson(pre, payload);
  }

  lemma JsonLabelShape(head: string, id: string, payload: string)
    ensures head + RealIdJsonLabel(id, payload) == (head + RealIdKey + id + " | ") + JsonKey + payload
  {
  }

  lemma HeadedIdBeforeJson(head: string, id: string, payload: string)
    requires GeneratedId(id)
    requires Once(head + RealIdJsonLabel(id, payload), RealIdKey)
    ensures RealId(head + RealIdJsonLabel(id, payload)) == Some(id)
  {
    var post := " | " + JsonKey + payload;
    assert StartsWith(post, FieldEnd) by {
      assert post[..2] == FieldEnd;
    }
    assert head + RealIdJsonLabel(id, payload) == head + RealIdKey + id + post;
    IdHasNoFieldEnd(id);
    FieldAt(head, RealIdKey, id, post);
    TrimmedId(id);
  }

  lemma HeadedJson(pre: string, payload: string)
    requires Once(pre + JsonKey + payload, JsonKey)
    ensures Json(pre + JsonKey + payload) == Some(Trim(payload))
  {
    AfterOnce(pre, JsonKey, payload);
  }

  lemma IdHasNoFieldEnd(id: string)
    requires GeneratedId(id)
    ensures !Contains(id, FieldEnd)
  {
    assert FieldEnd[0] == ' ' && ' ' !in id;
    FreeByChar(id, FieldEnd, 0);
    ContainsIff(id, FieldEnd);
  }

  /** A page label ending with `REAL_ID: <id>` after a narrative head reads
      back the id when the key occurs only there. */
  lemma HeadedRealId(head: string, id: string)
    requires GeneratedId(id)
    requires Once(head + RealIdKey + id, RealIdKey)
    ensures RealId(head + RealIdKey + id) == Some(id)
  {
    assert head + RealIdKey + id == head + RealIdKey + id + "";
    IdHasNoFieldEnd(id);
    FieldAt(head, RealIdKey, id, "");
    TrimmedId(id);
  }
}

=== FILE: layout.dfy ===
/** The application shell (`components/Layout.tsx`): which menu items a user
    sees, the badge counting requests that wait for a manager, and who gets
    the manager controls. Several menu permissions name members that
    `PermissionModule` does not declare (FINANCE, PURCHASES, REPORTS,
    SUPPORT, STOCK, PARTNERS, TEAM); the page's requirements are therefore a
    parameter, and `AsShipped` is the value they have in the source. */
module Layout {
  import opened Wrappers
  import opened Seqs
  import opened Permissions
  import opened Authorization

  const MasterEmail := "admin@sucatafacil.com"

  datatype Category = MasterArea | Operational

  datatype MenuItem = MenuItem(id: string, category: Category, requirement: Requirement)

  /** What the operational items and the registration entry ask for. */
  datatype PageRequirements = PageRequirements(
    finance: Requirement, purchases: Requirement, reports: Requirement, support: Requirement,
    stock: Requirement, partners: Requirement, team: Requirement)

  /** The requirements as the source spells them: none of these names is a
      member of `PermissionModule`. */
  const AsShipped := PageRequirements(
    Undeclared("FINANCE"), Undeclared("PURCHASES"), Undeclared("REPORTS"), Undeclared("SUPPORT"),
    Undeclared("STOCK"), Undeclared("PARTNERS"), Undeclared("TEAM"))

  const RegistrationId := "registration"

  /** `menuItems`, in display order. The registration entry carries the
      plain string `'ANY_REGISTRATION'`, which no permission equals. */
  function MenuItems(reqs: PageRequirements): (r: seq<MenuItem>)
    ensures |r| == 10
    ensures forall i, j :: 0 <= i < j < |r| ==> r[i].id != r[j].id
  {
    [ MenuItem("saas-dashboard", MasterArea, Declared(SaasDashboard)),
      MenuItem("saas-companies", MasterArea, Declared(SaasCompanies)),
      MenuItem("saas-plans", MasterArea, Declared(SaasPlans)),
      MenuItem("cloud-config", MasterArea, Declared(SaasDashboard)),
      MenuItem("dashboard", Operational, Declared(Dashboard)),
      MenuItem(RegistrationId, Operational, Undeclared("ANY_REGISTRATION")),
      MenuItem("finance-hub", Operational, reqs.finance),
      MenuItem("pos", Operational, reqs.purchases),
      MenuItem("reports", Operational, reqs.reports),
      MenuItem("support", Operational, reqs.support) ]
  }

  /** Any of the four registration permissions opens the registration entry. */
  function RegistrationRequirements(reqs: PageRequirements): seq<Requirement> {
    [reqs.stock, reqs.partners, reqs.team, reqs.finance]
  }

  predicate IsMasterUser(u: User) {
    u.email == MasterEmail
  }

  /** `registrationPermissions.some(p => permissions.includes(p))`. */
  predicate AnyGranted(perms: seq<Permission>, rs: seq<Requirement>) {
    exists i :: 0 <= i < |rs| && Grants(perms, rs[i])
  }

  /** The test `filteredMenu` applies to each item. */
  function Shows(u: User, reqs: PageRequirements): MenuItem -> bool {
    (item: MenuItem) =>
      if IsMasterUser(u) then true
      else if item.id == RegistrationId then AnyGranted(u.permissions, RegistrationRequirements(reqs))
      else Grants(u.permissions, item.requirement)
  }

  /** `filteredMenu`; nothing is rendered without a signed-in user. */
  function FilteredMenu(user: Option<User>, reqs: PageRequirements): (r: Option<seq<MenuItem>>)
    ensures r.None? <==> user.None?
    ensures r.Some? ==> IsSubseq(r.value, MenuItems(reqs))
  {
    match user
    case None => None
    case Some(u) => Some(Filter(MenuItems(reqs), Shows(u, reqs)))
  }

  /** The master e-mail sees the whole menu, in order. */
  lemma MasterSeesAll(u: User, reqs: PageRequirements)
    requires IsMasterUser(u)
    ensures FilteredMenu(Some(u), reqs) == Some(MenuItems(reqs))
  {
    FilterAll(MenuItems(reqs), Shows(u, reqs));
  }

  /** The registration entry shows exactly for the master e-mail or a user
      holding one of the four registration permissions. */
  lemma RegistrationVisible(u: User, reqs: PageRequirements)
    ensures MenuItems(reqs)[5] in FilteredMenu(Some(u), reqs).value <==>
      IsMasterUser(u) || AnyGranted(u.permissions, RegistrationRequirements(reqs))
  {
  }

  /** Every other entry shows exactly for the master e-mail or a user
      holding that entry's own permission. */
  lemma OtherItemVisible(u: User, reqs: PageRequirements, i: nat)
    requires i < 10 && i != 5
    ensures MenuItems(reqs)[i] in FilteredMenu(Some(u), reqs).value <==>
      IsMasterUser(u) || Grants(u.permissions, MenuItems(reqs)[i].requirement)
  {
    assert MenuItems(reqs)[i].id != RegistrationId;
  }

  /** With the requirements as shipped, any user other than the master
      e-mail sees at most the master-area entries and the dashboard:
      finance, sales, reports, support and registration stay hidden
      whatever permissions the user holds. */
  lemma AsShippedHidesOperational(u: User)
    requires !IsMasterUser(u)
    ensures forall item :: item in FilteredMenu(Some(u), AsShipped).value ==>
      item.requirement.Declared? && item.id != RegistrationId
  {
    assert !AnyGranted(u.permissions, RegistrationRequirements(AsShipped));
  }

  // ------------------------------------------------------- badge and admin

  predicate IsPending(q: AuthRequest) {
    q.status == Pending
  }

  /** `activeNotificationCount`: requests still waiting for an answer. */
  function ActiveNotificationCount(requests: seq<AuthRequest>): (n: nat)
    ensures n <= |requests|
    ensures n == 0 <==> forall i :: 0 <= i < |requests| ==> requests[i].status != Pending
  {
    var r := Filter(requests, IsPending);
    assert r != [] ==> r[0] in requests;
    assert forall i :: 0 <= i < |requests| && IsPending(requests[i]) ==> requests[i] in r;
    |r|
  }

  /** Replacing one request changes the badge by what that request counted
      before and after. */
  lemma {:induction false} CountReplace(requests: seq<AuthRequest>, i: nat, q: AuthRequest)
    requires i < |requests|
    ensures ActiveNotificationCount(requests[i := q]) ==
      ActiveNotificationCount(requests) - (if IsPending(requests[i]) then 1 else 0) + (if IsPending(q) then 1 else 0)
  {
    var a := requests[..i];
    var b := requests[i + 1..];
    assert requests == a + [requests[i]] + b;
    assert requests[i := q] == a + [q] + b;
    FilterAppend(a + [requests[i]], b, IsPending);
    FilterAppend(a, [requests[i]], IsPending);
    FilterAppend(a + [q], b, IsPending);
    FilterAppend(a, [q], IsPending);
  }

  /** Approving a request that was pending takes one off the badge. */
  lemma ApprovalLowersBadge(st: AuthStore, requestId: string, approver: User,
                            random: string, sessionCompany: string, now: string)
    requires RandomText(random)
    requires exists i :: 0 <= i < |st.requests| && st.requests[i].id == requestId
    requires forall i :: 0 <= i < |st.requests| && st.requests[i].id == requestId ==> IsPending(st.requests[i])
    ensures ApproveAuthorization(st, requestId, approver, random, sessionCompany, now).Ok?
    ensures ActiveNotificationCount(ApproveAuthorization(st, requestId, approver, random, sessionCompany, now).value.requests)
      == ActiveNotificationCount(st.requests) - 1
  {
    var r := ApproveAuthorization(st, requestId, approver, random, sessionCompany, now).value;
    var i := FindIndex(st.requests, (q: AuthRequest) => HasId(q, requestId)).value;
    assert r.requests == st.requests[i := r.requests[i]];
    CountReplace(st.requests, i, r.requests[i]);
  }

  /** Denying a request that was pending takes one off the badge too. */
  lemma DenialLowersBadge(st: AuthStore, requestId: string, denier: User, sessionCompany: string, now: string)
    requires exists i :: 0 <= i < |st.requests| && st.requests[i].id == requestId
    requires forall i :: 0 <= i < |st.requests| && st.requests[i].id == requestId ==> IsPending(st.requests[i])
    ensures DenyAuthorization(st, requestId, denier, sessionCompany, now).Ok?
    ensures ActiveNotificationCount(DenyAuthorization(st, requestId, denier, sessionCompany, now).value.requests)
      == ActiveNotificationCount(st.requests) - 1
  {
    var r := DenyAuthorization(st, requestId, denier, sessionCompany, now).value;
    var i := FindIndex(st.requests, (q: AuthRequest) => HasId(q, requestId)).value;
    assert r.requests == st.requests[i := r.requests[i]];
    CountReplace(st.requests, i, r.requests[i]);
  }

  /** `isAdmin`: the header shows the approvals inbox to both kinds of
      administrator and to no one else. */
  function IsAdmin(u: User): (r: bool)
    ensures r <==> u.role != Staff
  {
    u.role == SuperAdmin || u.role == CompanyAdmin
  }
}

=== FILE: money.dfy ===
/** Brazilian number text: `toLocaleString('pt-BR')` with a fixed number of
    decimals, and the way request processors read such text back
    (drop the thousands dots, turn the comma into a point, `parseFloat`). */
module Money {
  import opened Wrappers
  import opened Seqs
  import opened Strings

  /** A number as `parseFloat` reads it from decimal text: `units / 10^places`,
      kept exact. */
  datatype Dec = Dec(units: int, places: nat)

  /** Whether two readings denote the same number. */
  predicate SameNumber(x: Dec, y: Dec) {
    x.units * Pow10(y.places) == y.units * Pow10(x.places)
  }

  function Pow10(n: nat): (r: nat)
    ensures r >= 1
  {
    if n == 0 then 1 else 10 * Pow10(n - 1)
  }

  /** The last `n` decimal digits of `k`, zero-padded. */
  function PadDigits(k: nat, n: nat): (r: string)
    requires k < Pow10(n)
    ensures |r| == n && AllDigits(r)
    decreases n
  {
    if n == 0 then "" else PadDigits(k / 10, n - 1) + [DigitChar(k % 10)]
  }

  lemma {:induction false} PadDigitsValue(k: nat, n: nat)
    requires k < Pow10(n)
    ensures DigitsValue(PadDigits(k, n)) == k
    decreases n
  {
    if n > 0 {
      var r := PadDigits(k, n);
      assert r[..|r| - 1] == PadDigits(k / 10, n - 1);
      PadDigitsValue(k / 10, n - 1);
    }
  }

  /** Thousands grouping of a digit string: a `.` before every full group
      of three digits counted from the right. */
  function Group(d: string): (r: string)
    decreases |d|
  {
    if |d| <= 3 then d else Group(d[..|d| - 3]) + "." + d[|d| - 3..]
  }

  predicate NotDot(c: char) {
    c != '.'
  }

  /** `s.replace(/\./g, '')` */
  function DropDots(s: string): (r: string)
    ensures '.' !in r
  {
    Filter(s, NotDot)
  }

  lemma DropDotsFree(s: string)
    requires '.' !in s
    ensures DropDots(s) == s
  {
    FilterAll(s, NotDot);
  }

  lemma DropDotsAppend(a: string, b: string)
    ensures DropDots(a + b) == DropDots(a) + DropDots(b)
  {
    FilterAppend(a, b, NotDot);
  }

  lemma {:induction false} UngroupDigits(d: string)
    requires AllDigits(d)
    ensures DropDots(Group(d)) == d
    decreases |d|
  {
    if |d| <= 3 {
      DropDotsFree(d);
    } else {
      var hi := d[..|d| - 3];
      var lo := d[|d| - 3..];
      UngroupDigits(hi);
      UngroupStep(d, hi, lo);
    }
  }

  /** One step of `UngroupDigits`: the last group joins the ungrouped rest. */
  lemma UngroupStep(d: string, hi: string, lo: string)
    requires AllDigits(d) && |d| > 3
    requires hi == d[..|d| - 3] && lo == d[|d| - 3..]
    requires DropDots(Group(hi)) == hi
    ensures DropDots(Group(d)) == d
  {
    assert '.' !in lo;
    DropDotsJoin(Group(hi), lo);
    assert d == hi + lo;
  }

  /** Dropping the dots of `g + "." + lo` drops the joining dot. */
  lemma DropDotsJoin(g: string, lo: string)
    requires '.' !in lo
    ensures DropDots(g + "." + lo) == DropDots(g) + lo
  {
    DropDotsAppend(g + ".", lo);
    DropDotsAppend(g, ".");
    DotDropped();
    DropDotsFree(lo);
  }

  lemma DotDropped()
    ensures DropDots(".") == ""
  {
    assert "."[0] == '.';
  }

  function SignText(v: int): (r: string)
    ensures r == "-" <==> v < 0
    ensures r == "" || r == "-"
  {
    if v < 0 then "-" else ""
  }

  function Magnitude(v: int): nat {
    if v < 0 then -v else v
  }

  /** `v / 10^places` as pt-BR text with exactly `places` decimals, for a
      whole number `v` of hundredths (`places` 2) or thousandths (3). */
  function FormatFixed(v: int, places: nat): (r: string)
    requires places > 0
  {
    SignText(v) + Group(WholeText(Magnitude(v), places)) + "," + FracText(Magnitude(v), places)
  }

  /** The whole part of `a / 10^places` in digits. */
  function WholeText(a: nat, places: nat): (r: string)
    ensures |r| > 0 && AllDigits(r)
  {
    var p := Pow10(places);
    DivBounds(a, p);
    NatText(a / p)
  }

  /** The `places` decimals of `a / 10^places`. */
  function FracText(a: nat, places: nat): (r: string)
    ensures |r| == places && AllDigits(r)
  {
    var p := Pow10(places);
    DivBounds(a, p);
    PadDigits(a % p, places)
  }

  lemma PartsValue(a: nat, places: nat)
    ensures DecOf(WholeText(a, places), FracText(a, places)) == Dec(a, places)
  {
    var p := Pow10(places);
    DivBounds(a, p);
    NatTextRoundTrip(a / p);
    PadDigitsValue(a % p, places);
  }

  /** Rounding to a whole number of `n`: halves away from zero, as
      `toLocaleString` rounds. */
  function RoundTo(v: int, n: nat): (r: int)
    requires n > 0
    ensures v >= 0 ==> r >= 0 && r * n <= v + n / 2 < r * n + n
  {
    if v >= 0 then
      DivBounds(v + n / 2, n);
      (v + n / 2) / n
    else
      DivBounds(-v + n / 2, n);
      -((-v + n / 2) / n)
  }

  /** A reading rounded to hundredths. */
  function Cents(d: Dec): (c: int)
    ensures d.places <= 2 ==> SameNumber(Dec(c, 2), d)
    ensures d.places > 2 ==> c == RoundTo(d.units, Pow10(d.places - 2))
  {
    if d.places <= 2 then
      PowSplit(2 - d.places, d.places);
      d.units * Pow10(2 - d.places)
    else RoundTo(d.units, Pow10(d.places - 2))
  }

  lemma PowSplit(a: nat, b: nat)
    ensures Pow10(a + b) == Pow10(a) * Pow10(b)
    decreases a
  {
    if a > 0 {
      PowSplit(a - 1, b);
    }
  }

  /** `formatCurrency(x)`: two decimals, pt-BR grouping. */
  function FormatCurrency(d: Dec): string {
    FormatFixed(Cents(d), 2)
  }

  /** The characters `FormatFixed` writes. */
  predicate NumberChar(c: char) {
    IsDigit(c) || c == '.' || c == ',' || c == '-'
  }

  predicate NumberText(s: string) {
    |s| > 0 && forall i :: 0 <= i < |s| ==> NumberChar(s[i])
  }

  lemma {:induction false} GroupChars(d: string)
    requires AllDigits(d)
    ensures forall i :: 0 <= i < |Group(d)| ==> NumberChar(Group(d)[i])
    decreases |d|
  {
    if |d| > 3 {
      GroupChars(d[..|d| - 3]);
    }
  }

  lemma FormatFixedText(v: int, places: nat)
    requires places > 0
    ensures NumberText(FormatFixed(v, places))
  {
    GroupChars(WholeText(Magnitude(v), places));
  }

  /** `.replace(',', '.')`: the first comma only. */
  function CommaToPoint(s: string): (r: string)
    ensures |r| == |s|
    decreases |s|
  {
    if |s| == 0 then "" else if s[0] == ',' then "." + s[1..] else [s[0]] + CommaToPoint(s[1..])
  }

  lemma {:induction false} CommaToPointAt(a: string, b: string)
    requires ',' !in a
    ensures CommaToPoint(a + "," + b) == a + "." + b
    decreases |a|
  {
    if |a| == 0 {
      assert a + "," + b == "," + b;
      assert ("," + b)[1..] == b;
    } else {
      assert (a + "," + b)[1..] == a[1..] + "," + b;
      CommaToPointAt(a[1..], b);
    }
  }

  /** The longest prefix of decimal digits. */
  function LeadingDigits(s: string): (r: string)
    ensures AllDigits(r) && |r| <= |s|
    decreases |s|
  {
    if |s| > 0 && IsDigit(s[0]) then [s[0]] + LeadingDigits(s[1..]) else ""
  }

  lemma {:induction false} LeadingDigitsOf(d: string, rest: string)
    requires AllDigits(d)
    requires rest == "" || !IsDigit(rest[0])
    ensures LeadingDigits(d + rest) == d
    decreases |d|
  {
    if |d| > 0 {
      assert (d + rest)[1..] == d[1..] + rest;
      LeadingDigitsOf(d[1..], rest);
    } else {
      assert d + rest == rest;
    }
  }

  /** Digits with an optional fraction: the number `parseFloat` reads
      after the sign, `None` when neither part has a digit. */
  function ParseUnsigned(u: string): (r: Option<Dec>)
    ensures r.Some? <==> (|u| > 0 && IsDigit(u[0])) || (|u| > 1 && u[0] == '.' && IsDigit(u[1]))
    ensures r.Some? ==> r.value.units >= 0
  {
    var ip := LeadingDigits(u);
    var rest := u[|ip|..];
    var fp := if |rest| > 0 && rest[0] == '.' then LeadingDigits(rest[1..]) else "";
    if ip == "" && fp == "" then None else Some(DecOf(ip, fp))
  }

  /** The value of the digits `ip` followed by the fraction digits `fp`. */
  function DecOf(ip: string, fp: string): (r: Dec)
    requires AllDigits(ip) && AllDigits(fp)
    ensures r.units >= 0 && r.places == |fp|
  {
    Dec(DigitsValue(ip) * Pow10(|fp|) + DigitsValue(fp), |fp|)
  }

  /** `parseFloat(s)`: leading whitespace skipped, an optional sign, then
      `ParseUnsigned`. Exponents and `Infinity` are not read. */
  function ParseFloat(s: string): Option<Dec> {
    var t := TrimStart(s);
    var signed := |t| > 0 && (t[0] == '-' || t[0] == '+');
    var r := ParseUnsigned(if signed then t[1..] else t);
    if signed && t[0] == '-' && r.Some? then Some(Negate(r.value)) else r
  }

  /** The same number with the opposite sign. */
  function Negate(d: Dec): Dec {
    Dec(-d.units, d.places)
  }

  /** How a processor reads a pt-BR number: `parseFloat(s.replace(/\./g, '')
      .replace(',', '.') || '0')`. */
  function ReadBr(s: string): Option<Dec> {
    var cleaned := CommaToPoint(DropDots(s));
    ParseFloat(if cleaned == "" then "0" else cleaned)
  }

  lemma ParseDigitsPointDigits(ip: string, fp: string)
    requires AllDigits(ip) && AllDigits(fp) && |ip| > 0
    ensures ParseUnsigned(ip + "." + fp) == Some(DecOf(ip, fp))
  {
    var u := ip + "." + fp;
    assert u == ip + ("." + fp);
    LeadingDigitsOf(ip, "." + fp);
    assert u[|ip|..] == "." + fp;
    assert ("." + fp)[1..] == fp + "";
    LeadingDigitsOf(fp, "");
  }

  lemma ParseFloatUnsigned(u: string)
    requires |u| > 0 && IsDigit(u[0])
    ensures ParseFloat(u) == ParseUnsigned(u)
  {
    assert !IsSpace(u[0]);
    assert TrimStart(u) == u;
  }

  lemma ParseFloatNegative(s: string, u: string, d: Dec)
    requires |u| > 0 && IsDigit(u[0]) && s == "-" + u
    requires ParseUnsigned(u) == Some(d)
    ensures ParseFloat(s) == Some(Negate(d))
  {
    assert !IsSpace(s[0]);
    assert TrimStart(s) == s;
    assert s[1..] == u;
  }

  lemma ParseDecimalPlain(ip: string, fp: string)
    requires AllDigits(ip) && AllDigits(fp) && |ip| > 0
    ensures ParseFloat(ip + "." + fp) == Some(DecOf(ip, fp))
  {
    ParseDigitsPointDigits(ip, fp);
    ParseFloatUnsigned(ip + "." + fp);
  }

  lemma ParseDecimalMinus(s: string, ip: string, fp: string)
    requires AllDigits(ip) && AllDigits(fp) && |ip| > 0
    requires s == "-" + ip + "." + fp
    ensures ParseFloat(s) == Some(Negate(DecOf(ip, fp)))
  {
    var u := ip + "." + fp;
    assert s == "-" + u && u[0] == ip[0];
    ParseDigitsPointDigits(ip, fp);
    ParseFloatNegative(s, u, DecOf(ip, fp));
  }

  /** Text written by `FormatFixed` reads back as the exact number. */
  lemma FormatFixedRoundTrip(v: int, places: nat)
    requires places > 0
    ensures ReadBr(FormatFixed(v, places)) == Some(Dec(v, places))
  {
    var a := Magnitude(v);
    PartsValue(a, places);
    var whole := WholeText(a, places);
    var frac := FracText(a, places);
    ReadFormatted(v, places);
    if v < 0 {
      assert SignText(v) == "-";
      ParseDecimalMinus(SignText(v) + whole + "." + frac, whole, frac);
    } else {
      assert SignText(v) + whole == whole;
      ParseDecimalPlain(whole, frac);
    }
  }

  lemma ReadFormatted(v: int, places: nat)
    requires places > 0
    ensures ReadBr(FormatFixed(v, places)) ==
      ParseFloat(SignText(v) + WholeText(Magnitude(v), places) + "." + FracText(Magnitude(v), places))
  {
    var sign := SignText(v);
    var whole := WholeText(Magnitude(v), places);
    var frac := FracText(Magnitude(v), places);
    UngroupFormat(sign, whole, frac);
    CommaToPointAt(sign + whole, frac);
  }

  lemma UngroupFormat(sign: string, whole: string, frac: string)
    requires sign == "" || sign == "-"
    requires AllDigits(whole) && AllDigits(frac)
    ensures DropDots(sign + Group(whole) + "," + frac) == sign + whole + "," + frac
  {
    DropDotsAppend(sign + Group(whole) + ",", frac);
    DropDotsAppend(sign + Group(whole), ",");
    DropDotsAppend(sign, Group(whole));
    DropDotsFree(sign);
    DropDotsFree(",");
    DropDotsFree(frac);
    UngroupDigits(whole);
  }

  lemma DivBounds(a: nat, p: nat)
    requires p >= 1
    ensures a / p >= 0 && 0 <= a % p < p && a == (a / p) * p + a % p
  {
  }
}

=== FILE: permissions.dfy ===
/** The access-control vocabulary of `types.ts` and the profile table of
    `utils/permissions.ts`: user roles, operational profiles, the permission
    modules, and the permissions each profile grants by default. */
module Permissions {
  import opened Wrappers
  import opened Seqs

  datatype UserRole = SuperAdmin | CompanyAdmin | Staff

  /** `OperationalProfile`, with its string value. */
  datatype Profile = Vendedor | Comprador | Financeiro | Estoque | Gerente | Master {
    function Name(): string {
      match this
      case Vendedor => "Vendedor"
      case Comprador => "Comprador"
      case Financeiro => "Financeiro"
      case Estoque => "Estoque"
      case Gerente => "Gerente"
      case Master => "Master"
    }
  }

  /** `Object.values(OperationalProfile)`. */
  const AllProfiles: seq<Profile> := [Vendedor, Comprador, Financeiro, Estoque, Gerente, Master]

  /** The profile whose value is `s`, if any. */
  function ParseProfile(s: string): (r: Option<Profile>)
    ensures r.Some? ==> r.value.Name() == s
    ensures r.None? ==> forall p: Profile :: p.Name() != s
  {
    if s == "Vendedor" then Some(Vendedor)
    else if s == "Comprador" then Some(Comprador)
    else if s == "Financeiro" then Some(Financeiro)
    else if s == "Estoque" then Some(Estoque)
    else if s == "Gerente" then Some(Gerente)
    else if s == "Master" then Some(Master)
    else None
  }

  lemma ParseProfileName(p: Profile)
    ensures ParseProfile(p.Name()) == Some(p)
  {
  }

  /** `PermissionModule`, in declaration order. */
  datatype Permission =
    | Dashboard
    | FinanceView | FinanceCreate | FinanceEdit | FinanceDelete | FinanceLiquidate | FinanceExtract | FinanceAudit
    | PurchasesView | PurchasesCreate | PurchasesEdit | PurchasesDelete
    | SalesView | SalesCreate | SalesCloseCashier
    | StockView | StockCreate | StockEdit | StockDelete | StockAdjust
    | PartnersView | PartnersCreate | PartnersEdit | PartnersDelete
    | ReportsView | ReportsGeneral | ReportsReceivables | ReportsPayables | ReportsStock | ReportsPartners | ReportsAudit
    | TeamView | TeamInvite | TeamEdit | TeamDelete
    | SupportView | SupportHelpChannels | SupportSecurityBackup
    | SaasDashboard | SaasCompanies | SaasPlans
  {
    predicate IsSaas() {
      this == SaasDashboard || this == SaasCompanies || this == SaasPlans
    }
    predicate IsPurchase() {
      this == PurchasesView || this == PurchasesCreate || this == PurchasesEdit || this == PurchasesDelete
    }
    predicate IsSale() {
      this == SalesView || this == SalesCreate || this == SalesCloseCashier
    }
  }

  /** The module declared at position `i` of `PermissionModule`. */
  function FromOrd(i: nat): Permission
    requires i < 41
  {
    if i == 0 then Dashboard
    else if i == 1 then FinanceView
    else if i == 2 then FinanceCreate
    else if i == 3 then FinanceEdit
    else if i == 4 then FinanceDelete
    else if i == 5 then FinanceLiquidate
    else if i == 6 then FinanceExtract
    else if i == 7 then FinanceAudit
    else if i == 8 then PurchasesView
    else if i == 9 then PurchasesCreate
    else if i == 10 then PurchasesEdit
    else if i == 11 then PurchasesDelete
    else if i == 12 then SalesView
    else if i == 13 then SalesCreate
    else if i == 14 then SalesCloseCashier
    else if i == 15 then StockView
    else if i == 16 then StockCreate
    else if i == 17 then StockEdit
    else if i == 18 then StockDelete
    else if i == 19 then StockAdjust
    else if i == 20 then PartnersView
    else if i == 21 then PartnersCreate
    else if i == 22 then PartnersEdit
    else if i == 23 then PartnersDelete
    else if i == 24 then ReportsView
    else if i == 25 then ReportsGeneral
    else if i == 26 then ReportsReceivables
    else if i == 27 then ReportsPayables
    else if i == 28 then ReportsStock
    else if i == 29 then ReportsPartners
    else if i == 30 then ReportsAudit
    else if i == 31 then TeamView
    else if i == 32 then TeamInvite
    else if i == 33 then TeamEdit
    else if i == 34 then TeamDelete
    else if i == 35 then SupportView
    else if i == 36 then SupportHelpChannels
    else if i == 37 then SupportSecurityBackup
    else if i == 38 then SaasDashboard
    else if i == 39 then SaasCompanies
    else SaasPlans
  }

  /** `Object.values(PermissionModule)`: every module, in declaration order. */
  function AllPermissions(): (r: seq<Permission>)
    ensures |r| == 41 && forall i :: 0 <= i < 41 ==> r[i] == FromOrd(i)
  {
    seq(41, i requires 0 <= i < 41 => FromOrd(i))
  }

  predicate NoDuplicates<T(==)>(s: seq<T>) {
    forall i, j :: 0 <= i < j < |s| ==> s[i] != s[j]
  }

  /** `DEFAULT_PERMISSIONS`. */
  function DefaultPermissions(p: Profile): seq<Permission> {
    match p
    case Vendedor => [Dashboard, SalesView, SalesCreate, PartnersView, PartnersCreate, StockView]
    case Comprador => [Dashboard, PurchasesView, PurchasesCreate, PartnersView, PartnersCreate, StockView]
    case Financeiro => [Dashboard, FinanceView, FinanceCreate, FinanceEdit, FinanceLiquidate, FinanceExtract,
                        ReportsView, PartnersView]
    case Estoque => [Dashboard, StockView, StockCreate, StockEdit, StockAdjust, ReportsView]
    case Gerente => [Dashboard, ReportsView, TeamView, TeamInvite, SupportView,
                     FinanceView, FinanceCreate, FinanceEdit, FinanceDelete, FinanceLiquidate, FinanceExtract,
                     PurchasesView, PurchasesCreate, PurchasesEdit, PurchasesDelete,
                     SalesView, SalesCreate, SalesCloseCashier,
                     StockView, StockCreate, StockEdit, StockDelete, StockAdjust,
                     PartnersView, PartnersCreate, PartnersEdit, PartnersDelete,
                     TeamEdit, TeamDelete]
    case Master => AllPermissions()
  }

  /** The position of a module in the declaration of `PermissionModule`. */
  function Ord(m: Permission): nat {
    match m
    case Dashboard => 0
    case FinanceView => 1 case FinanceCreate => 2 case FinanceEdit => 3 case FinanceDelete => 4
    case FinanceLiquidate => 5 case FinanceExtract => 6 case FinanceAudit => 7
    case PurchasesView => 8 case PurchasesCreate => 9 case PurchasesEdit => 10 case PurchasesDelete => 11
    case SalesView => 12 case SalesCreate => 13 case SalesCloseCashier => 14
    case StockView => 15 case StockCreate => 16 case StockEdit => 17 case StockDelete => 18 case StockAdjust => 19
    case PartnersView => 20 case PartnersCreate => 21 case PartnersEdit => 22 case PartnersDelete => 23
    case ReportsView => 24 case ReportsGeneral => 25 case ReportsReceivables => 26 case ReportsPayables => 27
    case ReportsStock => 28 case ReportsPartners => 29 case ReportsAudit => 30
    case TeamView => 31 case TeamInvite => 32 case TeamEdit => 33 case TeamDelete => 34
    case SupportView => 35 case SupportHelpChannels => 36 case SupportSecurityBackup => 37
    case SaasDashboard => 38 case SaasCompanies => 39 case SaasPlans => 40
  }

  lemma OrdFromOrd(i: nat)
    requires i < 41
    ensures Ord(FromOrd(i)) == i
  {
  }

  lemma FromOrdOrd(m: Permission)
    ensures Ord(m) < 41 && FromOrd(Ord(m)) == m
  {
  }

  /** MASTER is granted every permission module, each once. */
  lemma MasterHasAll(m: Permission)
    ensures m in DefaultPermissions(Master)
    ensures NoDuplicates(DefaultPermissions(Master))
  {
    FromOrdOrd(m);
    assert AllPermissions()[Ord(m)] == m;
    forall i, j | 0 <= i < j < |AllPermissions()|
      ensures AllPermissions()[i] != AllPermissions()[j]
    {
      OrdFromOrd(i);
      OrdFromOrd(j);
    }
  }

  /** Every profile opens the dashboard. */
  lemma EveryProfileHasDashboard(p: Profile)
    ensures Dashboard in DefaultPermissions(p)
  {
    assert DefaultPermissions(p)[0] == Dashboard;
  }

  lemma ManagerListDuplicateFree()
    ensures NoDuplicates(DefaultPermissions(Gerente))
  {
  }

  lemma ShortListsDuplicateFree(p: Profile)
    requires p != Gerente && p != Master
    ensures NoDuplicates(DefaultPermissions(p))
  {
  }

  /** No profile's list repeats a module. */
  lemma ProfileListsDuplicateFree(p: Profile)
    ensures NoDuplicates(DefaultPermissions(p))
  {
    if p == Master {
      MasterHasAll(Dashboard);
    } else if p == Gerente {
      ManagerListDuplicateFree();
    } else {
      ShortListsDuplicateFree(p);
    }
  }

  /** Sellers sell and never buy; buyers buy and never sell. */
  lemma SalesAndPurchasesSeparated()
    ensures SalesView in DefaultPermissions(Vendedor) && SalesCreate in DefaultPermissions(Vendedor)
    ensures forall m :: m in DefaultPermissions(Vendedor) ==> !m.IsPurchase()
    ensures PurchasesView in DefaultPermissions(Comprador) && PurchasesCreate in DefaultPermissions(Comprador)
    ensures forall m :: m in DefaultPermissions(Comprador) ==> !m.IsSale()
  {
    assert DefaultPermissions(Vendedor)[1] == SalesView && DefaultPermissions(Vendedor)[2] == SalesCreate;
    assert DefaultPermissions(Comprador)[1] == PurchasesView && DefaultPermissions(Comprador)[2] == PurchasesCreate;
  }

  /** Below MASTER, only GERENTE may edit or remove team members or close the
      cashier, and no profile below MASTER reaches the SaaS modules. */
  lemma ManagerOnlyPowers(p: Profile)
    requires p != Master
    ensures TeamEdit in DefaultPermissions(p) <==> p == Gerente
    ensures TeamDelete in DefaultPermissions(p) <==> p == Gerente
    ensures SalesCloseCashier in DefaultPermissions(p) <==> p == Gerente
    ensures forall m :: m in DefaultPermissions(p) ==> !m.IsSaas()
  {
    var l := DefaultPermissions(p);
    assert forall i :: 0 <= i < |l| ==> !l[i].IsSaas();
    if p == Gerente {
      assert l[27] == TeamEdit && l[28] == TeamDelete && l[17] == SalesCloseCashier;
    } else {
      assert forall i :: 0 <= i < |l| ==> l[i] != TeamEdit && l[i] != TeamDelete && l[i] != SalesCloseCashier;
    }
  }

  /** A team member (`User`), with the fields the modelled pages read. The
      stored `profile` is a free string: one profile name or several joined
      with ", ". */
  datatype User = User(
    id: string,
    email: string,
    name: string,
    role: UserRole,
    profile: string,
    companyId: string,
    company_id: string,
    permissions: seq<Permission>
  )

  /** A permission a page checks: a `PermissionModule` member, or a name the
      page uses that the enum does not declare (its value is `undefined`, which
      no permission list holds). */
  datatype Requirement = Declared(p: Permission) | Undeclared(name: string)

  /** `permissions.includes(requirement)`. */
  predicate Grants(perms: seq<Permission>, r: Requirement) {
    r.Declared? && r.p in perms
  }

  /** `user.companyId || user.company_id || ''`. */
  function UserCompany(u: User): string {
    if u.companyId != "" then u.companyId else u.company_id
  }
}

=== FILE: pos.dfy ===
/** The point-of-sale page (`pages/POS.tsx`): the cart, checkout, the stock
    moves of a checkout and of its cancellation, voiding a liquidation, the
    shift history and the rule that blocks closing a shift while records are
    pending. The page's tables are one `PosDb` value; generated ids, the
    clock and the company id are parameters. Each handler is one atomic step. */
module Pos {
  import opened Wrappers
  import opened Seqs
  import opened Strings
  import opened Records
  import opened FinanceStatus
  import opened Permissions
  import Store

  // ------------------------------------------------------- cart

  datatype TxType = Buy | Sell

  /** A cart line: `{ id, material, quantity, unit, systemPrice, appliedPrice }`. */
  datatype CartItem = CartItem(
    lineId: string,
    material: Material,
    quantity: int,
    unit: Unit,
    systemPrice: int,
    appliedPrice: int
  )

  function LineTotal(i: CartItem): int {
    i.quantity * i.appliedPrice
  }

  /** `cart.reduce((sum, i) => sum + i.quantity * i.appliedPrice, 0)`. */
  function CartTotal(cart: seq<CartItem>): int {
    Sum(cart, LineTotal)
  }

  /** The price a new line starts at: the buying price on a purchase, the
      selling price on a sale (an absent price is 0). */
  function SystemPrice(m: Material, t: TxType): int {
    if t == Buy then m.buyPrice else m.sellPrice
  }

  /** `addToCart`: without an open session the cart is left alone; otherwise
      one line for the material is appended, quantity 1, charged at the
      system price. Earlier lines are kept as they were. */
  function AddToCart(session: Option<Session>, cart: seq<CartItem>, m: Material, t: TxType, lineId: string): (r: seq<CartItem>)
    ensures session.None? ==> r == cart
    ensures session.Some? ==> |r| == |cart| + 1 && r[..|cart|] == cart
    ensures session.Some? ==> r[|cart|].material == m && r[|cart|].quantity == 1 && r[|cart|].unit == m.unit
    ensures session.Some? ==> r[|cart|].appliedPrice == r[|cart|].systemPrice
    ensures session.Some? && t == Buy ==> r[|cart|].systemPrice == m.buyPrice
    ensures session.Some? && t == Sell ==> r[|cart|].systemPrice == m.sellPrice
  {
    if session.None? then cart
    else
      var price := SystemPrice(m, t);
      cart + [CartItem(lineId, m, 1, m.unit, price, price)]
  }

  /** Adding a material raises the cart total by exactly its system price. */
  lemma AddToCartTotal(s: Session, cart: seq<CartItem>, m: Material, t: TxType, lineId: string)
    ensures CartTotal(AddToCart(Some(s), cart, m, t, lineId)) == CartTotal(cart) + SystemPrice(m, t)
  {
    var line := CartItem(lineId, m, 1, m.unit, SystemPrice(m, t), SystemPrice(m, t));
    SumAppend(cart, [line], LineTotal);
  }

  // ------------------------------------------------------- stock moves

  /** A change of one material's stock by `delta`. */
  datatype Move = Move(materialId: string, delta: int)

  /** `mats[i]` is the first material carrying its id: the one that
      `db.query(...)[0]`, `find` and `db.update` pick. */
  predicate IsFirst(mats: seq<Material>, i: nat)
    requires i < |mats|
  {
    forall j :: 0 <= j < i ==> mats[j].id != mats[i].id
  }

  predicate SameIds(a: seq<Material>, b: seq<Material>) {
    |a| == |b| && forall i :: 0 <= i < |a| ==> a[i].id == b[i].id
  }

  function MaterialIndex(mats: seq<Material>, id: string): (r: Option<nat>)
    ensures r.Some? ==> r.value < |mats| && mats[r.value].id == id && IsFirst(mats, r.value)
    ensures r.None? ==> forall i :: 0 <= i < |mats| ==> mats[i].id != id
  {
    FindIndex(mats, (m: Material) => m.id == id)
  }

  /** The index of a material's first occurrence depends only on the ids. */
  lemma MaterialIndexSameIds(a: seq<Material>, b: seq<Material>, id: string)
    requires SameIds(a, b)
    ensures MaterialIndex(a, id) == MaterialIndex(b, id)
  {
    var ia := MaterialIndex(a, id);
    if ia.Some? {
      assert b[ia.value].id == id;
      var ib := MaterialIndex(b, id);
      assert a[ib.value].id == id;
    } else {
      assert forall i :: 0 <= i < |b| ==> b[i].id != id;
    }
  }

  /** The stock of the first material with the id, if any. */
  function StockOf(mats: seq<Material>, id: string): (r: Option<int>)
    ensures r.None? <==> forall i :: 0 <= i < |mats| ==> mats[i].id != id
  {
    match MaterialIndex(mats, id)
    case None => None
    case Some(k) => Some(mats[k].stock)
  }

  /** `db.update('materials', id, { stock: v })`: the first material with the
      id gets stock `v`; every other entry, and every other field, stays. */
  function SetStock(mats: seq<Material>, id: string, v: int): (r: seq<Material>)
    ensures SameIds(r, mats)
    ensures forall i :: 0 <= i < |mats| ==>
      r[i] == if mats[i].id == id && IsFirst(mats, i) then mats[i].(stock := v) else mats[i]
  {
    match MaterialIndex(mats, id)
    case None => mats
    case Some(k) =>
      var r := mats[k := mats[k].(stock := v)];
      assert forall i :: 0 <= i < |mats| && mats[i].id == id && IsFirst(mats, i) ==> i == k;
      r
  }

  /** One move, reading the current stock and writing it back changed by `d`. */
  function AddStock(mats: seq<Material>, id: string, d: int): (r: seq<Material>)
    ensures SameIds(r, mats)
    ensures forall i :: 0 <= i < |mats| ==>
      r[i] == if mats[i].id == id && IsFirst(mats, i) then mats[i].(stock := mats[i].stock + d) else mats[i]
  {
    match StockOf(mats, id)
    case None => mats
    case Some(s) => SetStock(mats, id, s + d)
  }

  /** The moves applied one after another, each on the stock the previous one left. */
  function ApplyMoves(mats: seq<Material>, moves: seq<Move>): seq<Material>
    decreases |moves|
  {
    if |moves| == 0 then mats
    else ApplyMoves(AddStock(mats, moves[0].materialId, moves[0].delta), moves[1..])
  }

  /** The net change the moves make to one material. */
  function Net(moves: seq<Move>, id: string): int
    decreases |moves|
  {
    if |moves| == 0 then 0
    else (if moves[0].materialId == id then moves[0].delta else 0) + Net(moves[1..], id)
  }

  /** The moves' effect, material by material: the first entry of each id
      changes by the net of that id's moves, and nothing else changes. */
  lemma {:induction false} ApplyMovesAt(mats: seq<Material>, moves: seq<Move>)
    ensures SameIds(ApplyMoves(mats, moves), mats)
    ensures forall i :: 0 <= i < |mats| ==>
      ApplyMoves(mats, moves)[i]
        == if IsFirst(mats, i) then mats[i].(stock := mats[i].stock + Net(moves, mats[i].id)) else mats[i]
    decreases |moves|
  {
    if |moves| > 0 {
      var next := AddStock(mats, moves[0].materialId, moves[0].delta);
      ApplyMovesAt(next, moves[1..]);
      forall i | 0 <= i < |mats|
        ensures IsFirst(next, i) == IsFirst(mats, i)
      {
      }
    }
  }

  /** Moves whose nets cancel undo each other: applying `moves` and then
      `back` restores every material exactly. */
  lemma MovesUndo(mats: seq<Material>, moves: seq<Move>, back: seq<Move>)
    requires forall id :: Net(back, id) == -Net(moves, id)
    ensures ApplyMoves(ApplyMoves(mats, moves), back) == mats
  {
    var mid := ApplyMoves(mats, moves);
    ApplyMovesAt(mats, moves);
    ApplyMovesAt(mid, back);
    forall i | 0 <= i < |mats|
      ensures ApplyMoves(mid, back)[i] == mats[i]
    {
      assert IsFirst(mid, i) == IsFirst(mats, i);
      assert Net(back, mats[i].id) == -Net(moves, mats[i].id);
    }
  }

  /** Every move with its sign flipped. */
  function Negated(moves: seq<Move>): (r: seq<Move>)
    ensures |r| == |moves|
    ensures forall i :: 0 <= i < |moves| ==> r[i] == Move(moves[i].materialId, -moves[i].delta)
  {
    Map(moves, (mv: Move) => Move(mv.materialId, -mv.delta))
  }

  lemma {:induction false} NetNegated(moves: seq<Move>, id: string)
    ensures Net(Negated(moves), id) == -Net(moves, id)
    decreases |moves|
  {
    if |moves| > 0 {
      assert Negated(moves)[1..] == Negated(moves[1..]);
      NetNegated(moves[1..], id);
    }
  }

  // ------------------------------------------------------- checkout

  /** A purchase is money out (SAIDA), a sale money in (ENTRADA). */
  function TxNature(t: TxType): Nature {
    if t == Buy then Saida else Entrada
  }

  /** Stock rises by the quantity on a purchase and falls on a sale. */
  function CheckoutDelta(t: TxType, quantity: int): int {
    if t == Buy then quantity else -quantity
  }

  function CartMoves(cart: seq<CartItem>, t: TxType): (r: seq<Move>)
    ensures |r| == |cart|
    ensures forall i :: 0 <= i < |cart| ==> r[i] == Move(cart[i].material.id, CheckoutDelta(t, cart[i].quantity))
  {
    Map(cart, (it: CartItem) => Move(it.material.id, CheckoutDelta(t, it.quantity)))
  }

  function TxItems(cart: seq<CartItem>): (r: seq<TransactionItem>)
    ensures |r| == |cart|
    ensures forall i :: 0 <= i < |cart| ==>
      r[i] == TransactionItem(cart[i].material.id, cart[i].quantity, cart[i].appliedPrice)
  {
    Map(cart, (it: CartItem) => TransactionItem(it.material.id, it.quantity, it.appliedPrice))
  }

  /** Cancelling a transaction takes the quantity back out for SAIDA and puts
      it back for anything else. */
  function CancelMoves(tx: Transaction): (r: seq<Move>)
    ensures |r| == |tx.items|
    ensures forall i :: 0 <= i < |tx.items| ==>
      r[i] == Move(tx.items[i].materialId, if tx.natureza == Saida then -tx.items[i].quantity else tx.items[i].quantity)
  {
    Map(tx.items, (it: TransactionItem) =>
      Move(it.materialId, if tx.natureza == Saida then -it.quantity else it.quantity))
  }

  /** The checkout's stock writes as written: each line reads the stock of the
      page's material list `snap`, loaded before the checkout began, and
      writes that value plus or minus its quantity into the table. */
  function CheckoutStockAsWritten(snap: seq<Material>, mats: seq<Material>, cart: seq<CartItem>, t: TxType): seq<Material>
    decreases |cart|
  {
    if |cart| == 0 then mats
    else
      var next := SnapshotWrite(snap, mats, cart[0].material.id, CheckoutDelta(t, cart[0].quantity));
      CheckoutStockAsWritten(snap, next, cart[1..], t)
  }

  /** One as-written write: the snapshot's stock changed by `d`, stored over
      whatever the table holds. */
  function SnapshotWrite(snap: seq<Material>, mats: seq<Material>, id: string, d: int): (r: seq<Material>)
    ensures StockOf(snap, id) == StockOf(mats, id) ==> r == AddStock(mats, id, d)
  {
    match StockOf(snap, id)
    case None => mats
    case Some(s) => SetStock(mats, id, s + d)
  }

  /** No material appears on two lines of the cart. */
  predicate DistinctMaterials(cart: seq<CartItem>) {
    forall i, j :: 0 <= i < j < |cart| ==> cart[i].material.id != cart[j].material.id
  }

  lemma StockOfSameIds(a: seq<Material>, b: seq<Material>, id: string)
    requires SameIds(a, b)
    requires forall i :: 0 <= i < |a| && a[i].id == id ==> a[i].stock == b[i].stock
    ensures StockOf(a, id) == StockOf(b, id)
  {
    MaterialIndexSameIds(a, b, id);
  }

  /** While the snapshot still holds the current stock of every material the
      remaining lines name, the as-written writes are the moves. */
  lemma {:induction false} AsWrittenFromSnapshot(snap: seq<Material>, mats: seq<Material>, cart: seq<CartItem>, t: TxType)
    requires SameIds(snap, mats)
    requires DistinctMaterials(cart)
    requires forall k, i :: (0 <= k < |cart| && 0 <= i < |mats| && mats[i].id == cart[k].material.id
                             ==> snap[i].stock == mats[i].stock)
    ensures CheckoutStockAsWritten(snap, mats, cart, t) == ApplyMoves(mats, CartMoves(cart, t))
    decreases |cart|
  {
    if |cart| > 0 {
      var id := cart[0].material.id;
      var d := CheckoutDelta(t, cart[0].quantity);
      StockOfSameIds(snap, mats, id);
      var next := AddStock(mats, id, d);
      var moves := CartMoves(cart, t);
      assert moves[0] == Move(id, d);
      assert moves[1..] == CartMoves(cart[1..], t);
      assert ApplyMoves(mats, moves) == ApplyMoves(next, moves[1..]);
      SnapshotStillCurrent(snap, mats, cart, d);
      AsWrittenFromSnapshot(snap, next, cart[1..], t);
    }
  }

  /** A move on the first line's material leaves the snapshot current for the others. */
  lemma SnapshotStillCurrent(snap: seq<Material>, mats: seq<Material>, cart: seq<CartItem>, d: int)
    requires |cart| > 0 && SameIds(snap, mats)
    requires DistinctMaterials(cart)
    requires forall k, i :: (0 <= k < |cart| && 0 <= i < |mats| && mats[i].id == cart[k].material.id
                             ==> snap[i].stock == mats[i].stock)
    ensures var next := AddStock(mats, cart[0].material.id, d);
      forall k, i :: (0 <= k < |cart[1..]| && 0 <= i < |next| && next[i].id == cart[1..][k].material.id
                      ==> snap[i].stock == next[i].stock)
  {
    var next := AddStock(mats, cart[0].material.id, d);
    forall k, i | 0 <= k < |cart[1..]| && 0 <= i < |next| && next[i].id == cart[1..][k].material.id
      ensures snap[i].stock == next[i].stock
    {
      assert cart[1..][k] == cart[k + 1];
      assert cart[k + 1].material.id != cart[0].material.id;
    }
  }

  /** With every material on at most one line, the as-written writes agree
      with moves that read the current stock. */
  lemma AsWrittenAgreesWhenDistinct(mats: seq<Material>, cart: seq<CartItem>, t: TxType)
    requires DistinctMaterials(cart)
    ensures CheckoutStockAsWritten(mats, mats, cart, t) == ApplyMoves(mats, CartMoves(cart, t))
  {
    AsWrittenFromSnapshot(mats, mats, cart, t);
  }

  /** Two lines of the same material (clicking it twice adds two lines): the
      as-written checkout raises a stock of 10 to 11 instead of 12, and
      cancelling the sale afterwards leaves 9. */
  lemma DuplicateLinesLoseStock()
    ensures var m := Material("m1", "COBRE", Kg, 10, 0, 0, 0, 0, 5, 5, 7, 7);
      var line := CartItem("l1", m, 1, Kg, 5, 5);
      var cart := [line, line];
      var tx := Transaction("t1", CartTotal(cart), TxStatus.Completed, TxNature(Buy), TxItems(cart));
      && CheckoutStockAsWritten([m], [m], cart, Buy)[0].stock == 11
      && ApplyMoves([m], CartMoves(cart, Buy))[0].stock == 12
      && ApplyMoves(CheckoutStockAsWritten([m], [m], cart, Buy), CancelMoves(tx))[0].stock == 9
  {
    var m := Material("m1", "COBRE", Kg, 10, 0, 0, 0, 0, 5, 5, 7, 7);
    var line := CartItem("l1", m, 1, Kg, 5, 5);
    var cart := [line, line];
    var tx := Transaction("t1", CartTotal(cart), TxStatus.Completed, TxNature(Buy), TxItems(cart));
    assert cart[1..] == [line];
    var once := SetStock([m], "m1", 11);
    assert once == [m.(stock := 11)];
    assert CheckoutStockAsWritten([m], [m], cart, Buy) == CheckoutStockAsWritten([m], once, [line], Buy);
    assert CheckoutStockAsWritten([m], once, [line], Buy) == [m.(stock := 11)];
    var up := Move("m1", 1);
    assert CartMoves(cart, Buy) == [up, up];
    assert Net([up, up], "m1") == 2 by {
      assert [up, up][1..] == [up];
      assert [up][1..] == [];
      assert Net([up], "m1") == 1;
    }
    ApplyMovesAt([m], [up, up]);
    var down := Move("m1", -1);
    assert CancelMoves(tx) == [down, down];
    assert Net([down, down], "m1") == -2 by {
      assert [down, down][1..] == [down];
      assert [down][1..] == [];
      assert Net([down], "m1") == -1;
    }
    ApplyMovesAt([m.(stock := 11)], [down, down]);
  }

  // ------------------------------------------------------- the page's tables

  /** The tables the page reads and writes (the company's rows only). */
  datatype PosDb = PosDb(materials: seq<Material>, transactions: seq<Transaction>, financials: seq<FinancialRecord>)

  /** `financials.find(r => r.id === id)` and `db.update('financials', id, …)` pick this row. */
  function RecordIndex(recs: seq<FinancialRecord>, id: string): (r: Option<nat>)
    ensures r.Some? ==> r.value < |recs| && recs[r.value].id == id
    ensures r.Some? ==> forall j :: 0 <= j < r.value ==> recs[j].id != id
    ensures r.None? ==> forall j :: 0 <= j < |recs| ==> recs[j].id != id
  {
    FindIndex(recs, (f: FinancialRecord) => f.id == id)
  }

  function TxIndex(txs: seq<Transaction>, id: string): (r: Option<nat>)
    ensures r.Some? ==> r.value < |txs| && txs[r.value].id == id
    ensures r.Some? ==> forall j :: 0 <= j < r.value ==> txs[j].id != id
    ensures r.None? ==> forall j :: 0 <= j < |txs| ==> txs[j].id != id
  {
    FindIndex(txs, (x: Transaction) => x.id == id)
  }

  /** `activeSession.userId || activeSession.user_id`. */
  function SessionUser(s: Session): string {
    if s.userId != "" then s.userId else s.user_id
  }

  // ------------------------------------------------------- handleCheckout

  const CustomerCannotSupply := "Parceiros do tipo CLIENTE não podem fornecer."
  const SupplierCannotBuy := "Parceiros do tipo FORNECEDOR não podem comprar."

  /** `partners[i]` is the first partner on the list with the id, the one
      `partners.find` returns. */
  predicate FirstWithId(partners: seq<Partner>, partnerId: string, i: int) {
    0 <= i < |partners| && partners[i].id == partnerId && forall j :: 0 <= j < i ==> partners[j].id != partnerId
  }

  /** The partner-type guard: a purchase from a customer or a sale to a
      supplier is refused; a partner of both types, or one not on the list,
      passes. The partner judged is the first on the list with the id. */
  function PartnerRefusal(partners: seq<Partner>, partnerId: string, t: TxType): (r: Option<string>)
    ensures r.Some? ==> exists p :: (p in partners && p.id == partnerId
                                     && ((t == Buy && p.ptype == Customer) || (t == Sell && p.ptype == Supplier)))
    ensures (forall p :: p in partners && p.id == partnerId ==> p.ptype == Both) ==> r.None?
    ensures r.Some? ==> (t == Buy && r.value == CustomerCannotSupply) || (t == Sell && r.value == SupplierCannotBuy)
    ensures forall i :: FirstWithId(partners, partnerId, i) ==>
      && (t == Buy && partners[i].ptype == Customer ==> r == Some(CustomerCannotSupply))
      && (t == Sell && partners[i].ptype == Supplier ==> r == Some(SupplierCannotBuy))
      && (!(t == Buy && partners[i].ptype == Customer) && !(t == Sell && partners[i].ptype == Supplier) ==> r.None?)
  {
    var hasId := (p: Partner) => p.id == partnerId;
    FindLeftmost(partners, hasId);
    match Find(partners, hasId)
    case None => None
    case Some(p) =>
      if t == Buy && p.ptype == Customer then Some(CustomerCannotSupply)
      else if t == Sell && p.ptype == Supplier then Some(SupplierCannotBuy)
      else None
  }

  /** The transaction a checkout inserts: one item per cart line at its
      applied price. */
  function CheckoutTx(txId: string, cart: seq<CartItem>, t: TxType): Transaction {
    Transaction(txId, CartTotal(cart), TxStatus.Completed, TxNature(t), TxItems(cart))
  }

  function ItemTotal(it: TransactionItem): int {
    it.quantity * it.price
  }

  /** The transaction's value is the sum of its items' totals. */
  lemma {:induction false} CheckoutTxValue(txId: string, cart: seq<CartItem>, t: TxType)
    ensures CheckoutTx(txId, cart, t).valor == Sum(CheckoutTx(txId, cart, t).items, ItemTotal)
    decreases |cart|
  {
    if |cart| > 0 {
      CheckoutTxValue(txId, cart[1..], t);
      assert TxItems(cart)[1..] == TxItems(cart[1..]);
    }
  }

  /** The financial record a checkout inserts: pending, with no due date,
      pointing at its transaction and at the open session. */
  function CheckoutRecord(recId: string, txId: string, companyId: string, partnerId: string, s: Session,
                          cart: seq<CartItem>, t: TxType, now: string): FinancialRecord
  {
    FinancialRecord(
      id := recId,
      companyId := companyId,
      tipo := if t == Buy then "compras" else "vendas",
      natureza := TxNature(t),
      categoria := if t == Buy then "Compra de Materiais" else "Venda de Materiais",
      valor := CartTotal(cart),
      status := Pending,
      description := "PDV: " + (if t == Buy then "Compra" else "Venda") + " #" + Upper(Prefix(txId, 6)),
      dueDate := "",
      due_date := "",
      parceiro_id := partnerId,
      transaction_id := txId,
      caixa_id := s.id,
      paymentTermId := "",
      payment_term_id := "",
      isReversed := false,
      is_reversed := false,
      created_at := now,
      liquidation_date := "",
      user_id := SessionUser(s))
  }

  /** The result of pressing the checkout button. */
  datatype CheckoutOutcome =
    | Ignored
    | EditRequested(recordId: string, cart: seq<CartItem>, partnerId: string, t: TxType, originalTxId: string)
    | Refused(message: string)
    | Done(db: PosDb)

  /** `handleCheckout`. `editingRecordId` is "" when no sale is being edited;
      `txId` and `recId` are the ids the two inserts generate. The stock
      writes are the corrected ones, which read the current stock; they agree
      with the code as written (`CheckoutStockAsWritten`, which reads the
      page's snapshot) whenever no material is on two cart lines. */
  function HandleCheckout(db: PosDb, submitting: bool, session: Option<Session>, hasUser: bool, partnerId: string,
                          cart: seq<CartItem>, t: TxType, editingRecordId: string, partners: seq<Partner>,
                          txId: string, recId: string, companyId: string, now: string): (r: CheckoutOutcome)
    ensures r.Ignored? <==> submitting || session.None? || !hasUser || partnerId == "" || |cart| == 0
    ensures r.EditRequested? ==>
      && editingRecordId != "" && r.recordId == editingRecordId && r.cart == cart
      && r.partnerId == partnerId && r.t == t && r.originalTxId != ""
      && exists f :: (f in HistoryRecords(db.financials, session.value) && f.id == editingRecordId
                      && f.transaction_id == r.originalTxId)
    ensures r.Refused? ==> PartnerRefusal(partners, partnerId, t) == Some(r.message)
    ensures r.Done? ==> PartnerRefusal(partners, partnerId, t).None?
    ensures r.Done? ==> r.db.materials == ApplyMoves(db.materials, CartMoves(cart, t))
    ensures r.Done? && DistinctMaterials(cart) ==>
      r.db.materials == CheckoutStockAsWritten(db.materials, db.materials, cart, t)
    ensures r.Done? ==> r.db.transactions == db.transactions + [CheckoutTx(txId, cart, t)]
    ensures r.Done? ==>
      r.db.financials == db.financials + [CheckoutRecord(recId, txId, companyId, partnerId, session.value, cart, t, now)]
  {
    if submitting || session.None? || !hasUser || partnerId == "" || |cart| == 0 then Ignored
    else
      var s := session.value;
      var editing := if editingRecordId == "" then None
        else Find(HistoryRecords(db.financials, s), (f: FinancialRecord) => f.id == editingRecordId);
      if editing.Some? && editing.value.transaction_id != "" then
        EditRequested(editingRecordId, cart, partnerId, t, editing.value.transaction_id)
      else match PartnerRefusal(partners, partnerId, t)
        case Some(msg) => Refused(msg)
        case None =>
          assert DistinctMaterials(cart) ==>
            ApplyMoves(db.materials, CartMoves(cart, t)) == CheckoutStockAsWritten(db.materials, db.materials, cart, t) by {
            if DistinctMaterials(cart) {
              AsWrittenAgreesWhenDistinct(db.materials, cart, t);
            }
          }
          Done(PosDb(
            ApplyMoves(db.materials, CartMoves(cart, t)),
            db.transactions + [CheckoutTx(txId, cart, t)],
            db.financials + [CheckoutRecord(recId, txId, companyId, partnerId, s, cart, t, now)]))
  }

  /** Both directions of the partner guard: a purchase from a customer and a
      sale to a supplier are refused with their messages, whatever else is
      in the cart or on the partner list; the partner judged is the first on
      the list with the id. */
  lemma PartnerGuard(db: PosDb, s: Session, partnerId: string, cart: seq<CartItem>, t: TxType,
                     partners: seq<Partner>, p: Partner, i: nat, txId: string, recId: string, companyId: string, now: string)
    requires partnerId != "" && |cart| > 0
    requires FirstWithId(partners, partnerId, i) && partners[i] == p
    ensures var r := HandleCheckout(db, false, Some(s), true, partnerId, cart, t, "", partners, txId, recId, companyId, now);
      && (t == Buy && p.ptype == Customer ==> r == Refused(CustomerCannotSupply))
      && (t == Sell && p.ptype == Supplier ==> r == Refused(SupplierCannotBuy))
      && (p.ptype == Both ==> r.Done?)
  {
  }

  // ------------------------------------------------------- executeRecordCancel

  /** The fields a cancellation writes on the record. The page writes
      `is_reversed` alone; `update` normalises the write, so `isReversed`
      is stored too (`ReversedFlagStored`). */
  function CancelledRecord(f: FinancialRecord): FinancialRecord {
    f.(status := Reversed, is_reversed := true, isReversed := true, liquidation_date := "", dueDate := "", due_date := "")
  }

  /** The update object of the cancellation, as the page writes it. */
  const CancelUpdate: Store.Obj := map["status" := Store.Str("reversed"), "is_reversed" := Store.Bool(true),
    "liquidation_date" := Store.Null, "dueDate" := Store.Null, "due_date" := Store.Null]

  /** The update object of the void, as the page writes it. */
  const VoidUpdate: Store.Obj := map["status" := Store.Str("pending"), "liquidation_date" := Store.Null,
    "dueDate" := Store.Null, "due_date" := Store.Null, "is_reversed" := Store.Bool(false),
    "payment_term_id" := Store.Null, "paymentTermId" := Store.Null]

  lemma VoidUpdateWrites(u: Store.Obj)
    requires u == VoidUpdate
    ensures "is_reversed" in u && "isReversed" !in u && u["is_reversed"] == Store.Bool(false)
    ensures "id_companies" !in u
  {
  }

  /** A write of `is_reversed` alone is stored under both spellings. */
  lemma ReversedFlagStored(prev: Store.Obj, updates: Store.Obj, now: string)
    requires "is_reversed" in updates && "isReversed" !in updates && Store.CompanyAliasesClosed(updates)
    ensures var m := Store.Merged(prev, updates, now);
      && "isReversed" in m && "is_reversed" in m
      && m["isReversed"] == updates["is_reversed"] && m["is_reversed"] == updates["is_reversed"]
  {
    Store.ReversedPairAlone();
    Store.ApplyRedundancyPair(updates, 35, "isReversed", "is_reversed");
    Store.UpdateCarriesFields(prev, updates, now);
  }

  /** The cancellation stores both flags set, whatever the record held. */
  lemma CancelStoresBothFlags(prev: Store.Obj, u: Store.Obj, now: string)
    requires u == CancelUpdate
    ensures var m := Store.Merged(prev, u, now);
      && "isReversed" in m && m["isReversed"] == Store.Bool(true)
      && "is_reversed" in m && m["is_reversed"] == Store.Bool(true)
  {
    ReversedFlagStored(prev, u, now);
  }

  /** The void stores both flags cleared, whatever the record held. */
  lemma VoidStoresBothFlags(prev: Store.Obj, u: Store.Obj, now: string)
    requires u == VoidUpdate
    ensures var m := Store.Merged(prev, u, now);
      && "isReversed" in m && m["isReversed"] == Store.Bool(false)
      && "is_reversed" in m && m["is_reversed"] == Store.Bool(false)
  {
    VoidUpdateWrites(u);
    ReversedFlagStored(prev, u, now);
  }

  /** A cancellation reverses stock only for a record with a transaction that
      is not reversed yet. */
  predicate ReversesStock(f: FinancialRecord) {
    f.transaction_id != "" && f.status != Reversed && !f.is_reversed
  }

  /** The transaction half of a cancellation: the first transaction with the
      record's id, unless already cancelled, has its moves undone and is
      marked cancelled. */
  function CancelTransaction(db: PosDb, txId: string): PosDb {
    match TxIndex(db.transactions, txId)
    case None => db
    case Some(j) =>
      var tx := db.transactions[j];
      if tx.status == Canceled then db
      else db.(materials := ApplyMoves(db.materials, CancelMoves(tx)),
               transactions := db.transactions[j := tx.(status := Canceled)])
  }

  /** `executeRecordCancel`: an unknown id changes nothing; otherwise the
      record is marked reversed with its dates cleared, and its transaction's
      stock is reversed first when `ReversesStock` holds. */
  function ExecuteRecordCancel(db: PosDb, recordId: string): (r: PosDb)
    ensures RecordIndex(db.financials, recordId).None? ==> r == db
    ensures RecordIndex(db.financials, recordId).Some? ==> |r.financials| == |db.financials|
    ensures RecordIndex(db.financials, recordId).Some? ==>
      var k := RecordIndex(db.financials, recordId).value;
      && r.financials[k] == CancelledRecord(db.financials[k])
      && (forall j :: 0 <= j < |db.financials| && j != k ==> r.financials[j] == db.financials[j])
      && (!ReversesStock(db.financials[k]) ==> r.materials == db.materials && r.transactions == db.transactions)
  {
    match RecordIndex(db.financials, recordId)
    case None => db
    case Some(k) =>
      var f := db.financials[k];
      var db1 := if ReversesStock(f) then CancelTransaction(db, f.transaction_id) else db;
      db1.(financials := db.financials[k := CancelledRecord(f)])
  }

  /** A cancelled record reads CANCELADO, struck through, on every day. */
  lemma CancelledReadsCancelado(db: PosDb, recordId: string, today: string)
    requires RecordIndex(db.financials, recordId).Some?
    ensures var k := RecordIndex(db.financials, recordId).value;
      GetStatusInfo(ExecuteRecordCancel(db, recordId).financials[k], today) == StatusInfo(Cancelado, true)
  {
  }

  /** Cancelling twice is cancelling once: the second call finds the record
      reversed and leaves stock and transactions alone. */
  lemma CancelIdempotent(db: PosDb, recordId: string)
    ensures ExecuteRecordCancel(ExecuteRecordCancel(db, recordId), recordId) == ExecuteRecordCancel(db, recordId)
  {
    var once := ExecuteRecordCancel(db, recordId);
    match RecordIndex(db.financials, recordId)
    case None =>
    case Some(k) =>
      assert RecordIndex(once.financials, recordId) == Some(k) by {
        assert once.financials[k].id == recordId;
        assert forall j :: 0 <= j < k ==> once.financials[j] == db.financials[j];
      }
      assert !ReversesStock(once.financials[k]);
      assert once.financials[k := CancelledRecord(once.financials[k])] == once.financials;
  }

  /** A row appended under a fresh id is the one the id now finds. */
  lemma RecordIndexAppend(recs: seq<FinancialRecord>, f: FinancialRecord)
    requires RecordIndex(recs, f.id).None?
    ensures RecordIndex(recs + [f], f.id) == Some(|recs|)
  {
    assert forall j :: 0 <= j < |recs| ==> (recs + [f])[j].id != f.id;
    assert (recs + [f])[|recs|] == f;
  }

  lemma TxIndexAppend(txs: seq<Transaction>, x: Transaction)
    requires TxIndex(txs, x.id).None?
    ensures TxIndex(txs + [x], x.id) == Some(|txs|)
  {
    assert forall j :: 0 <= j < |txs| ==> (txs + [x])[j].id != x.id;
    assert (txs + [x])[|txs|] == x;
  }

  /** Cancelling a transaction's moves undoes the checkout's moves. */
  lemma CancelMovesUndoCheckout(txId: string, cart: seq<CartItem>, t: TxType)
    ensures CancelMoves(CheckoutTx(txId, cart, t)) == Negated(CartMoves(cart, t))
  {
  }

  /** Cancelling a completed checkout by its record restores every material's
      stock, whatever the cart (repeated materials included), and leaves the
      transaction cancelled. The two new ids must be fresh and the
      transaction id non-empty, as generated ids are. */
  lemma CheckoutThenCancel(db: PosDb, s: Session, partnerId: string, cart: seq<CartItem>, t: TxType,
                           partners: seq<Partner>, txId: string, recId: string, companyId: string, now: string)
    requires txId != ""
    requires RecordIndex(db.financials, recId).None? && TxIndex(db.transactions, txId).None?
    requires HandleCheckout(db, false, Some(s), true, partnerId, cart, t, "", partners, txId, recId, companyId, now).Done?
    ensures var after := HandleCheckout(db, false, Some(s), true, partnerId, cart, t, "", partners, txId, recId, companyId, now).db;
      var undone := ExecuteRecordCancel(after, recId);
      && undone.materials == db.materials
      && undone.transactions == db.transactions + [CheckoutTx(txId, cart, t).(status := Canceled)]
      && undone.financials == db.financials + [CancelledRecord(CheckoutRecord(recId, txId, companyId, partnerId, s, cart, t, now))]
  {
    var after := HandleCheckout(db, false, Some(s), true, partnerId, cart, t, "", partners, txId, recId, companyId, now).db;
    CancelBookedCheckout(db, after, s, partnerId, cart, t, txId, recId, companyId, now);
  }

  /** The same, for any store the checkout's writes produced. */
  lemma CancelBookedCheckout(db: PosDb, after: PosDb, s: Session, partnerId: string, cart: seq<CartItem>, t: TxType,
                             txId: string, recId: string, companyId: string, now: string)
    requires txId != ""
    requires RecordIndex(db.financials, recId).None? && TxIndex(db.transactions, txId).None?
    requires after.materials == ApplyMoves(db.materials, CartMoves(cart, t))
    requires after.transactions == db.transactions + [CheckoutTx(txId, cart, t)]
    requires after.financials == db.financials + [CheckoutRecord(recId, txId, companyId, partnerId, s, cart, t, now)]
    ensures var undone := ExecuteRecordCancel(after, recId);
      && undone.materials == db.materials
      && undone.transactions == db.transactions + [CheckoutTx(txId, cart, t).(status := Canceled)]
      && undone.financials == db.financials + [CancelledRecord(CheckoutRecord(recId, txId, companyId, partnerId, s, cart, t, now))]
  {
    var f := CheckoutRecord(recId, txId, companyId, partnerId, s, cart, t, now);
    RecordIndexAppend(db.financials, f);
    assert ReversesStock(f);
    var db1 := CancelTransaction(after, txId);
    CancelCheckoutTransaction(db, after, cart, t, txId);
    assert ExecuteRecordCancel(after, recId) == db1.(financials := after.financials[|db.financials| := CancelledRecord(f)]);
    assert after.financials[|db.financials| := CancelledRecord(f)] == db.financials + [CancelledRecord(f)];
  }

  /** The transaction half: the checkout's transaction is found, its moves
      undone and it is marked cancelled. */
  lemma CancelCheckoutTransaction(db: PosDb, after: PosDb, cart: seq<CartItem>, t: TxType, txId: string)
    requires TxIndex(db.transactions, txId).None?
    requires after.materials == ApplyMoves(db.materials, CartMoves(cart, t))
    requires after.transactions == db.transactions + [CheckoutTx(txId, cart, t)]
    ensures CancelTransaction(after, txId).materials == db.materials
    ensures CancelTransaction(after, txId).transactions == db.transactions + [CheckoutTx(txId, cart, t).(status := Canceled)]
  {
    var tx := CheckoutTx(txId, cart, t);
    TxIndexAppend(db.transactions, tx);
    assert after.transactions[|db.transactions|] == tx;
    var moves := CartMoves(cart, t);
    CancelMovesUndoCheckout(txId, cart, t);
    forall id ensures Net(Negated(moves), id) == -Net(moves, id) {
      NetNegated(moves, id);
    }
    MovesUndo(db.materials, moves, Negated(moves));
    assert after.transactions[|db.transactions| := tx.(status := Canceled)] == db.transactions + [tx.(status := Canceled)];
  }

  /** The record a checkout books can never be edited or deleted from the
      finance table, neither open nor once cancelled; while open it can be
      settled, and once cancelled it can be neither settled nor reversed. */
  lemma CheckoutRecordLocked(recId: string, txId: string, companyId: string, partnerId: string, s: Session,
                             cart: seq<CartItem>, t: TxType, now: string, activeSession: bool, hasOnReverse: bool)
    ensures var f := CheckoutRecord(recId, txId, companyId, partnerId, s, cart, t, now);
      var open := Buttons(f, activeSession, false, hasOnReverse);
      var gone := Buttons(CancelledRecord(f), activeSession, false, hasOnReverse);
      && !open.editDelete && (open.baixarEnabled <==> activeSession) && !open.reverse
      && !gone.editDelete && !gone.baixarEnabled && !gone.reverse
  {
  }

  // ------------------------------------------------------- executeTransactionVoid

  /** The fields a void writes on the record: back to pending, with no dates,
      no payment term and both reversed flags cleared (`VoidStoresBothFlags`). */
  function VoidedRecord(f: FinancialRecord): FinancialRecord {
    f.(status := Pending, liquidation_date := "", dueDate := "", due_date := "", is_reversed := false,
       isReversed := false, payment_term_id := "", paymentTermId := "")
  }

  /** `executeTransactionVoid`: the record's transaction, if it names one, is
      set back to completed and the record to pending. A transaction id that
      matches no transaction makes the update throw, and nothing is written. */
  function ExecuteTransactionVoid(db: PosDb, recordId: string): (r: PosDb)
    ensures r.materials == db.materials
    ensures RecordIndex(db.financials, recordId).None? ==> r == db
    ensures |r.financials| == |db.financials|
    ensures RecordIndex(db.financials, recordId).Some? ==>
      var k := RecordIndex(db.financials, recordId).value;
      var f := db.financials[k];
      && (forall j :: 0 <= j < |db.financials| && j != k ==> r.financials[j] == db.financials[j])
      && (f.transaction_id != "" && TxIndex(db.transactions, f.transaction_id).None? ==> r == db)
      && (f.transaction_id == "" || TxIndex(db.transactions, f.transaction_id).Some? ==> r.financials[k] == VoidedRecord(f))
  {
    match RecordIndex(db.financials, recordId)
    case None => db
    case Some(k) =>
      var f := db.financials[k];
      if f.transaction_id == "" then db.(financials := db.financials[k := VoidedRecord(f)])
      else match TxIndex(db.transactions, f.transaction_id)
        case None => db
        case Some(j) =>
          db.(transactions := db.transactions[j := db.transactions[j].(status := TxStatus.Completed)],
              financials := db.financials[k := VoidedRecord(f)])
  }

  /** A voided record reads PENDENTE again, whatever it read before. */
  lemma VoidedReadsPendente(f: FinancialRecord, today: string)
    ensures StatusLabel(VoidedRecord(f), today) == Pendente
  {
  }

  // ------------------------------------------------------- history and closing the shift

  /** A record belongs to the shift's history when it was booked on the
      session, or by the session's operator (either spelling) no earlier
      than the opening time (`created_at >= openingTime` on strings). */
  predicate InHistory(s: Session, f: FinancialRecord) {
    f.caixa_id == s.id
    || ((f.user_id == s.userId || f.user_id == s.user_id) && !StrLess(f.created_at, s.openingTime))
  }

  /** `historyRecords`, without the display sort (it changes no count). */
  function HistoryRecords(financials: seq<FinancialRecord>, s: Session): (r: seq<FinancialRecord>)
    ensures forall f :: f in r <==> f in financials && InHistory(s, f)
  {
    Filter(financials, (f: FinancialRecord) => InHistory(s, f))
  }

  function PendingRecords(history: seq<FinancialRecord>, today: string): seq<FinancialRecord> {
    Filter(history, (f: FinancialRecord) => StatusLabel(f, today) == Pendente)
  }

  datatype CloseAttempt = NoSession | Blocked(pending: nat) | RequestClose(sessionId: string)

  /** `handleTryClose`: without a session nothing happens; with any PENDENTE
      record in the history the close is refused with their count;
      otherwise a close request for the session is opened. */
  function HandleTryClose(session: Option<Session>, financials: seq<FinancialRecord>, today: string): (r: CloseAttempt)
    ensures r.NoSession? <==> session.None?
    ensures r.RequestClose? <==>
      && session.Some?
      && forall f :: f in HistoryRecords(financials, session.value) ==> StatusLabel(f, today) != Pendente
    ensures r.RequestClose? ==> r.sessionId == session.value.id
    ensures r.Blocked? ==> r.pending == |PendingRecords(HistoryRecords(financials, session.value), today)| > 0
  {
    match session
    case None => NoSession
    case Some(s) =>
      var pending := PendingRecords(HistoryRecords(financials, s), today);
      if |pending| > 0 then
        assert pending[0] in pending;
        Blocked(|pending|)
      else RequestClose(s.id)
  }

  /** A fresh checkout record is PENDENTE on every day and belongs to the
      shift, so right after any completed checkout the shift cannot close. */
  lemma CheckoutBlocksClose(db: PosDb, s: Session, partnerId: string, cart: seq<CartItem>, t: TxType,
                            partners: seq<Partner>, txId: string, recId: string, companyId: string, now: string,
                            today: string)
    requires HandleCheckout(db, false, Some(s), true, partnerId, cart, t, "", partners, txId, recId, companyId, now).Done?
    ensures var after := HandleCheckout(db, false, Some(s), true, partnerId, cart, t, "", partners, txId, recId, companyId, now).db;
      HandleTryClose(Some(s), after.financials, today).Blocked?
  {
    var after := HandleCheckout(db, false, Some(s), true, partnerId, cart, t, "", partners, txId, recId, companyId, now).db;
    var f := CheckoutRecord(recId, txId, companyId, partnerId, s, cart, t, now);
    assert f in after.financials;
    assert StatusLabel(f, today) == Pendente;
  }
}

=== FILE: pos_approvals.dfy ===
/** How the POS page acts on remote approvals (`pages/POS.tsx`): the labels
    it writes into each kind of authorization request, the action it reads
    back from an approved request, and the polling round that processes each
    approved request of the current user once. */
module PosApprovals {
  import opened Wrappers
  import opened Seqs
  import opened Strings
  import opened ActionLabels
  import opened Authorization
  import PosClosing

  const VoidKey := "ESTORNAR_LANCAMENTO"
  const CancelKey := "CANCELAR_LANCAMENTO"
  const ManualKey := "LANCAMENTO_MANUAL"
  const EditKey := "EDITAR_LANCAMENTO"
  const OpeningKey := "AJUSTAR_ABERTURA"
  const EditPosKey := "EDITAR_OPERACAO_PDV"

  const TipoTag := "TIPO: "
  const ValTag := "VAL: R$ 0,00 para R$ "
  const CatTag := "CAT: "
  const DescTag := "DESC: "
  const TermTag := "TERM_ID: "
  const NewValueTag := "para R$ "
  const EntryTag := "TIPO: ENTRADA"

  // ------------------------------------------------------- the labels written

  /** The text of a void or cancel request: `REAL_ID: <id>`. */
  function RecordLabel(id: string): string {
    RealIdKey + id
  }

  /** The text of a manual-entry request. */
  function ManualLabel(tipo: string, valor: string, cat: string, desc: string, term: string): string {
    TipoTag + Upper(tipo) + " | " + ValTag + valor + " | " + CatTag + cat + " | " + DescTag + desc + " | " + TermTag + term
  }

  /** The text of an opening-balance adjustment request. */
  function OpeningLabel(id: string, value: string): string {
    RealIdKey + id + " | " + ValTag + value
  }

  // ------------------------------------------------------- the actions read back

  datatype PosAction =
    | VoidRecord(id: string)
    | CancelRecord(id: string)
    | OpenClosing
    | ManualEntry(entry: bool, valor: string, categoria: string, descricao: string, termId: string,
                  approverId: string, approverName: string)
    | EditRecord(id: string, json: string, approverId: string, approverName: string)
    | EditOpening(id: string, value: string, approverId: string, approverName: string)
    | EditPosTx(id: string, json: string, approverId: string, approverName: string)
    | NoAction

  /** A JavaScript `if (x)` on an optional string: present and non-empty. */
  predicate Truthy(o: Option<string>) {
    o.Some? && o.value != ""
  }

  /** How the page reads the kind of a manual entry, as written: anywhere in
      the upper-cased text. */
  predicate IsEntryAsWritten(text: string) {
    Contains(Upper(text), EntryTag)
  }

  /** The kind of a manual entry read from the text's leading `TIPO:` field,
      ignoring case. */
  predicate IsEntry(text: string) {
    StartsWith(Upper(text), EntryTag)
  }

  /** The two readings of the kind agree except when the tag appears after
      the start of the text; the leading-field reading never says entry
      where the page's reading says exit. */
  lemma KindReadings(text: string)
    ensures IsEntry(text) ==> IsEntryAsWritten(text)
    ensures IsEntryAsWritten(text) && !IsEntry(text) ==> exists k: nat :: 0 < k && OccursAt(Upper(text), EntryTag, k)
  {
    var u := Upper(text);
    ContainsIff(u, EntryTag);
    if IsEntry(text) {
      assert OccursAt(u, EntryTag, 0);
    }
    if IsEntryAsWritten(text) && !IsEntry(text) {
      var k: nat :| OccursAt(u, EntryTag, k);
      assert k != 0;
    }
  }

  /** The action the page takes for an approved request. Unknown keys, and
      the record keys whose id or payload is missing or empty, do nothing
      (the request is still marked processed). The kind of a manual entry is
      the corrected reading `IsEntry`; the page's own reading is
      `IsEntryAsWritten`, and the two differ only as `KindReadings` says. */
  function Dispatch(req: AuthRequest): (a: PosAction)
    ensures (a.VoidRecord? || a.CancelRecord?) ==>
      && req.action_key == (if a.VoidRecord? then VoidKey else CancelKey)
      && RealId(req.action_label) == Some(a.id) && a.id != ""
    ensures a.OpenClosing? <==> req.action_key == PosClosing.CloseKey
    ensures a.ManualEntry? <==> req.action_key == ManualKey
    ensures a.ManualEntry? ==> a.entry == IsEntry(req.action_label) && a.approverId == req.responded_by_id
    ensures a.ManualEntry? && a.entry ==> IsEntryAsWritten(req.action_label)
    ensures a.ManualEntry? && a.entry != IsEntryAsWritten(req.action_label) ==>
      exists k: nat :: 0 < k && OccursAt(Upper(req.action_label), EntryTag, k)
    ensures (a.EditRecord? || a.EditPosTx?) ==>
      && req.action_key == (if a.EditRecord? then EditKey else EditPosKey)
      && RealId(req.action_label) == Some(a.id) && a.id != ""
      && Json(req.action_label) == Some(a.json) && a.json != ""
    ensures a.EditOpening? ==>
      && req.action_key == OpeningKey
      && RealId(req.action_label) == Some(a.id) && a.id != ""
      && Field(req.action_label, NewValueTag) == Some(a.value) && a.value != ""
  {
    KindReadings(req.action_label);
    if req.action_key == VoidKey || req.action_key == CancelKey then RecordAction(req)
    else if req.action_key == PosClosing.CloseKey then OpenClosing
    else if req.action_key == ManualKey then ManualAction(req)
    else if req.action_key == EditKey || req.action_key == EditPosKey then EditAction(req)
    else if req.action_key == OpeningKey then OpeningAction(req)
    else NoAction
  }

  /** `ESTORNAR_LANCAMENTO` and `CANCELAR_LANCAMENTO`: act on the `REAL_ID`. */
  function RecordAction(req: AuthRequest): PosAction {
    var id := RealId(req.action_label);
    if !Truthy(id) then NoAction
    else if req.action_key == VoidKey then VoidRecord(id.value)
    else CancelRecord(id.value)
  }

  /** `LANCAMENTO_MANUAL`: each field, or its default when its key is absent. */
  function ManualAction(req: AuthRequest): PosAction {
    var text := req.action_label;
    ManualEntry(IsEntry(text), Field(text, ValTag).GetOr("0"), Field(text, CatTag).GetOr(""),
                Field(text, DescTag).GetOr(""), Field(text, TermTag).GetOr(""),
                req.responded_by_id, req.responded_by_name)
  }

  /** `EDITAR_LANCAMENTO` and `EDITAR_OPERACAO_PDV`: both the id and the JSON
      payload must be there. */
  function EditAction(req: AuthRequest): PosAction {
    var id := RealId(req.action_label);
    var json := Json(req.action_label);
    if !(Truthy(id) && Truthy(json)) then NoAction
    else if req.action_key == EditKey then EditRecord(id.value, json.value, req.responded_by_id, req.responded_by_name)
    else EditPosTx(id.value, json.value, req.responded_by_id, req.responded_by_name)
  }

  /** `AJUSTAR_ABERTURA`: both the id and the new value must be there. */
  function OpeningAction(req: AuthRequest): PosAction {
    var id := RealId(req.action_label);
    var value := Field(req.action_label, NewValueTag);
    if Truthy(id) && Truthy(value) then EditOpening(id.value, value.value, req.responded_by_id, req.responded_by_name)
    else NoAction
  }

  // ------------------------------------------------------- written, then read back

  /** A void or cancel request filed for a generated record id acts on
      exactly that record. */
  lemma RecordRequestRoundTrip(req: AuthRequest, id: string)
    requires GeneratedId(id)
    requires req.action_label == RecordLabel(id)
    ensures req.action_key == VoidKey ==> Dispatch(req) == VoidRecord(id)
    ensures req.action_key == CancelKey ==> Dispatch(req) == CancelRecord(id)
  {
    assert RecordLabel(id) == RealIdKey + id + "";
    RealIdOf(id, "");
  }

  /** A void or cancel request whose text carries no id does nothing. */
  lemma RecordRequestWithoutId(req: AuthRequest)
    requires req.action_key == VoidKey || req.action_key == CancelKey
    requires !Contains(req.action_label, RealIdKey)
    ensures Dispatch(req) == NoAction
  {
  }

  /** An edit request (of a record or of a POS operation) filed for a
      generated id with a non-blank payload edits that record with that
      payload, trimmed. */
  lemma EditRequestRoundTrip(req: AuthRequest, id: string, payload: string)
    requires GeneratedId(id)
    requires !Contains(payload, JsonKey) && Trim(payload) != ""
    requires req.action_label == RealIdJsonLabel(id, payload)
    requires req.action_key == EditKey || req.action_key == EditPosKey
    ensures req.action_key == EditKey ==>
      Dispatch(req) == EditRecord(id, Trim(payload), req.responded_by_id, req.responded_by_name)
    ensures req.action_key == EditPosKey ==>
      Dispatch(req) == EditPosTx(id, Trim(payload), req.responded_by_id, req.responded_by_name)
  {
    RealIdJsonRoundTrip(id, payload);
    EditActionOf(req, id, Trim(payload));
  }

  lemma EditActionOf(req: AuthRequest, id: string, json: string)
    requires req.action_key == EditKey || req.action_key == EditPosKey
    requires RealId(req.action_label) == Some(id) && id != ""
    requires Json(req.action_label) == Some(json) && json != ""
    ensures req.action_key == EditKey ==> Dispatch(req) == EditRecord(id, json, req.responded_by_id, req.responded_by_name)
    ensures req.action_key == EditPosKey ==> Dispatch(req) == EditPosTx(id, json, req.responded_by_id, req.responded_by_name)
  {
    EditKeysDispatch(req);
  }

  /** The two edit keys differ from every key the dispatch compares before them. */
  lemma EditKeysDispatch(req: AuthRequest)
    requires req.action_key == EditKey || req.action_key == EditPosKey
    ensures Dispatch(req) == EditAction(req)
  {
    assert |EditKey| == 17 && |EditPosKey| == 19 && |VoidKey| == 19 && |CancelKey| == 19;
    assert |PosClosing.CloseKey| == 12 && |ManualKey| == 17;
    assert EditKey[0] != ManualKey[0];
    assert EditPosKey[1] != VoidKey[1] && EditPosKey[0] != CancelKey[0];
  }

  /** An opening adjustment filed for a generated id reads back that id and
      the new value, trimmed, when `para R$ ` occurs only where the page wrote
      it and the value holds no ` |`. */
  lemma OpeningRequestRoundTrip(req: AuthRequest, id: string, value: string)
    requires GeneratedId(id)
    requires Once(OpeningLabel(id, value), NewValueTag)
    requires !Contains(value, FieldEnd) && Trim(value) != ""
    requires req.action_key == OpeningKey && req.action_label == OpeningLabel(id, value)
    ensures Dispatch(req) == EditOpening(id, Trim(value), req.responded_by_id, req.responded_by_name)
  {
    OpeningId(id, value);
    OpeningValue(id, value);
    OpeningActionOf(req, id, Trim(value));
  }

  lemma OpeningId(id: string, value: string)
    requires GeneratedId(id)
    ensures RealId(OpeningLabel(id, value)) == Some(id)
  {
    var tail := " | " + ValTag + value;
    assert StartsWith(tail, FieldEnd) by {
      assert tail[..2] == FieldEnd;
    }
    assert OpeningLabel(id, value) == RealIdKey + id + tail;
    RealIdOf(id, tail);
  }

  lemma OpeningValue(id: string, value: string)
    requires Once(OpeningLabel(id, value), NewValueTag) && !Contains(value, FieldEnd)
    ensures Field(OpeningLabel(id, value), NewValueTag) == Some(Trim(value))
  {
    var pre := RealIdKey + id + " | VAL: R$ 0,00 ";
    assert OpeningLabel(id, value) == pre + NewValueTag + value + "";
    FieldAt(pre, NewValueTag, value, "");
  }

  lemma OpeningActionOf(req: AuthRequest, id: string, value: string)
    requires req.action_key == OpeningKey
    requires RealId(req.action_label) == Some(id) && id != ""
    requires Field(req.action_label, NewValueTag) == Some(value) && value != ""
    ensures Dispatch(req) == EditOpening(id, value, req.responded_by_id, req.responded_by_name)
  {
    OpeningKeyDispatch(req);
  }

  /** The opening key is shorter than every key the dispatch compares before it. */
  lemma OpeningKeyDispatch(req: AuthRequest)
    requires req.action_key == OpeningKey
    ensures Dispatch(req) == OpeningAction(req)
  {
    OpeningKeyDistinct();
  }

  lemma OpeningKeyDistinct()
    ensures OpeningKey != VoidKey && OpeningKey != CancelKey && OpeningKey != PosClosing.CloseKey
    ensures OpeningKey != ManualKey && OpeningKey != EditKey && OpeningKey != EditPosKey
  {
    assert |OpeningKey| == 16 && |EditKey| == 17 && |EditPosKey| == 19 && |VoidKey| == 19 && |CancelKey| == 19;
    assert |PosClosing.CloseKey| == 12 && |ManualKey| == 17;
  }

  /** The entry kind of a manual request reads back as written, for both
      kinds the page offers. */
  lemma ManualKindRoundTrip(tipo: string, valor: string, cat: string, desc: string, term: string)
    requires tipo == "entrada" || tipo == "saída"
    ensures IsEntry(ManualLabel(tipo, valor, cat, desc, term)) <==> tipo == "entrada"
  {
    var text := ManualLabel(tipo, valor, cat, desc, term);
    var head := TipoTag + Upper(tipo);
    var rest := " | " + ValTag + valor + " | " + CatTag + cat + " | " + DescTag + desc + " | " + TermTag + term;
    assert text == head + rest;
    UpperAppend(head, rest);
    if tipo == "entrada" {
      EntradaHead();
      assert Upper(text)[..|EntryTag|] == EntryTag;
    } else {
      SaidaHead();
      assert Upper(text)[6] == Upper(head)[6];
    }
  }

  lemma EntradaHead()
    ensures Upper(TipoTag + Upper("entrada")) == EntryTag
  {
    UpperAppend(TipoTag, Upper("entrada"));
  }

  lemma SaidaHead()
    ensures |Upper(TipoTag + Upper("saída"))| > 6 && Upper(TipoTag + Upper("saída"))[6] == 'S' != EntryTag[6]
  {
    UpperAppend(TipoTag, Upper("saída"));
  }

  /** The fields of a manual request, once read, make up its action. */
  lemma ManualActionOf(req: AuthRequest, entry: bool, valor: string, cat: string, desc: string, term: string)
    requires req.action_key == ManualKey && IsEntry(req.action_label) == entry
    requires Field(req.action_label, ValTag) == Some(valor) && Field(req.action_label, CatTag) == Some(cat)
    requires Field(req.action_label, DescTag) == Some(desc) && Field(req.action_label, TermTag) == Some(term)
    ensures Dispatch(req) == ManualEntry(entry, valor, cat, desc, term, req.responded_by_id, req.responded_by_name)
  {
  }

  lemma ManualValor(tipo: string, valor: string, cat: string, desc: string, term: string)
    requires Once(ManualLabel(tipo, valor, cat, desc, term), ValTag) && !Contains(valor, FieldEnd)
    ensures Field(ManualLabel(tipo, valor, cat, desc, term), ValTag) == Some(Trim(valor))
  {
    var post := " | " + CatTag + cat + " | " + DescTag + desc + " | " + TermTag + term;
    assert StartsWith(post, FieldEnd) by {
      assert post[..2] == FieldEnd;
    }
    assert ManualLabel(tipo, valor, cat, desc, term) == (TipoTag + Upper(tipo) + " | ") + ValTag + valor + post;
    FieldAt(TipoTag + Upper(tipo) + " | ", ValTag, valor, post);
  }

  lemma ManualCat(tipo: string, valor: string, cat: string, desc: string, term: string)
    requires Once(ManualLabel(tipo, valor, cat, desc, term), CatTag) && !Contains(cat, FieldEnd)
    ensures Field(ManualLabel(tipo, valor, cat, desc, term), CatTag) == Some(Trim(cat))
  {
    var post := " | " + DescTag + desc + " | " + TermTag + term;
    assert StartsWith(post, FieldEnd) by {
      assert post[..2] == FieldEnd;
    }
    var pre := TipoTag + Upper(tipo) + " | " + ValTag + valor + " | ";
    assert ManualLabel(tipo, valor, cat, desc, term) == pre + CatTag + cat + post;
    FieldAt(pre, CatTag, cat, post);
  }

  lemma ManualDesc(tipo: string, valor: string, cat: string, desc: string, term: string)
    requires Once(ManualLabel(tipo, valor, cat, desc, term), DescTag) && !Contains(desc, FieldEnd)
    ensures Field(ManualLabel(tipo, valor, cat, desc, term), DescTag) == Some(Trim(desc))
  {
    var post := " | " + TermTag + term;
    assert StartsWith(post, FieldEnd) by {
      assert post[..2] == FieldEnd;
    }
    var pre := TipoTag + Upper(tipo) + " | " + ValTag + valor + " | " + CatTag + cat + " | ";
    assert ManualLabel(tipo, valor, cat, desc, term) == pre + DescTag + desc + post;
    FieldAt(pre, DescTag, desc, post);
  }

  lemma ManualTerm(tipo: string, valor: string, cat: string, desc: string, term: string)
    requires Once(ManualLabel(tipo, valor, cat, desc, term), TermTag) && !Contains(term, FieldEnd)
    ensures Field(ManualLabel(tipo, valor, cat, desc, term), TermTag) == Some(Trim(term))
  {
    var pre := TipoTag + Upper(tipo) + " | " + ValTag + valor + " | " + CatTag + cat + " | " + DescTag + desc + " | ";
    assert ManualLabel(tipo, valor, cat, desc, term) == pre + TermTag + term + "";
    FieldAt(pre, TermTag, term, "");
  }

  /** Every field of a manual request reads back, trimmed, when each key
      occurs only where the page wrote it and no value holds a ` |`. */
  lemma ManualRequestRoundTrip(req: AuthRequest, tipo: string, valor: string, cat: string, desc: string, term: string)
    requires tipo == "entrada" || tipo == "saída"
    requires req.action_key == ManualKey
    requires req.action_label == ManualLabel(tipo, valor, cat, desc, term)
    requires Once(req.action_label, ValTag) && Once(req.action_label, CatTag)
    requires Once(req.action_label, DescTag) && Once(req.action_label, TermTag)
    requires !Contains(valor, FieldEnd) && !Contains(cat, FieldEnd)
    requires !Contains(desc, FieldEnd) && !Contains(term, FieldEnd)
    ensures Dispatch(req)
      == ManualEntry(tipo == "entrada", Trim(valor), Trim(cat), Trim(desc), Trim(term),
                     req.responded_by_id, req.responded_by_name)
  {
    ManualKindRoundTrip(tipo, valor, cat, desc, term);
    ManualValor(tipo, valor, cat, desc, term);
    ManualCat(tipo, valor, cat, desc, term);
    ManualDesc(tipo, valor, cat, desc, term);
    ManualTerm(tipo, valor, cat, desc, term);
    ManualActionOf(req, tipo == "entrada", Trim(valor), Trim(cat), Trim(desc), Trim(term));
  }

  /** How the entry kind is read, as written: a request for an exit
      (`saída`) whose description mentions `tipo: entrada` is carried out as an
      entry, while the leading `TIPO:` field still says exit. */
  lemma DescriptionFlipsKind(valor: string, cat: string, term: string)
    ensures var text := ManualLabel("saída", valor, cat, "tipo: entrada", term);
      IsEntryAsWritten(text) && !IsEntry(text)
  {
    var desc := "tipo: entrada";
    var text := ManualLabel("saída", valor, cat, desc, term);
    var pre := TipoTag + Upper("saída") + " | " + ValTag + valor + " | " + CatTag + cat + " | " + DescTag;
    var post := " | " + TermTag + term;
    assert text == pre + desc + post;
    UpperAppend(pre + desc, post);
    UpperAppend(pre, desc);
    assert Upper(desc) == EntryTag;
    var u := Upper(text);
    assert u[|pre|..|pre| + |EntryTag|] == EntryTag;
    assert OccursAt(u, EntryTag, |pre|);
    ContainsIff(u, EntryTag);
    ManualKindRoundTrip("saída", valor, cat, desc, term);
  }

  // ------------------------------------------------------- the polling round

  /** One round of the effect: the actions taken, in list order, and the ids
      remembered as processed afterwards. */
  datatype Round = Round(actions: seq<PosAction>, processed: set<string>)

  function ProcessRound(requests: seq<AuthRequest>, userId: string, processed: set<string>): (r: Round)
    ensures processed <= r.processed
    ensures forall id :: id in r.processed - processed ==>
      exists q :: q in requests && q.id == id && q.status == Approved && q.requested_by_id == userId
    ensures |r.actions| == |ApprovedToProcess(requests, userId, processed)|
  {
    var todo := ApprovedToProcess(requests, userId, processed);
    Round(Map(todo, Dispatch), processed + set q | q in todo :: q.id)
  }

  /** Each action of a round is the dispatch of one approved request of the
      user that had not been processed. */
  lemma RoundActsOnOwnApprovals(requests: seq<AuthRequest>, userId: string, processed: set<string>, k: nat)
    requires k < |ProcessRound(requests, userId, processed).actions|
    ensures exists q :: (q in requests && q.status == Approved && q.requested_by_id == userId
      && q.id !in processed && ProcessRound(requests, userId, processed).actions[k] == Dispatch(q))
  {
    var todo := ApprovedToProcess(requests, userId, processed);
    assert todo[k] in todo;
  }

  /** The next poll, seeing the same (not yet refreshed) list, acts on
      nothing: every request of the round is remembered. */
  lemma SecondRoundIdle(requests: seq<AuthRequest>, userId: string, processed: set<string>)
    ensures var r := ProcessRound(requests, userId, processed);
      ApprovedToProcess(requests, userId, r.processed) == []
      && ProcessRound(requests, userId, r.processed) == Round([], r.processed)
  {
    var r := ProcessRound(requests, userId, processed);
    var todo := ApprovedToProcess(requests, userId, processed);
    var again := ApprovedToProcess(requests, userId, r.processed);
    assert (set q | q in again :: q.id) == {};
  }
}

=== FILE: pos_closing.dfy ===
/** Closing a POS shift (`pages/POS.tsx`): the items of the closing count
    (`dynamicClosingItems`) and the test for a close request of the open
    session that is still pending (`isClosePending`). */
module PosClosing {
  import opened Wrappers
  import opened Seqs
  import opened Strings
  import opened Records
  import opened FinanceHub
  import opened Authorization

  // ------------------------------------------------------- dynamicClosingItems

  /** A shift record that yields a category item: it has a category and a
      natureza, and the category is not one of the two sale/purchase ones. */
  predicate CategoryCounted(r: FinancialRecord) {
    r.categoria != "" && r.natureza != NoNature && r.categoria !in ExcludedCategories
  }

  /** A shift record that yields a payment-term item: its term is known and
      is not cash on delivery, and it has a natureza. */
  predicate TermCounted(r: FinancialRecord, terms: seq<PaymentTerm>) {
    ItemTerm(r, terms).Some? && r.natureza != NoNature
  }

  function ShiftRecords(financials: seq<FinancialRecord>, s: Session): seq<FinancialRecord> {
    Filter(financials, (f: FinancialRecord) => f.caixa_id == s.id)
  }

  function ClosingCategoryRecords(shift: seq<FinancialRecord>): seq<FinancialRecord> {
    Filter(shift, CategoryCounted)
  }

  function ClosingTermRecords(shift: seq<FinancialRecord>, terms: seq<PaymentTerm>): seq<FinancialRecord> {
    Filter(shift, (r: FinancialRecord) => TermCounted(r, terms))
  }

  function ClosingCategoryKeys(shift: seq<FinancialRecord>): seq<string> {
    Distinct(Map(ClosingCategoryRecords(shift), CatKey))
  }

  function ClosingTermKeys(shift: seq<FinancialRecord>, terms: seq<PaymentTerm>): seq<string> {
    TermKeysOf(ClosingTermRecords(shift, terms), terms)
  }

  /** The distinct payment-term keys of `recs`, in order of first occurrence. */
  function TermKeysOf(recs: seq<FinancialRecord>, terms: seq<PaymentTerm>): seq<string> {
    Distinct(Map(recs, (r: FinancialRecord) => TermKey(r, terms)))
  }

  /** `dynamicClosingItems`: no items without a session; otherwise the two
      physical items, one item per distinct category key, then one per
      distinct payment-term key, of the session's records. */
  function ClosingItems(session: Option<Session>, financials: seq<FinancialRecord>, terms: seq<PaymentTerm>): (items: seq<AuditItem>)
    ensures session.None? ==> items == []
    ensures session.Some? ==> |items| >= 2 && items[..2] == PhysicalItems
  {
    match session
    case None => []
    case Some(s) =>
      var shift := ShiftRecords(financials, s);
      PhysicalItems
        + CategoryItems(ClosingCategoryRecords(shift), ClosingCategoryKeys(shift))
        + TermItems(ClosingTermRecords(shift, terms), terms, ClosingTermKeys(shift, terms))
  }

  /** The record behind the `m`-th category item. */
  lemma CategoryItemFor(recs: seq<FinancialRecord>, m: nat) returns (r: FinancialRecord)
    requires m < |Distinct(Map(recs, CatKey))|
    ensures r in recs
    ensures CategoryItems(recs, Distinct(Map(recs, CatKey)))[m]
         == AuditItem(CatKey(r), ItemText("cat", CatKey(r), r.natureza), GroupOf(r.natureza))
  {
    var keys := Distinct(Map(recs, CatKey));
    assert keys[m] in keys;
    var j :| 0 <= j < |recs| && Map(recs, CatKey)[j] == keys[m];
    r := recs[j];
    CategoryItemsAt(recs, keys, m);
    CategoryItemOf(recs, r);
  }

  /** The record behind the `m`-th payment-term item. */
  lemma TermItemFor(recs: seq<FinancialRecord>, terms: seq<PaymentTerm>, m: nat) returns (r: FinancialRecord)
    requires forall q :: q in recs ==> ItemTerm(q, terms).Some?
    requires m < |TermKeysOf(recs, terms)|
    ensures r in recs
    ensures TermItems(recs, terms, TermKeysOf(recs, terms))[m]
         == AuditItem(TermKey(r, terms), ItemText("term", TermKey(r, terms), r.natureza), GroupOf(r.natureza))
  {
    var keys := TermKeysOf(recs, terms);
    assert keys[m] in keys;
    var j :| 0 <= j < |recs| && TermKey(recs[j], terms) == keys[m];
    r := recs[j];
    TermItemsAt(recs, terms, keys, m);
    TermItemOf(recs, terms, r);
  }

  /** The closing count of an open session, as its three parts. */
  lemma ClosingItemsParts(s: Session, financials: seq<FinancialRecord>, terms: seq<PaymentTerm>)
    ensures var shift := ShiftRecords(financials, s);
      ClosingItems(Some(s), financials, terms)
        == PhysicalItems
         + CategoryItems(ClosingCategoryRecords(shift), ClosingCategoryKeys(shift))
         + TermItems(ClosingTermRecords(shift, terms), terms, ClosingTermKeys(shift, terms))
  {
  }

  /** Indexing into the middle part of a three-part sequence. */
  lemma MiddlePart<T>(a: seq<T>, b: seq<T>, c: seq<T>, m: nat)
    requires m < |b|
    ensures (a + b + c)[|a| + m] == b[m]
  {
  }

  /** Indexing into the last part of a three-part sequence. */
  lemma LastPart<T>(a: seq<T>, b: seq<T>, c: seq<T>, m: nat)
    requires m < |c|
    ensures (a + b + c)[|a| + |b| + m] == c[m]
  {
  }

  /** The `m`-th category item follows the two physical items. */
  lemma ClosingCategoryPosition(s: Session, financials: seq<FinancialRecord>, terms: seq<PaymentTerm>, m: nat)
    requires m < |ClosingCategoryKeys(ShiftRecords(financials, s))|
    ensures var shift := ShiftRecords(financials, s);
      ClosingItems(Some(s), financials, terms)[2 + m]
        == CategoryItems(ClosingCategoryRecords(shift), ClosingCategoryKeys(shift))[m]
  {
    var shift := ShiftRecords(financials, s);
    var cat := CategoryItems(ClosingCategoryRecords(shift), ClosingCategoryKeys(shift));
    var tm := TermItems(ClosingTermRecords(shift, terms), terms, ClosingTermKeys(shift, terms));
    ClosingItemsParts(s, financials, terms);
    MiddlePart(PhysicalItems, cat, tm, m);
  }

  /** Every category item of the closing count stands for a session record
      with a category and a natureza outside the excluded categories: its id
      is that record's key, its group follows the record's natureza, and its
      text is the upper-cased category unless the category itself contains
      `_<natureza>`. */
  lemma ClosingCategoryItem(s: Session, financials: seq<FinancialRecord>, terms: seq<PaymentTerm>, m: nat)
      returns (r: FinancialRecord)
    requires m < |ClosingCategoryKeys(ShiftRecords(financials, s))|
    ensures r in financials && r.caixa_id == s.id && CategoryCounted(r)
    ensures var item := ClosingItems(Some(s), financials, terms)[2 + m];
      && item == AuditItem(CatKey(r), ItemText("cat", CatKey(r), r.natureza), GroupOf(r.natureza))
      && (!Contains(r.categoria, "_" + r.natureza.Text()) ==> item.text == Upper(r.categoria))
  {
    var shift := ShiftRecords(financials, s);
    var recs := ClosingCategoryRecords(shift);
    ClosingCategoryPosition(s, financials, terms, m);
    r := CategoryItemFor(recs, m);
    if !Contains(r.categoria, "_" + r.natureza.Text()) {
      ItemTextRecoversName("cat", r.categoria, r.natureza);
    }
  }

  /** Every session record with a category and a natureza outside the
      excluded categories has its category item in the closing count. */
  lemma ClosingCategoryCovered(s: Session, financials: seq<FinancialRecord>, terms: seq<PaymentTerm>, r: FinancialRecord)
      returns (m: nat)
    requires r in financials && r.caixa_id == s.id && CategoryCounted(r)
    ensures m < |ClosingCategoryKeys(ShiftRecords(financials, s))|
    ensures ClosingItems(Some(s), financials, terms)[2 + m].id == CatKey(r)
  {
    var shift := ShiftRecords(financials, s);
    var recs := ClosingCategoryRecords(shift);
    assert r in shift;
    assert r in recs;
    m := CategoryKeyPosition(recs, r);
    ClosingCategoryPosition(s, financials, terms, m);
  }

  /** Where a record's category key sits among the distinct keys. */
  lemma CategoryKeyPosition(recs: seq<FinancialRecord>, r: FinancialRecord) returns (m: nat)
    requires r in recs
    ensures m < |Distinct(Map(recs, CatKey))| && Distinct(Map(recs, CatKey))[m] == CatKey(r)
  {
    var keys := Distinct(Map(recs, CatKey));
    var j :| 0 <= j < |recs| && recs[j] == r;
    assert Map(recs, CatKey)[j] == CatKey(r);
    assert CatKey(r) in keys;
    m :| 0 <= m < |keys| && keys[m] == CatKey(r);
  }

  /** Every payment-term item stands for a session record whose term is
      known and not cash on delivery and which has a natureza: its id is that
      record's term key and its group follows the record's natureza. */
  lemma ClosingTermItem(s: Session, financials: seq<FinancialRecord>, terms: seq<PaymentTerm>, m: nat)
      returns (r: FinancialRecord)
    requires m < |ClosingTermKeys(ShiftRecords(financials, s), terms)|
    ensures r in financials && r.caixa_id == s.id && TermCounted(r, terms)
    ensures ItemTerm(r, terms).value.name != "À VISTA" && ItemTerm(r, terms).value.name != "À VISTA (DINHEIRO)"
    ensures var n := |ClosingCategoryKeys(ShiftRecords(financials, s))|;
      ClosingItems(Some(s), financials, terms)[2 + n + m]
        == AuditItem(TermKey(r, terms), ItemText("term", TermKey(r, terms), r.natureza), GroupOf(r.natureza))
  {
    var shift := ShiftRecords(financials, s);
    var recs := ClosingTermRecords(shift, terms);
    ClosingTermPosition(s, financials, terms, m);
    r := TermItemFor(recs, terms, m);
    TermRecordOrigin(s, financials, terms, r);
    ItemTermNotCash(r, terms);
  }

  /** The `m`-th payment-term item follows the physical and category items. */
  lemma ClosingTermPosition(s: Session, financials: seq<FinancialRecord>, terms: seq<PaymentTerm>, m: nat)
    requires m < |ClosingTermKeys(ShiftRecords(financials, s), terms)|
    ensures var shift := ShiftRecords(financials, s);
      ClosingItems(Some(s), financials, terms)[2 + |ClosingCategoryKeys(shift)| + m]
        == TermItems(ClosingTermRecords(shift, terms), terms, ClosingTermKeys(shift, terms))[m]
  {
    var shift := ShiftRecords(financials, s);
    var cat := CategoryItems(ClosingCategoryRecords(shift), ClosingCategoryKeys(shift));
    var tm := TermItems(ClosingTermRecords(shift, terms), terms, ClosingTermKeys(shift, terms));
    ClosingItemsParts(s, financials, terms);
    LastPart(PhysicalItems, cat, tm, m);
  }

  /** A record counted for its payment term is a session record. */
  lemma TermRecordOrigin(s: Session, financials: seq<FinancialRecord>, terms: seq<PaymentTerm>, r: FinancialRecord)
    requires r in ClosingTermRecords(ShiftRecords(financials, s), terms)
    ensures r in financials && r.caixa_id == s.id && TermCounted(r, terms)
  {
  }

  /** A known payment term is never one of the two cash terms. */
  lemma ItemTermNotCash(r: FinancialRecord, terms: seq<PaymentTerm>)
    requires ItemTerm(r, terms).Some?
    ensures ItemTerm(r, terms).value.name != "À VISTA" && ItemTerm(r, terms).value.name != "À VISTA (DINHEIRO)"
  {
  }

  // ------------------------------------------------------- isClosePending

  const CloseKey := "FECHAR_CAIXA"
  const CloseLabelKey := "FECHAMENTO CAIXA ID: "

  /** The label of the close request `handleTryClose` opens for a session. */
  function CloseLabel(sessionId: string): string {
    CloseLabelKey + sessionId
  }

  /** The last five characters of the upper-cased session id. */
  function IdTag(sessionId: string): string {
    Last(Upper(sessionId), 5)
  }

  /** `isClosePending` as written: a pending FECHAR_CAIXA request whose label,
      as stored, contains the upper-cased tail of the session id. */
  predicate IsClosePendingAsWritten(requests: seq<AuthRequest>, session: Option<Session>) {
    session.Some?
    && Find(requests, (r: AuthRequest) =>
         r.action_key == CloseKey && r.status == AuthStatus.Pending
         && Contains(r.action_label, IdTag(session.value.id))).Some?
  }

  /** The session's own close request, as `handleTryClose` files it, is not
      recognised when the id's tail holds a lower-case letter that the label's
      fixed text lacks: session "abcde", label "FECHAMENTO CAIXA ID: abcde". */
  lemma OwnCloseRequestMissed(s: Session, req: AuthRequest)
    requires s.id == "abcde"
    requires req.action_key == CloseKey && req.status == AuthStatus.Pending
    requires req.action_label == CloseLabel(s.id)
    ensures !IsClosePendingAsWritten([req], Some(s))
  {
    ExampleTagAbsent();
    ContainsIff(req.action_label, IdTag(s.id));
  }

  /** The tag of session "abcde" never occurs in its own close label: the
      label has no 'B'. */
  lemma ExampleTagAbsent()
    ensures Free(CloseLabel("abcde"), IdTag("abcde"))
  {
    var tag := IdTag("abcde");
    ExampleTag();
    var text := CloseLabel("abcde");
    assert text == "FECHAMENTO CAIXA ID: abcde";
    assert 'B' !in text;
    FreeByChar(text, tag, 1);
  }

  lemma ExampleTag()
    ensures IdTag("abcde") == "ABCDE"
  {
    assert Upper("abcde") == "ABCDE";
  }

  /** `isClosePending` comparing both sides upper-cased: a pending FECHAR_CAIXA
      request whose label contains the tail of the session id, ignoring case. */
  predicate IsClosePending(requests: seq<AuthRequest>, session: Option<Session>) {
    session.Some?
    && Find(requests, (r: AuthRequest) =>
         r.action_key == CloseKey && r.status == AuthStatus.Pending
         && Contains(Upper(r.action_label), IdTag(session.value.id))).Some?
  }

  /** The tail of a string occurs at the end of anything ending in that string. */
  lemma TailOccurs(pre: string, x: string, n: nat)
    requires n > 0
    ensures Contains(pre + x, Last(x, n))
  {
    var t := Last(x, n);
    var i := |pre| + |x| - |t|;
    assert (pre + x)[i..i + |t|] == t;
    assert OccursAt(pre + x, t, i);
    ContainsIff(pre + x, t);
  }

  /** With the comparison made case-blind, a pending close request that
      `handleTryClose` filed for the session is always recognised, whatever
      the session id. */
  lemma OwnCloseRequestDetected(requests: seq<AuthRequest>, s: Session, req: AuthRequest)
    requires req in requests
    requires req.action_key == CloseKey && req.status == AuthStatus.Pending
    requires req.action_label == CloseLabel(s.id)
    ensures IsClosePending(requests, Some(s))
  {
    UpperAppend(CloseLabelKey, s.id);
    TailOccurs(Upper(CloseLabelKey), Upper(s.id), 5);
  }

  /** Only a pending FECHAR_CAIXA request can mark a close as pending, so an
      answered request never does. */
  lemma AnsweredCloseNotPending(requests: seq<AuthRequest>, s: Session)
    requires forall i :: 0 <= i < |requests| ==> requests[i].status != AuthStatus.Pending
    ensures !IsClosePending(requests, Some(s)) && !IsClosePendingAsWritten(requests, Some(s))
  {
  }
}

=== FILE: records.dfy ===
/** The entities of `types.ts` that the modelled pages read. Optional text
    fields are only ever read for their truthiness, so an absent, `null` or empty
    value is the empty string; optional numbers are read with `||`, so an
    absent value is 0. Amounts are whole numbers (cents). */
module Records {

  /** `natureza`: the direction of a financial record. `NoNature` is a record
      without the field, which a template literal renders as "undefined". */
  datatype Nature = Entrada | Saida | NoNature {
    function Text(): string {
      match this
      case Entrada => "ENTRADA"
      case Saida => "SAIDA"
      case NoNature => "undefined"
    }
  }

  /** `FinancialRecord.status`. */
  datatype RecordStatus = Pending | Paid | Overdue | Reversed

  datatype FinancialRecord = FinancialRecord(
    id: string,
    companyId: string,
    tipo: string,
    natureza: Nature,
    categoria: string,
    valor: int,
    status: RecordStatus,
    description: string,
    dueDate: string,
    due_date: string,
    parceiro_id: string,
    transaction_id: string,
    caixa_id: string,
    paymentTermId: string,
    payment_term_id: string,
    isReversed: bool,
    is_reversed: bool,
    created_at: string,
    liquidation_date: string,
    user_id: string
  )

  datatype Unit = Kg | Un

  datatype Material = Material(
    id: string,
    name: string,
    unit: Unit,
    stock: int,
    minStock: int,
    min_stock: int,
    maxStock: int,
    max_stock: int,
    buyPrice: int,
    buy_price: int,
    sellPrice: int,
    sell_price: int
  )

  datatype PartnerType = Supplier | Customer | Both

  datatype Partner = Partner(id: string, name: string, ptype: PartnerType)

  datatype PaymentTerm = PaymentTerm(id: string, uuid: string, name: string)

  datatype TxStatus = Completed | Canceled

  datatype TransactionItem = TransactionItem(materialId: string, quantity: int, price: int)

  datatype Transaction = Transaction(
    id: string,
    valor: int,
    status: TxStatus,
    natureza: Nature,
    items: seq<TransactionItem>
  )

  /** A finance category; only its id and name are read. */
  datatype FinanceCategory = FinanceCategory(id: string, name: string)

  /** A cashier session (`CashierSession`): its id, both spellings of the
      operator and of the opening balance, and the opening time. */
  datatype Session = Session(
    id: string,
    openingTime: string,
    userId: string,
    user_id: string,
    userName: string,
    user_name: string,
    openingBalance: int,
    opening_balance: int
  )

  /** `record.dueDate || record.due_date`. */
  function DueDate(r: FinancialRecord): string {
    if r.dueDate != "" then r.dueDate else r.due_date
  }

  /** `record.payment_term_id || record.paymentTermId`. */
  function TermId(r: FinancialRecord): string {
    if r.payment_term_id != "" then r.payment_term_id else r.paymentTermId
  }
}

=== FILE: reports.dfy ===
/** The reports page (`pages/Reports.tsx`): which reports a user is offered,
    the readable names of audit actions, the narrative read out of an audit
    log's details, the filter behind the financial reports, the date format
    and the stock totals. */
module Reports {
  import opened Wrappers
  import opened Seqs
  import opened Strings
  import opened Records
  import opened FinanceStatus
  import opened Permissions
  import opened Authorization
  import RequestModal
  import ActionLabels

  // ------------------------------------------------------- the report menu

  datatype ReportKind =
    | FinancialStatement | ReceivablesMirror | PayablesMirror | InventoryReport | PartnersReport | AuditReport
  {
    /** The permission each card of `reportItems` asks for. */
    function Permission(): Permission {
      match this
      case FinancialStatement => ReportsGeneral
      case ReceivablesMirror => ReportsReceivables
      case PayablesMirror => ReportsPayables
      case InventoryReport => ReportsStock
      case PartnersReport => ReportsPartners
      case AuditReport => ReportsAudit
    }
  }

  /** `reportItems`, in display order. */
  const ReportItems: seq<ReportKind> :=
    [FinancialStatement, ReceivablesMirror, PayablesMirror, InventoryReport, PartnersReport, AuditReport]

  /** The cards shown: all of them to a super admin, otherwise those whose
      permission the user holds, in display order. */
  function VisibleReports(isSuperAdmin: bool, permissions: seq<Permission>): (r: seq<ReportKind>)
    ensures forall k :: k in r <==> isSuperAdmin || k.Permission() in permissions
    ensures IsSubseq(r, ReportItems)
  {
    EveryReportListed();
    Filter(ReportItems, (k: ReportKind) => isSuperAdmin || k.Permission() in permissions)
  }

  lemma EveryReportListed()
    ensures forall k: ReportKind :: k in ReportItems
  {
    forall k: ReportKind
      ensures k in ReportItems
    {
      match k
      case FinancialStatement => assert ReportItems[0] == k;
      case ReceivablesMirror => assert ReportItems[1] == k;
      case PayablesMirror => assert ReportItems[2] == k;
      case InventoryReport => assert ReportItems[3] == k;
      case PartnersReport => assert ReportItems[4] == k;
      case AuditReport => assert ReportItems[5] == k;
    }
  }

  /** A super admin is offered every report, in order. */
  lemma SuperAdminSeesAllReports(permissions: seq<Permission>)
    ensures VisibleReports(true, permissions) == ReportItems
  {
    FilterAll(ReportItems, (k: ReportKind) => true || k.Permission() in permissions);
  }

  /** Each report has a permission of its own, so granting one report's
      permission offers that report and no other. */
  lemma OneReportPerPermission(k: ReportKind)
    ensures VisibleReports(false, [k.Permission()]) == [k]
  {
    var r := VisibleReports(false, [k.Permission()]);
    VisibleForOne(k);
    ReportItemsDistinct();
    SubseqDistinct(r, ReportItems);
    SingletonOf(r, k);
  }

  lemma ReportItemsDistinct()
    ensures NoDuplicates(ReportItems)
  {
  }

  /** A list without repeats whose only member is `k` is `[k]`. */
  lemma SingletonOf<T>(r: seq<T>, k: T)
    requires forall j :: j in r <==> j == k
    requires NoDuplicates(r)
    ensures r == [k]
  {
    DistinctCard(r);
    assert (set x | x in r) == {k};
    assert r[0] in r;
  }

  /** A list without repeats has as many members as elements. */
  lemma {:induction false} DistinctCard<T>(r: seq<T>)
    requires NoDuplicates(r)
    ensures |set x | x in r| == |r|
    decreases |r|
  {
    if |r| > 0 {
      DistinctCard(r[1..]);
      assert (set x | x in r) == {r[0]} + (set x | x in r[1..]);
      assert r[0] !in r[1..];
    }
  }

  lemma VisibleForOne(k: ReportKind)
    ensures forall j :: j in VisibleReports(false, [k.Permission()]) <==> j == k
  {
    var perms := [k.Permission()];
    var r := VisibleReports(false, perms);
    forall j: ReportKind
      ensures j in r <==> j == k
    {
      assert j in r <==> j.Permission() in perms;
      PermissionInjective(j, k);
    }
  }

  lemma PermissionInjective(j: ReportKind, k: ReportKind)
    ensures j.Permission() == k.Permission() ==> j == k
  {
  }

  /** An order-preserving subsequence of a list without repeats has none either. */
  lemma {:induction false} SubseqDistinct<T>(a: seq<T>, b: seq<T>)
    requires IsSubseq(a, b) && NoDuplicates(b)
    ensures NoDuplicates(a)
    decreases |b|
  {
    if |a| > 0 && |b| > 0 {
      if a[0] == b[0] {
        SubseqDistinct(a[1..], b[1..]);
        SubseqMembers(a[1..], b[1..]);
        assert b[0] !in b[1..];
        assert a[0] !in a[1..];
      } else {
        SubseqDistinct(a, b[1..]);
      }
    }
  }

  lemma {:induction false} SubseqMembers<T>(a: seq<T>, b: seq<T>)
    requires IsSubseq(a, b)
    ensures forall x :: x in a ==> x in b
    decreases |b|
  {
    if |a| > 0 && |b| > 0 {
      if a[0] == b[0] {
        SubseqMembers(a[1..], b[1..]);
        assert forall x :: x in a ==> x == a[0] || x in a[1..];
      } else {
        SubseqMembers(a, b[1..]);
      }
    }
  }

  // ------------------------------------------------------- action names

  /** The readable names of `getReadableAction`'s table. */
  const ActionNames: map<string, string> := map[
    "AUTH_REQUEST_CREATED" := "PEDIDO DE LIBERAÇÃO",
    "AUTH_REQUEST_APPROVED" := "LIBERAÇÃO CONCEDIDA",
    "AUTH_REQUEST_DENIED" := "LIBERAÇÃO NEGADA",
    "STOCK_ADD" := "CADASTRO MATERIAL",
    "STOCK_EDIT_EXECUTED" := "EDITOU MATERIAL",
    "STOCK_DELETE_EXECUTED" := "EXCLUIR MATERIAL",
    "STOCK_ADJUST_EXECUTED" := "AJUSTE DE SALDO",
    "PARTNER_ADD" := "CADASTRO PARCEIRO",
    "PARTNER_EDIT_EXECUTED" := "EDITOU PARCEIRO",
    "PARTNER_DELETE_EXECUTED" := "EXCLUIR PARCEIRO",
    "BACKUP_EXPORT" := "EXPORTAÇÃO DADOS",
    "BACKUP_RESTORE" := "RESTAURAÇÃO DADOS",
    "SAAS_COMPANY_UPDATE" := "ALTERAÇÃO EMPRESA",
    "USER_EDIT_EXECUTED" := "ALTERAÇÃO ACESSO",
    "BANK_ADD" := "CADASTRO BANCO",
    "BANK_EDIT_EXECUTED" := "AJUSTE DE CONTA",
    "AUDIT_MASTER_RECONCILIATION" := "AUDITORIA DE LOGS"
  ]

  /** `getReadableAction`: the table's name for a known action; any other
      action with every `_` turned into a blank, upper-cased. */
  function ReadableAction(action: string): (r: string)
    ensures action in ActionNames ==> r == ActionNames[action]
    ensures action !in ActionNames ==> |r| == |action|
    ensures action !in ActionNames ==> forall i :: 0 <= i < |action| ==>
      r[i] == (if action[i] == '_' then ' ' else UpperChar(action[i]))
  {
    if action in ActionNames then ActionNames[action] else Upper(ReplaceAllChar(action, '_', ' '))
  }

  /** An unknown action's name carries neither `_` nor a lower-case letter,
      and naming it again changes nothing. */
  lemma UnknownActionName(action: string)
    requires action !in ActionNames
    ensures '_' !in ReadableAction(action)
    ensures forall i :: 0 <= i < |ReadableAction(action)| ==> !IsLowerAscii(ReadableAction(action)[i])
    ensures ReadableAction(action) !in ActionNames ==> ReadableAction(ReadableAction(action)) == ReadableAction(action)
  {
  }

  /** The three entries the authorization service writes are named by the table. */
  lemma AuthorizationActionsNamed()
    ensures ReadableAction("AUTH_REQUEST_CREATED") == "PEDIDO DE LIBERAÇÃO"
    ensures ReadableAction("AUTH_REQUEST_APPROVED") == "LIBERAÇÃO CONCEDIDA"
    ensures ReadableAction("AUTH_REQUEST_DENIED") == "LIBERAÇÃO NEGADA"
  {
  }

  // ------------------------------------------------------- the request id

  const ReqOpen := "(PEDIDO REQ-"

  /** The length of the run of `[A-Z0-9]` starting at `j`. */
  function CodeRun(s: string, j: nat): (k: nat)
    requires j <= |s|
    ensures j + k <= |s|
    ensures forall t :: j <= t < j + k ==> CodeChar(s[t])
    ensures j + k < |s| ==> !CodeChar(s[j + k])
    decreases |s| - j
  {
    if j < |s| && CodeChar(s[j]) then 1 + CodeRun(s, j + 1) else 0
  }

  /** The group of `/\(PEDIDO (REQ-[A-Z0-9]+)\)/` for a match starting at `i`.
      The run is greedy and `)` is not in the class, so a match at `i` is
      the whole run followed by `)`. */
  function MatchAt(s: string, i: nat): (r: Option<string>)
    ensures r.Some? ==> OccursAt(s, ReqOpen, i) && StartsWith(r.value, "REQ-") && |r.value| > 4
  {
    if OccursAt(s, ReqOpen, i) then
      var j := i + |ReqOpen|;
      var k := CodeRun(s, j);
      if k > 0 && j + k < |s| && s[j + k] == ')' then
        var code := s[i + 8..j + k];
        assert s[i..j] == ReqOpen;
        assert code[..4] == s[i..j][8..];
        Some(code)
      else None
    else None
  }

  /** The leftmost match at or after `from`. */
  function FirstMatch(s: string, from: nat): (r: Option<string>)
    ensures r.None? <==> forall i: nat :: from <= i ==> MatchAt(s, i).None?
    ensures r.Some? ==> exists i: nat :: from <= i && MatchAt(s, i) == r && forall j: nat :: from <= j < i ==> MatchAt(s, j).None?
    decreases |s| + 1 - from
  {
    if from > |s| then
      assert forall i: nat :: from <= i ==> !OccursAt(s, ReqOpen, i);
      None
    else if MatchAt(s, from).Some? then MatchAt(s, from)
    else
      var r := FirstMatch(s, from + 1);
      r
  }

  const Standalone := "AVULSO"

  /** `reqMatch ? reqMatch[1] : 'AVULSO'`. */
  function RequestId(details: string): (r: string)
    ensures r == Standalone <==> forall i: nat :: MatchAt(details, i).None?
    ensures r != Standalone ==> exists i: nat :: MatchAt(details, i) == Some(r) && forall j: nat :: j < i ==> MatchAt(details, j).None?
  {
    match FirstMatch(details, 0)
    case Some(x) =>
      ProtocolNotStandalone(x);
      x
    case None => Standalone
  }

  lemma ProtocolNotStandalone(x: string)
    requires StartsWith(x, "REQ-")
    ensures x != Standalone
  {
    assert x[0] == "REQ-"[0] == 'R';
  }

  /** A details text that opens with `(PEDIDO <protocol>)` is attributed to
      that protocol. */
  lemma RequestIdAtStart(code: string, rest: string)
    requires |code| > 0 && forall i :: 0 <= i < |code| ==> CodeChar(code[i])
    ensures RequestId("(PEDIDO REQ-" + code + ")" + rest) == "REQ-" + code
  {
    var s := "(PEDIDO REQ-" + code + ")" + rest;
    assert s[..12] == ReqOpen;
    assert forall t :: 12 <= t < 12 + |code| ==> s[t] == code[t - 12];
    assert s[12 + |code|] == ')';
    assert s[8..12 + |code|] == "REQ-" + code;
    assert MatchAt(s, 0) == Some("REQ-" + code);
  }

  // ------------------------------------------------------- the details text

  const GrantMarker := "CONCEDIDA PARA O (PEDIDO"
  const GrantSep := ") "

  /** `cleanString`: after the request marker, or past the first `) ` of a
      grant entry, or the whole text. */
  function CleanDetails(details: string): (r: string)
    ensures Contains(details, AskMarker) ==> r == After(details, AskMarker).value
    ensures !Contains(details, AskMarker) && !Contains(details, GrantMarker) ==> r == details
    ensures !Contains(details, AskMarker) && Contains(details, GrantMarker) && Contains(details, GrantSep) ==>
      r == details[IndexOf(details, GrantSep).value + |GrantSep|..]
    ensures !Contains(details, AskMarker) && Contains(details, GrantMarker) && !Contains(details, GrantSep) ==> r == details
  {
    if Contains(details, AskMarker) then After(details, AskMarker).value
    else if Contains(details, GrantMarker) then
      var parts := Split(details, GrantSep);
      if |parts| > 1 then
        SplitTailJoin(details, GrantSep);
        Join(parts[1..], GrantSep)
      else details
    else details
  }

  /** No `)` in `s` is followed by a space. */
  predicate NoCloseSpace(s: string) {
    forall k :: 0 <= k < |s| - 1 ==> !(s[k] == ')' && s[k + 1] == ' ')
  }

  lemma NoCloseSpaceAppend(a: string, b: string)
    requires NoCloseSpace(a) && NoCloseSpace(b)
    requires |a| == 0 || |b| == 0 || a[|a| - 1] != ')' || b[0] != ' '
    ensures NoCloseSpace(a + b)
  {
    forall k | 0 <= k < |a + b| - 1
      ensures !((a + b)[k] == ')' && (a + b)[k + 1] == ' ')
    {
      if k + 1 < |a| {
        assert (a + b)[k] == a[k] && (a + b)[k + 1] == a[k + 1];
      } else if k >= |a| {
        assert (a + b)[k] == b[k - |a|] && (a + b)[k + 1] == b[k + 1 - |a|];
      }
    }
  }

  lemma NoCloseSpaceWithoutClose(s: string)
    requires ')' !in s
    ensures NoCloseSpace(s)
  {
    forall k | 0 <= k < |s| - 1
      ensures s[k] != ')'
    {
      assert s[k] in s;
    }
  }

  /** A text where no `)` is followed by a space holds no `) `. */
  lemma NoCloseSpaceFree(s: string)
    requires NoCloseSpace(s)
    ensures !Contains(s, GrantSep)
  {
    forall k: nat
      ensures !OccursAt(s, GrantSep, k)
    {
      if k + 2 <= |s| {
        assert s[k..k + 2][0] == s[k] && s[k..k + 2][1] == s[k + 1];
      }
    }
    ContainsIff(s, GrantSep);
  }

  /** A text without `:` never holds the request marker. */
  lemma NoColonNoAsk(s: string)
    requires ':' !in s
    ensures !Contains(s, AskMarker)
  {
    var n := |AskMarker|;
    assert AskMarker[n - 2] == ':';
    forall k: nat
      ensures !OccursAt(s, AskMarker, k)
    {
      if k + n <= |s| {
        assert s[k..k + n][n - 2] == s[k + n - 2];
        assert s[k + n - 2] in s;
      }
    }
    ContainsIff(s, AskMarker);
  }

  lemma UpperKeeps(s: string, c: char)
    requires c !in s && !IsLowerAscii(c) && !IsUpperAscii(c)
    ensures c !in Upper(s)
  {
  }

  /** The approval line holds no `:` of its own. */
  lemma ApprovalNoAsk(code: string, protocol: string, name: string)
    requires ':' !in code && ':' !in protocol && ':' !in name
    ensures !Contains(ApprovalDetails(code, protocol, name), AskMarker)
  {
    var d := ApprovalDetails(code, protocol, name);
    UpperKeeps(name, ':');
    assert d == "[(APROVAÇÃO " + code + ")] CONCEDIDA PARA O (PEDIDO " + protocol + "). OPERAÇÃO LIBERADA PELO GESTOR " + Upper(name);
    assert ':' !in "[(APROVAÇÃO " && ':' !in ")] CONCEDIDA PARA O (PEDIDO " && ':' !in "). OPERAÇÃO LIBERADA PELO GESTOR ";
    NoColonNoAsk(d);
  }

  /** The approval line holds the grant marker. */
  lemma ApprovalHasGrant(code: string, protocol: string, name: string)
    ensures Contains(ApprovalDetails(code, protocol, name), GrantMarker)
  {
    var head := "[(APROVAÇÃO " + code + ")] ";
    var tail := " " + protocol + "). OPERAÇÃO LIBERADA PELO GESTOR " + Upper(name);
    ApprovalAroundGrant(code, protocol, name);
    ContainsBetween(head, GrantMarker, tail);
  }

  lemma ApprovalAroundGrant(code: string, protocol: string, name: string)
    ensures ApprovalDetails(code, protocol, name) ==
      "[(APROVAÇÃO " + code + ")] " + GrantMarker + (" " + protocol + "). OPERAÇÃO LIBERADA PELO GESTOR " + Upper(name))
  {
    assert ")] CONCEDIDA PARA O (PEDIDO " == ")] " + GrantMarker + " ";
  }

  /** A `)` followed by anything but a space keeps the property. */
  lemma NoCloseSpaceClose(x: string, y: string)
    requires NoCloseSpace(x) && NoCloseSpace(y) && |y| > 0 && y[0] != ' '
    ensures NoCloseSpace(x + ")" + y)
  {
    NoCloseSpaceAppend(x, ")");
    NoCloseSpaceAppend(x + ")", y);
  }

  /** In the approval line every `)` is followed by `]` or `.`. */
  lemma ApprovalNoCloseSpace(code: string, protocol: string, name: string)
    requires ')' !in code && ')' !in protocol && ')' !in name
    ensures NoCloseSpace(ApprovalDetails(code, protocol, name))
  {
    var a := "[(APROVAÇÃO ";
    var b := "] CONCEDIDA PARA O (PEDIDO ";
    var c := ". OPERAÇÃO LIBERADA PELO GESTOR ";
    assert ')' !in a && ')' !in b && ')' !in c;
    UpperKeeps(name, ')');
    var x := a + code;
    var y := b + protocol;
    var z := c + Upper(name);
    NoCloseSpaceWithoutClose(x);
    NoCloseSpaceWithoutClose(y);
    NoCloseSpaceWithoutClose(z);
    NoCloseSpaceClose(x, y);
    NoCloseSpaceClose(x + ")" + y, z);
    ApprovalSplit(code, protocol, name);
  }

  lemma ApprovalSplit(code: string, protocol: string, name: string)
    ensures ApprovalDetails(code, protocol, name) ==
      ("[(APROVAÇÃO " + code) + ")" + ("] CONCEDIDA PARA O (PEDIDO " + protocol) + ")" + (". OPERAÇÃO LIBERADA PELO GESTOR " + Upper(name))
  {
    CloseBeforeGrant();
    CloseBeforeRelease();
  }

  lemma CloseBeforeGrant()
    ensures ")] CONCEDIDA PARA O (PEDIDO " == ")" + "] CONCEDIDA PARA O (PEDIDO "
  {
  }

  lemma CloseBeforeRelease()
    ensures "). OPERAÇÃO LIBERADA PELO GESTOR " == ")" + ". OPERAÇÃO LIBERADA PELO GESTOR "
  {
  }

  /** The approval line the authorization service logs takes the grant
      branch, but, since the line writes `).` after the protocol and no
      `) `, it is shown whole, whenever code, protocol and approver name hold
      no `)` and no `:`. */
  lemma ApprovalEntryShownWhole(code: string, protocol: string, name: string)
    requires ')' !in code && ')' !in protocol && ')' !in name
    requires ':' !in code && ':' !in protocol && ':' !in name
    ensures var d := ApprovalDetails(code, protocol, name);
      && !Contains(d, AskMarker) && Contains(d, GrantMarker) && CleanDetails(d) == d
  {
    ApprovalNoAsk(code, protocol, name);
    ApprovalHasGrant(code, protocol, name);
    ApprovalNoCloseSpace(code, protocol, name);
    NoCloseSpaceFree(ApprovalDetails(code, protocol, name));
  }

  /** `data[key.trim().toUpperCase()] = …` for one segment. */
  function PutUpper(data: map<string, string>, seg: string): map<string, string> {
    match RequestModal.Segment(seg)
    case None => data
    case Some(kv) => data[Upper(kv.0) := kv.1]
  }

  /** The segments read left to right under upper-cased keys. */
  function CollectUpper(segs: seq<string>): map<string, string>
    decreases |segs|
  {
    if |segs| == 0 then map[] else PutUpper(CollectUpper(segs[..|segs| - 1]), segs[|segs| - 1])
  }

  /** The key/value table of a cleaned details text. */
  function AuditData(clean: string): map<string, string> {
    CollectUpper(Split(clean, RequestModal.PartSep))
  }

  /** When every key is already upper case, the report reads the segments
      exactly as the request modal does. */
  lemma {:induction false} CollectUpperAgrees(segs: seq<string>)
    requires forall i :: 0 <= i < |segs| && RequestModal.Segment(segs[i]).Some? ==>
      Upper(RequestModal.Segment(segs[i]).value.0) == RequestModal.Segment(segs[i]).value.0
    ensures CollectUpper(segs) == RequestModal.Collect(segs)
    decreases |segs|
  {
    if |segs| > 0 {
      var init := segs[..|segs| - 1];
      forall i | 0 <= i < |init| && RequestModal.Segment(init[i]).Some?
        ensures Upper(RequestModal.Segment(init[i]).value.0) == RequestModal.Segment(init[i]).value.0
      {
        assert init[i] == segs[i];
      }
      CollectUpperAgrees(init);
    }
  }

  /** A lower-case key is read as its upper-case form: `op: x` counts as an
      `OP` segment here, unlike in the request modal. */
  lemma LowerKeyRead(op: string)
    requires RequestModal.Plain(("op", op))
    ensures AuditData("op: " + op) == map["OP" := op]
  {
    var seg := RequestModal.Seg(("op", op));
    assert "op" + RequestModal.KeySep == "op: ";
    assert seg == "op: " + op;
    SingleSegmentSplit(seg);
    SingleCollect(seg, ("op", op));
    assert Upper("op") == "OP";
  }

  /** A segment without `|` splits into itself alone. */
  lemma SingleSegmentSplit(seg: string)
    requires '|' !in seg
    ensures Split(seg, RequestModal.PartSep) == [seg]
  {
    assert RequestModal.PartSep[1] == '|';
    FreeByChar(seg, RequestModal.PartSep, 1);
    SplitFree(seg, RequestModal.PartSep);
  }

  /** One plain segment reads as its pair, under the upper-cased key. */
  lemma SingleCollect(seg: string, kv: (string, string))
    requires RequestModal.Plain(kv) && seg == RequestModal.Seg(kv)
    ensures CollectUpper([seg]) == map[Upper(kv.0) := kv.1]
  {
    RequestModal.SegmentOf(kv);
    assert [seg][..0] == [];
  }

  const NotRegisteredText := "DETALHES NÃO REGISTRADOS PELA AUDITORIA"
  const DefaultAuditContext := "TERMINAL PDV"
  const DefaultAuditDetails := "OPERAÇÃO REALIZADA NO SISTEMA"
  const DefaultAuditValue := "R$ 0,00 PARA R$ 0,00"
  const DefaultAuditUser := "SISTEMA"

  /** `charAt(0).toUpperCase() + slice(1).toLowerCase()`. */
  function Capitalize(s: string): (r: string)
    ensures |r| == |s|
    ensures |s| > 0 ==> r[0] == UpperChar(s[0]) && r[1..] == Lower(s[1..])
  {
    if s == "" then "" else [UpperChar(s[0])] + Lower(s[1..])
  }

  /** What the audit report shows for a log: the fixed text when there are
      no details, the six-line narrative when the details carry an `OP`,
      and otherwise the details themselves, rewritten by three regular
      expressions that are not part of this model. */
  datatype AuditText =
    | NotRegistered
    | Story(requestId: string, user: string, operation: string, context: string, details: string, value: string)
    | Rewritten(details: string)

  function ReadableDetails(log: LogEntry): (t: AuditText)
    ensures t.NotRegistered? <==> log.details == ""
    ensures t.Story? <==> log.details != "" && RequestModal.Lookup(AuditData(CleanDetails(log.details)), "OP") != ""
    ensures t.Story? ==>
      var data := AuditData(CleanDetails(log.details));
      && t.requestId == RequestId(log.details)
      && t.user == RequestModal.Or(log.user_name, DefaultAuditUser)
      && t.operation == data["OP"]
      && t.context == RequestModal.Or(RequestModal.Lookup(data, "CTX"), DefaultAuditContext)
      && t.details == Capitalize(RequestModal.Or(RequestModal.Lookup(data, "DET"), DefaultAuditDetails))
      && t.value == RequestModal.Or(RequestModal.Lookup(data, "VAL"),
                      RequestModal.Or(RequestModal.Lookup(data, "VALOR"), DefaultAuditValue))
    ensures t.Rewritten? ==> t.details == log.details
  {
    var details := log.details;
    if details == "" then NotRegistered
    else
      var data := AuditData(CleanDetails(details));
      var op := RequestModal.Lookup(data, "OP");
      if op != "" then
        Story(RequestId(details), RequestModal.Or(log.user_name, DefaultAuditUser), op,
              RequestModal.Or(RequestModal.Lookup(data, "CTX"), DefaultAuditContext),
              Capitalize(RequestModal.Or(RequestModal.Lookup(data, "DET"), DefaultAuditDetails)),
              RequestModal.Or(RequestModal.Lookup(data, "VAL"),
                RequestModal.Or(RequestModal.Lookup(data, "VALOR"), DefaultAuditValue)))
      else Rewritten(details)
  }

  /** The six lines of the narrative. */
  function RenderStory(t: AuditText): string
    requires t.Story?
  {
    "(PEDIDO " + t.requestId + ") –\nUsuário: " + t.user + "\nOperação: " + t.operation + "\nContexto: " + t.context
      + "\nDetalhes: " + t.details + "\nValor envolvido: " + t.value
  }

  // ------------------------------------------------------- reading back a request log

  /** A label in the `OP | CTX | VAL | DET` layout the pages write. */
  function OpLabel(op: string, ctx: string, val: string, det: string): string {
    "OP: " + op + " | CTX: " + ctx + " | VAL: " + val + " | DET: " + det
  }

  function OpPairs(op: string, ctx: string, val: string, det: string): seq<(string, string)> {
    [("OP", op), ("CTX", ctx), ("VAL", val), ("DET", det)]
  }

  lemma OpLabelJoin(op: string, ctx: string, val: string, det: string)
    ensures OpLabel(op, ctx, val, det) == Join(Map(OpPairs(op, ctx, val, det), RequestModal.Seg), RequestModal.PartSep)
  {
    var ks := RequestModal.KeySep;
    var sep := RequestModal.PartSep;
    var segs := Map(OpPairs(op, ctx, val, det), RequestModal.Seg);
    assert segs == ["OP" + ks + op, "CTX" + ks + ctx, "VAL" + ks + val, "DET" + ks + det];
    OpKeysJoin();
    JoinFour(segs[0], segs[1], segs[2], segs[3], sep);
    RegroupFour("OP: ", " | CTX: ", " | VAL: ", " | DET: ", "OP", "CTX", "VAL", "DET", ks, sep, op, ctx, val, det);
  }

  /** The key texts of an `OP | CTX | VAL | DET` label are the keys with the
      separators around them. */
  lemma OpKeysJoin()
    ensures "OP: " == "OP" + RequestModal.KeySep
    ensures " | CTX: " == RequestModal.PartSep + "CTX" + RequestModal.KeySep
    ensures " | VAL: " == RequestModal.PartSep + "VAL" + RequestModal.KeySep
    ensures " | DET: " == RequestModal.PartSep + "DET" + RequestModal.KeySep
  {
  }

  lemma JoinFour(a: string, b: string, c: string, d: string, sep: string)
    ensures Join([a, b, c, d], sep) == a + sep + b + sep + c + sep + d
  {
    JoinCons(c, [d], sep);
    assert [c, d] == [c] + [d];
    JoinCons(b, [c, d], sep);
    assert [b, c, d] == [b] + [c, d];
    JoinCons(a, [b, c, d], sep);
    assert [a, b, c, d] == [a] + [b, c, d];
  }

  lemma RegroupFour(l1: string, l2: string, l3: string, l4: string, k1: string, k2: string, k3: string, k4: string,
                    ks: string, sep: string, v1: string, v2: string, v3: string, v4: string)
    requires l1 == k1 + ks && l2 == sep + k2 + ks && l3 == sep + k3 + ks && l4 == sep + k4 + ks
    ensures l1 + v1 + l2 + v2 + l3 + v3 + l4 + v4 ==
      (k1 + ks + v1) + sep + (k2 + ks + v2) + sep + (k3 + ks + v3) + sep + (k4 + ks + v4)
  {
  }

  lemma UpperOpLabel(op: string, ctx: string, val: string, det: string)
    ensures Upper(OpLabel(op, ctx, val, det)) == OpLabel(Upper(op), Upper(ctx), Upper(val), Upper(det))
  {
    OpKeysUpper();
    UpperEight("OP: ", op, " | CTX: ", ctx, " | VAL: ", val, " | DET: ", det);
  }

  lemma OpKeysUpper()
    ensures Upper("OP: ") == "OP: " && Upper(" | CTX: ") == " | CTX: "
    ensures Upper(" | VAL: ") == " | VAL: " && Upper(" | DET: ") == " | DET: "
  {
  }

  /** Upper-casing text interleaved with fixed upper-case parts upper-cases
      only the variable parts. */
  lemma UpperEight(l1: string, v1: string, l2: string, v2: string, l3: string, v3: string, l4: string, v4: string)
    requires Upper(l1) == l1 && Upper(l2) == l2 && Upper(l3) == l3 && Upper(l4) == l4
    ensures Upper(l1 + v1 + l2 + v2 + l3 + v3 + l4 + v4) ==
      l1 + Upper(v1) + l2 + Upper(v2) + l3 + Upper(v3) + l4 + Upper(v4)
  {
    UpperAppend(l1 + v1 + l2 + v2 + l3 + v3 + l4, v4);
    UpperAppend(l1 + v1 + l2 + v2 + l3 + v3, l4);
    UpperAppend(l1 + v1 + l2 + v2 + l3, v3);
    UpperAppend(l1 + v1 + l2 + v2, l3);
    UpperAppend(l1 + v1 + l2, v2);
    UpperAppend(l1 + v1, l2);
    UpperAppend(l1, v1);
  }

  /** Upper-casing keeps a value plain. */
  lemma UpperPlain(k: string, v: string)
    requires RequestModal.Plain((k, v))
    ensures RequestModal.Plain((k, Upper(v)))
  {
  }

  /** The segments of a label built from plain pairs are the pairs' segments. */
  lemma SplitPairs(pairs: seq<(string, string)>)
    requires |pairs| > 0
    requires forall i :: 0 <= i < |pairs| ==> RequestModal.Plain(pairs[i])
    ensures Split(Join(Map(pairs, RequestModal.Seg), RequestModal.PartSep), RequestModal.PartSep) == Map(pairs, RequestModal.Seg)
  {
    var segs := Map(pairs, RequestModal.Seg);
    assert RequestModal.PartSep[1] == '|' && RequestModal.PartSep[..1] == " ";
    forall i | 0 <= i < |segs|
      ensures '|' !in segs[i]
    {
      assert segs[i] == pairs[i].0 + RequestModal.KeySep + pairs[i].1;
    }
    forall i | 0 <= i < |segs| - 1
      ensures Clean(segs[i], RequestModal.PartSep)
    {
      CleanByChar(segs[i], RequestModal.PartSep, 1);
    }
    FreeByChar(segs[|segs| - 1], RequestModal.PartSep, 1);
    JoinSplit(segs, RequestModal.PartSep);
  }

  /** The table of an upper-cased `OP | CTX | VAL | DET` label holds the four
      upper-cased values. */
  lemma OpLabelData(op: string, ctx: string, val: string, det: string)
    requires RequestModal.Plain(("OP", op)) && RequestModal.Plain(("CTX", ctx))
    requires RequestModal.Plain(("VAL", val)) && RequestModal.Plain(("DET", det))
    ensures var data := AuditData(Upper(OpLabel(op, ctx, val, det)));
      && RequestModal.Lookup(data, "OP") == Upper(op) && RequestModal.Lookup(data, "CTX") == Upper(ctx)
      && RequestModal.Lookup(data, "VAL") == Upper(val) && RequestModal.Lookup(data, "DET") == Upper(det)
  {
    UpperPlain("OP", op);
    UpperPlain("CTX", ctx);
    UpperPlain("VAL", val);
    UpperPlain("DET", det);
    var pairs := OpPairs(Upper(op), Upper(ctx), Upper(val), Upper(det));
    UpperOpLabel(op, ctx, val, det);
    OpLabelJoin(Upper(op), Upper(ctx), Upper(val), Upper(det));
    assert Upper("OP") == "OP" && Upper("CTX") == "CTX" && Upper("VAL") == "VAL" && Upper("DET") == "DET";
    AuditDataAgrees(pairs);
    RequestModal.FourPairs(Upper(op), Upper(ctx), Upper(val), Upper(det));
  }

  /** With upper-case keys, the report's table of a label built from plain
      pairs is the request modal's. */
  lemma AuditDataAgrees(pairs: seq<(string, string)>)
    requires |pairs| > 0
    requires forall i :: 0 <= i < |pairs| ==> RequestModal.Plain(pairs[i]) && Upper(pairs[i].0) == pairs[i].0
    ensures AuditData(Join(Map(pairs, RequestModal.Seg), RequestModal.PartSep))
         == RequestModal.ParseLabel(Join(Map(pairs, RequestModal.Seg), RequestModal.PartSep))
  {
    SplitPairs(pairs);
    var segs := Map(pairs, RequestModal.Seg);
    forall i | 0 <= i < |segs| && RequestModal.Segment(segs[i]).Some?
      ensures Upper(RequestModal.Segment(segs[i]).value.0) == RequestModal.Segment(segs[i]).value.0
    {
      RequestModal.SegmentOf(pairs[i]);
    }
    CollectUpperAgrees(segs);
  }

  /** The request marker holds a `Ç` at index 8 and none before it. */
  lemma AskMarkerCedilla()
    ensures AskMarker[8] == 'Ç' && 'Ç' !in AskMarker[..8]
  {
  }

  /** The text after the marker of a request entry is the upper-cased label,
      when the label holds no `Ç`. */
  lemma CleanRequestEntry(protocol: string, text: string)
    requires 'Ç' !in protocol && 'Ç' !in text
    ensures CleanDetails("(PEDIDO " + protocol + ") - " + AskMarker + Upper(text)) == Upper(text)
  {
    var head := "(PEDIDO " + protocol + ") - ";
    var u := Upper(text);
    AskMarkerCedilla();
    assert 'Ç' !in head;
    CleanByChar(head, AskMarker, 8);
    FreeByChar(u, AskMarker, 8);
    AfterCons(head, AskMarker, u);
    ActionLabels.FreeBefore(u, AskMarker);
    assert OccursAt(head + AskMarker + u, AskMarker, |head|);
    ContainsIff(head + AskMarker + u, AskMarker);
  }

  /** The entry the authorization service writes when a request in the
      `OP | CTX | VAL | DET` layout is filed reads back, in the audit report,
      as the narrative of that request: its protocol and the label's four
      values, upper-cased. */
  lemma RequestEntryNarrative(st: AuthStore, op: string, ctx: string, val: string, det: string, key: string,
                              user: User, random: string, newId: string, sessionCompany: string, now: string)
    requires RandomText(random) && |random| > 2
    requires RequestModal.Plain(("OP", op)) && RequestModal.Plain(("CTX", ctx))
    requires RequestModal.Plain(("VAL", val)) && RequestModal.Plain(("DET", det))
    requires op != "" && ctx != "" && val != "" && det != "" && 'Ç' !in OpLabel(op, ctx, val, det)
    ensures var r := RequestAuthorization(st, key, OpLabel(op, ctx, val, det), user, random, newId, sessionCompany, now);
      var t := ReadableDetails(r.1.logs[|st.logs|]);
      && t.Story? && t.requestId == r.0.protocol_id
      && t.operation == Upper(op) && t.context == Upper(ctx) && t.value == Upper(val)
      && t.details == Capitalize(Upper(det))
  {
    var text := OpLabel(op, ctx, val, det);
    var r := RequestAuthorization(st, key, text, user, random, newId, sessionCompany, now);
    var code := RequestLogDetails(st, key, text, user, random, newId, sessionCompany, now);
    EntryNarrative(r.1.logs[|st.logs|], code, op, ctx, val, det);
  }

  /** The narrative of one request entry, for a protocol `REQ-<code>`. */
  lemma EntryNarrative(log: LogEntry, code: string, op: string, ctx: string, val: string, det: string)
    requires |code| > 0 && forall i :: 0 <= i < |code| ==> CodeChar(code[i])
    requires RequestModal.Plain(("OP", op)) && RequestModal.Plain(("CTX", ctx))
    requires RequestModal.Plain(("VAL", val)) && RequestModal.Plain(("DET", det))
    requires op != "" && ctx != "" && val != "" && det != "" && 'Ç' !in OpLabel(op, ctx, val, det)
    requires log.details == "(PEDIDO " + ("REQ-" + code) + ") - " + AskMarker + Upper(OpLabel(op, ctx, val, det))
    ensures var t := ReadableDetails(log);
      && t.Story? && t.requestId == "REQ-" + code
      && t.operation == Upper(op) && t.context == Upper(ctx) && t.value == Upper(val)
      && t.details == Capitalize(Upper(det))
  {
    var u := Upper(OpLabel(op, ctx, val, det));
    assert 'Ç' !in "REQ-" + code by {
      assert forall i :: 0 <= i < |code| ==> code[i] != 'Ç';
    }
    CleanRequestEntry("REQ-" + code, OpLabel(op, ctx, val, det));
    OpLabelData(op, ctx, val, det);
    assert Upper(op) != "" && Upper(ctx) != "" && Upper(val) != "" && Upper(det) != "";
    RequestIdOfEntry(code, u);
    NarrativeOf(log, u);
  }

  lemma RequestIdOfEntry(code: string, u: string)
    requires |code| > 0 && forall i :: 0 <= i < |code| ==> CodeChar(code[i])
    ensures RequestId("(PEDIDO " + ("REQ-" + code) + ") - " + AskMarker + u) == "REQ-" + code
  {
    var rest := " - " + AskMarker + u;
    assert "(PEDIDO " + ("REQ-" + code) + ") - " + AskMarker + u == "(PEDIDO REQ-" + code + ")" + rest;
    RequestIdAtStart(code, rest);
  }

  /** A log whose cleaned details are `clean`, with an `OP` in it, is told
      as a story of the table read from `clean`. */
  lemma NarrativeOf(log: LogEntry, clean: string)
    requires log.details != "" && CleanDetails(log.details) == clean
    requires RequestModal.Lookup(AuditData(clean), "OP") != ""
    ensures var t := ReadableDetails(log); var data := AuditData(clean);
      && t.Story? && t.requestId == RequestId(log.details) && t.operation == RequestModal.Lookup(data, "OP")
      && t.context == RequestModal.Or(RequestModal.Lookup(data, "CTX"), DefaultAuditContext)
      && t.details == Capitalize(RequestModal.Or(RequestModal.Lookup(data, "DET"), DefaultAuditDetails))
      && t.value == RequestModal.Or(RequestModal.Lookup(data, "VAL"),
                      RequestModal.Or(RequestModal.Lookup(data, "VALOR"), DefaultAuditValue))
  {
  }

  /** The entry written for a new request: its protocol, then the marker,
      then the upper-cased label; the protocol's code is not empty once the
      random text has a digit. */
  lemma RequestLogDetails(st: AuthStore, key: string, text: string, user: User, random: string, newId: string,
                          sessionCompany: string, now: string) returns (code: string)
    requires RandomText(random) && |random| > 2
    ensures RequestAuthorization(st, key, text, user, random, newId, sessionCompany, now).0.protocol_id == "REQ-" + code
    ensures |code| > 0 && forall i :: 0 <= i < |code| ==> CodeChar(code[i])
    ensures var r := RequestAuthorization(st, key, text, user, random, newId, sessionCompany, now);
      r.1.logs[|st.logs|].details == "(PEDIDO " + r.0.protocol_id + ") - " + AskMarker + Upper(text)
  {
    var r := RequestAuthorization(st, key, text, user, random, newId, sessionCompany, now);
    code := ProtocolCode(r.0.protocol_id);
  }

  /** A protocol number is `REQ-` followed by its code. */
  lemma ProtocolCode(p: string) returns (code: string)
    requires StartsWith(p, "REQ-") && |p| > 4 && forall i :: 4 <= i < |p| ==> CodeChar(p[i])
    ensures p == "REQ-" + code && |code| > 0 && forall i :: 0 <= i < |code| ==> CodeChar(code[i])
  {
    code := p[4..];
    assert p == p[..4] + code;
    assert forall i :: 0 <= i < |code| ==> code[i] == p[4 + i];
  }

  // ------------------------------------------------------- the financial reports

  /** The column filters of the financial reports; "" is an empty filter. */
  datatype FinanceFilters = FinanceFilters(natureza: string, partner: string, status: string, description: string)

  /** `(f.natureza || '')`. */
  function NatureOrEmpty(n: Nature): string {
    match n
    case Entrada => "ENTRADA"
    case Saida => "SAIDA"
    case NoNature => ""
  }

  /** An empty filter, or the value containing it with case ignored. */
  predicate MatchesUpper(filter: string, value: string) {
    filter == "" || Contains(Upper(value), Upper(filter))
  }

  predicate MatchesLower(filter: string, value: string) {
    filter == "" || Contains(Lower(value), Lower(filter))
  }

  /** `(partner?.name || '')` for the record's partner. */
  function PartnerName(partners: seq<Partner>, id: string): string {
    match Find(partners, (p: Partner) => p.id == id)
    case Some(p) => p.name
    case None => ""
  }

  /** The date of a record: the first ten characters of its creation time. */
  function RecordDate(f: FinancialRecord): string {
    Prefix(f.created_at, 10)
  }

  /** `fDate >= dateStart && fDate <= dateEnd`, as JavaScript compares strings. */
  predicate InRange(d: string, dateStart: string, dateEnd: string) {
    !StrLess(d, dateStart) && !StrLess(dateEnd, d)
  }

  /** The category a report is restricted to, if any. */
  function ReportCategory(tab: Option<ReportKind>): Option<string> {
    if tab == Some(ReceivablesMirror) then Some("Venda de Materiais")
    else if tab == Some(PayablesMirror) then Some("Compra de Materiais")
    else None
  }

  predicate KeepRecord(f: FinancialRecord, tab: Option<ReportKind>, filters: FinanceFilters,
                       dateStart: string, dateEnd: string, partners: seq<Partner>, today: string)
  {
    && (ReportCategory(tab).Some? ==> f.categoria == ReportCategory(tab).value)
    && InRange(RecordDate(f), dateStart, dateEnd)
    && MatchesUpper(filters.natureza, NatureOrEmpty(f.natureza))
    && MatchesLower(filters.partner, PartnerName(partners, f.parceiro_id))
    && MatchesLower(filters.status, StatusLabel(f, today).Text())
    && MatchesLower(filters.description, f.description)
  }

  /** `filteredFinancials` for the open report `tab`. */
  function FilteredFinancials(fs: seq<FinancialRecord>, tab: Option<ReportKind>, filters: FinanceFilters,
                              dateStart: string, dateEnd: string, partners: seq<Partner>, today: string): (r: seq<FinancialRecord>)
    ensures IsSubseq(r, fs)
    ensures forall f :: f in r <==> f in fs && KeepRecord(f, tab, filters, dateStart, dateEnd, partners, today)
  {
    Filter(fs, (f: FinancialRecord) => KeepRecord(f, tab, filters, dateStart, dateEnd, partners, today))
  }

  const NoFilters := FinanceFilters("", "", "", "")

  /** With no column filter the general statement keeps exactly the records
      dated inside the range, whatever their category. */
  lemma NoFiltersKeepRange(fs: seq<FinancialRecord>, dateStart: string, dateEnd: string, partners: seq<Partner>,
                           today: string, f: FinancialRecord)
    ensures f in FilteredFinancials(fs, Some(FinancialStatement), NoFilters, dateStart, dateEnd, partners, today)
      <==> f in fs && InRange(RecordDate(f), dateStart, dateEnd)
  {
  }

  /** The receivables report holds only material sales and the payables
      report only material purchases, and each keeps exactly the records of
      its category that the general statement keeps. */
  lemma MirrorsRestrictCategory(fs: seq<FinancialRecord>, filters: FinanceFilters, dateStart: string, dateEnd: string,
                                partners: seq<Partner>, today: string, f: FinancialRecord)
    ensures f in FilteredFinancials(fs, Some(ReceivablesMirror), filters, dateStart, dateEnd, partners, today)
      <==> f in FilteredFinancials(fs, Some(FinancialStatement), filters, dateStart, dateEnd, partners, today)
           && f.categoria == "Venda de Materiais"
    ensures f in FilteredFinancials(fs, Some(PayablesMirror), filters, dateStart, dateEnd, partners, today)
      <==> f in FilteredFinancials(fs, Some(FinancialStatement), filters, dateStart, dateEnd, partners, today)
           && f.categoria == "Compra de Materiais"
  {
    MirrorKeeps(f, ReceivablesMirror, filters, dateStart, dateEnd, partners, today);
    MirrorKeeps(f, PayablesMirror, filters, dateStart, dateEnd, partners, today);
    var general := FilteredFinancials(fs, Some(FinancialStatement), filters, dateStart, dateEnd, partners, today);
    assert f in general <==> f in fs && KeepRecord(f, Some(FinancialStatement), filters, dateStart, dateEnd, partners, today);
  }

  /** A mirror keeps what the general statement keeps, within its category. */
  lemma MirrorKeeps(f: FinancialRecord, tab: ReportKind, filters: FinanceFilters, dateStart: string, dateEnd: string,
                    partners: seq<Partner>, today: string)
    requires tab == ReceivablesMirror || tab == PayablesMirror
    ensures KeepRecord(f, Some(tab), filters, dateStart, dateEnd, partners, today)
      <==> KeepRecord(f, Some(FinancialStatement), filters, dateStart, dateEnd, partners, today)
           && f.categoria == ReportCategory(Some(tab)).value
  {
  }

  /** An empty range (end before start) keeps nothing. */
  lemma EmptyRangeKeepsNothing(fs: seq<FinancialRecord>, tab: Option<ReportKind>, filters: FinanceFilters,
                               dateStart: string, dateEnd: string, partners: seq<Partner>, today: string)
    requires StrLess(dateEnd, dateStart)
    ensures FilteredFinancials(fs, tab, filters, dateStart, dateEnd, partners, today) == []
  {
    var r := FilteredFinancials(fs, tab, filters, dateStart, dateEnd, partners, today);
    if |r| > 0 {
      var d := RecordDate(r[0]);
      assert r[0] in r;
      assert !StrLess(d, dateStart) && !StrLess(dateEnd, d);
      StrLessTrichotomy(d, dateStart);
      if d == dateStart {
      } else {
        StrLessTrichotomy(dateEnd, d);
        if dateEnd == d {
        } else {
          StrLessTransitive(dateEnd, dateStart, d);
        }
      }
    }
  }

  // ------------------------------------------------------- dates

  const NoDate := "---"
  const Undefined := "undefined"

  /** `parts[i]` of a destructuring, `undefined` past the end. */
  function PartOr(parts: seq<string>, i: nat): string {
    if i < |parts| then parts[i] else Undefined
  }

  /** `formatDate`: `---` for no date; otherwise the first ten characters
      split at `-` and written day, month, year. */
  function FormatDate(iso: string): (r: string)
    ensures iso == "" <==> r == NoDate
  {
    if iso == "" then NoDate
    else
      var parts := Split(Prefix(iso, 10), "-");
      var r := PartOr(parts, 2) + "/" + PartOr(parts, 1) + "/" + PartOr(parts, 0);
      assert r[|r| - |PartOr(parts, 0)| - 1] == '/';
      r
  }

  predicate DigitsOnly(s: string) {
    forall i :: 0 <= i < |s| ==> IsDigit(s[i])
  }

  /** A timestamp starting `YYYY-MM-DD` is shown as `DD/MM/YYYY`. */
  lemma FormatIsoDate(y: string, m: string, d: string, rest: string)
    requires |y| == 4 && |m| == 2 && |d| == 2
    requires DigitsOnly(y) && DigitsOnly(m) && DigitsOnly(d)
    ensures FormatDate(y + "-" + m + "-" + d + rest) == d + "/" + m + "/" + y
  {
    var iso := y + "-" + m + "-" + d + rest;
    assert Prefix(iso, 10) == y + "-" + m + "-" + d;
    assert "-"[..0] == [];
    assert '-' !in y && '-' !in m && '-' !in d by {
      assert !IsDigit('-');
    }
    CleanByChar(y, "-", 0);
    CleanByChar(m, "-", 0);
    FreeByChar(d, "-", 0);
    SplitFree(d, "-");
    SplitCons(m, "-", d);
    SplitCons(y, "-", m + "-" + d);
    assert y + "-" + m + "-" + d == y + "-" + (m + "-" + d);
  }

  /** A date without `-` in its first ten characters is not rejected: day
      and month are shown as `undefined`. */
  lemma FormatDateWithoutDashes(s: string)
    requires s != "" && '-' !in Prefix(s, 10)
    ensures FormatDate(s) == Undefined + "/" + Undefined + "/" + Prefix(s, 10)
  {
    FreeByChar(Prefix(s, 10), "-", 0);
    SplitFree(Prefix(s, 10), "-");
  }

  // ------------------------------------------------------- stock totals

  datatype InventoryStats = InventoryStats(totalCost: int, totalSale: int, totalKg: int)

  /** The `reduce` of `inventoryStats`, element by element. */
  function InventoryTotals(ms: seq<Material>): InventoryStats
    decreases |ms|
  {
    if |ms| == 0 then InventoryStats(0, 0, 0)
    else
      var acc := InventoryTotals(ms[..|ms| - 1]);
      var m := ms[|ms| - 1];
      InventoryStats(acc.totalCost + m.stock * m.buyPrice, acc.totalSale + m.stock * m.sellPrice,
                     acc.totalKg + (if m.unit == Kg then m.stock else 0))
  }

  predicate IsKg(m: Material) {
    m.unit == Kg
  }

  function Stock(m: Material): int {
    m.stock
  }

  /** The weight total is the stock of the materials sold by the kilo and
      of no other. */
  lemma {:induction false} TotalKgCountsKgOnly(ms: seq<Material>)
    ensures InventoryTotals(ms).totalKg == Sum(Filter(ms, IsKg), Stock)
    decreases |ms|
  {
    if |ms| > 0 {
      var n := |ms| - 1;
      TotalKgCountsKgOnly(ms[..n]);
      assert ms == ms[..n] + [ms[n]];
      FilterAppend(ms[..n], [ms[n]], IsKg);
      SumAppend(Filter(ms[..n], IsKg), Filter([ms[n]], IsKg), Stock);
    }
  }

  /** Cost and sale totals are the sums of stock times price. */
  lemma {:induction false} TotalsAreSums(ms: seq<Material>)
    ensures InventoryTotals(ms).totalCost == Sum(ms, (m: Material) => m.stock * m.buyPrice)
    ensures InventoryTotals(ms).totalSale == Sum(ms, (m: Material) => m.stock * m.sellPrice)
    decreases |ms|
  {
    if |ms| > 0 {
      var n := |ms| - 1;
      TotalsAreSums(ms[..n]);
      assert ms == ms[..n] + [ms[n]];
      SumAppend(ms[..n], [ms[n]], (m: Material) => m.stock * m.buyPrice);
      SumAppend(ms[..n], [ms[n]], (m: Material) => m.stock * m.sellPrice);
    }
  }

  /** `filteredMaterialsReport`: materials whose name contains the filter,
      case ignored; an empty filter keeps all. */
  function MaterialsReport(ms: seq<Material>, nameFilter: string): (r: seq<Material>)
    ensures IsSubseq(r, ms)
    ensures forall m :: m in r <==> m in ms && MatchesLower(nameFilter, m.name)
    ensures nameFilter == "" ==> r == ms
  {
    if nameFilter == "" then
      FilterAll(ms, (m: Material) => MatchesLower(nameFilter, m.name));
      Filter(ms, (m: Material) => MatchesLower(nameFilter, m.name))
    else Filter(ms, (m: Material) => MatchesLower(nameFilter, m.name))
  }
}

=== FILE: request_modal.dfy ===
/** The request side of remote authorization
    (`components/RequestAuthorizationModal.tsx`): the rule that suppresses a
    second pending request for the same action, and the reading of a
    pipe-delimited `KEY: value | …` label into the explanation shown to the
    operator. */
module RequestModal {
  import opened Wrappers
  import opened Seqs
  import opened Strings
  import opened ActionLabels
  import opened Permissions
  import opened Authorization

  // ------------------------------------------------------- duplicates

  /** The pending request for the same action and label, if there is one. */
  function ExistingRequest(pending: seq<AuthRequest>, key: string, text: string): (r: Option<AuthRequest>)
    ensures r.Some? ==> r.value in pending && r.value.action_key == key && r.value.action_label == text
                        && r.value.status == AuthStatus.Pending
    ensures r.None? <==> forall i :: 0 <= i < |pending| ==>
      !(pending[i].action_key == key && pending[i].action_label == text && pending[i].status == AuthStatus.Pending)
  {
    Find(pending, (q: AuthRequest) => q.action_key == key && q.action_label == text && q.status == AuthStatus.Pending)
  }

  predicate IsDuplicate(pending: seq<AuthRequest>, key: string, text: string) {
    ExistingRequest(pending, key, text).Some?
  }

  /** `handleRequest`: nothing without a user or when the same action is
      already pending; otherwise one new request is filed. */
  function HandleRequest(st: AuthStore, pending: seq<AuthRequest>, user: Option<User>, key: string, text: string,
                         random: string, newId: string, sessionCompany: string, now: string): (r: AuthStore)
    requires RandomText(random)
    ensures user.None? || IsDuplicate(pending, key, text) ==> r == st
    ensures user.Some? && !IsDuplicate(pending, key, text) ==>
      && |r.requests| == |st.requests| + 1 && r.requests[..|st.requests|] == st.requests
      && r.requests[|st.requests|].action_key == key && r.requests[|st.requests|].action_label == text
      && r.requests[|st.requests|].status == AuthStatus.Pending
  {
    if user.None? || IsDuplicate(pending, key, text) then st
    else RequestAuthorization(st, key, text, user.value, random, newId, sessionCompany, now).1
  }

  /** Once a filed request shows up in the refreshed listing, asking again for
      the same action files nothing. */
  lemma SecondRequestSuppressed(st: AuthStore, pending: seq<AuthRequest>, u: User, key: string, text: string,
                                random: string, newId: string, sessionCompany: string, now: string,
                                companyId: string, random2: string, newId2: string, now2: string)
    requires RandomText(random) && RandomText(random2)
    requires !IsDuplicate(pending, key, text)
    requires var st1 := HandleRequest(st, pending, Some(u), key, text, random, newId, sessionCompany, now);
      RequestInTenant(companyId, st1.requests[|st.requests|])
    ensures var st1 := HandleRequest(st, pending, Some(u), key, text, random, newId, sessionCompany, now);
      var listing := GetPendingAuthorizations(st1.requests, companyId);
      HandleRequest(st1, listing, Some(u), key, text, random2, newId2, sessionCompany, now2) == st1
  {
    var st1 := HandleRequest(st, pending, Some(u), key, text, random, newId, sessionCompany, now);
    var req := st1.requests[|st.requests|];
    assert req in st1.requests;
    var listing := GetPendingAuthorizations(st1.requests, companyId);
    assert req in listing;
  }

  // ------------------------------------------------------- reading a label

  const PartSep := " | "
  const KeySep := ": "

  /** What one ` | `-separated segment contributes: split at `: `, the first
      piece is the key and the rest, re-joined, the value, both trimmed; a
      segment without `: ` or with an empty key contributes nothing. */
  function Segment(p: string): Option<(string, string)> {
    var pieces := Split(p, KeySep);
    if pieces[0] != "" && |pieces| > 1 then Some((Trim(pieces[0]), Trim(Join(pieces[1..], KeySep))))
    else None
  }

  /** The segments read left to right, a later key overwriting an earlier one. */
  function Collect(segs: seq<string>): (data: map<string, string>)
    decreases |segs|
  {
    if |segs| == 0 then map[] else Put(Collect(segs[..|segs| - 1]), segs[|segs| - 1])
  }

  /** `data[key.trim()] = …` for one segment. */
  function Put(data: map<string, string>, seg: string): map<string, string> {
    match Segment(seg)
    case None => data
    case Some(kv) => data[kv.0 := kv.1]
  }

  /** A later segment overwrites whatever an earlier one set for its key. */
  lemma CollectLastWins(segs: seq<string>)
    requires |segs| > 0 && Segment(segs[|segs| - 1]).Some?
    ensures var kv := Segment(segs[|segs| - 1]).value;
      kv.0 in Collect(segs) && Collect(segs)[kv.0] == kv.1
  {
  }

  /** Only keys of the segments are ever set. */
  lemma {:induction false} CollectKeys(segs: seq<string>)
    ensures forall k :: k in Collect(segs) ==>
      exists i :: 0 <= i < |segs| && Segment(segs[i]).Some? && Segment(segs[i]).value.0 == k
    decreases |segs|
  {
    if |segs| > 0 {
      var init := segs[..|segs| - 1];
      CollectKeys(init);
      forall k | k in Collect(segs)
        ensures exists i :: 0 <= i < |segs| && Segment(segs[i]).Some? && Segment(segs[i]).value.0 == k
      {
        CollectStep(segs, k);
        if k in Collect(init) {
          var i :| 0 <= i < |init| && Segment(init[i]).Some? && Segment(init[i]).value.0 == k;
          assert init[i] == segs[i];
        }
      }
    }
  }

  /** A key after the last segment was already there or is that segment's. */
  lemma CollectStep(segs: seq<string>, k: string)
    requires |segs| > 0 && k in Collect(segs)
    ensures var last := Segment(segs[|segs| - 1]);
      k in Collect(segs[..|segs| - 1]) || (last.Some? && last.value.0 == k)
  {
  }

  function ParseLabel(text: string): map<string, string> {
    Collect(Split(text, PartSep))
  }

  /** The segment a writer produces for one pair. */
  function Seg(kv: (string, string)): string {
    kv.0 + KeySep + kv.1
  }

  /** A pair the reader gets back unchanged: a non-empty key without `:` or
      `|`, a value without `|`, neither with outer blanks. */
  predicate Plain(kv: (string, string)) {
    kv.0 != "" && ':' !in kv.0 && '|' !in kv.0 && '|' !in kv.1 && Trimmed(kv.0) && Trimmed(kv.1)
  }

  lemma SegmentOf(kv: (string, string))
    requires Plain(kv)
    ensures Segment(Seg(kv)) == Some(kv)
  {
    assert KeySep[0] == ':';
    CleanByChar(kv.0, KeySep, 0);
    SplitCons(kv.0, KeySep, kv.1);
    var pieces := Split(Seg(kv), KeySep);
    assert pieces[1..] == Split(kv.1, KeySep);
    SplitJoin(kv.1, KeySep);
    TrimmedFixed(kv.0);
    TrimmedFixed(kv.1);
  }

  /** The keys are pairwise distinct. */
  predicate DistinctKeys(pairs: seq<(string, string)>) {
    forall i, j :: 0 <= i < j < |pairs| ==> pairs[i].0 != pairs[j].0
  }

  lemma CollectPairs(pairs: seq<(string, string)>)
    requires forall i :: 0 <= i < |pairs| ==> Plain(pairs[i])
    requires DistinctKeys(pairs)
    ensures forall i :: 0 <= i < |pairs| ==>
      pairs[i].0 in Collect(Map(pairs, Seg)) && Collect(Map(pairs, Seg))[pairs[i].0] == pairs[i].1
    ensures forall k :: k in Collect(Map(pairs, Seg)) ==> exists i :: 0 <= i < |pairs| && pairs[i].0 == k
  {
    CollectPairsHas(pairs);
    CollectPairsOnly(pairs);
  }

  lemma {:induction false} CollectPairsHas(pairs: seq<(string, string)>)
    requires forall i :: 0 <= i < |pairs| ==> Plain(pairs[i])
    requires DistinctKeys(pairs)
    ensures forall i :: 0 <= i < |pairs| ==>
      pairs[i].0 in Collect(Map(pairs, Seg)) && Collect(Map(pairs, Seg))[pairs[i].0] == pairs[i].1
    decreases |pairs|
  {
    if |pairs| > 0 {
      var n := |pairs| - 1;
      var init := pairs[..n];
      CollectPairsHas(init);
      CollectSnoc(pairs);
      forall i | 0 <= i < n
        ensures pairs[i].0 in Collect(Map(pairs, Seg)) && Collect(Map(pairs, Seg))[pairs[i].0] == pairs[i].1
      {
        assert init[i] == pairs[i];
      }
    }
  }

  lemma {:induction false} CollectPairsOnly(pairs: seq<(string, string)>)
    requires forall i :: 0 <= i < |pairs| ==> Plain(pairs[i])
    ensures forall k :: k in Collect(Map(pairs, Seg)) ==> exists i :: 0 <= i < |pairs| && pairs[i].0 == k
    decreases |pairs|
  {
    if |pairs| > 0 {
      var n := |pairs| - 1;
      var init := pairs[..n];
      CollectPairsOnly(init);
      CollectSnoc(pairs);
      forall k | k in Collect(Map(pairs, Seg))
        ensures exists i :: 0 <= i < |pairs| && pairs[i].0 == k
      {
        if k != pairs[n].0 {
          var i :| 0 <= i < |init| && init[i].0 == k;
          assert pairs[i].0 == k;
        }
      }
    }
  }

  lemma CollectSnoc(pairs: seq<(string, string)>)
    requires |pairs| > 0 && Plain(pairs[|pairs| - 1])
    ensures var n := |pairs| - 1;
      Collect(Map(pairs, Seg)) == Collect(Map(pairs[..n], Seg))[pairs[n].0 := pairs[n].1]
  {
    var n := |pairs| - 1;
    var segs := Map(pairs, Seg);
    assert segs[..n] == Map(pairs[..n], Seg);
    SegmentOf(pairs[n]);
  }

  /** A label written as `K1: v1 | … | Kn: vn` reads back as exactly the map
      `{Ki ↦ vi}`, when the keys are distinct and no key holds `:` or `|`, no
      value holds `|`, and none has outer blanks. */
  lemma ParseLabelRoundTrip(pairs: seq<(string, string)>)
    requires |pairs| > 0
    requires forall i :: 0 <= i < |pairs| ==> Plain(pairs[i])
    requires DistinctKeys(pairs)
    ensures var data := ParseLabel(Join(Map(pairs, Seg), PartSep));
      && (forall i :: 0 <= i < |pairs| ==> pairs[i].0 in data && data[pairs[i].0] == pairs[i].1)
      && (forall k :: k in data ==> exists i :: 0 <= i < |pairs| && pairs[i].0 == k)
  {
    var segs := Map(pairs, Seg);
    assert PartSep[1] == '|';
    forall i | 0 <= i < |segs|
      ensures '|' !in segs[i]
    {
      assert segs[i] == pairs[i].0 + KeySep + pairs[i].1;
    }
    forall i | 0 <= i < |segs| - 1
      ensures Clean(segs[i], PartSep)
    {
      CleanByChar(segs[i], PartSep, 1);
    }
    FreeByChar(segs[|segs| - 1], PartSep, 1);
    JoinSplit(segs, PartSep);
    CollectPairs(pairs);
  }

  // ------------------------------------------------------- the explanation

  /** `data[k]`, with a missing key read as the empty (falsy) string. */
  function Lookup(data: map<string, string>, k: string): string {
    if k in data then data[k] else ""
  }

  /** JavaScript `a || b` on strings. */
  function Or(a: string, b: string): string {
    if a != "" then a else b
  }

  const DefaultOperation := "Operação Administrativa"
  const DefaultContext := "Sistema"
  const DefaultValue := "R$ 0,00"
  const DefaultDetails := "Solicitação de liberação para ação restrita."
  const PendingProtocol := "REQ-PENDENTE"
  const DefaultUser := "Operador"
  const LegacyKey := "ID: "

  datatype Explanation =
    | NotInformed
    | Narrative(protocol: string, user: string, operation: string, context: string, details: string, value: string)

  /** `getHumanExplanation(label)` for the request already pending for this
      action, if any, and the current user's name ("" when there is none). */
  function Explain(text: string, existing: Option<AuthRequest>, userName: string): (e: Explanation)
    ensures e.NotInformed? <==> text == ""
    ensures e.Narrative? ==> e.user == Or(userName, DefaultUser)
    ensures e.Narrative? ==> e.value == Or(Lookup(ParseLabel(text), "VAL"), Or(Lookup(ParseLabel(text), "VALOR"), DefaultValue))
    ensures e.Narrative? && !(Lookup(ParseLabel(text), "OP") == "" && Contains(text, LegacyKey)) ==>
      && e.operation == Or(Lookup(ParseLabel(text), "OP"), DefaultOperation)
      && e.context == Or(Lookup(ParseLabel(text), "CTX"), DefaultContext)
      && e.details == Or(Lookup(ParseLabel(text), "DET"), DefaultDetails)
      && e.protocol == (if existing.Some? then existing.value.protocol_id else PendingProtocol)
    ensures e.Narrative? && Lookup(ParseLabel(text), "OP") == "" && Contains(text, LegacyKey) ==>
      && e.operation == "Ação Manual Restrita"
      && e.context == "Módulo Interno"
      && e.protocol == (if existing.Some? then Or(existing.value.protocol_id, PendingProtocol) else PendingProtocol)
  {
    if text == "" then NotInformed
    else
      var data := ParseLabel(text);
      var op := Or(Lookup(data, "OP"), DefaultOperation);
      var ctx := Or(Lookup(data, "CTX"), DefaultContext);
      var val := Or(Lookup(data, "VAL"), Or(Lookup(data, "VALOR"), DefaultValue));
      var det := Or(Lookup(data, "DET"), DefaultDetails);
      var user := Or(userName, DefaultUser);
      if Lookup(data, "OP") == "" && Contains(text, LegacyKey) then
        var legacyId := Field(text, LegacyKey);
        var ref := if legacyId.Some? then Or(Prefix(legacyId.value, 8), "S/R") else "S/R";
        var protocol := if existing.Some? then Or(existing.value.protocol_id, PendingProtocol) else PendingProtocol;
        Narrative(protocol, user, "Ação Manual Restrita", "Módulo Interno", "Solicitação para o registro REF: " + ref, val)
      else
        var protocol := if existing.Some? then existing.value.protocol_id else PendingProtocol;
        Narrative(protocol, user, op, ctx, det, val)
  }

  /** The text shown: six lines. */
  function Render(e: Explanation): string {
    match e
    case NotInformed => "DETALHES DA OPERAÇÃO NÃO INFORMADOS"
    case Narrative(protocol, user, op, ctx, det, val) =>
      "(AÇÃO " + protocol + ") –\nUsuário: " + user + "\nOperação: " + op + "\nContexto: " + ctx
        + "\nDetalhes: " + det + "\nValor envolvido: " + val
  }

  /** An `OP: … | CTX: … | VAL: … | DET: …` label is explained with exactly
      the four values it carries. */
  lemma ExplainRoundTrip(op: string, ctx: string, val: string, det: string, existing: Option<AuthRequest>, userName: string)
    requires op != "" && ctx != "" && val != "" && det != ""
    requires Plain(("OP", op)) && Plain(("CTX", ctx)) && Plain(("VAL", val)) && Plain(("DET", det))
    ensures var e := Explain(Join(Map([("OP", op), ("CTX", ctx), ("VAL", val), ("DET", det)], Seg), PartSep), existing, userName);
      e.Narrative? && e.operation == op && e.context == ctx && e.value == val && e.details == det
  {
    var pairs := [("OP", op), ("CTX", ctx), ("VAL", val), ("DET", det)];
    var text := Join(Map(pairs, Seg), PartSep);
    FourPairs(op, ctx, val, det);
    assert text != "" by {
      assert Map(pairs, Seg)[0] == Seg(pairs[0]);
      JoinCons(Seg(pairs[0]), Map(pairs, Seg)[1..], PartSep);
      assert [Seg(pairs[0])] + Map(pairs, Seg)[1..] == Map(pairs, Seg);
    }
  }

  lemma FourPairs(op: string, ctx: string, val: string, det: string)
    requires Plain(("OP", op)) && Plain(("CTX", ctx)) && Plain(("VAL", val)) && Plain(("DET", det))
    ensures var data := ParseLabel(Join(Map([("OP", op), ("CTX", ctx), ("VAL", val), ("DET", det)], Seg), PartSep));
      Lookup(data, "OP") == op && Lookup(data, "CTX") == ctx && Lookup(data, "VAL") == val && Lookup(data, "DET") == det
  {
    var pairs := [("OP", op), ("CTX", ctx), ("VAL", val), ("DET", det)];
    ParseLabelRoundTrip(pairs);
    assert pairs[0].0 == "OP" && pairs[1].0 == "CTX" && pairs[2].0 == "VAL" && pairs[3].0 == "DET";
  }

  lemma LegacyLabelParse(id: string)
    requires GeneratedId(id)
    ensures var data := ParseLabel(RealIdKey + id);
      Lookup(data, "OP") == "" && Lookup(data, "VAL") == "" && Lookup(data, "VALOR") == ""
  {
    var pairs := [("REAL_ID", id)];
    TrimmedId(id);
    assert Plain(pairs[0]);
    ParseLabelRoundTrip(pairs);
    LegacySegment(id, pairs);
  }

  lemma LegacySegment(id: string, pairs: seq<(string, string)>)
    requires pairs == [("REAL_ID", id)]
    ensures Join(Map(pairs, Seg), PartSep) == RealIdKey + id
  {
    assert Map(pairs, Seg) == [Seg(pairs[0])];
    assert "REAL_ID" + KeySep == RealIdKey;
  }

  /** A void or cancel label `REAL_ID: <id>` carries no `OP`, so it takes the
      legacy path: the reference shown is the first eight characters of the
      id. */
  lemma LegacyExplanation(id: string, existing: Option<AuthRequest>, userName: string)
    requires GeneratedId(id)
    ensures var e := Explain(RealIdKey + id, existing, userName);
      e.Narrative? && e.operation == "Ação Manual Restrita"
      && e.details == "Solicitação para o registro REF: " + Prefix(id, 8)
      && e.value == DefaultValue
  {
    var text := RealIdKey + id;
    LegacyLabelParse(id);
    assert text == "REAL_" + LegacyKey + id;
    assert LegacyKey[0] == 'I' && LegacyKey[..0] == [];
    CleanByChar("REAL_", LegacyKey, 0);
    AfterCons("REAL_", LegacyKey, id);
    FreeByChar(id, LegacyKey, 0);
    FreeBefore(id, LegacyKey);
    assert FieldEnd[0] == ' ' && ' ' !in id;
    FreeByChar(id, FieldEnd, 0);
    FreeBefore(id, FieldEnd);
    TrimmedId(id);
    assert Field(text, LegacyKey) == Some(id);
    assert Contains(text, LegacyKey);
    assert Prefix(id, 8) != "";
  }
}

=== FILE: saas_admin.dfy ===
/** The master console (`pages/SaasAdmin.tsx`): the company statistics on
    its dashboard, the company search, and the plan editor's module lists.
    Plan prices are whole cents. */
module SaasAdmin {
  import opened Wrappers
  import opened Seqs
  import opened Strings

  datatype CompanyStatus = Active | Trial | Blocked

  /** `Company`, with both spellings of the plan reference. */
  datatype Company = Company(id: string, name: string, cnpj: string, planId: string, plan_id: string, status: CompanyStatus)

  /** `Plan`; `modules` holds the permission values as strings. */
  datatype Plan = Plan(id: string, name: string, price: int, modules: seq<string>)

  predicate IsActive(c: Company) { c.status == Active }
  predicate IsTrial(c: Company) { c.status == Trial }
  predicate IsBlocked(c: Company) { c.status == Blocked }

  /** `company.planId || company.plan_id`. */
  function PlanRef(c: Company): string {
    if c.planId != "" then c.planId else c.plan_id
  }

  /** `plans[i]` is the first plan with the id, the one `plans.find` returns. */
  predicate FirstPlan(plans: seq<Plan>, id: string, i: int) {
    0 <= i < |plans| && plans[i].id == id && forall j :: 0 <= j < i ==> plans[j].id != id
  }

  /** `plans.find(p => p.id === pId)?.price || 0`. */
  function PlanPrice(plans: seq<Plan>, c: Company): (r: int)
    ensures (forall i :: 0 <= i < |plans| ==> plans[i].id != PlanRef(c)) ==> r == 0
    ensures r != 0 ==> exists p :: p in plans && p.id == PlanRef(c) && p.price == r
    ensures forall i :: FirstPlan(plans, PlanRef(c), i) ==> r == plans[i].price
  {
    var isRef := (p: Plan) => p.id == PlanRef(c);
    FindLeftmost(plans, isRef);
    match Find(plans, isRef)
    case None => 0
    case Some(p) => p.price
  }

  /** What an active company adds to the monthly revenue. */
  function Contribution(plans: seq<Plan>): Company -> int {
    (c: Company) => if IsActive(c) then PlanPrice(plans, c) else 0
  }

  function Price(plans: seq<Plan>): Company -> int {
    (c: Company) => PlanPrice(plans, c)
  }

  datatype Stats = Stats(active: nat, trial: nat, blocked: nat, mrr: int, total: nat)

  /** `stats`. */
  function ComputeStats(companies: seq<Company>, plans: seq<Plan>): (s: Stats)
    ensures s.active + s.trial + s.blocked == s.total == |companies|
    ensures s.mrr == Sum(Filter(companies, IsActive), Price(plans))
  {
    StatusCounts(companies);
    SumFilterAs(companies, IsActive, Price(plans), Contribution(plans));
    Stats(Count(companies, IsActive), Count(companies, IsTrial), Count(companies, IsBlocked),
          Sum(companies, Contribution(plans)), |companies|)
  }

  /** Every company has exactly one of the three statuses. */
  lemma {:induction false} StatusCounts(companies: seq<Company>)
    ensures Count(companies, IsActive) + Count(companies, IsTrial) + Count(companies, IsBlocked) == |companies|
    decreases |companies|
  {
    if |companies| > 0 {
      StatusCounts(companies[1..]);
    }
  }

  /** A company whose plan is unknown adds nothing to the revenue, active
      or not. */
  lemma UnknownPlanAddsNothing(companies: seq<Company>, plans: seq<Plan>, c: Company)
    requires forall i :: 0 <= i < |plans| ==> plans[i].id != PlanRef(c)
    ensures ComputeStats(companies + [c], plans).mrr == ComputeStats(companies, plans).mrr
    ensures ComputeStats(companies + [c], plans).total == ComputeStats(companies, plans).total + 1
  {
    FilterAppend(companies, [c], IsActive);
    SumAppend(Filter(companies, IsActive), Filter([c], IsActive), Price(plans));
  }

  /** Blocking a company removes its plan price from the revenue and
      nothing else. */
  lemma BlockingRemovesPrice(a: seq<Company>, c: Company, b: seq<Company>, plans: seq<Plan>)
    requires IsActive(c)
    ensures ComputeStats(a + [c.(status := Blocked)] + b, plans).mrr ==
      ComputeStats(a + [c] + b, plans).mrr - PlanPrice(plans, c)
    ensures ComputeStats(a + [c.(status := Blocked)] + b, plans).blocked ==
      ComputeStats(a + [c] + b, plans).blocked + 1
  {
    var d := c.(status := Blocked);
    SplitMrr(a, c, b, plans);
    SplitMrr(a, d, b, plans);
    SplitCount(a, c, b, IsBlocked);
    SplitCount(a, d, b, IsBlocked);
  }

  lemma SplitMrr(a: seq<Company>, c: Company, b: seq<Company>, plans: seq<Plan>)
    ensures ComputeStats(a + [c] + b, plans).mrr ==
      Sum(Filter(a, IsActive), Price(plans)) + (if IsActive(c) then PlanPrice(plans, c) else 0)
      + Sum(Filter(b, IsActive), Price(plans))
  {
    FilterAppend(a + [c], b, IsActive);
    FilterAppend(a, [c], IsActive);
    SumAppend(Filter(a, IsActive) + Filter([c], IsActive), Filter(b, IsActive), Price(plans));
    SumAppend(Filter(a, IsActive), Filter([c], IsActive), Price(plans));
  }

  lemma SplitCount(a: seq<Company>, c: Company, b: seq<Company>, p: Company -> bool)
    ensures Count(a + [c] + b, p) == Count(a, p) + (if p(c) then 1 else 0) + Count(b, p)
  {
    FilterAppend(a + [c], b, p);
    FilterAppend(a, [c], p);
  }

  // ------------------------------------------------------- company search

  /** The test `filteredCompanies` applies. */
  function Matches(search: string): Company -> bool {
    (c: Company) => Contains(Lower(c.name), Lower(search)) || Contains(c.cnpj, search)
  }

  /** `filteredCompanies`: the name matches case-insensitively, the CNPJ
      matches as typed. */
  function FilteredCompanies(companies: seq<Company>, search: string): (r: seq<Company>)
    ensures IsSubseq(r, companies)
    ensures forall c :: c in r <==> c in companies && (Contains(Lower(c.name), Lower(search)) || Contains(c.cnpj, search))
  {
    Filter(companies, Matches(search))
  }

  /** An empty search lists every company. */
  lemma EmptySearchKeepsAll(companies: seq<Company>)
    ensures FilteredCompanies(companies, "") == companies
  {
    forall i | 0 <= i < |companies|
      ensures Matches("")(companies[i])
    {
      assert OccursAt(companies[i].cnpj, "", 0);
      ContainsIff(companies[i].cnpj, "");
    }
    FilterAll(companies, Matches(""));
  }

  /** Typing more narrows the list: a company matching `search + more`
      also matches `search`. */
  lemma LongerSearchNarrows(companies: seq<Company>, search: string, more: string)
    ensures forall x :: x in FilteredCompanies(companies, search + more) ==> x in FilteredCompanies(companies, search)
  {
    forall x | x in FilteredCompanies(companies, search + more)
      ensures Matches(search)(x)
    {
      LowerAppend(search, more);
      if Contains(Lower(x.name), Lower(search + more)) {
        ContainsPrefix(Lower(x.name), Lower(search), Lower(more));
      } else {
        ContainsPrefix(x.cnpj, search, more);
      }
    }
  }

  /** A text containing `p + q` contains `p`. */
  lemma ContainsPrefix(s: string, p: string, q: string)
    requires Contains(s, p + q)
    ensures Contains(s, p)
  {
    ContainsIff(s, p + q);
    var i: nat :| OccursAt(s, p + q, i);
    assert s[i..i + |p|] == s[i..i + |p + q|][..|p|];
    assert OccursAt(s, p, i);
    ContainsIff(s, p);
  }

  // ------------------------------------------------------- plan modules

  const ActionMark := "ACTION_"

  predicate IsLock(m: string) {
    Contains(m, ActionMark)
  }

  predicate IsModule(m: string) {
    !IsLock(m)
  }

  /** The enabled modules a plan card counts. */
  function Modules(mods: seq<string>): (r: seq<string>)
    ensures forall m :: m in r <==> m in mods && !Contains(m, ActionMark)
  {
    Filter(mods, IsModule)
  }

  /** The action locks a plan card counts. */
  function Locks(mods: seq<string>): (r: seq<string>)
    ensures forall m :: m in r <==> m in mods && Contains(m, ActionMark)
  {
    Filter(mods, IsLock)
  }

  /** The two counts on a plan card split the plan's modules: each entry is
      counted once, in exactly one of them. */
  lemma {:induction false} ModulesPartition(mods: seq<string>)
    ensures |Modules(mods)| + |Locks(mods)| == |mods|
    ensures multiset(Modules(mods)) + multiset(Locks(mods)) == multiset(mods)
    decreases |mods|
  {
    if |mods| > 0 {
      ModulesPartition(mods[1..]);
      assert mods == [mods[0]] + mods[1..];
    }
  }

  /** A checkbox of the plan editor: `isChecked ? current.filter(m => m !==
      id) : [...current, id]`. */
  function ToggleModule(current: seq<string>, id: string): (r: seq<string>)
    ensures id in r <==> id !in current
    ensures forall m :: m != id ==> (m in r <==> m in current)
    ensures id !in current ==> r == current + [id]
  {
    Toggle(current, id)
  }

  /** Ticking a box that was clear and clearing it again restores the list. */
  lemma ToggleModuleTwice(current: seq<string>, id: string)
    requires id !in current
    ensures ToggleModule(ToggleModule(current, id), id) == current
  {
    ToggleTwice(current, id);
  }

  /** Toggling a lock never changes the enabled-module count, and toggling a
      module never changes the lock count. */
  lemma ToggleKeepsOtherCount(current: seq<string>, id: string)
    requires id !in current
    ensures IsLock(id) ==> Modules(ToggleModule(current, id)) == Modules(current)
    ensures !IsLock(id) ==> Locks(ToggleModule(current, id)) == Locks(current)
  {
    FilterAppend(current, [id], IsModule);
    FilterAppend(current, [id], IsLock);
  }
}

=== FILE: seqs.dfy ===
/** Sequence combinators with the semantics of the JavaScript array methods
    the source uses: `filter`, `reduce((s, x) => s + f(x), 0)`, `.length` of a
    filter, `find`, `findIndex` and `new Set(...)` insertion order. */
module Seqs {
  import opened Wrappers

  /** `a` is an order-preserving subsequence of `b`. */
  predicate IsSubseq<T(==)>(a: seq<T>, b: seq<T>)
    decreases |b|
  {
    if |a| == 0 then true
    else if |b| == 0 then false
    else if a[0] == b[0] then IsSubseq(a[1..], b[1..])
    else IsSubseq(a, b[1..])
  }

  lemma {:induction false} IsSubseqRefl<T>(a: seq<T>)
    ensures IsSubseq(a, a)
    decreases |a|
  {
    if |a| > 0 {
      IsSubseqRefl(a[1..]);
    }
  }

  /** JavaScript `s.filter(p)`. */
  function Filter<T(!new)>(s: seq<T>, p: T -> bool): (r: seq<T>)
    ensures |r| <= |s|
    ensures forall x :: x in r <==> x in s && p(x)
    ensures forall i :: 0 <= i < |r| ==> p(r[i])
    ensures IsSubseq(r, s)
    decreases |s|
  {
    if |s| == 0 then []
    else
      var rest := Filter(s[1..], p);
      assert forall x :: x in s <==> x == s[0] || x in s[1..];
      if p(s[0]) then [s[0]] + rest else rest
  }

  lemma {:induction false} FilterAppend<T(!new)>(a: seq<T>, b: seq<T>, p: T -> bool)
    ensures Filter(a + b, p) == Filter(a, p) + Filter(b, p)
    decreases |a|
  {
    if |a| == 0 {
      assert a + b == b;
    } else {
      assert (a + b)[1..] == a[1..] + b;
      FilterAppend(a[1..], b, p);
    }
  }

  /** Keeps every element exactly when every element passes. */
  lemma {:induction false} FilterAll<T(!new)>(s: seq<T>, p: T -> bool)
    requires forall i :: 0 <= i < |s| ==> p(s[i])
    ensures Filter(s, p) == s
    decreases |s|
  {
    if |s| > 0 {
      FilterAll(s[1..], p);
    }
  }

  /** Two tests that agree on every element filter alike. */
  lemma {:induction false} FilterSame<T(!new)>(s: seq<T>, p: T -> bool, q: T -> bool)
    requires forall i :: 0 <= i < |s| ==> p(s[i]) == q(s[i])
    ensures Filter(s, p) == Filter(s, q)
    decreases |s|
  {
    if |s| > 0 {
      FilterSame(s[1..], p, q);
    }
  }

  /** `s.reduce((acc, x) => acc + f(x), 0)`. */
  function Sum<T>(s: seq<T>, f: T -> int): int
    decreases |s|
  {
    if |s| == 0 then 0 else f(s[0]) + Sum(s[1..], f)
  }

  lemma {:induction false} SumAppend<T>(a: seq<T>, b: seq<T>, f: T -> int)
    ensures Sum(a + b, f) == Sum(a, f) + Sum(b, f)
    decreases |a|
  {
    if |a| == 0 {
      assert a + b == b;
    } else {
      assert (a + b)[1..] == a[1..] + b;
      SumAppend(a[1..], b, f);
    }
  }

  /** Splitting a sum along any predicate: the two filtered sums add up. */
  lemma {:induction false} SumFilterSplit<T(!new)>(s: seq<T>, p: T -> bool, f: T -> int)
    ensures Sum(s, f) == Sum(Filter(s, p), f) + Sum(Filter(s, x => !p(x)), f)
    decreases |s|
  {
    if |s| > 0 {
      SumFilterSplit(s[1..], p, f);
    }
  }

  /** A sum of terms that are all zero outside `p` equals the sum over `p`. */
  lemma {:induction false} SumFilterZero<T(!new)>(s: seq<T>, p: T -> bool, f: T -> int)
    requires forall i :: 0 <= i < |s| && !p(s[i]) ==> f(s[i]) == 0
    ensures Sum(Filter(s, p), f) == Sum(s, f)
    decreases |s|
  {
    if |s| > 0 {
      SumFilterZero(s[1..], p, f);
    }
  }

  /** Summing a `g` that is `f` on `p` and zero elsewhere is summing `f` over the filter. */
  lemma {:induction false} SumFilterAs<T(!new)>(s: seq<T>, p: T -> bool, f: T -> int, g: T -> int)
    requires forall x :: g(x) == (if p(x) then f(x) else 0)
    ensures Sum(s, g) == Sum(Filter(s, p), f)
    decreases |s|
  {
    if |s| > 0 {
      SumFilterAs(s[1..], p, f, g);
    }
  }

  /** A sum of differences is the difference of the sums. */
  lemma {:induction false} SumDiff<T>(s: seq<T>, f: T -> int, g: T -> int, h: T -> int)
    requires forall x :: h(x) == f(x) - g(x)
    ensures Sum(s, h) == Sum(s, f) - Sum(s, g)
    decreases |s|
  {
    if |s| > 0 {
      SumDiff(s[1..], f, g, h);
    }
  }

  /** Dropping an element that the filter rejects or that adds nothing leaves the sum unchanged. */
  lemma SumDropZero<T(!new)>(a: seq<T>, x: T, b: seq<T>, p: T -> bool, f: T -> int)
    requires !p(x) || f(x) == 0
    ensures Sum(Filter(a + [x] + b, p), f) == Sum(Filter(a + b, p), f)
  {
    FilterAppend(a + [x], b, p);
    FilterAppend(a, [x], p);
    FilterAppend(a, b, p);
    SumAppend(Filter(a, p) + Filter([x], p), Filter(b, p), f);
    SumAppend(Filter(a, p), Filter([x], p), f);
    SumAppend(Filter(a, p), Filter(b, p), f);
    assert Sum(Filter([x], p), f) == 0;
  }

  /** Removing an element the filter rejects does not change the filter's result. */
  lemma FilterDrop<T(!new)>(a: seq<T>, x: T, b: seq<T>, p: T -> bool)
    requires !p(x)
    ensures Filter(a + [x] + b, p) == Filter(a + b, p)
  {
    FilterAppend(a + [x], b, p);
    FilterAppend(a, [x], p);
    FilterAppend(a, b, p);
  }

  /** `s.map(f)`. */
  function Map<T, U>(s: seq<T>, f: T -> U): (r: seq<U>)
    ensures |r| == |s|
    ensures forall i :: 0 <= i < |s| ==> r[i] == f(s[i])
  {
    seq(|s|, i requires 0 <= i < |s| => f(s[i]))
  }

  /** The values of a mapped sequence are the images of its elements. */
  lemma MapMember<T, U>(s: seq<T>, f: T -> U, y: U)
    ensures y in Map(s, f) <==> exists x :: x in s && f(x) == y
  {
    if y in Map(s, f) {
      var i :| 0 <= i < |s| && Map(s, f)[i] == y;
      assert s[i] in s;
    }
    if exists x :: x in s && f(x) == y {
      var x :| x in s && f(x) == y;
      var i :| 0 <= i < |s| && s[i] == x;
      assert Map(s, f)[i] == y;
    }
  }

  /** `s.filter(p).length`. */
  function Count<T(!new)>(s: seq<T>, p: T -> bool): nat
  {
    |Filter(s, p)|
  }

  /** `s.find(p)`: the first element passing `p`. */
  function Find<T>(s: seq<T>, p: T -> bool): (r: Option<T>)
    ensures r.Some? ==> r.value in s && p(r.value)
    ensures r.None? ==> forall i :: 0 <= i < |s| ==> !p(s[i])
    decreases |s|
  {
    if |s| == 0 then None
    else if p(s[0]) then Some(s[0])
    else Find(s[1..], p)
  }

  /** `find` returns the leftmost element satisfying `p`. */
  lemma {:induction false} FindLeftmost<T>(s: seq<T>, p: T -> bool)
    ensures forall i :: 0 <= i < |s| && p(s[i]) && (forall j :: 0 <= j < i ==> !p(s[j])) ==> Find(s, p) == Some(s[i])
    decreases |s|
  {
    if |s| > 0 && !p(s[0]) {
      FindLeftmost(s[1..], p);
      assert forall i :: 1 <= i < |s| ==> s[1..][i - 1] == s[i];
    }
  }

  /** `s.findIndex(p)`, with -1 spelled `None`. */
  function FindIndex<T>(s: seq<T>, p: T -> bool): (r: Option<nat>)
    ensures r.Some? ==> r.value < |s| && p(s[r.value]) && forall j :: 0 <= j < r.value ==> !p(s[j])
    ensures r.None? ==> forall i :: 0 <= i < |s| ==> !p(s[i])
    decreases |s|
  {
    if |s| == 0 then None
    else if p(s[0]) then Some(0)
    else match FindIndex(s[1..], p)
      case None => None
      case Some(k) => Some(k + 1)
  }

  /** Replace the first element satisfying `p` by `f` of it; `None` when
      there is none. */
  function UpdateFirst<T>(s: seq<T>, p: T -> bool, f: T -> T): (r: Option<seq<T>>)
    ensures r.None? <==> forall i :: 0 <= i < |s| ==> !p(s[i])
    ensures r.Some? ==>
      var i := FindIndex(s, p).value;
      && |r.value| == |s|
      && r.value[i] == f(s[i])
      && (forall j :: 0 <= j < |s| && j != i ==> r.value[j] == s[j])
  {
    match FindIndex(s, p)
    case None => None
    case Some(i) => Some(s[i := f(s[i])])
  }

  /** `Array.from(new Set(s))`: first occurrences, in insertion order. */
  function Distinct<T(==,!new)>(s: seq<T>): seq<T>
  {
    DistinctFrom(s, {})
  }

  function DistinctFrom<T(==,!new)>(s: seq<T>, seen: set<T>): (r: seq<T>)
    ensures forall x :: x in r <==> x in s && x !in seen
    ensures forall i, j :: 0 <= i < j < |r| ==> r[i] != r[j]
    ensures IsSubseq(r, s)
    decreases |s|
  {
    if |s| == 0 then []
    else if s[0] in seen then DistinctFrom(s[1..], seen)
    else
      var rest := DistinctFrom(s[1..], seen + {s[0]});
      assert s[0] !in rest;
      [s[0]] + rest
  }

  /** The position of the first `x` in `s`. */
  function FirstIndexOf<T(==)>(s: seq<T>, x: T): (r: nat)
    requires x in s
    ensures r < |s| && s[r] == x && forall j :: 0 <= j < r ==> s[j] != x
    decreases |s|
  {
    if s[0] == x then 0 else 1 + FirstIndexOf(s[1..], x)
  }

  /** `r` holds elements of `s`, ordered by where each first occurs in `s`. */
  predicate InFirstOrder<T(==)>(r: seq<T>, s: seq<T>) {
    && (forall x :: x in r ==> x in s)
    && (forall i, j :: 0 <= i < j < |r| ==> FirstIndexOf(s, r[i]) < FirstIndexOf(s, r[j]))
  }

  /** `new Set(s)` iterates in order of first occurrence. */
  lemma {:induction false} DistinctFromOrder<T(!new)>(s: seq<T>, seen: set<T>)
    ensures InFirstOrder(DistinctFrom(s, seen), s)
    decreases |s|
  {
    if |s| > 0 {
      var seen' := if s[0] in seen then seen else seen + {s[0]};
      var rest := DistinctFrom(s[1..], seen');
      DistinctFromOrder(s[1..], seen');
      assert s[0] !in rest;
      OrderPastHead(s, rest);
      if s[0] !in seen {
        OrderWithHead(s, rest);
        assert DistinctFrom(s, seen) == [s[0]] + rest;
      } else {
        assert DistinctFrom(s, seen) == rest;
      }
    }
  }

  /** Elements after the head keep their first-occurrence order in `s`. */
  lemma OrderPastHead<T>(s: seq<T>, rest: seq<T>)
    requires |s| > 0 && InFirstOrder(rest, s[1..]) && s[0] !in rest
    ensures InFirstOrder(rest, s)
  {
    forall x | x in rest
      ensures x in s && FirstIndexOf(s, x) == 1 + FirstIndexOf(s[1..], x)
    {
      assert x in s[1..];
    }
  }

  /** The head of `s` comes first in first-occurrence order. */
  lemma OrderWithHead<T>(s: seq<T>, rest: seq<T>)
    requires |s| > 0 && InFirstOrder(rest, s) && s[0] !in rest
    ensures InFirstOrder([s[0]] + rest, s)
  {
    var r := [s[0]] + rest;
    assert FirstIndexOf(s, s[0]) == 0;
    forall i, j | 0 <= i < j < |r|
      ensures FirstIndexOf(s, r[i]) < FirstIndexOf(s, r[j])
    {
      assert r[j] == rest[j - 1] && r[j] in rest;
      if i > 0 {
        assert r[i] == rest[i - 1];
      }
    }
  }

  lemma {:induction false} DistinctFromAppend<T(!new)>(a: seq<T>, b: seq<T>, seen: set<T>)
    ensures DistinctFrom(a + b, seen) == DistinctFrom(a, seen) + DistinctFrom(b, seen + set x | x in a)
    decreases |a|
  {
    if |a| == 0 {
      assert a + b == b;
      assert seen + (set x | x in a) == seen;
    } else {
      var seen' := if a[0] in seen then seen else seen + {a[0]};
      DistinctFromAppend(a[1..], b, seen');
      SeenStep(a, seen);
      DistinctFromCons(a, b, seen);
    }
  }

  lemma SeenStep<T>(a: seq<T>, seen: set<T>)
    requires |a| > 0
    ensures (if a[0] in seen then seen else seen + {a[0]}) + (set x | x in a[1..]) == seen + (set x | x in a)
  {
    assert forall x :: x in a <==> x == a[0] || x in a[1..];
  }

  /** One step of `DistinctFrom` on `a + b` is the step on `a`. */
  lemma DistinctFromCons<T(!new)>(a: seq<T>, b: seq<T>, seen: set<T>)
    requires |a| > 0
    ensures DistinctFrom(a + b, seen) ==
      (if a[0] in seen then [] else [a[0]]) + DistinctFrom(a[1..] + b, if a[0] in seen then seen else seen + {a[0]})
    ensures DistinctFrom(a, seen) ==
      (if a[0] in seen then [] else [a[0]]) + DistinctFrom(a[1..], if a[0] in seen then seen else seen + {a[0]})
  {
    assert (a + b)[0] == a[0];
    assert (a + b)[1..] == a[1..] + b;
  }

  /** Every element of `s` satisfies `p`. */
  predicate All<T>(s: seq<T>, p: T -> bool) {
    forall i :: 0 <= i < |s| ==> p(s[i])
  }
  /** `selected ? s.filter(x => x !== v) : [...s, v]`: a checkbox on a list. */
  function Toggle<T(==,!new)>(s: seq<T>, v: T): (r: seq<T>)
    ensures v in r <==> v !in s
    ensures forall x :: x != v ==> (x in r <==> x in s)
  {
    if v in s then Filter(s, x => x != v) else s + [v]
  }

  /** Ticking a box and unticking it again gives back the list. */
  lemma ToggleTwice<T(!new)>(s: seq<T>, v: T)
    requires v !in s
    ensures Toggle(Toggle(s, v), v) == s
  {
    assert v in s + [v];
    FilterAppend(s, [v], x => x != v);
    FilterAll(s, x => x != v);
  }

  /** `ps.flatMap(table)`. */
  function FlatMap<P, T(!new)>(ps: seq<P>, table: P -> seq<T>): (r: seq<T>)
    ensures forall x :: x in r <==> exists i :: 0 <= i < |ps| && x in table(ps[i])
    decreases |ps|
  {
    if |ps| == 0 then []
    else
      var rest := FlatMap(ps[1..], table);
      assert forall i :: 1 <= i < |ps| ==> ps[1..][i - 1] == ps[i];
      table(ps[0]) + rest
  }

  /** `Array.from(new Set(ps.flatMap(table)))`: everything some member's
      entry holds, once each, in order of first occurrence. */
  function Union<P, T(==,!new)>(ps: seq<P>, table: P -> seq<T>): (r: seq<T>)
    ensures forall x :: x in r <==> exists i :: 0 <= i < |ps| && x in table(ps[i])
    ensures forall i, j :: 0 <= i < j < |r| ==> r[i] != r[j]
    ensures InFirstOrder(r, FlatMap(ps, table))
  {
    DistinctFromOrder(FlatMap(ps, table), {});
    Distinct(FlatMap(ps, table))
  }
}

=== FILE: store.dfy ===
/** The local half of `services/dbService.ts`: records are untyped objects,
    modelled as maps from field names to values, where an absent key is
    `undefined`. Covers `applyRedundancy` (alias normalisation),
    `queryTenant`, `prepareForCloud` and the local effect of `update` and
    `delete`. The clock is a parameter (`now`). */
module Store {
  import opened Wrappers
  import opened Seqs
  import opened Strings

  /** A field value. `Other` is an object or array, known by its `String()` text. */
  datatype Value = Str(s: string) | Num(n: int) | Bool(b: bool) | Null | Other(text: string)

  type Obj = map<string, Value>

  /** JavaScript truthiness (NaN is not a modelled number). */
  predicate Truthy(v: Value) {
    match v
    case Str(s) => s != ""
    case Num(n) => n != 0
    case Bool(b) => b
    case Null => false
    case Other(_) => true
  }

  predicate TruthyAt(o: Obj, k: string) {
    k in o && Truthy(o[k])
  }

  function IntText(n: int): string {
    if n < 0 then "-" + NatText(-n) else NatText(n)
  }

  /** `String(v)`. */
  function ToText(v: Value): string {
    match v
    case Str(s) => s
    case Num(n) => IntText(n)
    case Bool(b) => if b then "true" else "false"
    case Null => "null"
    case Other(t) => t
  }

  // ------------------------------------------------------- applyRedundancy

  const NomenclatureSize := 68

  /** Entry `i` of `NOMENCLATURE_MAP`, in insertion order: (camelCase, snake_case). */
  function Nomenclature(i: nat): (string, string)
    requires i < NomenclatureSize
  {
    if i == 0 then ("companyId", "company_id")
    else if i == 1 then ("id_companies", "company_id")
    else if i == 2 then ("userName", "user_name")
    else if i == 3 then ("planId", "plan_id")
    else if i == 4 then ("natureza", "natureza")
    else if i == 5 then ("expiresAt", "expires_at")
    else if i == 6 then ("createdAt", "created_at")
    else if i == 7 then ("timestamp", "created_at")
    else if i == 8 then ("updatedAt", "updated_at")
    else if i == 9 then ("updated_at", "updated_at")
    else if i == 10 then ("createdBy", "created_by")
    else if i == 11 then ("updatedBy", "updated_by")
    else if i == 12 then ("maxUsers", "max_users")
    else if i == 13 then ("minStock", "min_stock")
    else if i == 14 then ("maxStock", "max_stock")
    else if i == 15 then ("buyPrice", "buy_price")
    else if i == 16 then ("sellPrice", "sell_price")
    else if i == 17 then ("showInSale", "show_in_sale")
    else if i == 18 then ("showInPurchase", "show_in_purchase")
    else if i == 19 then ("showInSettle", "show_in_settle")
    else if i == 20 then ("showInBankManual", "show_in_bank_manual")
    else if i == 21 then ("showInPdvManual", "show_in_pdv_manual")
    else if i == 22 then ("showInManualPdv", "show_in_manual_pdv")
    else if i == 23 then ("showInCashierClose", "show_in_cashier_close")
    else if i == 24 then ("showInOpening", "show_in_opening")
    else if i == 25 then ("showInSales", "show_in_sales")
    else if i == 26 then ("showInPurchases", "show_in_purchases")
    else if i == 27 then ("showInLiquidation", "show_in_liquidation")
    else if i == 28 then ("isDefault", "is_default")
    else if i == 29 then ("dueDate", "due_date")
    else if i == 30 then ("liquidationDate", "liquidation_date")
    else if i == 31 then ("paymentTermId", "payment_term_id")
    else if i == 32 then ("walletEntry", "wallet_entry")
    else if i == 33 then ("walletExit", "wallet_exit")
    else if i == 34 then ("isReconciled", "is_reconciled")
    else if i == 35 then ("isReversed", "is_reversed")
    else if i == 36 then ("changeValue", "change_value")
    else if i == 37 then ("paymentMethod", "payment_method")
    else if i == 38 then ("materialId", "material_id")
    else if i == 39 then ("materialName", "material_name")
    else if i == 40 then ("openingBalance", "opening_balance")
    else if i == 41 then ("closingBalance", "closing_balance")
    else if i == 42 then ("expectedBalance", "expected_balance")
    else if i == 43 then ("reconciledBalance", "auditoria_corrigida")
    else if i == 44 then ("openingTime", "opening_time")
    else if i == 45 then ("closingTime", "closing_time")
    else if i == 46 then ("reconciledAt", "reconciled_at")
    else if i == 47 then ("reconciledById", "reconciled_by_id")
    else if i == 48 then ("reconciledByName", "reconciled_by_name")
    else if i == 49 then ("physicalBreakdown", "physical_breakdown")
    else if i == 50 then ("reconciledBreakdown", "reconciled_breakdown")
    else if i == 51 then ("parceiroId", "parceiro_id")
    else if i == 52 then ("transactionId", "transaction_id")
    else if i == 53 then ("caixaId", "caixa_id")
    else if i == 54 then ("userId", "user_id")
    else if i == 55 then ("usuario_id", "user_id")
    else if i == 56 then ("difference", "difference")
    else if i == 57 then ("requestedById", "requested_by_id")
    else if i == 58 then ("requestedByName", "requested_by_name")
    else if i == 59 then ("protocolId", "protocol_id")
    else if i == 60 then ("approvalCode", "approval_code")
    else if i == 61 then ("respondedAt", "responded_at")
    else if i == 62 then ("respondedById", "responded_by_id")
    else if i == 63 then ("respondedByName", "responded_by_name")
    else if i == 64 then ("actionKey", "action_key")
    else if i == 65 then ("actionLabel", "action_label")
    else if i == 66 then ("actionPayload", "action_payload")
    else ("amount", "valor")
  }


  /** `company_id || companyId || id_companies`, when that is truthy. */
  function CompanyIdOf(o: Obj): (r: Option<Value>)
    ensures r.Some? <==> TruthyAt(o, "company_id") || TruthyAt(o, "companyId") || TruthyAt(o, "id_companies")
    ensures r.Some? ==> Truthy(r.value)
    ensures TruthyAt(o, "company_id") ==> r == Some(o["company_id"])
    ensures !TruthyAt(o, "company_id") && TruthyAt(o, "companyId") ==> r == Some(o["companyId"])
    ensures !TruthyAt(o, "company_id") && !TruthyAt(o, "companyId") && TruthyAt(o, "id_companies") ==> r == Some(o["id_companies"])
  {
    if TruthyAt(o, "company_id") then Some(o["company_id"])
    else if TruthyAt(o, "companyId") then Some(o["companyId"])
    else if TruthyAt(o, "id_companies") then Some(o["id_companies"])
    else None
  }

  predicate IsCompanyKey(k: string) {
    k == "company_id" || k == "companyId" || k == "id_companies"
  }

  /** The three company-id spellings all become the trimmed text of the first truthy one. */
  function AliasCompany(o: Obj): (r: Obj)
    ensures CompanyIdOf(o).None? ==> r == o
    ensures CompanyIdOf(o).Some? ==>
      var t := Str(Trim(ToText(CompanyIdOf(o).value)));
      "company_id" in r && "companyId" in r && "id_companies" in r &&
      r["company_id"] == t && r["companyId"] == t && r["id_companies"] == t
    ensures forall k :: k in r <==> k in o || (CompanyIdOf(o).Some? && IsCompanyKey(k))
    ensures forall k :: k in o && !IsCompanyKey(k) ==> r[k] == o[k]
  {
    match CompanyIdOf(o)
    case None => o
    case Some(cid) =>
      var t := Str(Trim(ToText(cid)));
      o["company_id" := t]["companyId" := t]["id_companies" := t]
  }

  /** `if (o[from] && !o[to]) o[to] = o[from]`. */
  function CopyIfFalsy(o: Obj, from: string, to: string): Obj {
    if TruthyAt(o, from) && !TruthyAt(o, to) then o[to := o[from]] else o
  }

  predicate IsPlanKey(k: string) {
    k == "plan_id" || k == "planId" || k == "expires_at" || k == "expiresAt"
  }

  /** Both spellings are defined and equally truthy, so neither copy fires. */
  predicate PairAgrees(o: Obj, a: string, b: string) {
    a in o && b in o && Truthy(o[a]) == Truthy(o[b])
  }

  /** The plan and expiry spellings: a truthy one is copied over a falsy one. */
  function AliasPlan(o: Obj): (r: Obj)
    ensures forall k :: k in r <==> k in o || (IsPlanKey(k) && k in r)
    ensures forall k :: k in o ==> k in r
    ensures forall k :: k in o && !IsPlanKey(k) ==> r[k] == o[k]
    ensures TruthyAt(o, "plan_id") || TruthyAt(o, "planId") ==> TruthyAt(r, "plan_id") && TruthyAt(r, "planId")
    ensures TruthyAt(o, "expires_at") || TruthyAt(o, "expiresAt") ==> TruthyAt(r, "expires_at") && TruthyAt(r, "expiresAt")
    ensures PairAgrees(o, "plan_id", "planId") ==> r["plan_id"] == o["plan_id"] && r["planId"] == o["planId"]
    ensures PairAgrees(o, "expires_at", "expiresAt") ==> r["expires_at"] == o["expires_at"] && r["expiresAt"] == o["expiresAt"]
  {
    var a := CopyIfFalsy(o, "plan_id", "planId");
    var b := CopyIfFalsy(a, "planId", "plan_id");
    var c := CopyIfFalsy(b, "expires_at", "expiresAt");
    CopyIfFalsy(c, "expiresAt", "expires_at")
  }

  function NomenclaturePairs(): (r: seq<(string, string)>)
    ensures |r| == NomenclatureSize && forall i :: 0 <= i < NomenclatureSize ==> r[i] == Nomenclature(i)
  {
    seq(NomenclatureSize, i requires 0 <= i < NomenclatureSize => Nomenclature(i))
  }

  /** One entry of the nomenclature loop: fill whichever spelling is undefined. */
  function FillStep(o: Obj, camel: string, snake: string): Obj {
    if camel in o && snake !in o then o[snake := o[camel]]
    else if snake in o && camel !in o then o[camel := o[snake]]
    else o
  }

  /** The nomenclature loop. It never removes a key or changes a defined
      value, it adds only spellings named by some pair, and every pair with
      either spelling defined on entry has both defined on exit. */
  function FillAliases(o: Obj, pairs: seq<(string, string)>): (r: Obj)
    ensures forall k :: k in o ==> k in r && r[k] == o[k]
    ensures forall k :: k in r ==> k in o || exists i :: 0 <= i < |pairs| && (k == pairs[i].0 || k == pairs[i].1)
    ensures forall i :: 0 <= i < |pairs| && (pairs[i].0 in o || pairs[i].1 in o) ==> pairs[i].0 in r && pairs[i].1 in r
    decreases |pairs|
  {
    if |pairs| == 0 then o
    else
      var step := FillStep(o, pairs[0].0, pairs[0].1);
      var r := FillAliases(step, pairs[1..]);
      assert forall i :: 1 <= i < |pairs| ==> pairs[i] == pairs[1..][i - 1];
      r
  }

  /** `applyRedundancy`. */
  function ApplyRedundancy(o: Obj): Obj {
    FillAliases(AliasPlan(AliasCompany(o)), NomenclaturePairs())
  }

  /** A truthy company id, trimmed, ends up under all three spellings. */
  lemma ApplyRedundancyCompany(o: Obj)
    requires CompanyIdOf(o).Some?
    ensures var r := ApplyRedundancy(o); var t := Str(Trim(ToText(CompanyIdOf(o).value)));
      "company_id" in r && "companyId" in r && "id_companies" in r &&
      r["company_id"] == t && r["companyId"] == t && r["id_companies"] == t
  {
    var x := AliasCompany(o);
    var y := AliasPlan(x);
    PlanKeeps(x, "company_id");
    PlanKeeps(x, "companyId");
    PlanKeeps(x, "id_companies");
    FillKeeps(y, NomenclaturePairs(), "company_id");
    FillKeeps(y, NomenclaturePairs(), "companyId");
    FillKeeps(y, NomenclaturePairs(), "id_companies");
  }

  lemma PlanKeeps(x: Obj, k: string)
    requires k in x && !IsPlanKey(k)
    ensures k in AliasPlan(x) && AliasPlan(x)[k] == x[k]
  {
  }

  lemma FillKeeps(y: Obj, pairs: seq<(string, string)>, k: string)
    requires k in y
    ensures k in FillAliases(y, pairs) && FillAliases(y, pairs)[k] == y[k]
  {
  }

  /** Whether `k` is a truthy key of `o`, unchanged by the loop. */
  lemma FillKeepsTruthy(y: Obj, pairs: seq<(string, string)>, k: string)
    ensures TruthyAt(y, k) ==> TruthyAt(FillAliases(y, pairs), k)
  {
  }

  /** A truthy plan (or expiry) under one spelling is truthy under both. */
  lemma ApplyRedundancyPlan(o: Obj)
    ensures TruthyAt(o, "plan_id") || TruthyAt(o, "planId") ==>
      TruthyAt(ApplyRedundancy(o), "plan_id") && TruthyAt(ApplyRedundancy(o), "planId")
    ensures TruthyAt(o, "expires_at") || TruthyAt(o, "expiresAt") ==>
      TruthyAt(ApplyRedundancy(o), "expires_at") && TruthyAt(ApplyRedundancy(o), "expiresAt")
  {
    var x := AliasCompany(o);
    CompanyKeepsPlan(o);
    var y := AliasPlan(x);
    var pairs := NomenclaturePairs();
    FillKeepsTruthy(y, pairs, "plan_id");
    FillKeepsTruthy(y, pairs, "planId");
    FillKeepsTruthy(y, pairs, "expires_at");
    FillKeepsTruthy(y, pairs, "expiresAt");
  }

  /** The company step leaves the plan and expiry spellings alone. */
  lemma CompanyKeepsPlan(o: Obj)
    ensures forall k :: IsPlanKey(k) ==> TruthyAt(o, k) == TruthyAt(AliasCompany(o), k)
  {
    assert forall k :: IsPlanKey(k) ==> !IsCompanyKey(k);
  }

  /** No key is lost, and keys outside the company, plan and expiry groups
      keep their values. */
  lemma ApplyRedundancyKeeps(o: Obj)
    ensures forall k :: k in o ==> k in ApplyRedundancy(o)
    ensures forall k :: k in o && !IsCompanyKey(k) && !IsPlanKey(k) ==> ApplyRedundancy(o)[k] == o[k]
  {
  }

  /** Every nomenclature pair with one spelling defined ends with both. */
  lemma ApplyRedundancyPairs(o: Obj)
    ensures forall i :: 0 <= i < NomenclatureSize && (Nomenclature(i).0 in o || Nomenclature(i).1 in o) ==>
      Nomenclature(i).0 in ApplyRedundancy(o) && Nomenclature(i).1 in ApplyRedundancy(o)
  {
  }

  /** A spelling that no nomenclature entry names, and that is neither a
      company nor a plan spelling, passes through `applyRedundancy`
      untouched: present with its value, or absent. */
  lemma ApplyRedundancyUnnamed(o: Obj, k: string)
    requires !IsCompanyKey(k) && !IsPlanKey(k)
    requires forall j :: 0 <= j < NomenclatureSize ==> Nomenclature(j).0 != k && Nomenclature(j).1 != k
    ensures k in ApplyRedundancy(o) <==> k in o
    ensures k in o ==> ApplyRedundancy(o)[k] == o[k]
  {
    var pairs := NomenclaturePairs();
    FillUnnamed(AliasPlan(AliasCompany(o)), pairs, k);
  }

  /** A nomenclature pair that no other entry names, and that holds neither
      a company nor a plan spelling, ends with the object's own values, the
      missing spelling copied from the present one. */
  lemma ApplyRedundancyPair(o: Obj, i: nat, a: string, b: string)
    requires i < NomenclatureSize && Nomenclature(i) == (a, b) && a != b
    requires !IsCompanyKey(a) && !IsCompanyKey(b) && !IsPlanKey(a) && !IsPlanKey(b)
    requires forall j :: 0 <= j < NomenclatureSize && j != i ==>
      Nomenclature(j).0 != a && Nomenclature(j).1 != a && Nomenclature(j).0 != b && Nomenclature(j).1 != b
    ensures var r := ApplyRedundancy(o);
      && (a in r <==> a in o || b in o) && (b in r <==> a in o || b in o)
      && (a in r ==> r[a] == (if a in o then o[a] else o[b]))
      && (b in r ==> r[b] == (if b in o then o[b] else o[a]))
  {
    var pairs := NomenclaturePairs();
    assert OnlyPairNames(pairs, i, a, b);
    FillPair(AliasPlan(AliasCompany(o)), pairs, i, a, b);
  }

  /** The manual-PDV and category-flag entries name spellings no other
      entry names. */
  predicate PairAlone(i: nat)
    requires i < NomenclatureSize
  {
    forall j :: 0 <= j < NomenclatureSize && j != i ==>
      && Nomenclature(j).0 != Nomenclature(i).0 && Nomenclature(j).1 != Nomenclature(i).0
      && Nomenclature(j).0 != Nomenclature(i).1 && Nomenclature(j).1 != Nomenclature(i).1
  }

  lemma PdvManualPairAlone()
    ensures Nomenclature(21) == ("showInPdvManual", "show_in_pdv_manual") && PairAlone(21)
  {
    assert forall j :: 0 <= j < NomenclatureSize && j != 21 ==>
      && Nomenclature(j).0 != "showInPdvManual" && Nomenclature(j).1 != "showInPdvManual"
      && Nomenclature(j).0 != "show_in_pdv_manual" && Nomenclature(j).1 != "show_in_pdv_manual";
  }

  lemma ManualPdvPairAlone()
    ensures Nomenclature(22) == ("showInManualPdv", "show_in_manual_pdv") && PairAlone(22)
  {
    assert forall j :: 0 <= j < NomenclatureSize && j != 22 ==>
      && Nomenclature(j).0 != "showInManualPdv" && Nomenclature(j).1 != "showInManualPdv"
      && Nomenclature(j).0 != "show_in_manual_pdv" && Nomenclature(j).1 != "show_in_manual_pdv";
  }

  lemma SalesPairAlone()
    ensures Nomenclature(25) == ("showInSales", "show_in_sales") && PairAlone(25)
  {
    assert forall j :: 0 <= j < NomenclatureSize && j != 25 ==>
      && Nomenclature(j).0 != "showInSales" && Nomenclature(j).1 != "showInSales"
      && Nomenclature(j).0 != "show_in_sales" && Nomenclature(j).1 != "show_in_sales";
  }

  lemma PurchasesPairAlone()
    ensures Nomenclature(26) == ("showInPurchases", "show_in_purchases") && PairAlone(26)
  {
    assert forall j :: 0 <= j < NomenclatureSize && j != 26 ==>
      && Nomenclature(j).0 != "showInPurchases" && Nomenclature(j).1 != "showInPurchases"
      && Nomenclature(j).0 != "show_in_purchases" && Nomenclature(j).1 != "show_in_purchases";
  }

  lemma LiquidationPairAlone()
    ensures Nomenclature(27) == ("showInLiquidation", "show_in_liquidation") && PairAlone(27)
  {
    assert forall j :: 0 <= j < NomenclatureSize && j != 27 ==>
      && Nomenclature(j).0 != "showInLiquidation" && Nomenclature(j).1 != "showInLiquidation"
      && Nomenclature(j).0 != "show_in_liquidation" && Nomenclature(j).1 != "show_in_liquidation";
  }

  lemma ReversedPairAlone()
    ensures Nomenclature(35) == ("isReversed", "is_reversed") && PairAlone(35)
  {
    assert forall j :: 0 <= j < NomenclatureSize && j != 35 ==>
      && Nomenclature(j).0 != "isReversed" && Nomenclature(j).1 != "isReversed"
      && Nomenclature(j).0 != "is_reversed" && Nomenclature(j).1 != "is_reversed";
  }

  /** The title-launch flag has no entry: neither spelling is ever filled
      from the other. */
  lemma TitleLaunchUnnamed()
    ensures forall j :: 0 <= j < NomenclatureSize ==>
      && Nomenclature(j).0 != "show_in_title_launch" && Nomenclature(j).1 != "show_in_title_launch"
      && Nomenclature(j).0 != "showInTitleLaunch" && Nomenclature(j).1 != "showInTitleLaunch"
  {
  }

  // ------------------------------------------------------- shape of a normalised object

  /** Only the pair at `i` names `a` or `b`. */
  predicate OnlyPairNames(pairs: seq<(string, string)>, i: nat, a: string, b: string) {
    forall j :: 0 <= j < |pairs| && j != i ==>
      pairs[j].0 != a && pairs[j].1 != a && pairs[j].0 != b && pairs[j].1 != b
  }

  /** A pair no other entry mentions ends as one `FillStep` leaves it. */
  lemma {:induction false} FillPair(o: Obj, pairs: seq<(string, string)>, i: nat, a: string, b: string)
    requires i < |pairs| && pairs[i] == (a, b) && a != b
    requires OnlyPairNames(pairs, i, a, b)
    ensures var r := FillAliases(o, pairs);
      && (a in r <==> a in o || b in o) && (b in r <==> a in o || b in o)
      && (a in r ==> r[a] == (if a in o then o[a] else o[b]))
      && (b in r ==> r[b] == (if b in o then o[b] else o[a]))
    decreases i
  {
    var step := FillStep(o, pairs[0].0, pairs[0].1);
    assert forall j :: 0 <= j < |pairs[1..]| ==> pairs[1..][j] == pairs[j + 1];
    if i > 0 {
      FillPair(step, pairs[1..], i - 1, a, b);
    }
  }

  lemma PlanKeysAlone()
    ensures forall j :: 0 <= j < NomenclatureSize && j != 3 ==>
      Nomenclature(j).0 != "planId" && Nomenclature(j).1 != "planId" &&
      Nomenclature(j).0 != "plan_id" && Nomenclature(j).1 != "plan_id"
  {
  }

  lemma ExpiryKeysAlone()
    ensures forall j :: 0 <= j < NomenclatureSize && j != 5 ==>
      Nomenclature(j).0 != "expiresAt" && Nomenclature(j).1 != "expiresAt" &&
      Nomenclature(j).0 != "expires_at" && Nomenclature(j).1 != "expires_at"
  {
  }

  lemma CompanyPairsFirst()
    ensures forall j :: 2 <= j < NomenclatureSize ==>
      !IsCompanyKey(Nomenclature(j).0) && !IsCompanyKey(Nomenclature(j).1)
  {
  }

  /** A spelling no pair names passes through the loop untouched. */
  lemma FillUnnamed(o: Obj, pairs: seq<(string, string)>, k: string)
    requires forall j :: 0 <= j < |pairs| ==> pairs[j].0 != k && pairs[j].1 != k
    ensures (k in FillAliases(o, pairs) <==> k in o) && (k in o ==> FillAliases(o, pairs)[k] == o[k])
  {
  }

  /** The first two entries of the nomenclature loop, the only ones that
      name a company-id spelling. */
  function CompanyFill(o: Obj): Obj {
    FillStep(FillStep(o, "companyId", "company_id"), "id_companies", "company_id")
  }

  lemma FillFirstTwo(o: Obj)
    ensures FillAliases(o, NomenclaturePairs()) == FillAliases(CompanyFill(o), NomenclaturePairs()[2..])
  {
    var p := NomenclaturePairs();
    assert p[0] == ("companyId", "company_id") && p[1] == ("id_companies", "company_id");
    FillTwo(o, p);
  }

  /** The loop's first two steps, taken one at a time. */
  lemma FillTwo(o: Obj, p: seq<(string, string)>)
    requires |p| >= 2
    ensures FillAliases(o, p) == FillAliases(FillStep(FillStep(o, p[0].0, p[0].1), p[1].0, p[1].1), p[2..])
  {
    var s1 := FillStep(o, p[0].0, p[0].1);
    assert FillAliases(o, p) == FillAliases(s1, p[1..]);
    assert p[1..][0] == p[1] && p[1..][1..] == p[2..];
  }

  lemma LaterPairsNoCompany(k: string)
    requires IsCompanyKey(k)
    ensures var rest := NomenclaturePairs()[2..];
      forall j :: 0 <= j < |rest| ==> rest[j].0 != k && rest[j].1 != k
  {
    var rest := NomenclaturePairs()[2..];
    CompanyPairsFirst();
    assert forall j :: 0 <= j < |rest| ==> rest[j] == Nomenclature(j + 2);
  }

  /** After the loop the company spellings are as the first two entries left them. */
  lemma FillCompanyKeys(o: Obj)
    ensures var r := FillAliases(o, NomenclaturePairs()); var z := CompanyFill(o);
      forall k :: IsCompanyKey(k) ==> (k in r <==> k in z) && (k in z ==> r[k] == z[k])
  {
    FillFirstTwo(o);
    forall k | IsCompanyKey(k)
      ensures var r := FillAliases(o, NomenclaturePairs()); var z := CompanyFill(o);
        (k in r <==> k in z) && (k in z ==> r[k] == z[k])
    {
      LaterPairsNoCompany(k);
      FillUnnamed(CompanyFill(o), NomenclaturePairs()[2..], k);
    }
  }

  /** How a normalised object can hold its company id: under no spelling,
      falsy under all three, or as one trimmed text under all three. */
  predicate CompanyShape(n: Obj) {
    || ("company_id" !in n && "companyId" !in n && "id_companies" !in n)
    || ("company_id" in n && "companyId" in n && "id_companies" in n &&
        (|| (!Truthy(n["company_id"]) && !Truthy(n["companyId"]) && !Truthy(n["id_companies"]))
         || (n["companyId"] == n["company_id"] && n["id_companies"] == n["company_id"] &&
             n["company_id"].Str? && Trim(n["company_id"].s) == n["company_id"].s)))
  }

  /** A falsy `id_companies` given without either other spelling: the loop
      fills `company_id` from it but never `companyId`. */
  predicate CompanyAliasesClosed(o: Obj) {
    "id_companies" in o && !Truthy(o["id_companies"]) ==> "company_id" in o || "companyId" in o
  }

  /** With no truthy company id, the first two loop entries leave the
      spellings all absent or all present, and all falsy. */
  lemma CompanyFillFalsy(x: Obj)
    requires CompanyIdOf(x).None? && CompanyAliasesClosed(x)
    ensures CompanyShape(CompanyFill(x))
  {
  }

  /** `CompanyShape` depends on the company spellings alone. */
  lemma CompanyShapeSameKeys(a: Obj, b: Obj)
    requires forall k :: IsCompanyKey(k) ==> (k in a <==> k in b) && (k in a ==> a[k] == b[k])
    requires CompanyShape(a)
    ensures CompanyShape(b)
  {
    assert IsCompanyKey("company_id") && IsCompanyKey("companyId") && IsCompanyKey("id_companies");
  }

  lemma NormalizedCompanyShape(o: Obj)
    requires CompanyAliasesClosed(o)
    ensures CompanyShape(ApplyRedundancy(o))
  {
    match CompanyIdOf(o)
    case Some(cid) =>
      ApplyRedundancyCompany(o);
      TrimIdempotent(ToText(cid));
    case None =>
      var x := AliasPlan(o);
      assert AliasCompany(o) == o;
      assert forall k :: IsCompanyKey(k) ==> !IsPlanKey(k);
      assert forall k :: IsCompanyKey(k) ==> (k in x <==> k in o) && (k in o ==> x[k] == o[k]);
      CompanyFillFalsy(x);
      FillCompanyKeys(x);
      CompanyShapeSameKeys(CompanyFill(x), ApplyRedundancy(o));
  }

  /** Each plan and expiry pair is defined under both spellings or neither,
      and equally truthy under both. */
  predicate PlanShape(n: Obj) {
    && ("plan_id" in n <==> "planId" in n)
    && ("plan_id" in n ==> Truthy(n["plan_id"]) == Truthy(n["planId"]))
    && ("expires_at" in n <==> "expiresAt" in n)
    && ("expires_at" in n ==> Truthy(n["expires_at"]) == Truthy(n["expiresAt"]))
  }

  lemma NormalizedPlanShape(o: Obj)
    ensures PlanShape(ApplyRedundancy(o))
  {
    var y := AliasPlan(AliasCompany(o));
    AliasPlanAgrees(AliasCompany(o));
    PlanPairFilled(y);
    ExpiryPairFilled(y);
  }

  lemma PlanPairFilled(y: Obj)
    requires TruthyAt(y, "planId") <==> TruthyAt(y, "plan_id")
    ensures var r := FillAliases(y, NomenclaturePairs());
      ("planId" in r <==> "plan_id" in r) && ("planId" in r ==> Truthy(r["planId"]) == Truthy(r["plan_id"]))
  {
    PlanKeysAlone();
    FilledPairAgrees(y, 3, "planId", "plan_id");
  }

  lemma ExpiryPairFilled(y: Obj)
    requires TruthyAt(y, "expiresAt") <==> TruthyAt(y, "expires_at")
    ensures var r := FillAliases(y, NomenclaturePairs());
      ("expiresAt" in r <==> "expires_at" in r) && ("expiresAt" in r ==> Truthy(r["expiresAt"]) == Truthy(r["expires_at"]))
  {
    ExpiryKeysAlone();
    FilledPairAgrees(y, 5, "expiresAt", "expires_at");
  }

  /** After the plan step each pair is equally truthy under both spellings. */
  lemma AliasPlanAgrees(x: Obj)
    ensures TruthyAt(AliasPlan(x), "plan_id") <==> TruthyAt(AliasPlan(x), "planId")
    ensures TruthyAt(AliasPlan(x), "expires_at") <==> TruthyAt(AliasPlan(x), "expiresAt")
  {
  }

  /** A pair that is equally truthy under both spellings and that no other
      entry names ends defined under both or neither, still equally truthy. */
  lemma FilledPairAgrees(y: Obj, i: nat, a: string, b: string)
    requires i < NomenclatureSize && Nomenclature(i) == (a, b) && a != b
    requires forall j :: 0 <= j < NomenclatureSize && j != i ==>
      Nomenclature(j).0 != a && Nomenclature(j).1 != a && Nomenclature(j).0 != b && Nomenclature(j).1 != b
    requires TruthyAt(y, a) <==> TruthyAt(y, b)
    ensures var r := FillAliases(y, NomenclaturePairs());
      (a in r <==> b in r) && (a in r ==> Truthy(r[a]) == Truthy(r[b]))
  {
    var pairs := NomenclaturePairs();
    assert OnlyPairNames(pairs, i, a, b);
    FillPair(y, pairs, i, a, b);
  }

  // ------------------------------------------------------- queryTenant

  /** `String(item.company_id || item.companyId || '').trim()`. */
  function ItemCompany(item: Obj): string {
    var v := if TruthyAt(item, "company_id") then item["company_id"]
             else if TruthyAt(item, "companyId") then item["companyId"]
             else Str("");
    Trim(ToText(v))
  }

  /** A target that selects every tenant. */
  predicate BlankTarget(t: string) {
    t == "" || t == "null" || t == "undefined"
  }

  predicate InTenant(target: string, itemCompany: string) {
    BlankTarget(target) || itemCompany == target
  }

  function TenantFilter(target: string, filter: Obj -> bool): Obj -> bool {
    (x: Obj) => InTenant(target, ItemCompany(x)) && filter(x)
  }

  /** `queryTenant(table, companyId, filter)`; a `null` company id is "". */
  function QueryTenant(items: seq<Obj>, companyId: string, filter: Obj -> bool): (r: seq<Obj>)
    ensures IsSubseq(r, Map(items, ApplyRedundancy))
    ensures BlankTarget(Trim(companyId)) ==> r == Filter(Map(items, ApplyRedundancy), filter)
    ensures !BlankTarget(Trim(companyId)) ==>
      forall x :: x in r <==> x in Map(items, ApplyRedundancy) && ItemCompany(x) == Trim(companyId) && filter(x)
  {
    var all := Map(items, ApplyRedundancy);
    var target := Trim(companyId);
    if BlankTarget(target) then
      FilterSame(all, TenantFilter(target, filter), filter);
      Filter(all, TenantFilter(target, filter))
    else
      Filter(all, TenantFilter(target, filter))
  }

  // ------------------------------------------------------- prepareForCloud

  /** `TABLE_COLUMNS[table] || []`. */
  function TableColumns(table: string): seq<string> {
    if table == "users" || table == "profiles" then
      ["id", "email", "name", "role", "profile", "company_id", "permissions", "created_at"]
    else if table == "financials" then
      ["id", "company_id", "user_id", "tipo", "natureza", "categoria", "valor", "status", "description",
       "due_date", "parceiro_id", "transaction_id", "caixa_id", "payment_term_id", "liquidation_date",
       "forma_pagamento", "created_at", "updated_at"]
    else if table == "transactions" then
      ["id", "company_id", "user_id", "valor", "status", "natureza", "tipo", "items", "created_at"]
    else if table == "materials" then
      ["id", "company_id", "name", "unit", "stock", "min_stock", "max_stock", "buy_price", "sell_price",
       "created_at", "updated_at"]
    else if table == "cashierSessions" then
      ["id", "company_id", "user_id", "user_name", "type", "status", "opening_balance", "closing_balance",
       "expected_balance", "auditoria_corrigida", "difference", "opening_time", "closing_time",
       "reconciled_at", "reconciled_by_id", "reconciled_by_name", "physical_breakdown",
       "reconciled_breakdown", "created_at", "updated_at"]
    else if table == "walletTransactions" then
      ["id", "company_id", "user_id", "id_original", "categoria", "parceiro", "payment_term_id", "descricao",
       "valor_entrada", "valor_saida", "saldo_real", "status", "operador_id", "operador_name", "created_at",
       "updated_at"]
    else if table == "partners" then
      ["id", "company_id", "name", "type", "document", "phone", "created_at"]
    else if table == "paymentTerms" then
      ["id", "uuid", "company_id", "user_id", "name", "days", "installments", "type", "show_in_sale",
       "show_in_purchase", "show_in_settle", "show_in_bank_manual", "show_in_pdv_manual",
       "show_in_manual_pdv", "show_in_cashier_close", "show_in_opening", "is_default", "created_at",
       "updated_at"]
    else if table == "financeCategories" then
      ["id", "company_id", "user_id", "name", "type", "is_default", "show_in_sales", "show_in_purchases",
       "show_in_liquidation", "show_in_bank_manual", "show_in_pdv_manual", "created_at", "updated_at"]
    else if table == "banks" then
      ["id", "company_id", "user_id", "name", "code", "agency", "account", "status", "is_default",
       "created_at", "updated_at"]
    else if table == "logs" then
      ["id", "company_id", "user_id", "user_name", "action", "details", "created_at"]
    else if table == "invites" then
      ["id", "company_id", "user_id", "code", "name", "email", "profile", "permissions", "status",
       "created_by", "created_at", "updated_at"]
    else if table == "companies" then
      ["id", "name", "cnpj", "plan_id", "status", "expires_at", "created_at"]
    else if table == "plans" then
      ["id", "name", "price", "max_users", "modules", "billing_cycle", "is_active", "created_at"]
    else if table == "authorization_requests" then
      ["id", "company_id", "action_key", "action_label", "action_payload", "requested_by_id",
       "requested_by_name", "protocol_id", "approval_code", "status", "created_at", "responded_at",
       "responded_by_id", "responded_by_name"]
    else []
  }

  predicate IsIdColumn(col: string) {
    col in ["id", "payment_term_id", "requested_by_id", "responded_by_id", "user_id", "company_id",
            "plan_id", "caixa_id", "transaction_id", "parceiro_id"]
  }

  predicate IsNumericColumn(col: string) {
    col in ["opening_balance", "closing_balance", "expected_balance", "auditoria_corrigida", "difference",
            "valor", "valor_entrada", "valor_saida", "saldo_real", "stock", "buy_price", "sell_price",
            "price", "max_users"]
  }

  /** An id column: empty, 'null' and null become null, anything else its text. */
  function CloudId(v: Value): (r: Value)
    ensures r == Null <==> v == Str("") || v == Str("null") || v == Null
    ensures r != Null ==> r == Str(ToText(v))
  {
    if v == Str("") || v == Str("null") || v == Null then Null else Str(ToText(v))
  }

  /** The value of the run of decimal digits at the front of `s`. */
  function LeadingNat(s: string): nat
    decreases |s|
  {
    if |s| == 0 || !IsDigit(s[0]) then 0
    else DigitsValue(TakeDigits(s))
  }

  function TakeDigits(s: string): (r: string)
    ensures r <= s && AllDigits(r)
    decreases |s|
  {
    if |s| == 0 || !IsDigit(s[0]) then [] else [s[0]] + TakeDigits(s[1..])
  }

  /** `parseNum` on whole numbers: a number stays, null and undefined are 0,
      text is read as an optionally negative leading integer (0 if none). */
  function ParseNum(v: Value): (r: Value)
    ensures r.Num?
    ensures v.Num? ==> r == v
    ensures v == Null ==> r == Num(0)
  {
    match v
    case Num(n) => v
    case Null => Num(0)
    case Str(s) =>
      if |s| > 0 && s[0] == '-' then Num(-(LeadingNat(s[1..]) as int)) else Num(LeadingNat(s))
    case _ => Num(0)
  }

  function CloudValue(col: string, v: Value): Value {
    if IsIdColumn(col) then CloudId(v)
    else if IsNumericColumn(col) then ParseNum(v)
    else v
  }

  /** Copies the listed columns that `src` defines, converting each value. */
  function PickColumns(src: Obj, cols: seq<string>, convert: bool): (r: Obj)
    ensures forall k :: k in r <==> k in cols && k in src
    ensures forall k :: k in r ==> r[k] == (if convert then CloudValue(k, src[k]) else src[k])
    decreases |cols|
  {
    if |cols| == 0 then map[]
    else
      var rest := PickColumns(src, cols[1..], convert);
      if cols[0] in src then rest[cols[0] := if convert then CloudValue(cols[0], src[cols[0]]) else src[cols[0]]]
      else rest
  }

  /** `prepareForCloud(obj, table)`. */
  function PrepareForCloud(o: Obj, table: string): (r: Obj)
    ensures forall k :: k in r ==> k in TableColumns(table)
  {
    if table == "users" || table == "profiles" then PickColumns(o, TableColumns(table), false)
    else PickColumns(ApplyRedundancy(o), TableColumns(table), true)
  }

  /** Users and profiles are only whitelisted: the listed columns the object
      defines pass unchanged and nothing else passes. */
  lemma PrepareUsersIsWhitelist(o: Obj, table: string)
    requires table == "users" || table == "profiles"
    ensures forall k :: k in PrepareForCloud(o, table) <==> k in TableColumns(table) && k in o
    ensures forall k :: k in PrepareForCloud(o, table) ==> PrepareForCloud(o, table)[k] == o[k]
  {
  }

  /** Other tables send the normalised object's listed columns: id columns
      as text or null, numeric columns as numbers, the rest unchanged. */
  lemma PrepareOtherColumns(o: Obj, table: string)
    requires table != "users" && table != "profiles"
    ensures var src := ApplyRedundancy(o); var r := PrepareForCloud(o, table);
      && (forall k :: k in r <==> k in TableColumns(table) && k in src)
      && (forall k :: k in r && IsIdColumn(k) ==>
            (r[k] == Null <==> src[k] == Str("") || src[k] == Str("null") || src[k] == Null)
            && (r[k] != Null ==> r[k] == Str(ToText(src[k]))))
      && (forall k :: k in r && !IsIdColumn(k) && IsNumericColumn(k) ==> r[k].Num?)
      && (forall k :: k in r && !IsIdColumn(k) && !IsNumericColumn(k) ==> r[k] == src[k])
  {
  }

  /** An object with a truthy company id reaches the cloud with the trimmed id. */
  lemma PrepareSendsTrimmedCompany(o: Obj, table: string)
    requires table != "users" && table != "profiles" && "company_id" in TableColumns(table)
    requires CompanyIdOf(o).Some?
    ensures var t := Trim(ToText(CompanyIdOf(o).value));
      "company_id" in PrepareForCloud(o, table) &&
      PrepareForCloud(o, table)["company_id"] == (if t == "" || t == "null" then Null else Str(t))
  {
    var t := Trim(ToText(CompanyIdOf(o).value));
    ApplyRedundancyCompany(o);
    PreparedIdColumn(o, table, "company_id");
    CloudIdOfText(t);
  }

  lemma CloudIdOfText(t: string)
    ensures CloudId(Str(t)) == (if t == "" || t == "null" then Null else Str(t))
  {
  }

  lemma PreparedIdColumn(o: Obj, table: string, k: string)
    requires table != "users" && table != "profiles" && k in TableColumns(table)
    requires k in ApplyRedundancy(o) && IsIdColumn(k)
    ensures k in PrepareForCloud(o, table) && PrepareForCloud(o, table)[k] == CloudId(ApplyRedundancy(o)[k])
  {
    assert PrepareForCloud(o, table) == PickColumns(ApplyRedundancy(o), TableColumns(table), true);
  }

  // ------------------------------------------------------- update and delete

  datatype StoreError = NotFound(id: string)

  /** `item.id === id`. */
  function IdIs(id: string): Obj -> bool {
    (o: Obj) => "id" in o && o["id"] == Str(id)
  }

  /** The stored record after `update`: old fields, then the normalised
      update, then the time stamp, normalised again. */
  function Merged(prev: Obj, updates: Obj, now: string): Obj {
    ApplyRedundancy(prev + ApplyRedundancy(updates) + map["updated_at" := Str(now)])
  }

  /** The record transformer of `update(table, id, updates)`. */
  function MergeInto(updates: Obj, now: string): Obj -> Obj {
    (o: Obj) => Merged(o, updates, now)
  }

  /** `update(table, id, updates)` on the local table: the first record
      with that id becomes its merge with the update (see `UpdateRecord`). */
  function Update(table: seq<Obj>, id: string, updates: Obj, now: string): Result<seq<Obj>, StoreError> {
    UpdateRecord(table, id, MergeInto(updates, now))
  }

  /** The first record with that id becomes `merge` of it, every other
      record stays, and a missing id is an error. */
  function UpdateRecord(table: seq<Obj>, id: string, merge: Obj -> Obj): (r: Result<seq<Obj>, StoreError>)
    ensures r.Err? <==> forall i :: 0 <= i < |table| ==> !IdIs(id)(table[i])
    ensures r.Err? ==> r.error == NotFound(id)
    ensures r.Ok? ==>
      var i := FindIndex(table, IdIs(id)).value;
      && |r.value| == |table|
      && r.value[i] == merge(table[i])
      && (forall j :: 0 <= j < |table| && j != i ==> r.value[j] == table[j])
  {
    match UpdateFirst(table, IdIs(id), merge)
    case None => Err(NotFound(id))
    case Some(t) => Ok(t)
  }

  /** Re-normalising the merge keeps a shaped update's company spellings. */
  lemma MergeKeepsCompany(w: Obj, n: Obj)
    requires CompanyShape(n)
    requires forall k :: k in n && IsCompanyKey(k) ==> k in w && w[k] == n[k]
    ensures forall k :: k in n && k in w && w[k] == n[k] ==> k in AliasCompany(w) && AliasCompany(w)[k] == n[k]
  {
    if "company_id" in n {
      var v := n["company_id"];
      if Truthy(v) {
        assert CompanyIdOf(w) == Some(v);
        assert ToText(v) == v.s;
      } else {
        assert CompanyIdOf(w).None?;
      }
    }
  }

  /** Re-normalising the merge keeps a shaped update's plan and expiry spellings. */
  lemma MergeKeepsPlan(y: Obj, n: Obj)
    requires PlanShape(n)
    requires forall k :: k in n && IsPlanKey(k) ==> k in y && y[k] == n[k]
    ensures forall k :: k in n && k in y && y[k] == n[k] ==> k in AliasPlan(y) && AliasPlan(y)[k] == n[k]
  {
  }

  /** Normalising an object that agrees with a shaped `n` on `n`'s keys
      (but perhaps `updated_at`) keeps those values. */
  lemma NormalizeKeepsShaped(w: Obj, n: Obj)
    requires CompanyShape(n) && PlanShape(n)
    requires forall k :: k in n && k != "updated_at" ==> k in w && w[k] == n[k]
    ensures forall k :: k in n && k != "updated_at" ==> k in ApplyRedundancy(w) && ApplyRedundancy(w)[k] == n[k]
  {
    MergeKeepsCompany(w, n);
    var y := AliasCompany(w);
    MergeKeepsPlan(y, n);
  }

  /** `{ ...prev, ...n, updated_at }` agrees with `n` but for `updated_at`. */
  lemma StampedMergeAgrees(prev: Obj, n: Obj, now: string)
    ensures var w := prev + n + map["updated_at" := Str(now)];
      forall k :: k in n && k != "updated_at" ==> k in w && w[k] == n[k]
    ensures var w := prev + n + map["updated_at" := Str(now)];
      forall k :: k in prev && k !in n && k != "updated_at" ==> k in w && w[k] == prev[k]
  {
  }

  /** Every field of the normalised update except `updated_at` reaches the
      stored record unchanged, unless the update clears `id_companies` alone. */
  lemma UpdateCarriesFields(prev: Obj, updates: Obj, now: string)
    requires CompanyAliasesClosed(updates)
    ensures var n := ApplyRedundancy(updates); var m := Merged(prev, updates, now);
      forall k :: k in n && k != "updated_at" ==> k in m && m[k] == n[k]
  {
    var n := ApplyRedundancy(updates);
    NormalizedCompanyShape(updates);
    NormalizedPlanShape(updates);
    var w := prev + n + map["updated_at" := Str(now)];
    StampedMergeAgrees(prev, n, now);
    NormalizeKeepsShaped(w, n);
  }

  /** `{ id_companies: '' }` normalises to an empty `company_id` and no `companyId`. */
  lemma ClearedAloneNormalizes()
    ensures var n := ApplyRedundancy(map["id_companies" := Str("")]);
      && "id_companies" in n && n["id_companies"] == Str("")
      && "company_id" in n && n["company_id"] == Str("")
      && "companyId" !in n
  {
    var u := map["id_companies" := Str("")];
    NoPlanKeysUntouched(u);
    var z := CompanyFill(u);
    assert z == map["id_companies" := Str(""), "company_id" := Str("")];
    FillCompanyKey(u, "id_companies");
    FillCompanyKey(u, "company_id");
    FillCompanyKey(u, "companyId");
  }

  /** Without a truthy company id or any plan spelling, the alias steps
      before the loop change nothing. */
  lemma NoPlanKeysUntouched(o: Obj)
    requires CompanyIdOf(o).None?
    requires "plan_id" !in o && "planId" !in o && "expires_at" !in o && "expiresAt" !in o
    ensures AliasPlan(AliasCompany(o)) == o
  {
  }

  /** One company spelling after the loop. */
  lemma FillCompanyKey(o: Obj, k: string)
    requires IsCompanyKey(k)
    ensures var r := FillAliases(o, NomenclaturePairs()); var z := CompanyFill(o);
      (k in r <==> k in z) && (k in z ==> r[k] == z[k])
  {
    FillFirstTwo(o);
    LaterPairsNoCompany(k);
    FillUnnamed(CompanyFill(o), NomenclaturePairs()[2..], k);
  }

  /** A truthy company id under one spelling is what normalising writes
      under `id_companies`. */
  lemma NormalizedIdCompanies(w: Obj)
    requires CompanyIdOf(w).Some? && CompanyIdOf(w).value.Str?
    ensures "id_companies" in ApplyRedundancy(w)
    ensures ApplyRedundancy(w)["id_companies"] == Str(Trim(CompanyIdOf(w).value.s))
  {
    ApplyRedundancyCompany(w);
  }

  /** The corner case: an update clearing `id_companies` alone normalises
      to an empty id, yet does not clear the stored company: the old
      `companyId` is copied back, trimmed, under `id_companies`. */
  lemma UpdateRestoresClearedCompany(prev: Obj, now: string)
    requires TruthyAt(prev, "companyId") && prev["companyId"].Str?
    ensures ApplyRedundancy(map["id_companies" := Str("")])["id_companies"] == Str("")
    ensures var m := Merged(prev, map["id_companies" := Str("")], now);
      "id_companies" in m && m["id_companies"] == Str(Trim(prev["companyId"].s))
  {
    ClearedAloneNormalizes();
    ClearedStampedCompany(prev, now);
    MergedCompanyId(prev, map["id_companies" := Str("")], now);
  }

  /** Before the second normalisation, the first truthy company spelling of
      the merged record is the old `companyId`. */
  lemma ClearedStampedCompany(prev: Obj, now: string)
    requires TruthyAt(prev, "companyId")
    ensures var w := prev + ApplyRedundancy(map["id_companies" := Str("")]) + map["updated_at" := Str(now)];
      CompanyIdOf(w) == Some(prev["companyId"])
  {
    ClearedAloneNormalizes();
    StampedCompany(prev, ApplyRedundancy(map["id_companies" := Str("")]), now);
  }

  /** An update holding a falsy `company_id` and no `companyId` leaves the
      old `companyId` as the first truthy spelling. */
  lemma StampedCompany(prev: Obj, n: Obj, now: string)
    requires TruthyAt(prev, "companyId")
    requires "company_id" in n && !Truthy(n["company_id"]) && "companyId" !in n
    ensures CompanyIdOf(prev + n + map["updated_at" := Str(now)]) == Some(prev["companyId"])
  {
  }

  /** The stored company id is the trimmed first truthy spelling of the
      merged record. */
  lemma MergedCompanyId(prev: Obj, updates: Obj, now: string)
    requires var w := prev + ApplyRedundancy(updates) + map["updated_at" := Str(now)];
      CompanyIdOf(w).Some? && CompanyIdOf(w).value.Str?
    ensures var w := prev + ApplyRedundancy(updates) + map["updated_at" := Str(now)];
      "id_companies" in Merged(prev, updates, now) &&
      Merged(prev, updates, now)["id_companies"] == Str(Trim(CompanyIdOf(w).value.s))
  {
    NormalizedIdCompanies(prev + ApplyRedundancy(updates) + map["updated_at" := Str(now)]);
  }

  /** `delete(table, id)` on the local table. */
  function Delete(table: seq<Obj>, id: string): (r: seq<Obj>)
    ensures IsSubseq(r, table)
    ensures forall x :: x in r <==> x in table && !IdIs(id)(x)
  {
    Filter(table, (o: Obj) => !IdIs(id)(o))
  }
}

=== FILE: strings.dfy ===
/** The JavaScript string operations the source relies on, over `seq<char>`:
    `indexOf`/`includes`, `split`/`join` with a non-empty separator,
    `trim`, `replace` with a string pattern (first occurrence only),
    `substring(0, n)`, `slice(-n)`, ASCII case mapping and the
    code-unit ordering of `<`. */
module Strings {
  import opened Wrappers
  import Seqs

  // ---------------------------------------------------------------- digits

  predicate IsDigit(c: char) {
    '0' <= c <= '9'
  }

  function DigitValue(c: char): (d: nat)
    requires IsDigit(c)
    ensures d < 10
  {
    (c as int) - ('0' as int)
  }

  /** `s.replace(/\D/g, '')`: the ASCII digits of `s`, in order. */
  function Digits(s: string): (r: string)
    ensures forall i :: 0 <= i < |r| ==> IsDigit(r[i])
    ensures Seqs.IsSubseq(r, s)
  {
    Seqs.Filter(s, IsDigit)
  }

  predicate AllDigits(s: string) {
    forall i :: 0 <= i < |s| ==> IsDigit(s[i])
  }

  /** Stripping non-digits is the identity on an all-digit string. */
  lemma DigitsOfDigits(s: string)
    requires AllDigits(s)
    ensures Digits(s) == s
  {
    Seqs.FilterAll(s, IsDigit);
  }

  function DigitChar(d: nat): (c: char)
    requires d < 10
    ensures IsDigit(c) && DigitValue(c) == d
  {
    ('0' as int + d) as char
  }

  /** The value of a string of decimal digits (`parseInt` on all-digit text). */
  function DigitsValue(s: string): nat
    requires AllDigits(s)
    decreases |s|
  {
    if |s| == 0 then 0 else DigitsValue(s[..|s| - 1]) * 10 + DigitValue(s[|s| - 1])
  }

  /** The decimal text of a natural number, as a template literal renders it. */
  function NatText(n: nat): (r: string)
    ensures |r| >= 1 && AllDigits(r)
    ensures |r| > 1 ==> r[0] != '0'
    decreases n
  {
    if n < 10 then [DigitChar(n)] else NatText(n / 10) + [DigitChar(n % 10)]
  }

  /** Reading back the rendered text gives the number. */
  lemma {:induction false} NatTextRoundTrip(n: nat)
    ensures DigitsValue(NatText(n)) == n
    decreases n
  {
    if n >= 10 {
      NatTextRoundTrip(n / 10);
      var r := NatText(n);
      assert r[..|r| - 1] == NatText(n / 10);
    }
  }

  lemma NatTextExample()
    ensures NatText(1) == "1" && NatText(2) == "2" && NatText(12) == "12"
  {
  }

  // ------------------------------------------------------- searching

  /** `pat` occurs in `s` starting at index `i`. */
  predicate OccursAt(s: string, pat: string, i: nat) {
    i + |pat| <= |s| && s[i..i + |pat|] == pat
  }

  /** `s.indexOf(pat, from)`, with -1 spelled `None`. */
  function IndexOfFrom(s: string, pat: string, from: nat): (r: Option<nat>)
    requires from <= |s|
    ensures r.Some? ==> from <= r.value && OccursAt(s, pat, r.value)
    ensures r.Some? ==> forall j: nat :: from <= j < r.value ==> !OccursAt(s, pat, j)
    ensures r.None? ==> forall j: nat :: from <= j ==> !OccursAt(s, pat, j)
    decreases |s| - from
  {
    if OccursAt(s, pat, from) then Some(from)
    else if from == |s| then None
    else IndexOfFrom(s, pat, from + 1)
  }

  /** `s.indexOf(pat)`: the first occurrence of `pat`, if any. */
  function IndexOf(s: string, pat: string): (r: Option<nat>)
    ensures r.Some? ==> OccursAt(s, pat, r.value)
    ensures r.Some? ==> forall j: nat :: j < r.value ==> !OccursAt(s, pat, j)
    ensures r.None? ==> forall j: nat :: !OccursAt(s, pat, j)
  {
    IndexOfFrom(s, pat, 0)
  }

  /** `s.includes(pat)`. */
  predicate Contains(s: string, pat: string) {
    IndexOf(s, pat).Some?
  }

  lemma ContainsIff(s: string, pat: string)
    ensures Contains(s, pat) <==> exists i: nat :: OccursAt(s, pat, i)
  {
  }

  /** A pattern placed between two strings occurs in their concatenation. */
  lemma ContainsBetween(a: string, pat: string, b: string)
    ensures Contains(a + pat + b, pat)
  {
    assert OccursAt(a + pat + b, pat, |a|);
    ContainsIff(a + pat + b, pat);
  }

  /** The first occurrence is the unique position with an occurrence and none before. */
  lemma IndexOfIs(s: string, pat: string, i: nat)
    requires OccursAt(s, pat, i)
    requires forall j: nat :: j < i ==> !OccursAt(s, pat, j)
    ensures IndexOf(s, pat) == Some(i)
  {
    var r := IndexOf(s, pat);
    if r.Some? {
      if r.value < i {
      } else if r.value > i {
      }
    }
  }

  /** A one-character pattern occurs exactly where that character is. */
  lemma ContainsChar(s: string, c: char)
    ensures Contains(s, [c]) <==> c in s
  {
    if c in s {
      var i :| 0 <= i < |s| && s[i] == c;
      assert OccursAt(s, [c], i);
    }
    if Contains(s, [c]) {
      var i := IndexOf(s, [c]).value;
      assert s[i..i + 1] == [c];
      assert s[i] in s;
    }
  }

  // ------------------------------------------------------- split / join

  /** `s.split(sep)` for a non-empty separator. */
  function Split(s: string, sep: string): (r: seq<string>)
    requires |sep| > 0
    ensures |r| >= 1
    decreases |s|
  {
    match IndexOf(s, sep)
    case None => [s]
    case Some(i) => [s[..i]] + Split(s[i + |sep|..], sep)
  }

  /** `parts.join(sep)`. */
  function Join(parts: seq<string>, sep: string): string
    decreases |parts|
  {
    if |parts| == 0 then ""
    else if |parts| == 1 then parts[0]
    else parts[0] + sep + Join(parts[1..], sep)
  }

  /** Splitting and re-joining gives back the original string. */
  lemma {:induction false} SplitJoin(s: string, sep: string)
    requires |sep| > 0
    ensures Join(Split(s, sep), sep) == s
    decreases |s|
  {
    match IndexOf(s, sep)
    case None =>
    case Some(i) =>
      var rest := s[i + |sep|..];
      SplitJoin(rest, sep);
      SplitAt(s, sep, i);
      JoinCons(s[..i], Split(rest, sep), sep);
      AroundOccurrence(s, sep, i);
  }

  /** A string is what precedes an occurrence, the occurrence, and what follows. */
  lemma AroundOccurrence(s: string, sep: string, i: nat)
    requires OccursAt(s, sep, i)
    ensures s == s[..i] + sep + s[i + |sep|..]
  {
    assert s == s[..i] + s[i..i + |sep|] + s[i + |sep|..];
  }

  /** `s.split(sep).slice(1).join(sep)`: everything after the first `sep`. */
  lemma SplitTailJoin(s: string, sep: string)
    requires |sep| > 0 && Contains(s, sep)
    ensures |Split(s, sep)| > 1
    ensures Join(Split(s, sep)[1..], sep) == s[IndexOf(s, sep).value + |sep|..]
  {
    SplitTailJoinAt(s, sep, IndexOf(s, sep).value);
  }

  lemma SplitTailJoinAt(s: string, sep: string, i: nat)
    requires |sep| > 0 && IndexOf(s, sep) == Some(i)
    ensures |Split(s, sep)| > 1
    ensures i + |sep| <= |s| && Join(Split(s, sep)[1..], sep) == s[i + |sep|..]
  {
    var rest := s[i + |sep|..];
    SplitAt(s, sep, i);
    SplitJoin(rest, sep);
    DropHead(s[..i], Split(rest, sep));
  }

  lemma DropHead(x: string, tail: seq<string>)
    ensures ([x] + tail)[1..] == tail
  {
  }

  lemma SplitAt(s: string, sep: string, i: nat)
    requires |sep| > 0 && IndexOf(s, sep) == Some(i)
    ensures i + |sep| <= |s|
    ensures Split(s, sep) == [s[..i]] + Split(s[i + |sep|..], sep)
  {
  }

  lemma JoinCons(x: string, tail: seq<string>, sep: string)
    requires |tail| >= 1
    ensures Join([x] + tail, sep) == x + sep + Join(tail, sep)
  {
    assert ([x] + tail)[1..] == tail;
  }

  /** `sep` does not occur anywhere in `s`. */
  ghost predicate Free(s: string, sep: string) {
    forall j: nat :: !OccursAt(s, sep, j)
  }

  /** No occurrence of `sep` starts inside `x`, even one overlapping a `sep` that follows. */
  ghost predicate Clean(x: string, sep: string) {
    forall j: nat :: j < |x| ==> !OccursAt(x + sep, sep, j)
  }

  /** A string free of the separator splits into itself. */
  lemma SplitFree(s: string, sep: string)
    requires |sep| > 0
    requires Free(s, sep)
    ensures Split(s, sep) == [s]
  {
  }

  /** A clean first field is split off exactly at the separator that follows it. */
  lemma SplitCons(x: string, sep: string, y: string)
    requires |sep| > 0
    requires Clean(x, sep)
    ensures Split(x + sep + y, sep) == [x] + Split(y, sep)
  {
    var s := x + sep + y;
    assert s[|x|..|x| + |sep|] == sep;
    assert s == (x + sep) + y;
    forall j: nat | j < |x|
      ensures !OccursAt(s, sep, j)
    {
      OccursInPrefix(x + sep, y, sep, j);
    }
    IndexOfIs(s, sep, |x|);
    assert s[..|x|] == x;
    assert s[|x| + |sep|..] == y;
  }

  /** An occurrence in `a + b` that starts early enough lies within `a`. */
  lemma OccursInPrefix(a: string, b: string, pat: string, j: nat)
    requires j + |pat| <= |a|
    ensures OccursAt(a + b, pat, j) <==> OccursAt(a, pat, j)
  {
    assert (a + b)[j..j + |pat|] == a[j..j + |pat|];
  }

  /** Joining fields of which all but the last are clean and the last free,
      then splitting, gives back the fields. */
  lemma {:induction false} JoinSplit(parts: seq<string>, sep: string)
    requires |sep| > 0 && |parts| >= 1
    requires forall i :: 0 <= i < |parts| - 1 ==> Clean(parts[i], sep)
    requires Free(parts[|parts| - 1], sep)
    ensures Split(Join(parts, sep), sep) == parts
    decreases |parts|
  {
    if |parts| == 1 {
      SplitFree(parts[0], sep);
    } else {
      JoinSplit(parts[1..], sep);
      SplitCons(parts[0], sep, Join(parts[1..], sep));
    }
  }

  /** Splitting on a one-character separator distributes over a separator
      placed between two strings, whatever the strings contain. */
  lemma {:induction false} SplitCharAppend(a: string, c: char, b: string)
    ensures Split(a + [c] + b, [c]) == Split(a, [c]) + Split(b, [c])
    decreases |a|, 1
  {
    match IndexOf(a, [c])
    case None => SplitCharAppendFree(a, c, b);
    case Some(i) => SplitCharAppendAt(a, c, b, i);
  }

  lemma SplitCharAppendFree(a: string, c: char, b: string)
    requires IndexOf(a, [c]).None?
    ensures Split(a + [c] + b, [c]) == Split(a, [c]) + Split(b, [c])
  {
    var sep := [c];
    forall j: nat | j < |a|
      ensures !OccursAt(a + sep, sep, j)
    {
      OccursInPrefix(a, sep, sep, j);
    }
    SplitCons(a, sep, b);
    SplitFree(a, sep);
  }

  lemma {:induction false} SplitCharAppendAt(a: string, c: char, b: string, i: nat)
    requires IndexOf(a, [c]) == Some(i)
    ensures Split(a + [c] + b, [c]) == Split(a, [c]) + Split(b, [c])
    decreases |a|, 0
  {
    var sep := [c];
    var rest := a[i + 1..];
    IndexInPrefix(a, sep, b, i);
    SplitAt(a + sep + b, sep, i);
    SplitAt(a, sep, i);
    SlicesAround(a, sep, b, i);
    SplitCharAppend(rest, c, b);
    var head := [a[..i]];
    assert Split(a + sep + b, sep) == head + (Split(rest, sep) + Split(b, sep));
    assert head + (Split(rest, sep) + Split(b, sep)) == (head + Split(rest, sep)) + Split(b, sep);
  }

  /** The first occurrence in `a` stays the first in `a + sep + b`. */
  lemma IndexInPrefix(a: string, sep: string, b: string, i: nat)
    requires |sep| == 1 && IndexOf(a, sep) == Some(i)
    ensures IndexOf(a + sep + b, sep) == Some(i)
  {
    var s := a + sep + b;
    forall j: nat | j <= i
      ensures OccursAt(s, sep, j) <==> OccursAt(a, sep, j)
    {
      assert s == a + (sep + b);
      OccursInPrefix(a, sep + b, sep, j);
    }
    IndexOfIs(s, sep, i);
  }

  lemma SlicesAround(a: string, sep: string, b: string, i: nat)
    requires i < |a| && |sep| == 1
    ensures (a + sep + b)[..i] == a[..i]
    ensures (a + sep + b)[i + 1..] == a[i + 1..] + sep + b
  {
  }

  /** A character of `sep` missing from `x` keeps `sep` out of `x`. */
  lemma FreeByChar(x: string, sep: string, k: nat)
    requires k < |sep| && sep[k] !in x
    ensures Free(x, sep)
  {
    forall j: nat
      ensures !OccursAt(x, sep, j)
    {
      if j + |sep| <= |x| {
        OccursChar(x, sep, j, k);
      }
    }
  }

  /** Every character of an occurrence is a character of the string. */
  lemma OccursChar(x: string, pat: string, j: nat, k: nat)
    requires j + |pat| <= |x| && k < |pat|
    ensures OccursAt(x, pat, j) ==> x[j + k] == pat[k]
  {
    if OccursAt(x, pat, j) {
      assert x[j..j + |pat|][k] == x[j + k];
    }
  }

  /** If `sep[k]` is missing from `x` and does not occur in `sep` before
      position `k`, no occurrence of `sep` can start inside `x`. */
  lemma CleanByChar(x: string, sep: string, k: nat)
    requires k < |sep| && sep[k] !in x && sep[k] !in sep[..k]
    ensures Clean(x, sep)
  {
    var s := x + sep;
    forall j: nat | j < |x|
      ensures !OccursAt(s, sep, j)
    {
      if j + |sep| <= |s| {
        OccursChar(s, sep, j, k);
        if j + k < |x| {
          assert s[j + k] == x[j + k];
          assert x[j + k] in x;
        } else {
          var m := j + k - |x|;
          assert s[j + k] == sep[m];
          assert sep[..k][m] == sep[m];
          assert sep[m] in sep[..k];
        }
      }
    }
  }

  /** `s.split(sep)[0]`. */
  function Before(s: string, sep: string): (r: string)
    requires |sep| > 0
    ensures Free(r, sep) && Seqs.IsSubseq(r, s)
  {
    match IndexOf(s, sep)
    case None =>
      Seqs.IsSubseqRefl(s);
      s
    case Some(i) =>
      PrefixFree(s, sep, i);
      PrefixIsSubseq(s, i);
      s[..i]
  }

  /** A prefix ending before the first occurrence of `sep` is free of it. */
  lemma PrefixFree(s: string, sep: string, i: nat)
    requires |sep| > 0 && i <= |s|
    requires forall j: nat :: j < i ==> !OccursAt(s, sep, j)
    ensures Free(s[..i], sep)
  {
    forall j: nat
      ensures !OccursAt(s[..i], sep, j)
    {
      if j + |sep| <= i {
        assert s == s[..i] + s[i..];
        OccursInPrefix(s[..i], s[i..], sep, j);
      }
    }
  }

  /** `s.split(sep)[1]`, which is `undefined` when `sep` does not occur. */
  function After(s: string, sep: string): (r: Option<string>)
    requires |sep| > 0
    ensures r.None? <==> !Contains(s, sep)
  {
    match IndexOf(s, sep)
    case None => None
    case Some(i) => Some(Before(s[i + |sep|..], sep))
  }

  lemma {:induction false} PrefixIsSubseq(s: string, n: nat)
    requires n <= |s|
    ensures Seqs.IsSubseq(s[..n], s)
    decreases n
  {
    if n > 0 {
      assert s[..n][1..] == s[1..][..n - 1];
      PrefixIsSubseq(s[1..], n - 1);
    }
  }

  /** `Before`/`After` are the first two fields of `Split`. */
  lemma BeforeAfterSplit(s: string, sep: string)
    requires |sep| > 0
    ensures Before(s, sep) == Split(s, sep)[0]
    ensures After(s, sep).None? <==> |Split(s, sep)| == 1
    ensures After(s, sep).Some? ==> After(s, sep).value == Split(s, sep)[1]
  {
    match IndexOf(s, sep)
    case None =>
    case Some(i) =>
      var rest := s[i + |sep|..];
      match IndexOf(rest, sep)
      case None =>
      case Some(_) =>
  }

  /** Reading the text after a clean `x + sep` prefix. */
  lemma AfterCons(x: string, sep: string, y: string)
    requires |sep| > 0 && Clean(x, sep)
    ensures Before(x + sep + y, sep) == x
    ensures After(x + sep + y, sep) == Some(Before(y, sep))
  {
    SplitCons(x, sep, y);
    BeforeAfterSplit(x + sep + y, sep);
    BeforeAfterSplit(y, sep);
  }

  // ------------------------------------------------------- whitespace

  /** The characters JavaScript's `trim` removes (WhiteSpace and LineTerminator). */
  predicate IsSpace(c: char) {
    c == '\t' || c == '\n' || c == '\U{B}' || c == '\U{C}' || c == '\r' || c == ' ' ||
    c == '\U{A0}' || c == '\U{1680}' || ('\U{2000}' <= c <= '\U{200A}') ||
    c == '\U{2028}' || c == '\U{2029}' || c == '\U{202F}' || c == '\U{205F}' ||
    c == '\U{3000}' || c == '\U{FEFF}'
  }

  /** `s.trimStart()`. */
  function TrimStart(s: string): (r: string)
    ensures |r| <= |s| && r == s[|s| - |r|..]
    ensures |r| > 0 ==> !IsSpace(r[0])
    ensures forall i :: 0 <= i < |s| - |r| ==> IsSpace(s[i])
    decreases |s|
  {
    if |s| > 0 && IsSpace(s[0]) then TrimStart(s[1..]) else s
  }

  /** `s.trimEnd()`. */
  function TrimEnd(s: string): (r: string)
    ensures |r| <= |s| && r == s[..|r|]
    ensures |r| > 0 ==> !IsSpace(r[|r| - 1])
    ensures forall i :: |r| <= i < |s| ==> IsSpace(s[i])
    decreases |s|
  {
    if |s| > 0 && IsSpace(s[|s| - 1]) then TrimEnd(s[..|s| - 1]) else s
  }

  /** `s.trim()`: the longest middle slice with no surrounding whitespace. */
  function Trim(s: string): (r: string)
    ensures exists a, b :: 0 <= a <= b <= |s| && r == s[a..b]
    ensures |r| > 0 ==> !IsSpace(r[0]) && !IsSpace(r[|r| - 1])
  {
    var t := TrimStart(s);
    var r := TrimEnd(t);
    assert r == s[|s| - |t|..|s| - |t| + |r|];
    r
  }

  /** No whitespace at either end. */
  predicate Trimmed(s: string) {
    |s| == 0 || (!IsSpace(s[0]) && !IsSpace(s[|s| - 1]))
  }

  lemma TrimmedFixed(s: string)
    requires Trimmed(s)
    ensures Trim(s) == s
  {
  }

  lemma TrimIdempotent(s: string)
    ensures Trim(Trim(s)) == Trim(s)
  {
    TrimmedFixed(Trim(s));
  }

  /** Whitespace added around a trimmed string is removed again. */
  lemma {:induction false} TrimPadded(pre: string, s: string, post: string)
    requires Trimmed(s) && |s| > 0
    requires forall i :: 0 <= i < |pre| ==> IsSpace(pre[i])
    requires forall i :: 0 <= i < |post| ==> IsSpace(post[i])
    ensures Trim(pre + s + post) == s
  {
    StartOfPadded(pre, s, post);
    TrimEndPadded(s, post);
    TrimSplits(pre + s + post);
  }

  lemma StartOfPadded(pre: string, s: string, post: string)
    requires |s| > 0 && !IsSpace(s[0])
    requires forall i :: 0 <= i < |pre| ==> IsSpace(pre[i])
    ensures TrimStart(pre + s + post) == s + post
  {
    var t := s + post;
    assert t[0] == s[0];
    TrimStartPadded(pre, t);
    assert pre + s + post == pre + t;
  }

  lemma TrimSplits(x: string)
    ensures Trim(x) == TrimEnd(TrimStart(x))
  {
  }

  lemma {:induction false} TrimStartPadded(pre: string, t: string)
    requires |t| > 0 && !IsSpace(t[0])
    requires forall i :: 0 <= i < |pre| ==> IsSpace(pre[i])
    ensures TrimStart(pre + t) == t
    decreases |pre|
  {
    if |pre| > 0 {
      assert (pre + t)[1..] == pre[1..] + t;
      TrimStartPadded(pre[1..], t);
    } else {
      assert pre + t == t;
    }
  }

  lemma {:induction false} TrimEndPadded(t: string, post: string)
    requires |t| > 0 && !IsSpace(t[|t| - 1])
    requires forall i :: 0 <= i < |post| ==> IsSpace(post[i])
    ensures TrimEnd(t + post) == t
    decreases |post|
  {
    if |post| > 0 {
      assert (t + post)[..|t + post| - 1] == t + post[..|post| - 1];
      TrimEndPadded(t, post[..|post| - 1]);
    } else {
      assert t + post == t;
    }
  }

  // ------------------------------------------------------- replacing

  /** `s.replace(pat, rep)` with a string pattern: the first occurrence only. */
  function ReplaceFirst(s: string, pat: string, rep: string): (r: string)
    ensures !Contains(s, pat) ==> r == s
    ensures Contains(s, pat) ==> |r| == |s| - |pat| + |rep|
  {
    match IndexOf(s, pat)
    case None => s
    case Some(i) => s[..i] + rep + s[i + |pat|..]
  }

  /** Removing a prefix that the string starts with. */
  lemma ReplaceFirstAtStart(p: string, rest: string)
    ensures ReplaceFirst(p + rest, p, "") == rest
  {
    assert OccursAt(p + rest, p, 0);
    IndexOfIs(p + rest, p, 0);
    assert (p + rest)[|p|..] == rest;
  }

  /** Removing the first occurrence of a pattern appended to `x` gives back
      `x`, when `x` does not contain the pattern and the pattern's first
      character does not recur in it (so no occurrence can straddle the seam). */
  lemma ReplaceFirstAtEnd(x: string, pat: string)
    requires |pat| > 0 && pat[0] !in pat[1..]
    requires !Contains(x, pat)
    ensures ReplaceFirst(x + pat, pat, "") == x
  {
    var s := x + pat;
    assert s[|x|..|x| + |pat|] == pat;
    forall j: nat | j < |x|
      ensures !OccursAt(s, pat, j)
    {
      if j + |pat| <= |x| {
        OccursInPrefix(x, pat, pat, j);
      } else {
        var k := |x| - j;
        OccursChar(s, pat, j, k);
        assert s[j + k] == pat[0];
        assert pat[1..][k - 1] == pat[k];
      }
    }
    IndexOfIs(s, pat, |x|);
    assert s[..|x|] == x;
  }

  /** `s.startsWith(p)`. */
  predicate StartsWith(s: string, p: string) {
    |p| <= |s| && s[..|p|] == p
  }

  /** `s.replace(/a/g, b)` for single characters. */
  function ReplaceAllChar(s: string, a: char, b: char): (r: string)
    ensures |r| == |s|
    ensures forall i :: 0 <= i < |s| ==> r[i] == (if s[i] == a then b else s[i])
  {
    seq(|s|, i requires 0 <= i < |s| => if s[i] == a then b else s[i])
  }

  // ------------------------------------------------------- case mapping

  predicate IsUpperAscii(c: char) {
    'A' <= c <= 'Z'
  }

  predicate IsLowerAscii(c: char) {
    'a' <= c <= 'z'
  }

  function UpperChar(c: char): char {
    if IsLowerAscii(c) then (c as int - 32) as char else c
  }

  function LowerChar(c: char): char {
    if IsUpperAscii(c) then (c as int + 32) as char else c
  }

  /** `s.toUpperCase()` restricted to ASCII letters. */
  function Upper(s: string): (r: string)
    ensures |r| == |s|
    ensures forall i :: 0 <= i < |s| ==> r[i] == UpperChar(s[i])
    ensures forall i :: 0 <= i < |r| ==> !IsLowerAscii(r[i])
  {
    seq(|s|, i requires 0 <= i < |s| => UpperChar(s[i]))
  }

  /** `s.toLowerCase()` restricted to ASCII letters. */
  function Lower(s: string): (r: string)
    ensures |r| == |s|
    ensures forall i :: 0 <= i < |s| ==> r[i] == LowerChar(s[i])
    ensures forall i :: 0 <= i < |r| ==> !IsUpperAscii(r[i])
  {
    seq(|s|, i requires 0 <= i < |s| => LowerChar(s[i]))
  }

  lemma UpperIdempotent(s: string)
    ensures Upper(Upper(s)) == Upper(s)
  {
  }

  lemma UpperAppend(a: string, b: string)
    ensures Upper(a + b) == Upper(a) + Upper(b)
  {
  }

  lemma LowerAppend(a: string, b: string)
    ensures Lower(a + b) == Lower(a) + Lower(b)
  {
  }

  // ------------------------------------------------------- slicing

  /** `s.substring(0, n)`. */
  function Prefix(s: string, n: nat): (r: string)
    ensures |r| == if n < |s| then n else |s|
    ensures r <= s
  {
    if n < |s| then s[..n] else s
  }

  /** `s.slice(-n)` for positive `n`. */
  function Last(s: string, n: nat): (r: string)
    requires n > 0
    ensures |r| == if n < |s| then n else |s|
    ensures r == s[|s| - |r|..]
  {
    if n < |s| then s[|s| - n..] else s
  }

  // ------------------------------------------------------- ordering

  /** JavaScript `a < b` on strings: lexicographic by character code. */
  predicate StrLess(a: string, b: string)
    decreases |a|
  {
    if |b| == 0 then false
    else if |a| == 0 then true
    else a[0] < b[0] || (a[0] == b[0] && StrLess(a[1..], b[1..]))
  }

  /** JavaScript `a <= b` on strings. */
  predicate StrLe(a: string, b: string) {
    StrLess(a, b) || a == b
  }

  lemma {:induction false} StrLessIrreflexive(a: string)
    ensures !StrLess(a, a)
    decreases |a|
  {
    if |a| > 0 {
      StrLessIrreflexive(a[1..]);
    }
  }

  lemma {:induction false} StrLessAsymmetric(a: string, b: string)
    ensures !(StrLess(a, b) && StrLess(b, a))
    decreases |a|
  {
    if |a| > 0 && |b| > 0 && a[0] == b[0] {
      StrLessAsymmetric(a[1..], b[1..]);
    }
  }

  lemma {:induction false} StrLessTrichotomy(a: string, b: string)
    ensures StrLess(a, b) || a == b || StrLess(b, a)
    decreases |a|
  {
    if |a| > 0 && |b| > 0 && a[0] == b[0] {
      StrLessTrichotomy(a[1..], b[1..]);
      if a[1..] == b[1..] {
        assert a == [a[0]] + a[1..] && b == [b[0]] + b[1..];
      }
    }
  }

  lemma {:induction false} StrLessTransitive(a: string, b: string, c: string)
    requires StrLess(a, b) && StrLess(b, c)
    ensures StrLess(a, c)
    decreases |a|
  {
    if |a| > 0 && a[0] == b[0] && b[0] == c[0] {
      StrLessTransitive(a[1..], b[1..], c[1..]);
    }
  }
}

=== FILE: users.dfy ===
/** The team page (`pages/Users.tsx`): permissions granted by a combination
    of profiles, the profile and permission checkboxes, the profile string
    stored on a user, the de-duplicated user list, who may manage whom, and
    the remote edit and delete requests with their processing. */
module Users {
  import opened Wrappers
  import opened Seqs
  import opened Strings
  import opened ActionLabels
  import opened Permissions
  import opened Authorization

  // ------------------------------------------------------- profiles and permissions

  /** `getCombinedPermissions`: every permission some selected profile grants. */
  function CombinedPermissions(ps: seq<Profile>): (r: seq<Permission>)
    ensures forall m :: m in r <==> exists i :: 0 <= i < |ps| && m in DefaultPermissions(ps[i])
    ensures NoDuplicates(r)
    ensures InFirstOrder(r, FlatMap(ps, DefaultPermissions))
  {
    Union(ps, DefaultPermissions)
  }

  /** `getCombinedAuthorizations`, for any table of default authorizations
      (the table itself is not part of this model). */
  function CombinedAuthorizations<A(==,!new)>(ps: seq<Profile>, table: Profile -> seq<A>): (r: seq<A>)
    ensures forall a :: a in r <==> exists i :: 0 <= i < |ps| && a in table(ps[i])
    ensures NoDuplicates(r)
    ensures InFirstOrder(r, FlatMap(ps, table))
  {
    Union(ps, table)
  }

  /** Whatever profiles are combined, the dashboard is granted once they are
      not all deselected. */
  lemma CombinedHasDashboard(ps: seq<Profile>)
    requires |ps| > 0
    ensures Dashboard in CombinedPermissions(ps)
  {
    EveryProfileHasDashboard(ps[0]);
  }

  /** Selecting MASTER among any profiles grants every permission. */
  lemma CombinedWithMaster(ps: seq<Profile>, m: Permission)
    requires Master in ps
    ensures m in CombinedPermissions(ps)
  {
    var i :| 0 <= i < |ps| && ps[i] == Master;
    MasterHasAll(m);
  }

  const ProfileSep := ", "
  const CustomProfile := "Personalizado"

  /** `profiles.join(', ') || 'Personalizado'`. */
  function JoinProfiles(ps: seq<Profile>): string {
    var s := Join(Map(ps, (p: Profile) => p.Name()), ProfileSep);
    if s != "" then s else CustomProfile
  }

  /** The known profile names among `parts`, in order. */
  function ParseNames(parts: seq<string>): (r: seq<Profile>)
    ensures forall p :: p in r ==> p.Name() in parts
    decreases |parts|
  {
    if |parts| == 0 then []
    else match ParseProfile(parts[0])
      case Some(p) => [p] + ParseNames(parts[1..])
      case None => ParseNames(parts[1..])
  }

  /** `(profile || '').split(', ').filter(p => Object.values(OperationalProfile).includes(p))`. */
  function ParseProfiles(s: string): seq<Profile> {
    ParseNames(Split(s, ProfileSep))
  }

  lemma {:induction false} ParseNamesOfNames(ps: seq<Profile>)
    ensures ParseNames(Map(ps, (p: Profile) => p.Name())) == ps
    decreases |ps|
  {
    if |ps| > 0 {
      var names := Map(ps, (p: Profile) => p.Name());
      assert names[1..] == Map(ps[1..], (p: Profile) => p.Name());
      ParseProfileName(ps[0]);
      ParseNamesOfNames(ps[1..]);
    }
  }

  lemma NameHasNoComma(p: Profile)
    ensures ',' !in p.Name()
  {
  }

  /** The profile string stored on a user reads back as the profiles that
      were selected, for every selection including the empty one. */
  lemma ProfilesRoundTrip(ps: seq<Profile>)
    ensures ParseProfiles(JoinProfiles(ps)) == ps
  {
    var names := Map(ps, (p: Profile) => p.Name());
    assert ProfileSep[0] == ',' && ProfileSep[..0] == [];
    if |ps| == 0 {
      assert Join(names, ProfileSep) == "";
      assert ',' !in CustomProfile;
      FreeByChar(CustomProfile, ProfileSep, 0);
      SplitFree(CustomProfile, ProfileSep);
      assert JoinProfiles(ps) == CustomProfile;
      assert ParseProfile(CustomProfile).None?;
      assert [CustomProfile][1..] == [];
      assert ParseNames([CustomProfile]) == [];
    } else {
      forall i | 0 <= i < |names|
        ensures Clean(names[i], ProfileSep) && Free(names[i], ProfileSep)
      {
        NameHasNoComma(ps[i]);
        CleanByChar(names[i], ProfileSep, 0);
        FreeByChar(names[i], ProfileSep, 0);
      }
      JoinSplit(names, ProfileSep);
      ParseNamesOfNames(ps);
    }
  }

  /** The form a profile click produces: the new selection, its profile
      string, and the permissions and authorizations it combines to. */
  datatype ProfileForm<A> = ProfileForm(profiles: seq<Profile>, profile: string, permissions: seq<Permission>,
                                        authorizations: seq<A>)

  /** A click on profile `p`: deselect it if selected, append it otherwise,
      and recompute the form. */
  function ClickProfile<A(==,!new)>(selected: seq<Profile>, p: Profile, table: Profile -> seq<A>): (f: ProfileForm<A>)
    ensures p in f.profiles <==> p !in selected
    ensures ParseProfiles(f.profile) == f.profiles
    ensures forall m :: m in f.permissions <==> exists i :: 0 <= i < |f.profiles| && m in DefaultPermissions(f.profiles[i])
  {
    var ps := Toggle(selected, p);
    ProfilesRoundTrip(ps);
    ProfileForm(ps, JoinProfiles(ps), CombinedPermissions(ps), CombinedAuthorizations(ps, table))
  }

  /** Clicking an unselected profile twice gives back the selection and the
      form it had. */
  lemma ClickProfileTwice<A(!new)>(selected: seq<Profile>, p: Profile, table: Profile -> seq<A>)
    requires p !in selected
    ensures ClickProfile(ClickProfile(selected, p, table).profiles, p, table).profiles == selected
  {
    ToggleTwice(selected, p);
  }

  /** A permission checkbox: every occurrence is removed when it is ticked,
      it is appended otherwise, and no other permission moves in or out. */
  lemma PermissionCheckbox<M(!new)>(current: seq<M>, m: M)
    ensures m in current ==> m !in Toggle(current, m) && Toggle(current, m) == Filter(current, x => x != m)
    ensures m !in current ==> Toggle(current, m) == current + [m]
    ensures forall x :: x != m ==> (x in Toggle(current, m) <==> x in current)
  {
  }

  // ------------------------------------------------------- the user list

  /** `i === s.findIndex(t => t.id === u.id)`: `us[i]` is the first user
      with its id. */
  predicate FirstOfId(us: seq<User>, i: nat)
    requires i < |us|
  {
    FindIndex(us, (t: User) => t.id == us[i].id) == Some(i)
  }

  lemma FirstOfIdIff(us: seq<User>, i: nat)
    requires i < |us|
    ensures FirstOfId(us, i) <==> forall j :: 0 <= j < i ==> us[j].id != us[i].id
  {
    var f := FindIndex(us, (t: User) => t.id == us[i].id);
  }

  /** The users of `us[..n]` that the de-duplication keeps. */
  function KeepFirst(us: seq<User>, n: nat): (r: seq<User>)
    requires n <= |us|
    decreases n
  {
    if n == 0 then []
    else KeepFirst(us, n - 1) + (if FirstOfId(us, n - 1) then [us[n - 1]] else [])
  }

  /** `combined.filter((u, i, s) => i === s.findIndex(t => t.id === u.id))`. */
  function UniqueUsers(us: seq<User>): seq<User> {
    KeepFirst(us, |us|)
  }

  lemma {:induction false} KeepFirstFacts(us: seq<User>, n: nat)
    requires n <= |us|
    ensures forall x :: x in KeepFirst(us, n) <==> exists i :: 0 <= i < n && FirstOfId(us, i) && us[i] == x
    ensures forall a, b :: 0 <= a < b < |KeepFirst(us, n)| ==> KeepFirst(us, n)[a].id != KeepFirst(us, n)[b].id
    decreases n
  {
    if n > 0 {
      KeepFirstFacts(us, n - 1);
      var r := KeepFirst(us, n);
      var prev := KeepFirst(us, n - 1);
      if FirstOfId(us, n - 1) {
        FirstOfIdIff(us, n - 1);
        forall a | 0 <= a < |prev|
          ensures prev[a].id != us[n - 1].id
        {
          assert prev[a] in prev;
          var i :| 0 <= i < n - 1 && FirstOfId(us, i) && us[i] == prev[a];
        }
        assert r == prev + [us[n - 1]];
      } else {
        assert r == prev;
      }
    }
  }

  /** The first users of their ids come out in the order of the input. */
  lemma {:induction false} KeepFirstOrder(us: seq<User>, n: nat)
    requires n <= |us|
    ensures InFirstOrder(KeepFirst(us, n), us)
    ensures forall x :: x in KeepFirst(us, n) ==> FirstIndexOf(us, x) < n
    decreases n
  {
    if n > 0 {
      KeepFirstOrder(us, n - 1);
      var prev := KeepFirst(us, n - 1);
      if FirstOfId(us, n - 1) {
        FirstOfIdIff(us, n - 1);
        FirstUserIndex(us, n - 1);
        OrderAppend(prev, us[n - 1], us, n - 1);
        assert KeepFirst(us, n) == prev + [us[n - 1]];
      } else {
        assert KeepFirst(us, n) == prev;
      }
    }
  }

  /** The first user with an id is the first occurrence of that user. */
  lemma FirstUserIndex(us: seq<User>, i: nat)
    requires i < |us| && forall j :: 0 <= j < i ==> us[j].id != us[i].id
    ensures FirstIndexOf(us, us[i]) == i
  {
  }

  /** Appending an element whose first occurrence comes after those of the
      list keeps first-occurrence order. */
  lemma OrderAppend<T>(prev: seq<T>, x: T, s: seq<T>, n: nat)
    requires InFirstOrder(prev, s) && forall y :: y in prev ==> FirstIndexOf(s, y) < n
    requires x in s && FirstIndexOf(s, x) == n
    ensures InFirstOrder(prev + [x], s)
  {
    var r := prev + [x];
    forall i, j | 0 <= i < j < |r|
      ensures FirstIndexOf(s, r[i]) < FirstIndexOf(s, r[j])
    {
      assert r[i] == prev[i] && prev[i] in prev;
      if j < |prev| {
        assert r[j] == prev[j];
      }
    }
  }

  /** The de-duplicated list holds each id once, only users of the input,
      for every id of the input the first user that carries it, and keeps
      the order of the input. */
  lemma UniqueUsersFacts(us: seq<User>)
    ensures var r := UniqueUsers(us);
      && (forall a, b :: 0 <= a < b < |r| ==> r[a].id != r[b].id)
      && (forall x :: x in r ==> x in us)
      && (forall i :: 0 <= i < |us| && (forall j :: 0 <= j < i ==> us[j].id != us[i].id) ==> us[i] in r)
      && InFirstOrder(r, us)
  {
    KeepFirstFacts(us, |us|);
    KeepFirstOrder(us, |us|);
    forall i | 0 <= i < |us| && (forall j :: 0 <= j < i ==> us[j].id != us[i].id)
      ensures us[i] in UniqueUsers(us)
    {
      FirstOfIdIff(us, i);
    }
  }

  /** Every id of the input still has a user in the de-duplicated list. */
  lemma UniqueUsersKeepIds(us: seq<User>, i: nat)
    requires i < |us|
    ensures exists x :: x in UniqueUsers(us) && x.id == us[i].id
  {
    var f := FindIndex(us, (t: User) => t.id == us[i].id).value;
    FirstOfIdIff(us, f);
    UniqueUsersFacts(us);
    assert us[f] in UniqueUsers(us);
  }

  /** `loadData`: a super admin sees the super admins ahead of the company's
      own users; the list is then de-duplicated. */
  function LoadUsers(currentIsSuper: bool, superAdmins: seq<User>, companyUsers: seq<User>): seq<User> {
    UniqueUsers(if currentIsSuper then superAdmins + companyUsers else companyUsers)
  }

  // ------------------------------------------------------- management rights

  const MasterEmail := "admin@sucatafacil.com"

  /** The master account: the platform e-mail or any super admin. */
  predicate IsMaster(u: User) {
    u.email == MasterEmail || u.role == SuperAdmin
  }

  /** `canManage` on a user card. */
  predicate CanManage(current: Option<User>, target: User) {
    (current.Some? && current.value.role == SuperAdmin)
    || (!IsMaster(target) && current.Some? && current.value.role == CompanyAdmin)
  }

  /** The edit and delete buttons: managed, and never the platform account. */
  predicate ShowsManageButtons(current: Option<User>, target: User) {
    CanManage(current, target) && target.email != MasterEmail
  }

  /** Who may manage whom, by the current user's role. */
  lemma ManagementRights(current: Option<User>, target: User)
    ensures current.Some? && current.value.role == SuperAdmin ==> CanManage(current, target)
    ensures current.Some? && current.value.role == CompanyAdmin ==> (CanManage(current, target) <==> !IsMaster(target))
    ensures current.None? || current.value.role == Staff ==> !CanManage(current, target)
    ensures target.email == MasterEmail ==> !ShowsManageButtons(current, target)
  {
  }

  // ------------------------------------------------------- remote edit and delete

  const EditUserKey := "EDITAR_USUARIO"
  const DeleteUserKey := "EXCLUIR_USUARIO"

  function EditUserHead(id: string, name: string): string {
    "OP: EDIÇÃO DE ACESSO | ID: #" + Last(id, 5) + " | CTX: SEGURANÇA | DET: Reconfiguração das permissões e perfil do integrante "
      + name + " para adequação de cargo. | VAL: R$ 0,00 para R$ 0,00 | "
  }

  function EditUserLabel(id: string, name: string, json: string): string {
    EditUserHead(id, name) + RealIdJsonLabel(id, json)
  }

  function DeleteUserHead(id: string, name: string): string {
    "OP: EXCLUSÃO DE USUÁRIO | ID: #" + Last(id, 5) + " | CTX: SEGURANÇA | DET: Revogação total do acesso ao sistema para o colaborador "
      + name + " por desligamento. | VAL: R$ 0,00 para R$ 0,00 | "
  }

  function DeleteUserLabel(id: string, name: string): string {
    DeleteUserHead(id, name) + RealIdKey + id
  }

  datatype SaveOutcome = DirectUpdate(id: string, data: string) | RequestEdit(key: string, text: string)

  /** `handleSaveUser`: a super admin writes directly; anyone else files an
      EDITAR_USUARIO request carrying the id and the form as JSON. */
  function SaveUser(currentIsSuper: bool, target: User, json: string): (o: SaveOutcome)
    ensures currentIsSuper <==> o.DirectUpdate?
    ensures o.DirectUpdate? ==> o.id == target.id
    ensures o.RequestEdit? ==> o.key == EditUserKey
  {
    if currentIsSuper then DirectUpdate(target.id, json)
    else RequestEdit(EditUserKey, EditUserLabel(target.id, target.name, json))
  }

  datatype UserAction = UpdateUser(id: string, json: string) | DeleteUser(id: string) | NoUserAction

  /** What the page does with the approved request it picked for a key
      (the request is marked processed in every case). */
  function ApprovedUserAction(req: AuthRequest): (a: UserAction)
    ensures a.UpdateUser? ==> req.action_key == EditUserKey && RealId(req.action_label) == Some(a.id) && a.id != ""
    ensures a.DeleteUser? ==> req.action_key == DeleteUserKey && RealId(req.action_label) == Some(a.id) && a.id != ""
  {
    var id := RealId(req.action_label);
    if req.action_key == EditUserKey then
      var json := Json(req.action_label);
      if id.Some? && id.value != "" && json.Some? && json.value != "" then UpdateUser(id.value, json.value) else NoUserAction
    else if req.action_key == DeleteUserKey then
      if id.Some? && id.value != "" then DeleteUser(id.value) else NoUserAction
    else NoUserAction
  }

  /** An edit filed by a non-super-admin, once approved, updates the same
      user with the same form, when `REAL_ID: ` and `JSON: ` occur in the
      label only where the page wrote them. */
  lemma EditUserRoundTrip(req: AuthRequest, target: User, json: string)
    requires GeneratedId(target.id) && Trim(json) != ""
    requires req.action_key == EditUserKey
    requires req.action_label == SaveUser(false, target, json).text
    requires Once(req.action_label, RealIdKey) && Once(req.action_label, JsonKey)
    ensures ApprovedUserAction(req) == UpdateUser(target.id, Trim(json))
  {
    HeadedRealIdJson(EditUserHead(target.id, target.name), target.id, json);
  }

  /** An approved delete request removes the user it was filed for. */
  lemma DeleteUserRoundTrip(req: AuthRequest, target: User)
    requires GeneratedId(target.id)
    requires req.action_key == DeleteUserKey
    requires req.action_label == DeleteUserLabel(target.id, target.name)
    requires Once(req.action_label, RealIdKey)
    ensures ApprovedUserAction(req) == DeleteUser(target.id)
  {
    HeadedRealId(DeleteUserHead(target.id, target.name), target.id);
  }
}

=== FILE: wrappers.dfy ===
/** Failure-compatible wrappers shared by every module of the model.
    `Option` stands for the source's `undefined`/`null` results and `Result`
    for operations that throw or return early with an alert message. */
module Wrappers {

  datatype Option<+T> = None | Some(value: T) {

    /** The `x || default` idiom of the source when `x` may be missing. */
    function GetOr(default: T): T {
      match this
      case Some(v) => v
      case None => default
    }
  }

  datatype Result<+T, +E> = Ok(value: T) | Err(error: E) {

    predicate IsFailure() {
      Err?
    }
  }
}
